=== FILE: README.md ===
# confguard, modelled in Dafny

confguard keeps a project's configuration out of the project. `guard` moves the
project's `.envrc` into a store under the base directory (`<base>/guarded/<name>-<8 hex
digits>`, the *sentinel* directory). It leaves a symbolic link to the moved file in the
project and writes a marked section into the moved file. The section records the link
style, the format version, the sentinel, a timestamp, the project path (stored
`$HOME`-based) and a `SOPS_PATH` export.

The other operations work from that section:
- `unguard` puts the file back, deletes the section and replaces every link in the
  project that leads into the sentinel directory.
- `relink` re-creates the project link from a stamped file in the store.
- `guard_one` moves one more file into the store behind an absolute link.
- `replace_link`, `init_envrc` and `sops_init` are small file operations.
- The sops side keeps a marked block of `.gitignore` entries up to date. It selects
  files by extension or name for encryption and decryption, and removes plaintext
  files.

The model is a set of pure functions over an immutable filesystem.

- `Fs.FileSystem` is a map from absolute paths to entries (`File`, `Dir` or `Symlink`).
  The root directory is implicit.
- `Fs.Wf` says every entry sits in a directory entry.
- The operations of `std::fs` that the code calls are modelled in module `Fs`, with
  the Linux error kinds they report in the cases modelled (one case that differs is
  listed under Left out):
  - `read_to_string`, `write`, `remove_file`, `rename`, `create_dir_all`;
  - `symlink`, `read_link`, `canonicalize`;
  - `exists`, `is_dir` and `is_symlink`.
- Links are followed with a budget of 40 (the kernel's limit), so a loop reads as a
  missing path.
- The home directory, the working directory, the configured base directory and
  version, the clock's text, the random number behind the sentinel, and the files
  embedded in the binary are all parameters (`Guard.Env`).
- Errors are the crate's error enum (`Errors.ConfGuardError`), with `Errors.Message`
  giving each variant's display text.

Modules follow the crate:

| Module | Models |
|---|---|
| `Paths` | path values, `diff_paths` |
| `HomeBased` | `home_based.rs` |
| `ReplaceBase` | `replace_base.rs` |
| `HelperPath` | `helper/path.rs` |
| `Link` | `link.rs` |
| `MoveLink` | `move_and_link.rs` |
| `ExtractSegments` | `extract_segments.rs` |
| `Errors` | `errors.rs` |
| `ParseInt` | `str::parse::<i64>`, which reads the version |
| `Section` | the text of the `.envrc` section |
| `Envrc` | `ConfGuard::from_envrc` |
| `Guard` | the rest of `core/guard.rs` |
| `GuardEffect`, `UnguardEffect`, `GuardRoundTrip` | what `guard` and `unguard` leave behind, and reading a guarded project back |
| `GuardSuccess` | when every step of `guard` goes through |
| `Commands`, `CommandEffects` | `cli/commands.rs` |
| `Sops` | `sops/manager.rs` |
| `Gitignore` | `sops/gitignore.rs` |
| `Text`, `Order` | the string and ordering functions of the standard library that the code uses |

## Model

| member | source | states |
|---|---|---|
| HomeBased.ToHomeBased | confguard/src/util/path/home_based.rs:9-22 | A relative path is refused with PathNotAbsolute and an unknown home with CannotDetermineHome. Encoding succeeds exactly for an absolute path when the home is known. A path whose text does not mention the home directory comes back as its plain display text. |
| HomeBased.FromHomeBased | confguard/src/util/path/home_based.rs:26-38 | Without a home directory the result is CannotDetermineHome. Otherwise decoding succeeds exactly when the `$HOME`-expanded path exists. The result is its canonical form. A missing path gives the "canonicalize path" error with NotFound. |
| HomeBased.HomeRoundTrip | confguard/src/util/path/home_based.rs:74-82 | For an existing canonical path whose text, like the home directory's, holds no `$`, decoding the encoded text gives the same path back. |
| HomeBased.HomeItself | confguard/src/util/path/home_based.rs:45-50 | The home directory itself encodes to the bare `$HOME` marker. |
| Text.ReplaceRoundTrip | confguard/src/util/path/home_based.rs:19-33 | Replacing a text by a marker whose first character occurs in neither the text nor the replaced part, and then the marker by that part again, gives the text back. |
| Text.ReplaceNotContained | confguard/src/util/path/home_based.rs:19-20 | Replacing a pattern the text does not contain leaves the text unchanged. |
| ReplaceBase.ReplacePrefix | confguard/src/util/path/replace_base.rs:5-9 | Succeeds exactly when `base` is a component-wise prefix of the path, and otherwise fails with PathPrefixMismatch(base). On success the result is the new base followed by the components after the old base. |
| ReplaceBase.ReplacePrefixInverse | confguard/src/util/path/replace_base.rs:5-9 | Replacing the new base by the old one again gives back the original path. |
| ReplaceBase.ReplacePrefixFileExample | confguard/src/util/path/replace_base.rs:16-25 | `/old_base/mydir/myfile.txt` rebased onto `/new_base` is `/new_base/mydir/myfile.txt`. |
| ReplaceBase.ReplacePrefixDirExample | confguard/src/util/path/replace_base.rs:27-36 | `/old_base/mydir` rebased onto `/new_base` is `/new_base/mydir`. |
| ReplaceBase.ReplacePrefixMismatchExample | confguard/src/util/path/replace_base.rs:38-51 | A base that is not a prefix fails, and the message is "Path does not start with: " and the base in debug form. |
| ReplaceBase.MismatchMessage | confguard/src/errors.rs:73-74 | Every prefix mismatch displays as the fixed phrase followed by the base's debug form. |
| Paths.DiffPaths | confguard/src/util/path/link.rs:39-49 | The relative target climbs at most as many levels as the base has, then descends into a suffix of the original path. |
| Paths.ResolveDiff | confguard/src/util/path/link.rs:39-49 | Following the computed relative target from the link's directory arrives at the original path. |
| Paths.DiffMinimal | confguard/src/util/path/link.rs:39-49 | No relative target that reaches the original climbs fewer levels: the climb stops at the deepest common ancestor. |
| Paths.DiffExampleSibling | tests/test_helper.py:12 | From `/c/b/a/xxx` the link to `/c/y/xxx-123/.envrc` reads `../../../y/xxx-123/.envrc`. |
| Paths.DiffExampleDisjoint | tests/test_helper.py:13-17 | From `/c/b/a/xxx` the link to `/tmp/y/xxx-123/.envrc` reads `../../../../tmp/y/xxx-123/.envrc`. |
| Paths.DiffExampleShallow | tests/test_helper.py:18 | From `/c/xxx` the link to `/c/y/xxx-123/.envrc` reads `../y/xxx-123/.envrc`. |
| Paths.StripPrefix | confguard/src/util/path/replace_base.rs:6-7 | Defined exactly when both paths are of the same kind and the base's components lead the path. The remainder is relative and, appended to the base, gives the path. |
| Paths.ParseDisplay | confguard/src/util/path/home_based.rs:33-37 | Parsing the display text of a normal absolute path gives the same path back. |
| Paths.ParsePath | confguard/src/util/path/home_based.rs:33-37 | The parsed path is absolute exactly when the text starts with `/`, and no component is empty or `.`. |
| Text.SplitJoin | confguard/src/util/path/home_based.rs:33-37 | Splitting a joined list at its separator gives the list back when no piece holds the separator. |
| HelperPath.FindSentinelDirs | confguard/src/util/helper/path.rs:11-29 | A start that is not a directory gives NotDirectory. A name holding regular-expression syntax other than `.` is refused with a Regex error naming the pattern. Otherwise the call succeeds and the result is sorted. It holds the start when its name matches, and each directory below the start (reached without following links) exactly when its name matches `<base>-[a-z0-9]{8}$`. |
| HelperPath.FoundSet | confguard/src/util/helper/path.rs:19-24 | The walk keeps the start and the directories below it by name alone, and keeps exactly the matching ones. |
| HelperPath.FoundAreDirs | confguard/src/util/helper/path.rs:18-24 | From a canonical start, every reported path is a directory. |
| HelperPath.SentinelNameMatches | confguard/src/util/helper/path.rs:18-24 | For a name free of regular-expression syntax other than `.`, `<base>-` followed by eight lowercase hexadecimal digits matches the scan for `base`. |
| HelperPath.SentinelFound | confguard/src/util/helper/path.rs:51-66 | For such a name, a sentinel directory `<base>-<8 hex digits>` directly in a canonical start directory is among the paths the scan returns. |
| HelperPath.SentinelMatchUnanchored | confguard/src/util/helper/path.rs:11-13 | The pattern is anchored only at the end, so any longer name ending in a sentinel for `base` matches too. |
| HelperPath.ToAbsolutePath | confguard/src/util/helper/path.rs:32-43 | An absolute path is returned lexically normalised. A relative path succeeds exactly when it exists from the working directory, and gives its canonical form; otherwise it fails with the canonicalize error. |
| HelperPath.ToAbsoluteKeeps | confguard/src/util/helper/path.rs:33-35 | A normal absolute path comes back unchanged. |
| HelperPath.ToAbsoluteCanonical | confguard/src/util/helper/path.rs:36-42 | A resolved relative path is its own canonical form and is no link. |
| Link.LinkTargetFor | confguard/src/util/path/link.rs:38-49 | The stored target leads back to the original from the link's directory. It is the absolute original unless a relative link is asked for, and then it is the `diff_paths` result. |
| Link.CreateLink | confguard/src/util/path/link.rs:25-66 | A missing original gives OriginalPathNotFound with nothing changed. On success the link's parent is a directory and the link holds the computed target. No existing entry other than the link path changes. A failure after the directories were made leaves only directories on the way to the link. |
| Link.CreateLinkOccupied | confguard/src/util/path/link.rs:34-53 | Anything already at the link path makes the call fail with the AlreadyExists file error (NotFound when the target text is empty) and change nothing. |
| Link.CreateLinkPlaced | confguard/src/util/path/link.rs:33-53 | When the link's directory exists, success adds exactly the link and nothing else. |
| Link.CreateLinkSucceeds | confguard/src/util/path/link.rs:25-66 | With a fresh link path, its directory in place and a non-empty target, the link is created. |
| Link.ReadThroughLink | confguard/src/util/path/link.rs:153-178 | Reading through a new link gives the original's content, and the link canonicalises to the original. |
| Link.ReplaceLinkWithTarget | confguard/src/util/path/link.rs:72-127 | A path that does not exist (following links) gives LinkNotFound, and an existing path that is no link gives PathNotSymbolicLink, both with nothing changed. Success implies the path was a link. |
| Link.LinkSourcePresent | confguard/src/util/path/link.rs:85-100 | The entry an existing link names directly is present and is not the link itself. |
| Link.ReplaceLinkRenames | confguard/src/util/path/link.rs:103-119 | For a link outside what it names, the removal and the rename both succeed and are the whole effect. |
| Link.ReplaceLinkMoves | confguard/src/util/path/link.rs:72-127 | Replacing such a link puts the named entry, with its subtree, at the link's place. The entry is gone from its old place. Every entry outside the two subtrees is kept. |
| Link.ReplaceLinkResolved | confguard/src/util/path/link.rs:111-119 | When the link leads straight to a non-link entry, the replaced path is no longer a link. |
| Link.ReplaceLinkWf | confguard/src/util/path/link.rs:72-127 | Replacing a link keeps the filesystem well formed, whether or not the rename succeeds. |
| MoveLink.New | confguard/src/util/path/move_and_link.rs:22-62 | A missing source gives SourcePathNotFound and a source that is a link gives SourceIsSymlink, both with the joined path. Otherwise the plan holds the canonical source and the absolute destination. |
| MoveLink.Moved | confguard/src/util/path/move_and_link.rs:65-74 | A move succeeds only between two paths other than the root. |
| MoveLink.FreshDestination | confguard/src/util/path/move_and_link.rs:66-69 | Making the destination's parent directories never creates the destination itself. |
| MoveLink.LinkedState | confguard/src/util/path/move_and_link.rs:65-80 | To a fresh destination, success is the moved filesystem with exactly one new link at the source. |
| MoveLink.RevertRename | confguard/src/util/path/move_and_link.rs:100-105 | Renaming back after a rename to a fresh destination gives back the filesystem before it. |
| MoveLink.MovedEffect | confguard/src/util/path/move_and_link.rs:65-74 | After the parents are made and the rename runs, the source's entry is at the destination and nothing is at the source. The filesystem stays well formed. |
| MoveLink.MoveThenLink | confguard/src/util/path/move_and_link.rs:65-80 | A failed move is reported as it is. Success leaves a link at the source whose target is the one `create_link` computes for the destination. |
| MoveLink.MoveThenLinkEffect | confguard/src/util/path/move_and_link.rs:65-80 | On success the destination holds what the source held, and the source is a link that leads to it. |
| MoveLink.PreparedKeeps | confguard/src/util/path/move_and_link.rs:66-69 | Making the destination's parent directories keeps every entry that was there. |
| MoveLink.LinkedAfterMove | confguard/src/util/path/move_and_link.rs:72-77 | After the move, linking runs on the moved filesystem. The destination keeps the moved entry, and a successful link at the source leads to the destination. |
| MoveLink.MoveThenLinkPartial | confguard/src/util/path/move_and_link.rs:72-77 | When linking fails after the move, the entry stays at the destination and the source is gone: nothing is undone. |
| MoveLink.Revert | confguard/src/util/path/move_and_link.rs:83-109 | A missing source gives SourceLinkNotFound and a source that is no link gives SourceNotSymlink, both with nothing changed. Success implies the source was a link. |
| MoveLink.RevertRoundTrip | confguard/src/util/path/move_and_link.rs:65-109 | A revert after a successful move-and-link to a fresh destination succeeds and restores the filesystem, apart from the destination's parent directories made on the way. |
| ExtractSegments.ExtractSegments | confguard/src/util/path/extract_segments.rs:9-32 | The result is framed by the prefix and the suffix, and with no components asked for it is just the two. |
| ExtractSegments.NonEmpty | confguard/src/util/path/extract_segments.rs:19 | The filter keeps only non-empty components, in order, and keeps everything when none is empty. |
| ExtractSegments.SegmentsFile | confguard/src/util/path/extract_segments.rs:36-64 | The name is the generated file name. Asking for fewer than three components gives an empty file. For three or more, the content names the last three components as region, environment and resource. Asking for three or more of a path with fewer than three components is the panic case, modelled as no result. |
| ExtractSegments.SegmentsNameAgrees | confguard/src/util/path/extract_segments.rs:43-50 | The generated file name equals `extract_segments` whenever the path has at least as many components as asked for. |
| ExtractSegments.SegmentsNameDiffers | confguard/src/util/path/extract_segments.rs:24-26 | When more components are asked for than exist, `extract_segments` adds a `/` that the file name lacks. |
| ExtractSegments.ExtractExampleTwo | confguard/src/util/path/extract_segments.rs:116 | Two segments of `/a/b/c/d/e` joined by `-` in braces give `{d-e}`. |
| ExtractSegments.ExtractExampleFive | confguard/src/util/path/extract_segments.rs:118 | Five segments give `[a/b/c/d/e]`, leaving out the root. |
| ExtractSegments.ExtractExampleSix | confguard/src/util/path/extract_segments.rs:122 | Six segments include the root and show a doubled slash. |
| ExtractSegments.ExtractExampleZero | confguard/src/util/path/extract_segments.rs:124 | Zero segments give only the brackets. |
| ExtractSegments.ExtractExampleSeparator | confguard/src/util/path/extract_segments.rs:126 | Two segments of `/1/2/3` with `::` give `<2::3>`. |
| ExtractSegments.SegmentsFileExample | confguard/src/util/path/extract_segments.rs:141-164 | `/region/env/resource` with three segments names `region.env.resource.env`, with the four export lines. |
| ExtractSegments.SegmentsContentExample | confguard/src/util/path/extract_segments.rs:52-57 | The content for `region`, `env` and `resource` is the `rsenv` comment followed by the three export lines. |
| ExtractSegments.SegmentsFileShortExample | confguard/src/util/path/extract_segments.rs:166-182 | Two segments of `/region/env` name `region.env.env`, and the file is empty. |
| Errors.Context | confguard/src/errors.rs:212-223 | Context never changes success. An error becomes Internal, carrying the message and the original error. |
| Errors.IoContext | confguard/src/errors.rs:172-183 | An io error under context becomes Internal with the message and the io error's kind. Success passes through. |
| Errors.ContextMessage | confguard/src/errors.rs:154-155 | A wrapped error displays as "Internal error: ", the message, ": ", and the wrapped error's text, so it contains both. |
| Errors.IoContextMessage | confguard/src/errors.rs:154-155 | A wrapped io error displays as "Internal error: ", the message, ": ", and the io error's text, so it contains the io error's text. |
| Errors.NotSymlinkMessage | confguard/src/errors.rs:97-98 | The error for a plain `.envrc` mentions that it is not a symlink. |
| Errors.LinkAlreadyExistsMessage | confguard/src/errors.rs:88-89 | "Link already exists" leads the message. |
| Errors.LinkPointsElsewhereMessage | confguard/src/errors.rs:91-92 | "Link exists but points elsewhere" leads the message. |
| Errors.AlreadyGuardedSymlinkMessage | confguard/src/errors.rs:79-80 | The symlinked-`.envrc` error mentions "already guarded" and "is a symlink". |
| Errors.AlreadyGuardedMessage | confguard/src/errors.rs:13-14 | The already-guarded error mentions "already guarded". |
| Errors.SentinelExistsMessage | confguard/src/errors.rs:106-107 | The existing-sentinel error mentions "already guarded". |
| Section.FirstContaining | confguard/src/core/guard.rs:535-536 | The index found holds the words, and no earlier line does. None means no line holds them. |
| Section.IndexFrom | confguard/src/core/guard.rs:562-573 | The index found is at or after the start and holds the pattern, and no earlier index from the start does. None means no index from the start holds it. |
| Section.LastIndexBelow | confguard/src/core/guard.rs:562-573 | The index found is in the range and holds the pattern, and no later index in the range does. None means no index in the range holds it. |
| Section.DeleteSpan | confguard/src/core/guard.rs:562-573 | Text without the opening marker is unchanged, and deleting never lengthens the text. |
| Section.SectionText | confguard/src/core/guard.rs:514-531 | The block starts with the start marker and ends with the end marker and a newline. When the values hold no line break, it reads back line by line as its nine lines. |
| Section.Spliced | confguard/src/core/guard.rs:533-553 | The new block always occurs in the text written. Without the start words, the text written begins with the old text and ends with the block. |
| Section.SplicedAppends | confguard/src/core/guard.rs:547-553 | Without the start words, the old text is kept, a newline is added if missing, and the block is appended. |
| Section.SplicedReplaces | confguard/src/core/guard.rs:538-545 | Text of unmarked lines followed by an old block has that block replaced. The earlier lines are joined without a final newline, so the last of them runs into the new block. |
| Section.SplicedGlues | confguard/src/core/guard.rs:538-545 | Re-stamping `x` followed by lines that merely mention the marker words gives `x` glued to the new block. |
| Section.DeletedSection | confguard/src/core/guard.rs:562-573 | Text without the start marker is unchanged, and deleting never lengthens the text. |
| Section.DeleteAfterUpdate | confguard/src/core/guard.rs:502-573 | For text without the start words that ends in a newline, deleting the block that `update_dot_envrc` appended gives the text back. |
| Section.DeleteAfterSplice | confguard/src/core/guard.rs:547-573 | Deleting a well-shaped block appended to such a text gives the text back. |
| Section.QuotedField | confguard/src/core/guard.rs:75-78 | A captured value is non-empty, and the line starts with the prefix, the value and a quote. |
| Section.QuotedFieldOf | confguard/src/core/guard.rs:75-78 | The quoted-field pattern captures exactly the value written between the quotes. |
| Section.RelativeFieldOf | confguard/src/core/guard.rs:76 | The written link-style line reads back as the flag written. |
| Section.VersionFieldOf | confguard/src/core/guard.rs:77 | The written version line captures the digits written. |
| Section.VersionField | confguard/src/core/guard.rs:77 | A version is captured exactly when the prefix is followed by a Unicode decimal digit (`\d`). The capture is the whole run of such digits after the prefix: non-empty, all `\d`, and stopped by the end of the line or a character outside `\d`. |
| Section.VersionFieldOfDigits | confguard/src/core/guard.rs:77 | A version line captures all of its digits, ASCII or not. |
| Section.Classify | confguard/src/core/guard.rs:85-98 | A classified sentinel or project value is non-empty, and a classified version is a non-empty run of Unicode decimal digits. |
| Section.OtherByHead | confguard/src/core/guard.rs:75-78 | A line not starting with "# " matches no field pattern. |
| Section.SentinelLineOf | confguard/src/core/guard.rs:86-87 | A written sentinel line is classified with its value. |
| Section.SourceLineOf | confguard/src/core/guard.rs:95-97 | A written project line is classified with its value. |
| Section.RelativeLineOf | confguard/src/core/guard.rs:88-89 | A written link-style line is classified with the flag written. |
| Section.VersionLineOf | confguard/src/core/guard.rs:90-95 | A written version line is classified with the digits written. |
| Section.VersionLineOfDigits | confguard/src/core/guard.rs:85-95 | A line of the version prefix and Unicode decimal digits is classified as a version line with those digits. |
| Section.StartMarkerOther | confguard/src/core/guard.rs:85-99 | The start marker line sets no field. |
| Section.EndMarkerOther | confguard/src/core/guard.rs:85-99 | The end marker line sets no field. |
| Section.SopsOther | confguard/src/core/guard.rs:85-99 | The `SOPS_PATH` line sets no field. |
| Section.DotenvOther | confguard/src/core/guard.rs:85-99 | The `dotenv` line sets no field. |
| Section.TimestampOther | confguard/src/core/guard.rs:515-531 | The timestamp line sets no field. |
| Envrc.ParseVersion | confguard/src/core/guard.rs:90-94 | Parsing reads left to right. If the leading ASCII digits are already past `i64::MAX`, the result is the "number too large" error. Otherwise any non-ASCII digit gives the "invalid digit found in string" error. An all-ASCII string parses exactly when its value fits an i64, to that value. |
| ParseInt.ParseDigits | confguard/src/core/guard.rs:92-93 | Parsing an unsigned string as an i64 gives the overflow error when its leading ASCII digits are too large. Otherwise a character that is not an ASCII digit gives the invalid-digit error. Otherwise the result is the digits' value, and it is within i64. |
| ParseInt.ParsedPrefix | confguard/src/core/guard.rs:92-93 | Continuing the parse after digits `p` gives the overflow error when `p` and the following ASCII digits are too large together. Otherwise it fails only on a character that is not an ASCII digit, and else yields their value. |
| Envrc.FromEnvrc | confguard/src/core/guard.rs:59-62 | An unreadable file gives "Cannot read envrc file" with the io kind. A readable one is scanned. |
| Envrc.Scan | confguard/src/core/guard.rs:64-130 | Without both marker words the result is no record. With both, the scan succeeds exactly when every line's step succeeds. A record has a non-empty sentinel, a non-negative i64 version, the configured base, and the target `base/guarded/<sentinel>`. |
| Envrc.StepInvalidDigit | confguard/src/core/guard.rs:90-94 | A version line with a non-ASCII decimal digit, such as `٣`, fails with the invalid-digit error unless the ASCII digits before it are already too large. |
| Envrc.ParseLinesFailsAt | confguard/src/core/guard.rs:85-99 | The scan over the lines ends with the error of the first line whose step fails. |
| Envrc.ScanInvalidDigit | confguard/src/core/guard.rs:64-99 | In a marked text, a version line with such a digit, reached with every earlier step succeeding, makes `from_envrc` fail with "Invalid version format: invalid digit found in string". |
| Envrc.FromEnvrcUnmarked | confguard/src/core/guard.rs:67-72 | A file without both marker words holds no record, whatever else it says. |
| Envrc.FieldsInvariant | confguard/src/core/guard.rs:85-99 | Every field the scan sets is well formed: a non-empty sentinel and a version within i64. |
| Envrc.ParseBlock | confguard/src/core/guard.rs:85-99 | Scanning the nine lines of a written block sets the four fields to the values written. |
| Envrc.ScanWritten | confguard/src/core/guard.rs:64-130 | Unmarked text followed by a written block scans to the record the block describes. |
| Envrc.FromEnvrcWritten | confguard/src/core/guard.rs:59-130 | Reading an `.envrc` that holds such text recovers that record. |
| Envrc.GuardedDirOf | confguard/src/core/guard.rs:119-124 | For a one-component sentinel, the target is `base/guarded/<sentinel>`. |
| Guard.NewForGuarding | confguard/src/core/guard.rs:135-159 | A missing `.envrc` gives NoEnvrcFile and a linked one ProjectAlreadyGuardedSymlink. Read errors pass through, and an existing section gives AlreadyGuarded. Success exactly when the file holds no section, giving a record with no sentinel and no target. |
| Guard.FromGuardedProject | confguard/src/core/guard.rs:164-174 | A missing `.envrc` gives NoEnvrcFile and an unmarked one NotGuarded. Read errors pass through. Success exactly when a record is read, and the result is that record. |
| Guard.CreateSentinel | confguard/src/core/guard.rs:405-447 | A record that already has a sentinel gives SentinelAlreadySet, and a project at the root InvalidSourceDirectory, both with nothing changed. Success yields the sentinel `<name>-<hex>` and its directory in the store, after the scan of the store found no earlier sentinel for the project. A SentinelExists error lists exactly the sentinels found, and only the store directory has been created. |
| Guard.CopyResource | confguard/src/util/helper.rs:23-52 | A missing embedded file gives ResourceNotFound. On success the destination reads as the embedded content, and no entry disappears. When the destination's parent exists, success means the destination is a file, or is free and creatable (a dangling link's end counts, as `open` with `O_CREAT` creates it). Then only the entry the write reaches changes. |
| Guard.WriteEnvFiles | confguard/src/core/guard.rs:462-465 | Writing the environment files never removes an entry. |
| Guard.CreateSopsEnvs | confguard/src/core/guard.rs:450-478 | Without a target directory the result is TargetDirectoryNotSet and nothing changes. Success leaves the run-configuration script in the project. |
| Guard.UpdateDotEnvrc | confguard/src/core/guard.rs:502-559 | No home gives CannotDetermineHome and an unreadable file its io error. Success exactly when both are available; the file then reads as the old text with the record's section spliced in, no entry is added, and only the entry the write reaches (the file at the end of the path's links) changes. |
| Guard.DeleteSection | confguard/src/core/guard.rs:562-573 | Succeeds exactly when the file is readable, and it then reads as the old text with the section deleted; no entry is added, and only the entry the write reaches changes. |
| Guard.Relink | confguard/src/core/guard.rs:192-261 | A missing file gives FileNotFound and one without a section NotGuardedEnvrc. When the project's `.envrc` is already a live link, nothing changes and the error says whether it leads to this file or elsewhere. Otherwise the link is created as the record says. |
| Guard.LinkedTarget | confguard/src/core/guard.rs:218-235 | Reading an existing link and canonicalising its text from the link's directory gives where the link leads. |
| Guard.Guard | confguard/src/core/guard.rs:276-328 | A missing project, a missing `.envrc`, or a linked `.envrc` is refused before any change. Success implies the `.envrc` was a plain entry, the record has the link style asked for and a target, and `.envrc` is now a link. |
| Guard.GuardSteps | confguard/src/core/guard.rs:302-325 | On success the sentinel step succeeded, its record is returned, and `.envrc` is a link. |
| Guard.ProjectLinks | confguard/src/core/guard.rs:356-360 | Holds, in path order, exactly the link entries strictly below the project directory. |
| Guard.LinkedPath | confguard/src/core/guard.rs:362-376 | An absolute target is taken as stored. A relative one succeeds exactly when it resolves from the link's directory, and gives its canonical form. |
| Guard.ReplaceManaged | confguard/src/core/guard.rs:356-382 | An empty list changes nothing. A listed path that is not a link stops the loop with the "read symlink" error. |
| Guard.Unguard | confguard/src/core/guard.rs:337-347 | A missing `.envrc` gives NoEnvrcFile and a plain one ProjectNotGuardedNotSymlink, both with nothing changed. Success implies `.envrc` was a link. |
| GuardEffect.SentinelEffect | confguard/src/core/guard.rs:405-447 | A successful sentinel step only adds directories, all on the way to the new target directory, and brings no link into the store. |
| GuardEffect.EnvFilesEffect | confguard/src/core/guard.rs:460-465 | Each environment file is written with its content below the directory, and nothing else changes. |
| GuardEffect.CopyPlain | confguard/src/util/helper.rs:23-52 | Copying to a path that is no link leaves the file there and changes no other entry. At most the destination's missing directories are added. |
| GuardEffect.SopsEnvsEffect | confguard/src/core/guard.rs:450-478 | The four environment files and the script are written, and nothing outside the target directory changes except the script. |
| GuardEffect.MoveLinkFrame | confguard/src/util/path/move_and_link.rs:65-80 | Besides the source and destination trees, move-and-link changes nothing. |
| GuardEffect.UpdatePlain | confguard/src/core/guard.rs:502-559 | On a plain file the update rewrites exactly that file. |
| GuardEffect.StampEffect | confguard/src/core/guard.rs:315-325 | `.envrc` moves to the target, gets the section, and is replaced by a link to it. Nothing outside the two paths changes. |
| GuardEffect.StampFrame | confguard/src/core/guard.rs:315-325 | The stamp step changes nothing outside the `.envrc` path and the target tree. |
| GuardEffect.StepsEffect | confguard/src/core/guard.rs:302-325 | After the checks, success adds the sentinel and target to the record. `.envrc` becomes a link to `dot.envrc` holding the old text with the section spliced in. The environment files and script are written, and nothing else outside the store changes. |
| GuardEffect.GuardLeaves | confguard/src/core/guard.rs:276-328 | A successful `guard` leaves exactly that state, with the link style asked for. |
| GuardRoundTrip.ProjectKept | confguard/src/core/guard.rs:276-328 | `guard` leaves the project directory where it was. |
| GuardRoundTrip.StampedText | confguard/src/core/guard.rs:515-531 | The stored project path and `SOPS_PATH` are single lines, and the stored path reads back as the project. |
| GuardRoundTrip.ReadBack | confguard/src/core/guard.rs:164-174 | A project whose `.envrc` holds unmarked lines then the section for a record reads back as that record. |
| GuardRoundTrip.LoadStamped | confguard/src/core/guard.rs:502-559 | A project whose `.envrc` is the old text with the section spliced in reads back as the record that was written. |
| GuardRoundTrip.GuardThenLoad | confguard/src/core/guard.rs:164-328 | Loading a project after `guard` gives exactly the record `guard` returned. |
| GuardRoundTrip.GuardTwice | confguard/src/core/guard.rs:135-159 | After `guard`, preparing another guard is refused as already guarded (symlink). So is a second `guard`, which changes nothing. |
| GuardSuccess.GuardSucceeds | confguard/src/core/guard.rs:276-328 | `guard` succeeds in this setting: the filesystem is well formed and the store's base directory exists without `guarded` in it. The project holds a plain `.envrc` and no `.idea`, and lies apart from the store. The embedded `rsenv.sh` is present and the home directory is known. The record without a sentinel comes back with the link style asked for, the sentinel `<name>-<hex>` and the target `base/guarded/<sentinel>`. |
| GuardSuccess.SentinelSucceeds | confguard/src/core/guard.rs:405-447 | With the base directory in place and no `guarded` in it, `create_sentinel` finds no earlier sentinel. It makes exactly `guarded` and the new sentinel directory, which is empty, and returns the record with the sentinel and its target. |
| GuardSuccess.FreshDirWalk | confguard/src/core/guard.rs:419-425 | The sentinel search in a `guarded` directory that was just made finds nothing. |
| GuardSuccess.SopsEnvsSucceed | confguard/src/core/guard.rs:450-478 | In an empty target directory, apart from a project without `.idea`, `create_sops_envs` succeeds. It keeps every entry and adds entries only under `<target>/environments` and `<project>/.idea`. |
| GuardSuccess.EnvFilesFresh | confguard/src/core/guard.rs:461-465 | Writing environment files with distinct names, none of them there yet, into an existing directory succeeds. It keeps every entry and adds entries only below that directory. |
| GuardSuccess.RunConfigPlaced | confguard/src/core/guard.rs:467-474 | In a project without `.idea`, copying `rsenv.sh` makes `.idea` and `.idea/runConfigurations` and writes the script there. Nothing else changes. |
| GuardSuccess.MovedAndLinked | confguard/src/util/path/move_and_link.rs:65-80 | Moving a plain file to a fresh path in an existing directory, outside the file's own directory, and linking it back succeeds. The destination then holds the file's entry. |
| GuardSuccess.MoveStampSucceeds | confguard/src/core/guard.rs:310-325 | Moving `.envrc` to such a fresh `dot.envrc`, linking it back, resolving the canonical path and stamping the section succeeds when the home directory is known. |
| GuardSuccess.GuardExample | confguard/src/core/guard.rs:276-328 | A concrete case: a store `/b`, and a project `/p` holding a one-line `.envrc` that sets no field, with the embedded script and a home directory. The case meets the conditions under which the effect and the read-back of `guard` are stated (`Setting` and `Readable`). There `guard` with relative links returns the record with its new sentinel and the target `/b/guarded/<sentinel>`. |
| UnguardEffect.ReplaceManagedEffect | confguard/src/core/guard.rs:356-382 | For distinct links that name plain entries and are apart from each other and their targets, the loop succeeds. Each link whose target mentions the sentinel holds its target's entry, which is gone from the store. Other links stay, and entries outside the touched paths are kept. |
| UnguardEffect.UnguardEffect | confguard/src/core/guard.rs:337-385 | Unguarding a guarded project succeeds. `.envrc` holds the stored file with its section deleted, and that file leaves the store. Every other link into the sentinel directory is replaced by its target's entry, and the other links stay. |
| UnguardEffect.SectionDeleted | confguard/src/core/guard.rs:353 | On a plain file, deleting the section rewrites exactly that file and keeps the filesystem well formed. |
| UnguardEffect.EnvrcRestored | confguard/src/core/guard.rs:350-353 | Replacing the `.envrc` link and deleting the section succeeds. `.envrc` then holds the stored file with its section deleted, the stored file is gone, and every other entry outside the two paths is kept. |
| UnguardEffect.UnguardReduces | confguard/src/core/guard.rs:337-385 | After its checks, `unguard` is the managed-link loop run on the filesystem with `.envrc` restored. That filesystem differs from the original only at the two paths. |
| Commands.CmdGuard | confguard/src/cli/commands.rs:252-258 | A missing or linked `.envrc` is refused with nothing changed. Success implies preparation succeeded and `.envrc` is now a link. |
| Commands.CmdUnguard | confguard/src/cli/commands.rs:260-266 | A project that does not read back as guarded gives that error with nothing changed. Success implies the read record's `.envrc` was a link. |
| Commands.CopyFile | confguard/src/cli/commands.rs:205-206 | A missing template gives NotFound, and one that exists but is no regular file gives the standard library's "the source path is neither a regular file nor a symlink to a regular file". On success the copy reads as the template, and only the entry the write reaches changes. For a readable template and a destination that does not exist, success means the destination is creatable: it is free, or a dangling link whose end lies in a directory. |
| Commands.GuardOnePlan | confguard/src/cli/commands.rs:268-305 | The project must read back as guarded and the file must resolve, lie inside the project, have a target directory, and have a free place in the store. Each failure gives its own error. Success yields the resolved file and its place. |
| Commands.GuardOne | confguard/src/cli/commands.rs:268-318 | A failed check changes nothing. Success leaves an absolute link to the planned place at the file's path. |
| Commands.MoveInto | confguard/src/cli/commands.rs:306-315 | Success leaves an absolute link to the target at the source. |
| Commands.GuardOneIsMove | confguard/src/cli/commands.rs:268-318 | Once the checks pass, `guard_one` is the move into the store, and the resolved file is a plain entry. |
| Commands.MoveIntoEffect | confguard/src/cli/commands.rs:306-315 | A successful move puts the entry at the target and an absolute link at the source. Reading through the link gives the old content, and other entries are unchanged. |
| Commands.GuardOneMoves | confguard/src/cli/commands.rs:306-318 | A successful `guard_one` passed its checks and moved the file behind an absolute link: reading through the link gives the old content, and other entries are unchanged. |
| Commands.GuardOneUndone | confguard/src/cli/commands.rs:339-354 | `replace_link` on a file just guarded brings its entry back and removes it from the store. |
| Commands.LinkUndone | confguard/src/cli/commands.rs:339-354 | `replace_link` on any file moved behind an absolute link brings its entry back, removes it from the target, and keeps the other entries. |
| Commands.CmdRelink | confguard/src/cli/commands.rs:320-337 | The command leaves the library's filesystem. It succeeds exactly when the library does, or when the error mentions an existing link; other errors pass through. |
| Commands.CmdRelinkExisting | confguard/src/cli/commands.rs:320-337 | When the project's `.envrc` is already a link, the command succeeds and changes nothing. |
| Commands.ReplaceLink | confguard/src/cli/commands.rs:339-354 | A missing path gives LinkNotFound and a plain one NotSymbolicLink. Success implies a live link. |
| Commands.ReplaceLinkAgrees | confguard/src/cli/commands.rs:339-354 | The command and the library function leave the same filesystem. Their results agree except for the error naming a path that is no link. |
| Commands.InitEnvrc | confguard/src/cli/commands.rs:193-218 | An existing `.envrc` is refused with nothing changed. Success leaves the template's content, or the embedded default, in `.envrc`. With a template, it succeeds exactly when the template is readable and `.envrc` is creatable, a dangling `.envrc` link included. The same holds with the embedded default in an existing project directory. On success only the entry the write reaches changes. |
| Commands.InitEnvrcDirectoryTemplate | confguard/src/cli/commands.rs:204-208 | A template that is a directory makes `init_envrc` fail with "Internal error: copy template: <template>: the source path is neither a regular file nor a symlink to a regular file", and nothing changes. |
| Fs.WriteThroughDanglingLink | confguard/src/cli/commands.rs:199-207 | A `.envrc` that is a link to a missing file passes the `exists()` check. Writing through it then creates the file where the link leads, provided that file sits in a directory, and leaves the link in place. |
| Commands.InitEnvrcTwice | confguard/src/cli/commands.rs:199-202 | A second `init_envrc` is refused and changes nothing. |
| Commands.SopsInit | confguard/src/cli/commands.rs:356-389 | An existing configuration file is refused with nothing changed. Success leaves the template's content, or the embedded default, in it. In an existing base directory it succeeds exactly when the template is readable (or the default embedded) and the file is creatable, a dangling link included. Only the entry the write reaches changes. |
| Commands.SopsInitTwice | confguard/src/cli/commands.rs:362-367 | A second `sops_init` is refused and changes nothing. |
| CommandEffects.CmdGuardTwice | confguard/src/cli/commands.rs:252-258 | A second `guard` command on a guarded project is refused as already guarded (symlink), whatever link style it asks for, and changes nothing. |
| CommandEffects.RelinkAfterGuard | confguard/src/cli/commands.rs:320-337 | Right after `guard`, `relink` of the stamped file reports "Link already exists", and the command turns that into success with no change. |
| CommandEffects.RelinkInPlace | confguard/src/core/guard.rs:211-250 | A stamped file whose project link already leads to it gives "Link already exists". |
| CommandEffects.SameContentSameRecord | confguard/src/core/guard.rs:59-130 | Two files with the same content hold the same record. |
| Sops.StemExtension | confguard/src/sops/manager.rs:176-183 | A name is its stem followed, when it has one, by a dot and its extension, which holds no dot. |
| Sops.LastDot | confguard/src/sops/manager.rs:178 | The position found holds a dot and no later position does. None means the name holds no dot. |
| Sops.HiddenExtensionExamples | confguard/tests/sops/test_manager_collect_files.rs:61-93 | `.envrc`, `.ENVRC` and `envrc` have no extension. |
| Sops.LastExtensionExamples | confguard/tests/sops/test_manager_collect_files.rs:27-93 | The extension is what follows the last dot: `bak` for `test4.env.bak` and `.envrc.bak`, `env` for `test1.env`, `ENV` for `test.ENV`. |
| Sops.Walk | confguard/src/sops/manager.rs:162-175 | The walk is sorted and holds exactly the entries at or below the base. |
| Sops.Filter | confguard/src/sops/manager.rs:176-184 | The filter keeps exactly the selected non-root paths and keeps their order. |
| Sops.Collect | confguard/src/sops/manager.rs:154-187 | The result is sorted and holds exactly the entries under the base, the base included, whose extension or whole name is selected. |
| Sops.CollectNothing | confguard/tests/sops/test_manager_collect_files.rs:169-188 | With no extensions and no names nothing is collected. |
| Sops.SelectionExamples | confguard/tests/sops/test_manager_collect_files.rs:27-236 | Selection is exact and case-sensitive, on the last extension or the whole name; a hidden file has no extension. |
| Sops.CleanFiles | confguard/src/sops/manager.rs:135-152 | Cleaning fails exactly when a selected entry is a directory. Otherwise selected files are removed, a selected entry still present is a link leading nowhere, and unselected entries are kept. No entry is added. |
| Sops.CleanNothing | confguard/src/sops/manager.rs:135-152 | With nothing selected, cleaning succeeds and changes nothing. |
| Sops.RemoveAll | confguard/src/sops/manager.rs:143-149 | Removal only takes entries away and changes none that remain. |
| Sops.RemoveAllFrame | confguard/src/sops/manager.rs:143-149 | Paths not in the list are kept. |
| Sops.RemoveAllRemoves | confguard/src/sops/manager.rs:143-149 | Every listed file is removed. A listed entry that remains is a link leading nowhere, which the existence check skips. |
| Sops.RemoveAllFails | confguard/src/sops/manager.rs:143-149 | Removal fails exactly when a listed path is the root or a directory, with the "remove file" error for one of them. |
| Sops.NamesRoundTrip | confguard/src/sops/manager.rs:93-124 | Decrypting the name of an encrypted file gives back the original name, and the encrypted name has the extension `enc`. |
| Sops.EncryptedName | confguard/src/sops/manager.rs:93 | The output stays in the same directory. For a normal name, the output name has the extension `enc` and the input name as its stem. |
| Sops.DecryptedName | confguard/src/sops/manager.rs:124 | The output stays in the same directory. A name without an extension, such as `.envrc`, is kept; otherwise the input name is the output name, a dot and the extension. |
| Sops.EncryptFiles | confguard/src/sops/manager.rs:67-101 | Given an explicit directory, the call succeeds and the filesystem is untouched. Without one, it fails or succeeds with `update_entries`, and leaves exactly the filesystem `update_entries` made. The jobs are the collected files in order, one each, each paired with its `.enc` name. |
| Sops.DecryptFiles | confguard/src/sops/manager.rs:103-133 | The jobs are the collected files in order, one each, each paired with its name less the extension. |
| Sops.EncryptJobs | confguard/src/sops/manager.rs:92-93 | One job per file, in order, each writing the file's `.enc` name. |
| Sops.DecryptJobs | confguard/src/sops/manager.rs:124 | One job per file, in order, each writing the file's name less its extension. |
| Sops.EncryptThenDecryptNames | confguard/src/sops/manager.rs:67-133 | With `enc` among the decryption extensions, each encrypted output is found and sent back to the name it came from. |
| Gitignore.SplitSections | confguard/src/sops/gitignore.rs:80-101 | Every line that is no marker lands in exactly one group, and no marker lands in any. No line goes after the block unless the block has lines. Text without markers is all in the first group. |
| Gitignore.ScanPartition | confguard/src/sops/gitignore.rs:86-98 | Every scan step keeps the groups in order and adds each unmarked line to exactly one group, never a marker. |
| Gitignore.Scan | confguard/src/sops/gitignore.rs:86-98 | The loop only appends: what each group held stays at its front, and each line adds at most one entry. |
| Gitignore.ScanBlock | confguard/src/sops/gitignore.rs:80-101 | Lines, a block and more lines split into those groups. With an empty block, the later lines join the first group. |
| Gitignore.SplitExample | confguard/tests/sops/test_gitignore.rs:42-59 | One line before, inside and after the block split into one line each. |
| Gitignore.Entries | confguard/src/sops/gitignore.rs:44-49 | The entries are a sorted permutation of the extension globs and the names. |
| Gitignore.UpdatedText | confguard/src/sops/gitignore.rs:52-74 | The written text is the old lines before the block, the new block's lines and the old lines after it, each ending in a newline. |
| Gitignore.UpdatedSplit | confguard/src/sops/gitignore.rs:27-77 | Splitting updated text finds the old lines before and after around the new entries. |
| Gitignore.UpdatedLines | confguard/src/sops/gitignore.rs:52-74 | The updated text's lines are the lines before the block, the new block, and the lines after it. |
| Order.SortStrings | confguard/src/sops/gitignore.rs:44-49 | The result is a sorted permutation of its input. |
| Gitignore.UpdateEntries | confguard/src/sops/gitignore.rs:27-77 | Success requires a `.gitignore` that is a readable file, or a missing one that can be created. On success the file reads as the old text, or empty text, with its block replaced. Only the entry the write reaches changes. |
| Gitignore.CleanEntries | confguard/src/sops/gitignore.rs:104-127 | Without a `.gitignore` nothing changes. An existing one is cleaned exactly when it is a file, and then reads as the lines outside the block. Only that file's entry changes. |
| Gitignore.CleanedText | confguard/src/sops/gitignore.rs:111-124 | The written text is the old lines before and after the block, each ending in a newline; the block is gone. |
| Gitignore.CleanedLines | confguard/src/sops/gitignore.rs:104-127 | The cleaned text is the lines before and after the block, each ending in a newline, with no marker among them. |
| Text.LinesTerminated | confguard/src/sops/gitignore.rs:62-74 | Reading lines back from newline-terminated plain lines gives those lines. |
| Gitignore.CleanAfterUpdate | confguard/tests/sops/test_gitignore.rs:14-39 | Cleaning after an update gives the same text as cleaning before it. |
| Gitignore.CleanAfterUpdateEntries | confguard/tests/sops/test_gitignore.rs:14-39 | Cleaning the file after updating it leaves the cleaned old file. |
| Gitignore.UpdateIdempotent | confguard/tests/sops/test_gitignore.rs:62-84 | Updating twice with the same entries and time gives the text of one update. |
| Gitignore.CleanIdempotent | confguard/src/sops/gitignore.rs:104-127 | Cleaning cleaned text changes nothing. |

## Left out

- Links are followed only at the last component of a path. Intermediate path components are real directories, and a link's stored text is an absolute path or `../`… followed by plain components.
- `..` in a path given by the user is resolved lexically, not through links.
- A path below a regular file (`f/x` where `f` is a file) counts as missing: `read_to_string`, `canonicalize` and `fs::copy` report NotFound for it, where Linux reports "Not a directory (os error 20)".
- Link chains longer than 40, and loops, read as missing paths (the kernel reports them as ELOOP).
- The regular expressions are modelled for the patterns the code builds. In the sentinel pattern a `.` in a project name matches any character.
- HelperPath.FindSentinelDirs: a project name holding other regular-expression syntax (`\ + * ? ( ) | [ ] { } ^ $`) is refused as a whole with a Regex error whose text is the pattern. The `regex` crate rejects only some such names (`a[b`); others it compiles and interprets (`a+b` matches `aaab-12345678` and not `a+b-12345678`). The model does not follow that interpretation, and its error text is not the crate's message.
- HelperPath.SentinelNameMatches: stated only for names free of that syntax, since the model refuses the others rather than interpreting them.
- Section.VersionField: `\d` is the Unicode 15.0 category Nd (68 runs of ten digits). Digits added in later Unicode versions are not included.
- Guard.CreateSentinel: when creating the sentinel directory fails, the source has already stored the new sentinel name in its record. The model returns an error and no record, so that partial update is not modelled; `guard` propagates the error either way.
- `WalkDir`'s directory order is replaced by lexicographic path order. Each walk is a snapshot of the filesystem at its start, and walk errors are dropped as the code drops them. `HelperPath.WalkDirs` follows a root link, as `WalkDir` does by default. `Sops.Walk` and `Guard.ProjectLinks` do not: a base or project path that is itself a link yields only that entry.
- `{:?}` escaping covers the quote, backslash, newline, carriage return and tab only.
- Permission bits are not modelled. `copy_file_from_resources` with `executable` set (the `rsenv.sh` script that `create_sops_envs` writes) marks the file 0o755. In `init_envrc`'s template branch, `fs::copy` gives `.envrc` the template's permission bits.
- Saving and restoring the working directory in `replace_link_with_target`, and failures of `current_dir`, are not modelled; the working directory is a parameter.
- `fs_extra::dir::move_dir` is modelled as a rename of the whole tree.
- Panics (`unwrap` on a missing parent or a short component list) are modelled as `None` results or as preconditions the code itself guarantees.
- Encryption, decryption and `rayon`: `encrypt_files` and `decrypt_files` stop at the list of (input, output) jobs; the external `sops` process is left out.
- Reading `confguard.toml` (`SopsManager::new`, `read_config`) and the settings singleton are left out; their values are parameters.
- `info`, `show` and `print_completions` only print, so they are left out.
- `fix_run_config` is left out as outside the modelled commands. It reads the guarded record (`Guard.FromGuardedProject`) and writes `.idea/runConfigurations/rsenv.sh` through `copy_file_from_resources`, the effect modelled by `Guard.CopyResource`.
- Partial work of a failing `create_dir_all` is kept only as far as its ensures say: only directories on the way are added.
- A negative version in the settings is printed with its sign but could not be read back; the round trip assumes the version is within i64.
- `CannotCalculateRelativePath` cannot occur for two absolute paths, so it is not modelled. `InvalidUtf8Path` is not modelled either, because strings here are always valid.
- `relink`'s error contexts are kept only for the cases the model distinguishes.
- Paths given on the command line are taken as absolute, except where the code itself resolves them (`MoveAndLink::new`, `guard_one`).
- `create_file_with_segments` computes the file name and content; the `File::create` call is left out.
- The timestamp text and the random number are parameters; their format is not checked.
- GuardRoundTrip.GuardThenLoad: stated under `Setting` and `Readable`: clean path components (no newline, quote or `$`), a store apart from the project and free of links, and an `.envrc` without field or marker lines. Outside these, the text written does not read back.
- Gitignore.UpdateIdempotent: stated only when the new block has entries or nothing followed the old block. Otherwise an empty block makes the later lines join the first group, and a second update moves them.
- Gitignore.CleanAfterUpdateEntries: requires the lines of the old file to be plain (no `\r` at a line end), because `lines()` drops such characters.
- Commands.GuardOneUndone: requires that the store place is not an ancestor of the file, a case the store layout rules out but the function does not check.
- UnguardEffect.UnguardEffect: stated for projects whose links name plain entries and are apart from each other and from their targets. Links inside linked directories, and links whose targets overlap, are not covered.
- UnguardEffect.ReplaceManagedEffect: same hypotheses as UnguardEffect.UnguardEffect.

=== FILE: command_effects.dfy ===
/** How the commands behave on a project that `guard` has just guarded. */
module CommandEffects {
  import opened Text
  import opened Paths
  import opened Errors
  import opened Fs
  import opened Envrc
  import opened Guard
  import opened GuardEffect
  import opened GuardRoundTrip
  import opened Commands

  /**
   * A second `guard` command on a project the first one guarded is refused with
   * "already guarded (symlink)", whatever link style it asks for, and changes nothing.
   */
  lemma CmdGuardTwice(fs: FileSystem, env: Env, sourceDir: Path, absolute: bool, absolute2: bool)
    requires NewForGuarding(fs, env, sourceDir, !absolute).Ok?
    requires Setting(fs, NewForGuarding(fs, env, sourceDir, !absolute).value)
    requires Canonical(fs, sourceDir) == Some(sourceDir)
    requires CmdGuard(fs, env, sourceDir, absolute).result.Ok?
    ensures var fs1 := CmdGuard(fs, env, sourceDir, absolute).fs;
            CmdGuard(fs1, env, sourceDir, absolute2) == Outcome(fs1, Err(ProjectAlreadyGuardedSymlink))
  {
    var g := NewForGuarding(fs, env, sourceDir, !absolute).value;
    GuardTwice(fs, env, g, absolute, !absolute2, absolute2);
  }

  /**
   * `relink` of the stamped file in the store, right after `guard`: the project's
   * `.envrc` already links to it, so the library reports "Link already exists" and the
   * command turns that into success, with nothing changed.
   */
  lemma RelinkAfterGuard(fs: FileSystem, env: Env, g: ConfGuard, absolute: bool)
    requires Setting(fs, g) && Readable(fs, env, g)
    requires Guard.Guard(fs, env, g, absolute).result.Ok?
    ensures var o := Guard.Guard(fs, env, g, absolute);
            var d := o.result.value.targetDir.value + [DOT_ENVRC];
            && Relink(o.fs, env, d)
               == Outcome(o.fs, Err(LinkAlreadyExists(Display(EnvrcOf(g.sourceDir)), Display(d))))
            && CmdRelink(o.fs, env, d) == Outcome(o.fs, Ok(()))
  {
    var o := Guard.Guard(fs, env, g, absolute);
    var envrc := EnvrcOf(g.sourceDir);
    var d := o.result.value.targetDir.value + [DOT_ENVRC];
    assert Canonical(o.fs, envrc) == Some(d) && Canonical(o.fs, d) == Some(d)
           && FromEnvrc(o.fs, env.cwd, env.home, env.base, d) == Ok(Some(o.result.value))
           && o.result.value.sourceDir == g.sourceDir by {
      GuardLeaves(fs, env, g, absolute);
      GuardThenLoad(fs, env, g, absolute);
      assert d in o.fs && o.fs[d].File?;
      CanonicalPlain(o.fs, d);
      SameContentSameRecord(o.fs, env.cwd, env.home, env.base, d, envrc);
    }
    RelinkInPlace(o.fs, env, d, o.result.value);
  }

  /**
   * `relink` of a stamped file whose project's `.envrc` already links to it reports
   * "Link already exists", which the command turns into success with nothing changed.
   */
  lemma RelinkInPlace(fs: FileSystem, env: Env, d: Path, g: ConfGuard)
    requires Canonical(fs, d) == Some(d) && FromEnvrc(fs, env.cwd, env.home, env.base, d) == Ok(Some(g))
    requires IsSymlink(fs, EnvrcOf(g.sourceDir)) && Canonical(fs, EnvrcOf(g.sourceDir)) == Some(d)
    ensures Relink(fs, env, d) == Outcome(fs, Err(LinkAlreadyExists(Display(EnvrcOf(g.sourceDir)), Display(d))))
    ensures CmdRelink(fs, env, d) == Outcome(fs, Ok(()))
  {
    LinkAlreadyExistsMessage(Display(EnvrcOf(g.sourceDir)), Display(d));
  }

  /** `from_envrc` depends on the file only through what it reads. */
  lemma SameContentSameRecord(fs: FileSystem, cwd: Path, home: Option<Path>, base: Path, a: Path, b: Path)
    requires ContentAt(fs, a).Some? && ContentAt(fs, a) == ContentAt(fs, b)
    ensures FromEnvrc(fs, cwd, home, base, a) == FromEnvrc(fs, cwd, home, base, b)
  {
  }
}

=== FILE: commands.dfy ===
/**
 * The command handlers that change the filesystem: `guard`, `unguard`, `guard_one`,
 * `relink`, `replace_link`, `init_envrc` and `sops_init`. Paths given on the command
 * line are taken relative to the working directory in `env`.
 */
module Commands {
  import opened Text
  import opened Paths
  import opened Errors
  import opened Fs
  import opened Link
  import opened Envrc
  import opened Guard

  /** The configuration file in the base directory, and the embedded template of the same name. */
  const CONFGUARD_CONFIG_FILE := "confguard.toml"
  /** The embedded template `init_envrc` falls back to. */
  const ENVRC_TEMPLATE := "dot.envrc"

  /** Forgets the value of a finished step. */
  function Done<T>(o: Outcome<T>): (d: Outcome<()>)
    ensures d.fs == o.fs && (d.result.Ok? <==> o.result.Ok?)
    ensures o.result.Err? ==> d.result == Err(o.result.error)
  {
    Outcome(o.fs, if o.result.Ok? then Ok(()) else Err(o.result.error))
  }

  /**
   * `fs::copy`: the source is read through links and must be a regular file, or the
   * copy fails with the standard library's own not-a-file error; the destination is
   * created or truncated.
   */
  function CopyFile(fs: FileSystem, from: Path, to: Path): (r: Result<FileSystem>)
    ensures ContentAt(fs, from).None? ==> r == IoErr(if Exists(fs, from) then NotRegularFile else NotFound)
    ensures r.Ok? ==> ContentAt(r.value, to) == ContentAt(fs, from)
    ensures ContentAt(fs, from).Some? && !Exists(fs, to) ==> (r.Ok? <==> Creatable(fs, to))
    ensures r.Ok? ==> WriteFrame(fs, to, r.value)
  {
    match ContentAt(fs, from)
    case None => IoErr(if Exists(fs, from) then NotRegularFile else NotFound)
    case Some(c) =>
      var w := WriteFile(fs, to, c);
      assert w.Ok? ==> ReadToString(w.value, to) == Ok(c) by {
        if w.Ok? {
          WriteRead(fs, to, c);
        }
      }
      w
  }

  // ---------------------------------------------------------------------------------
  // guard / unguard
  // ---------------------------------------------------------------------------------

  /**
   * The `guard` command: prepare a record with relative links unless `absolute`, then
   * guard with the same choice. A refused preparation changes nothing.
   */
  function CmdGuard(fs: FileSystem, env: Env, sourceDir: Path, absolute: bool): (o: Outcome<()>)
    ensures !Exists(fs, EnvrcOf(sourceDir)) ==> o == Outcome(fs, Err(NoEnvrcFile(Buf(sourceDir))))
    ensures Exists(fs, EnvrcOf(sourceDir)) && IsSymlink(fs, EnvrcOf(sourceDir)) ==>
              o == Outcome(fs, Err(ProjectAlreadyGuardedSymlink))
    ensures o.result.Ok? ==>
              && NewForGuarding(fs, env, sourceDir, !absolute).Ok?
              && Exists(fs, EnvrcOf(sourceDir)) && !IsSymlink(fs, EnvrcOf(sourceDir))
              && (IsPath(sourceDir) ==> IsSymlink(o.fs, EnvrcOf(sourceDir)))
  {
    match NewForGuarding(fs, env, sourceDir, !absolute)
    case Err(e) => Outcome(fs, Err(e))
    case Ok(g) => Done(Guard.Guard(fs, env, g, absolute))
  }

  /**
   * The `unguard` command: the project must read back as guarded; then `unguard` runs
   * on the record read.
   */
  function CmdUnguard(fs: FileSystem, env: Env, sourceDir: Path): (o: Outcome<()>)
    ensures !Exists(fs, EnvrcOf(sourceDir)) ==> o == Outcome(fs, Err(NoEnvrcFile(Buf(sourceDir))))
    ensures FromGuardedProject(fs, env, sourceDir).Err? ==>
              o == Outcome(fs, Err(FromGuardedProject(fs, env, sourceDir).error))
    ensures o.result.Ok? ==>
              && FromGuardedProject(fs, env, sourceDir).Ok?
              && IsSymlink(fs, EnvrcOf(FromGuardedProject(fs, env, sourceDir).value.sourceDir))
  {
    match FromGuardedProject(fs, env, sourceDir)
    case Err(e) => Outcome(fs, Err(e))
    case Ok(g) => Unguard(fs, g)
  }

  // ---------------------------------------------------------------------------------
  // guard_one
  // ---------------------------------------------------------------------------------

  /**
   * The checks of `guard_one`, all made before anything changes: the project must be
   * guarded, the file must resolve to an existing path inside the project, the record
   * must have a target directory, and the file's place below it must be free. The
   * result is the resolved file and its place in the store.
   */
  function GuardOnePlan(fs: FileSystem, env: Env, sourceDir: Path, sourcePath: PathBuf): (r: Result<(Path, Path)>)
    ensures FromGuardedProject(fs, env, sourceDir).Err? ==> r == Err(FromGuardedProject(fs, env, sourceDir).error)
    ensures FromGuardedProject(fs, env, sourceDir).Ok? && !Exists(fs, Absolute(env.cwd, sourcePath)) ==>
              r == Err(Internal("resolve source path", Io(NotFound)))
    ensures FromGuardedProject(fs, env, sourceDir).Ok? && Exists(fs, Absolute(env.cwd, sourcePath)) ==>
              var g := FromGuardedProject(fs, env, sourceDir).value;
              var source := Canonical(fs, Absolute(env.cwd, sourcePath)).value;
              && (!IsPrefix(g.sourceDir, source) ==> r == Err(SourceNotInProject(Buf(source))))
              && (IsPrefix(g.sourceDir, source) && g.targetDir.None? ==> r == Err(TargetDirectoryNotSet))
              && (IsPrefix(g.sourceDir, source) && g.targetDir.Some? ==>
                    var target := g.targetDir.value + source[|g.sourceDir|..];
                    && (Exists(fs, target) ==> r == Err(TargetAlreadyExists(Buf(target))))
                    && (!Exists(fs, target) ==> r == Ok((source, target))))
  {
    var g :- FromGuardedProject(fs, env, sourceDir);
    var source :- IoContext(Canonicalize(fs, env.cwd, sourcePath), "resolve source path");
    if !Exists(fs, source) then Err(SourceNotFound(Buf(source)))
    else if !IsPrefix(g.sourceDir, source) then Err(SourceNotInProject(Buf(source)))
    else if g.targetDir.None? then Err(TargetDirectoryNotSet)
    else
      var target := g.targetDir.value + source[|g.sourceDir|..];
      if Exists(fs, target) then Err(TargetAlreadyExists(Buf(target)))
      else Ok((source, target))
  }

  /**
   * The changing part of `guard_one`: make the target's directory, move the file there
   * and leave an absolute link to it in its place, whatever link style the project uses.
   */
  function MoveInto(fs: FileSystem, source: Path, target: Path): (o: Outcome<()>)
    ensures o.result.Ok? ==> IsSymlink(o.fs, source) && o.fs[source].target == Abs(target)
  {
    var made := if target == [] then Ok(fs) else CreateDirAll(fs, Parent(target));
    match made
    case Err(e) => Outcome(fs, Err(e))
    case Ok(fs1) =>
      match Rename(fs1, source, target)
      case Err(e) => Outcome(fs1, Err(e))
      case Ok(fs2) =>
        match MakeSymlink(fs2, Abs(target), source)
        case Err(e) => Outcome(fs2, Err(e))
        case Ok(fs3) => Outcome(fs3, Ok(()))
  }

  /** `guard_one`: move one more file of a guarded project into its store, behind a link. */
  function GuardOne(fs: FileSystem, env: Env, sourceDir: Path, sourcePath: PathBuf): (o: Outcome<()>)
    ensures GuardOnePlan(fs, env, sourceDir, sourcePath).Err? ==>
              o == Outcome(fs, Err(GuardOnePlan(fs, env, sourceDir, sourcePath).error))
    ensures o.result.Ok? ==>
              var (source, target) := GuardOnePlan(fs, env, sourceDir, sourcePath).value;
              IsSymlink(o.fs, source) && o.fs[source].target == Abs(target)
  {
    match GuardOnePlan(fs, env, sourceDir, sourcePath)
    case Err(e) => Outcome(fs, Err(e))
    case Ok((source, target)) => MoveInto(fs, source, target)
  }

  /**
   * The file's entry has moved from `source` to `target` and an absolute link to it is
   * left behind: reading through the link gives the old content, and entries outside
   * the two places are unchanged.
   */
  predicate MovedBehindLink(fs: FileSystem, fs2: FileSystem, source: Path, target: Path) {
    && source != target && source in fs && !fs[source].Symlink?
    && target in fs2 && fs2[target] == fs[source]
    && source in fs2 && fs2[source] == Symlink(Abs(target))
    && Canonical(fs2, source) == Some(target)
    && ContentAt(fs2, source) == ContentAt(fs, source)
    && (forall q | q in fs && !IsPrefix(source, q) && !IsPrefix(target, q) :: q in fs2 && fs2[q] == fs[q])
  }

  /** A successful `guard_one` passed its checks and moved the file behind an absolute link. */
  lemma GuardOneMoves(fs: FileSystem, env: Env, sourceDir: Path, sourcePath: PathBuf)
    requires Wf(fs) && GuardOne(fs, env, sourceDir, sourcePath).result.Ok?
    ensures GuardOnePlan(fs, env, sourceDir, sourcePath).Ok?
    ensures var plan := GuardOnePlan(fs, env, sourceDir, sourcePath).value;
            && MovedBehindLink(fs, GuardOne(fs, env, sourceDir, sourcePath).fs, plan.0, plan.1)
            && Wf(GuardOne(fs, env, sourceDir, sourcePath).fs)
  {
    var plan := GuardOnePlan(fs, env, sourceDir, sourcePath).value;
    GuardOneIsMove(fs, env, sourceDir, sourcePath);
    MoveIntoEffect(fs, plan.0, plan.1);
  }

  /** Once the checks pass, `guard_one` is the move of a path that is no link. */
  lemma GuardOneIsMove(fs: FileSystem, env: Env, sourceDir: Path, sourcePath: PathBuf)
    requires GuardOnePlan(fs, env, sourceDir, sourcePath).Ok?
    ensures var plan := GuardOnePlan(fs, env, sourceDir, sourcePath).value;
            && GuardOne(fs, env, sourceDir, sourcePath) == MoveInto(fs, plan.0, plan.1)
            && (plan.0 == [] || (plan.0 in fs && !fs[plan.0].Symlink?))
  {
    var plan := GuardOnePlan(fs, env, sourceDir, sourcePath).value;
    assert Canonicalize(fs, env.cwd, sourcePath) == Ok(plan.0);
  }

  /** What `MoveInto` leaves, for a source that is an entry and no link. */
  lemma MoveIntoEffect(fs: FileSystem, source: Path, target: Path)
    requires Wf(fs) && MoveInto(fs, source, target).result.Ok?
    requires source == [] || (source in fs && !fs[source].Symlink?)
    ensures MovedBehindLink(fs, MoveInto(fs, source, target).fs, source, target)
    ensures Wf(MoveInto(fs, source, target).fs)
  {
    var fs1 := if target == [] then fs else CreateDirAll(fs, Parent(target)).value;
    assert Wf(fs1) && forall q | q in fs :: q in fs1 && fs1[q] == fs[q] by {
      if target != [] {
        CreateDirAllSpec(fs, Parent(target));
        CreateDirAllWf(fs, Parent(target));
      }
    }
    var fs2 := Rename(fs1, source, target).value;
    assert source in fs1 && source != target && source != [] && target != [];
    var fs3 := fs2[source := Symlink(Abs(target))];
    assert MoveInto(fs, source, target).fs == fs3;
    assert Wf(fs2) && target in fs2 && fs2[target] == fs1[source] && source !in fs2
        && forall q | q in fs1 && !IsPrefix(source, q) && !IsPrefix(target, q) :: q in fs2 && fs2[q] == fs1[q]
    by {
      RenameMoves(fs1, source, target);
      RenameWf(fs1, source, target);
    }
    assert Wf(fs3) by {
      SymlinkWf(fs2, Abs(target), source);
    }
    LinkedBehind(fs, fs1, fs2, source, target);
  }

  /** The link placed at the vacated `source`, after the entry went to `target`. */
  lemma LinkedBehind(fs: FileSystem, fs1: FileSystem, fs2: FileSystem, source: Path, target: Path)
    requires Wf(fs) && source in fs && !fs[source].Symlink? && source != target && source != [] && target != []
    requires forall q | q in fs :: q in fs1 && fs1[q] == fs[q]
    requires target in fs2 && fs2[target] == fs1[source] && source !in fs2
    requires forall q | q in fs1 && !IsPrefix(source, q) && !IsPrefix(target, q) :: q in fs2 && fs2[q] == fs1[q]
    requires Wf(fs2[source := Symlink(Abs(target))])
    ensures MovedBehindLink(fs, fs2[source := Symlink(Abs(target))], source, target)
  {
    var fs3 := fs2[source := Symlink(Abs(target))];
    CanonicalLink(fs3, source, MaxFollow);
    CanonicalPlain(fs3, target);
    CanonicalPlain(fs, source);
  }

  /**
   * `replace_link` on the file just guarded undoes `guard_one`: the file's entry comes
   * back to its place and leaves the store (directories made for it stay).
   */
  lemma GuardOneUndone(fs: FileSystem, env: Env, sourceDir: Path, sourcePath: PathBuf)
    requires Wf(fs) && GuardOne(fs, env, sourceDir, sourcePath).result.Ok?
    requires GuardOnePlan(fs, env, sourceDir, sourcePath).Ok?
    requires !IsPrefix(GuardOnePlan(fs, env, sourceDir, sourcePath).value.1,
                       GuardOnePlan(fs, env, sourceDir, sourcePath).value.0)
    ensures var plan := GuardOnePlan(fs, env, sourceDir, sourcePath).value;
            var back := ReplaceLink(GuardOne(fs, env, sourceDir, sourcePath).fs, plan.0);
            && back.result.Ok? && plan.0 in fs
            && plan.0 in back.fs && back.fs[plan.0] == fs[plan.0] && plan.1 !in back.fs
            && (forall q | q in fs && !IsPrefix(plan.0, q) && !IsPrefix(plan.1, q) ::
                  q in back.fs && back.fs[q] == fs[q])
  {
    var plan := GuardOnePlan(fs, env, sourceDir, sourcePath).value;
    GuardOneMoves(fs, env, sourceDir, sourcePath);
    LinkUndone(fs, GuardOne(fs, env, sourceDir, sourcePath).fs, plan.0, plan.1);
  }

  /** Replacing the link left by a move brings the moved entry back. */
  lemma LinkUndone(fs: FileSystem, fs2: FileSystem, source: Path, target: Path)
    requires Wf(fs2) && MovedBehindLink(fs, fs2, source, target) && !IsPrefix(target, source)
    ensures var back := ReplaceLink(fs2, source);
            && back.result.Ok?
            && source in back.fs && back.fs[source] == fs[source] && target !in back.fs
            && (forall q | q in fs && !IsPrefix(source, q) && !IsPrefix(target, q) ::
                  q in back.fs && back.fs[q] == fs[q])
  {
    assert IsSymlink(fs2, source) && Exists(fs2, source);
    assert LinkSource(fs2, source) == target;
    assert target != [] by {
      assert target in fs2;
    }
    ReplaceLinkMoves(fs2, source);
  }

  // ---------------------------------------------------------------------------------
  // relink / replace_link
  // ---------------------------------------------------------------------------------

  /** Whether the `relink` command reports an error as information: by its message text. */
  predicate Informational(e: ConfGuardError) {
    Contains(Message(e), LINK_ALREADY_EXISTS) || Contains(Message(e), LINK_POINTS_ELSEWHERE)
  }

  /**
   * The `relink` command: an error whose message mentions an existing link becomes
   * success; every other error is passed on.
   */
  function CmdRelink(fs: FileSystem, env: Env, envrc: Path): (o: Outcome<()>)
    ensures o.fs == Relink(fs, env, envrc).fs
    ensures o.result.Ok? <==> Relink(fs, env, envrc).result.Ok? || Informational(Relink(fs, env, envrc).result.error)
    ensures o.result.Err? ==> o.result == Relink(fs, env, envrc).result
  {
    var o := Relink(fs, env, envrc);
    if o.result.Err? && Informational(o.result.error) then Outcome(o.fs, Ok(())) else o
  }

  /**
   * When the project's `.envrc` is already a link, the `relink` command succeeds and
   * changes nothing, whether the link leads to the stamped file or elsewhere.
   */
  lemma CmdRelinkExisting(fs: FileSystem, env: Env, envrc: Path)
    requires Exists(fs, envrc)
    requires var read := FromEnvrc(fs, env.cwd, env.home, env.base, Canonical(fs, envrc).value);
             && read.Ok? && read.value.Some?
             && var original := EnvrcOf(read.value.value.sourceDir);
                Exists(fs, original) && IsSymlink(fs, original)
    ensures CmdRelink(fs, env, envrc) == Outcome(fs, Ok(()))
  {
    var target := Canonical(fs, envrc).value;
    var original := EnvrcOf(FromEnvrc(fs, env.cwd, env.home, env.base, target).value.value.sourceDir);
    if Canonical(fs, original) == Some(target) {
      LinkAlreadyExistsMessage(Display(original), Display(target));
    } else {
      LinkPointsElsewhereMessage(Display(original), Display(Canonical(fs, original).value));
    }
  }

  /**
   * The `replace_link` command: the path must exist (following links) and be a link;
   * then the link is replaced by what it names.
   */
  function ReplaceLink(fs: FileSystem, link: Path): (o: Outcome<()>)
    ensures !Exists(fs, link) ==> o == Outcome(fs, Err(LinkNotFound(Buf(link))))
    ensures Exists(fs, link) && !IsSymlink(fs, link) ==> o == Outcome(fs, Err(NotSymbolicLink(Buf(link))))
    ensures o.result.Ok? ==> IsSymlink(fs, link) && Exists(fs, link)
  {
    if !Exists(fs, link) then Outcome(fs, Err(LinkNotFound(Buf(link))))
    else if !IsSymlink(fs, link) then Outcome(fs, Err(NotSymbolicLink(Buf(link))))
    else ReplaceLinkWithTarget(fs, link)
  }

  /**
   * The command and the library function differ only in the error for a path that is
   * no link: each leaves the same filesystem, and their results agree otherwise.
   */
  lemma ReplaceLinkAgrees(fs: FileSystem, link: Path)
    ensures ReplaceLink(fs, link).fs == ReplaceLinkWithTarget(fs, link).fs
    ensures Exists(fs, link) && !IsSymlink(fs, link) ==>
              && ReplaceLink(fs, link).result == Err(NotSymbolicLink(Buf(link)))
              && ReplaceLinkWithTarget(fs, link).result == Err(PathNotSymbolicLink(Buf(link)))
    ensures !(Exists(fs, link) && !IsSymlink(fs, link)) ==>
              ReplaceLink(fs, link).result == ReplaceLinkWithTarget(fs, link).result
  {
  }

  // ---------------------------------------------------------------------------------
  // init_envrc / sops_init
  // ---------------------------------------------------------------------------------

  /**
   * `init_envrc`: refuses to overwrite an existing `.envrc`; otherwise copies the given
   * template, or the embedded default, into place.
   */
  function InitEnvrc(fs: FileSystem, sourceDir: Path, template: Option<Path>, resources: map<string, string>)
    : (o: Outcome<()>)
    ensures Exists(fs, EnvrcOf(sourceDir)) ==> o == Outcome(fs, Err(FileAlreadyExists(Buf(EnvrcOf(sourceDir)))))
    ensures o.result.Ok? && template.Some? ==> ContentAt(o.fs, EnvrcOf(sourceDir)) == ContentAt(fs, template.value)
    ensures o.result.Ok? && template.None? ==>
              ENVRC_TEMPLATE in resources && ContentAt(o.fs, EnvrcOf(sourceDir)) == Some(resources[ENVRC_TEMPLATE])
    ensures !Exists(fs, EnvrcOf(sourceDir)) && template.Some? ==>
              (o.result.Ok? <==> ContentAt(fs, template.value).Some? && Creatable(fs, EnvrcOf(sourceDir)))
    ensures !Exists(fs, EnvrcOf(sourceDir)) && template.None? && ENVRC_TEMPLATE in resources && Exists(fs, sourceDir) ==>
              (o.result.Ok? <==> Creatable(fs, EnvrcOf(sourceDir)))
    ensures o.result.Ok? && (template.Some? || Exists(fs, sourceDir)) ==> WriteFrame(fs, EnvrcOf(sourceDir), o.fs)
  {
    var path := EnvrcOf(sourceDir);
    assert Parent(path) == sourceDir;
    if Exists(fs, path) then Outcome(fs, Err(FileAlreadyExists(Buf(path))))
    else
      match template
      case Some(t) =>
        (match IoContext(CopyFile(fs, t, path), "copy template: " + Display(t))
         case Err(e) => Outcome(fs, Err(e))
         case Ok(fs1) => Outcome(fs1, Ok(())))
      case None =>
        var c := CopyResource(fs, resources, ENVRC_TEMPLATE, path);
        Outcome(c.fs, Context(c.result, "copy resources/dot.envrc -> .envrc"))
  }

  /** A second `init_envrc` after a successful one is refused and changes nothing. */
  lemma InitEnvrcTwice(fs: FileSystem, sourceDir: Path, template: Option<Path>, resources: map<string, string>,
                       template2: Option<Path>)
    requires InitEnvrc(fs, sourceDir, template, resources).result.Ok?
    ensures var fs1 := InitEnvrc(fs, sourceDir, template, resources).fs;
            InitEnvrc(fs1, sourceDir, template2, resources)
            == Outcome(fs1, Err(FileAlreadyExists(Buf(EnvrcOf(sourceDir)))))
  {
    var fs1 := InitEnvrc(fs, sourceDir, template, resources).fs;
    assert ContentAt(fs1, EnvrcOf(sourceDir)).Some? by {
      if template.Some? {
        assert ContentAt(fs, template.value).Some?;
      }
    }
  }

  /**
   * A template that is a directory: `fs::copy` refuses it with the standard library's
   * not-a-file error, and `init_envrc` reports that under its context, changing nothing.
   */
  lemma InitEnvrcDirectoryTemplate(fs: FileSystem, sourceDir: Path, t: Path, resources: map<string, string>)
    requires !Exists(fs, EnvrcOf(sourceDir)) && IsDir(fs, t)
    ensures var o := InitEnvrc(fs, sourceDir, Some(t), resources);
            o.fs == fs && o.result.Err?
            && Message(o.result.error)
               == "Internal error: " + ("copy template: " + Display(t)) + ": " + IoMessage(NotRegularFile)
  {
    var msg := "copy template: " + Display(t);
    assert ContentAt(fs, t).None? && Exists(fs, t);
    var r := CopyFile(fs, t, EnvrcOf(sourceDir));
    assert r == IoErr(NotRegularFile);
    assert InitEnvrc(fs, sourceDir, Some(t), resources) == Outcome(fs, Err(IoContext(r, msg).error));
    IoContextMessage(r, msg);
  }

  /**
   * `sops_init`: refuses to overwrite an existing configuration file; otherwise makes
   * the base directory and copies the given template, or the embedded default, into it.
   */
  function SopsInit(fs: FileSystem, base: Path, template: Option<Path>, resources: map<string, string>)
    : (o: Outcome<()>)
    ensures Exists(fs, base + [CONFGUARD_CONFIG_FILE]) ==>
              o == Outcome(fs, Err(ConfigFileAlreadyExists(Buf(base + [CONFGUARD_CONFIG_FILE]))))
    ensures o.result.Ok? && template.Some? ==>
              ContentAt(o.fs, base + [CONFGUARD_CONFIG_FILE]) == ContentAt(fs, template.value)
    ensures o.result.Ok? && template.None? ==>
              && CONFGUARD_CONFIG_FILE in resources
              && ContentAt(o.fs, base + [CONFGUARD_CONFIG_FILE]) == Some(resources[CONFGUARD_CONFIG_FILE])
    ensures IsDir(fs, base) && !Exists(fs, base + [CONFGUARD_CONFIG_FILE]) && template.Some? ==>
              (o.result.Ok? <==> ContentAt(fs, template.value).Some? && Creatable(fs, base + [CONFGUARD_CONFIG_FILE]))
    ensures IsDir(fs, base) && !Exists(fs, base + [CONFGUARD_CONFIG_FILE]) && template.None?
            && CONFGUARD_CONFIG_FILE in resources ==>
              (o.result.Ok? <==> Creatable(fs, base + [CONFGUARD_CONFIG_FILE]))
    ensures IsDir(fs, base) && o.result.Ok? ==> WriteFrame(fs, base + [CONFGUARD_CONFIG_FILE], o.fs)
  {
    var config := base + [CONFGUARD_CONFIG_FILE];
    assert Parent(config) == base;
    assert IsDir(fs, base) ==> CreateDirAll(fs, base) == Ok(fs) by {
      if IsDir(fs, base) { CreateDirAllOnDir(fs, base); }
    }
    if Exists(fs, config) then Outcome(fs, Err(ConfigFileAlreadyExists(Buf(config))))
    else
      match IoContext(CreateDirAll(fs, base), "create target directory")
      case Err(e) => Outcome(fs, Err(e))
      case Ok(fs1) =>
        match template
        case Some(t) =>
          // The template is read after the base directory exists; only new directories were added.
          CreateDirAllSpec(fs, base);
          DirsAddedKeepContent(fs, fs1, t);
          (match IoContext(CopyFile(fs1, t, config), "copy template: " + Display(t))
           case Err(e) => Outcome(fs1, Err(e))
           case Ok(fs2) => Outcome(fs2, Ok(())))
        case None =>
          var c := CopyResource(fs1, resources, CONFGUARD_CONFIG_FILE, config);
          Outcome(c.fs, Context(c.result, "copy default confguard.toml template"))
  }

  /** Adding only directories never changes what a path reads as. */
  lemma DirsAddedKeepContent(fs: FileSystem, fs2: FileSystem, p: Path)
    requires forall q | q in fs :: q in fs2 && fs2[q] == fs[q]
    requires forall q | q in fs2 && q !in fs :: fs2[q] == Dir
    ensures ContentAt(fs2, p) == ContentAt(fs, p)
  {
    if ContentAt(fs, p).Some? {
      FollowKept(fs, fs2, p, MaxFollow);
    } else if ContentAt(fs2, p).Some? {
      FollowBack(fs, fs2, p, MaxFollow);
    }
  }

  lemma {:induction false} FollowKept(fs: FileSystem, fs2: FileSystem, p: Path, fuel: nat)
    requires forall q | q in fs :: q in fs2 && fs2[q] == fs[q]
    requires Follow(fs, p, fuel).Some?
    ensures Follow(fs2, p, fuel) == Follow(fs, p, fuel)
    decreases fuel
  {
    if p != [] && fs[p].Symlink? {
      FollowKept(fs, fs2, Resolve(Parent(p), fs[p].target), fuel - 1);
    }
  }

  lemma {:induction false} FollowBack(fs: FileSystem, fs2: FileSystem, p: Path, fuel: nat)
    requires forall q | q in fs :: q in fs2 && fs2[q] == fs[q]
    requires forall q | q in fs2 && q !in fs :: fs2[q] == Dir
    requires var c := Follow(fs2, p, fuel); c.Some? && c.value != [] && fs2[c.value].File?
    ensures Follow(fs, p, fuel) == Follow(fs2, p, fuel)
    decreases fuel
  {
    if fs2[p].Symlink? {
      FollowBack(fs, fs2, Resolve(Parent(p), fs2[p].target), fuel - 1);
    }
  }

  /** A second `sops_init` after a successful one is refused and changes nothing. */
  lemma SopsInitTwice(fs: FileSystem, base: Path, template: Option<Path>, resources: map<string, string>,
                      template2: Option<Path>)
    requires SopsInit(fs, base, template, resources).result.Ok?
    ensures var fs1 := SopsInit(fs, base, template, resources).fs;
            SopsInit(fs1, base, template2, resources)
            == Outcome(fs1, Err(ConfigFileAlreadyExists(Buf(base + [CONFGUARD_CONFIG_FILE]))))
  {
    var fs1 := SopsInit(fs, base, template, resources).fs;
    assert ContentAt(fs1, base + [CONFGUARD_CONFIG_FILE]).Some? by {
      if template.Some? {
        assert ContentAt(fs, template.value).Some?;
      }
    }
  }
}

=== FILE: envrc.dfy ===
/**
 * The tool's record of a guarded project and how `from_envrc` reads it back from the
 * block in an `.envrc`: the lines are classified one by one, later lines overriding
 * earlier ones, and the record exists only when the file has both marker lines and
 * all four fields.
 */
module Envrc {
  import opened Text
  import opened Paths
  import opened Errors
  import opened Fs
  import opened HomeBased
  import opened Section
  import opened ParseInt

  /** What `from_envrc` puts before a version's parse error. */
  const VERSION_FORMAT := "Invalid version format: "

  /** The message of a version that does not parse as an `i64`. */
  function VersionError(k: IntErrorKind): string {
    VERSION_FORMAT + ErrorText(k)
  }

  const VERSION_TOO_LARGE := VersionError(PosOverflow)
  const VERSION_INVALID_DIGIT := VersionError(InvalidDigit)

  const GUARDED := "guarded"
  const ENVRC := ".envrc"
  const READ_ENVRC := "Cannot read envrc file "

  /**
   * `ConfGuard`: the format version, the project directory, whether links are relative,
   * the base directory, the directory holding the moved files, and the sentinel naming it.
   */
  datatype ConfGuard = ConfGuard(
    version: int,
    sourceDir: Path,
    isRelative: bool,
    baseDir: Path,
    targetDir: Option<Path>,
    sentinel: string)

  /** `base/guarded` joined with the sentinel text, which may itself hold separators. */
  function GuardedDir(base: Path, sentinel: string): Path {
    Absolute(base + [GUARDED], ParsePath(sentinel))
  }

  /** The fields found so far while scanning the lines. */
  datatype Fields = Fields(
    sentinel: Option<string>,
    relative: Option<bool>,
    version: Option<int>,
    sourceDir: Option<Path>)

  const NoFields := Fields(None, None, None, None)

  predicate Complete(f: Fields) {
    f.sentinel.Some? && f.relative.Some? && f.version.Some? && f.sourceDir.Some?
  }

  /**
   * `str::parse::<i64>` of the captured digits, its error displayed behind the
   * parser's prefix. A `\d+` capture is non-empty and has no sign, so the digit loop
   * is all of the parse.
   */
  function ParseVersion(d: string): (r: Result<int>)
    requires |d| > 0 && AllDecimalDigits(d)
    ensures DigitsValue(LeadingDigits(d)) > I64_MAX ==> r == Err(Internal(VERSION_TOO_LARGE, NoCause))
    ensures DigitsValue(LeadingDigits(d)) <= I64_MAX && !AllDigits(d) ==>
              r == Err(Internal(VERSION_INVALID_DIGIT, NoCause))
    ensures AllDigits(d) ==> (r.Ok? <==> DigitsValue(d) <= I64_MAX)
    ensures r.Ok? ==> AllDigits(d) && 0 <= r.value <= I64_MAX && r.value == DigitsValue(d)
  {
    match ParseDigits(d)
    case Parsed(v) => Ok(v)
    case Failed(k) => Err(Internal(VersionError(k), NoCause))
  }

  /** One iteration of the scan: the first matching pattern sets its field. */
  function ParseStep(fs: FileSystem, cwd: Path, home: Option<Path>, f: Fields, line: string): Result<Fields> {
    match Classify(line)
    case SentinelLine(s) => Ok(f.(sentinel := Some(s)))
    case RelativeLine(b) => Ok(f.(relative := Some(b)))
    case VersionLine(d) =>
      var v :- ParseVersion(d);
      Ok(f.(version := Some(v)))
    case SourceLine(s) =>
      var p :- FromHomeBased(fs, cwd, home, s);
      Ok(f.(sourceDir := Some(p)))
    case OtherLine => Ok(f)
  }

  /** The scan over all lines; the first failing line ends it with that line's error. */
  function ParseLines(fs: FileSystem, cwd: Path, home: Option<Path>, f: Fields, lines: seq<string>): Result<Fields>
    decreases |lines|
  {
    if lines == [] then Ok(f)
    else
      var f1 :- ParseStep(fs, cwd, home, f, lines[0]);
      ParseLines(fs, cwd, home, f1, lines[1..])
  }

  /** The record built from a complete set of fields. */
  function Record(base: Path, f: Fields): ConfGuard
    requires Complete(f)
  {
    ConfGuard(f.version.value, f.sourceDir.value, f.relative.value, base,
              Some(GuardedDir(base, f.sentinel.value)), f.sentinel.value)
  }

  /**
   * `ConfGuard::from_envrc`. The home directory, the working directory and the
   * filesystem are those `from_home_based` consults for the project path.
   */
  function FromEnvrc(fs: FileSystem, cwd: Path, home: Option<Path>, base: Path, envrc: Path)
    : (r: Result<Option<ConfGuard>>)
    ensures ContentAt(fs, envrc).None? ==>
              r == Err(Internal(READ_ENVRC + DebugPath(Buf(envrc)),
                                Io(if Exists(fs, envrc) then IsADirectory else NotFound)))
    ensures ContentAt(fs, envrc).Some? ==> r == Scan(fs, cwd, home, base, ContentAt(fs, envrc).value)
  {
    var content :- IoContext(ReadToString(fs, envrc), READ_ENVRC + DebugPath(Buf(envrc)));
    Scan(fs, cwd, home, base, content)
  }

  /** The part of `from_envrc` after the file is read. */
  function Scan(fs: FileSystem, cwd: Path, home: Option<Path>, base: Path, content: string)
    : (r: Result<Option<ConfGuard>>)
    ensures r.Ok? && r.value.Some? ==>
              var ls := Lines(content);
              var g := r.value.value;
              && Marked(ls)
              && |g.sentinel| > 0 && 0 <= g.version <= I64_MAX
              && g.baseDir == base && g.targetDir == Some(GuardedDir(base, g.sentinel))
    ensures !Marked(Lines(content)) ==> r == Ok(None)
    ensures Marked(Lines(content)) ==>
              (r.Ok? <==> ParseLines(fs, cwd, home, NoFields, Lines(content)).Ok?)
  {
    var lines := Lines(content);
    var s := FirstContaining(lines, START_WORDS);
    var e := FirstContaining(lines, END_WORDS);
    assert s.Some? && e.Some? ==> Marked(lines) by {
      if s.Some? && e.Some? { MarkedWitness(lines, s.value, e.value); }
    }
    if s.None? || e.None? then
      Ok(None)
    else
      match ParseLines(fs, cwd, home, NoFields, lines)
      case Err(err) => Err(err)
      case Ok(f) =>
        if Complete(f) then
          FieldsInvariant(fs, cwd, home, NoFields, lines);
          MarkedWitness(lines, s.value, e.value);
          Ok(Some(Record(base, f)))
        else Ok(None)
  }

  /** Some line holds the start words and some line the end words, in either order. */
  predicate Marked(ls: seq<string>) {
    && (exists i | 0 <= i < |ls| :: Contains(ls[i], START_WORDS))
    && (exists i | 0 <= i < |ls| :: Contains(ls[i], END_WORDS))
  }

  lemma MarkedWitness(ls: seq<string>, i: nat, j: nat)
    requires i < |ls| && Contains(ls[i], START_WORDS)
    requires j < |ls| && Contains(ls[j], END_WORDS)
    ensures Marked(ls)
  {
  }

  /** What every scan result satisfies, given that its starting fields did. */
  predicate FieldsOk(f: Fields) {
    && (f.sentinel.Some? ==> |f.sentinel.value| > 0)
    && (f.version.Some? ==> 0 <= f.version.value <= I64_MAX)
  }

  lemma {:induction false} FieldsInvariant(fs: FileSystem, cwd: Path, home: Option<Path>, f: Fields, lines: seq<string>)
    requires FieldsOk(f)
    ensures ParseLines(fs, cwd, home, f, lines).Ok? ==> FieldsOk(ParseLines(fs, cwd, home, f, lines).value)
    decreases |lines|
  {
    if lines != [] {
      var s := ParseStep(fs, cwd, home, f, lines[0]);
      if s.Ok? {
        FieldsInvariant(fs, cwd, home, s.value, lines[1..]);
      }
    }
  }

  // ---------------------------------------------------------------------------------
  // Reading back what `update_dot_envrc` wrote
  // ---------------------------------------------------------------------------------

  /** A file without both marker words holds no record, whatever else it says. */
  lemma FromEnvrcUnmarked(fs: FileSystem, cwd: Path, home: Option<Path>, base: Path, envrc: Path)
    requires ContentAt(fs, envrc).Some?
    requires !Contains(ContentAt(fs, envrc).value, START_WORDS)
          || !Contains(ContentAt(fs, envrc).value, END_WORDS)
    ensures FromEnvrc(fs, cwd, home, base, envrc) == Ok(None)
  {
    var c := ContentAt(fs, envrc).value;
    var lines := Lines(c);
    var s := FirstContaining(lines, START_WORDS);
    var e := FirstContaining(lines, END_WORDS);
    if s.Some? {
      LinesContain(c, START_WORDS, s.value);
    }
    if e.Some? {
      LinesContain(c, END_WORDS, e.value);
    }
  }

  /** Scanning a concatenation scans the first part, then the second. */
  lemma {:induction false} ParseLinesAppend(fs: FileSystem, cwd: Path, home: Option<Path>, f: Fields,
                                            a: seq<string>, b: seq<string>)
    ensures ParseLines(fs, cwd, home, f, a + b)
         == (match ParseLines(fs, cwd, home, f, a)
             case Err(e) => Err(e)
             case Ok(f1) => ParseLines(fs, cwd, home, f1, b))
    decreases |a|
  {
    if a == [] {
      assert a + b == b;
    } else {
      assert (a + b)[0] == a[0];
      assert (a + b)[1..] == a[1..] + b;
      var s := ParseStep(fs, cwd, home, f, a[0]);
      if s.Ok? {
        ParseLinesAppend(fs, cwd, home, s.value, a[1..], b);
      }
    }
  }

  /** Lines matching no pattern leave the fields as they were. */
  lemma {:induction false} ParseOthers(fs: FileSystem, cwd: Path, home: Option<Path>, f: Fields, ls: seq<string>)
    requires forall i | 0 <= i < |ls| :: Classify(ls[i]) == OtherLine
    ensures ParseLines(fs, cwd, home, f, ls) == Ok(f)
    decreases |ls|
  {
    if ls != [] {
      assert Classify(ls[0]) == OtherLine;
      ParseOthers(fs, cwd, home, f, ls[1..]);
    }
  }

  /** One step of the scan at position `k`. */
  lemma StepAt(fs: FileSystem, cwd: Path, home: Option<Path>, f: Fields, ls: seq<string>, k: nat, g: Fields)
    requires k < |ls| && ParseStep(fs, cwd, home, f, ls[k]) == Ok(g)
    ensures ParseLines(fs, cwd, home, f, ls[k..]) == ParseLines(fs, cwd, home, g, ls[k + 1..])
  {
    assert ls[k..][0] == ls[k];
    assert ls[k..][1..] == ls[k + 1..];
  }

  /** The step a line of each kind takes. */
  lemma StepOther(fs: FileSystem, cwd: Path, home: Option<Path>, f: Fields, line: string)
    requires Classify(line) == OtherLine
    ensures ParseStep(fs, cwd, home, f, line) == Ok(f)
  {
  }

  lemma StepRelative(fs: FileSystem, cwd: Path, home: Option<Path>, f: Fields, b: bool)
    ensures ParseStep(fs, cwd, home, f, RELATIVE_PREFIX + BoolText(b)) == Ok(f.(relative := Some(b)))
  {
    RelativeLineOf(b);
  }

  lemma StepVersion(fs: FileSystem, cwd: Path, home: Option<Path>, f: Fields, n: nat)
    requires n <= I64_MAX
    ensures ParseStep(fs, cwd, home, f, VERSION_PREFIX + IntToString(n)) == Ok(f.(version := Some(n)))
  {
    assert IntToString(n) == NatToString(n);
    VersionLineOf(n);
    NatToStringDigits(n);
  }

  /**
   * A line such as `# config.version = ٣` is a version line, since `\d+` captures its
   * digits, and its step fails with the invalid-digit error unless ASCII digits before
   * the first other digit are already too large.
   */
  lemma StepInvalidDigit(fs: FileSystem, cwd: Path, home: Option<Path>, f: Fields, d: string)
    requires |d| > 0 && AllDecimalDigits(d)
    ensures DigitsValue(LeadingDigits(d)) <= I64_MAX && !AllDigits(d) ==>
              ParseStep(fs, cwd, home, f, VERSION_PREFIX + d) == Err(Internal(VERSION_INVALID_DIGIT, NoCause))
  {
    VersionLineOfDigits(d);
    StepOfVersionLine(fs, cwd, home, f, VERSION_PREFIX + d, d);
  }

  /** The step on a version line is the parse of its digits. */
  lemma StepOfVersionLine(fs: FileSystem, cwd: Path, home: Option<Path>, f: Fields, line: string, d: string)
    requires |d| > 0 && AllDecimalDigits(d) && Classify(line) == VersionLine(d)
    ensures ParseVersion(d).Err? ==> ParseStep(fs, cwd, home, f, line) == Err(ParseVersion(d).error)
    ensures ParseVersion(d).Ok? ==> ParseStep(fs, cwd, home, f, line) == Ok(f.(version := Some(ParseVersion(d).value)))
  {
  }

  lemma StepSentinel(fs: FileSystem, cwd: Path, home: Option<Path>, f: Fields, v: string)
    requires |v| > 0
    ensures ParseStep(fs, cwd, home, f, SENTINEL_PREFIX + v + "'") == Ok(f.(sentinel := Some(v)))
  {
    SentinelLineOf(v);
  }

  lemma StepSource(fs: FileSystem, cwd: Path, home: Option<Path>, f: Fields, v: string, p: Path)
    requires |v| > 0 && FromHomeBased(fs, cwd, home, v) == Ok(p)
    ensures ParseStep(fs, cwd, home, f, SOURCE_PREFIX + v + "'") == Ok(f.(sourceDir := Some(p)))
  {
    SourceLineOf(v);
  }

  /** Scanning the nine lines of a block sets the four fields to the values written. */
  lemma ParseBlock(fs: FileSystem, cwd: Path, home: Option<Path>, f: Fields,
                   relative: bool, version: nat, sentinel: string, timestamp: string,
                   sourceDir: string, sopsPath: string, p: Path)
    requires |sentinel| > 0 && |sourceDir| > 0 && version <= I64_MAX
    requires FromHomeBased(fs, cwd, home, sourceDir) == Ok(p)
    ensures ParseLines(fs, cwd, home, f, SectionLines(relative, version, sentinel, timestamp, sourceDir, sopsPath))
         == Ok(Fields(Some(sentinel), Some(relative), Some(version), Some(p)))
  {
    var ls := SectionLines(relative, version, sentinel, timestamp, sourceDir, sopsPath);
    var f3 := f.(relative := Some(relative), version := Some(version), sentinel := Some(sentinel));
    assert ls[0..] == ls;
    ParseBlockHead(fs, cwd, home, f, relative, version, sentinel, timestamp, sourceDir, sopsPath);
    ParseBlockTail(fs, cwd, home, f3, relative, version, sentinel, timestamp, sourceDir, sopsPath, p);
  }

  /** The first four lines set the link mode, the version and the sentinel. */
  lemma ParseBlockHead(fs: FileSystem, cwd: Path, home: Option<Path>, f: Fields,
                       relative: bool, version: nat, sentinel: string, timestamp: string,
                       sourceDir: string, sopsPath: string)
    requires |sentinel| > 0 && version <= I64_MAX
    ensures var ls := SectionLines(relative, version, sentinel, timestamp, sourceDir, sopsPath);
            var g := f.(relative := Some(relative), version := Some(version), sentinel := Some(sentinel));
            ParseLines(fs, cwd, home, f, ls[0..]) == ParseLines(fs, cwd, home, g, ls[4..])
  {
    var ls := SectionLines(relative, version, sentinel, timestamp, sourceDir, sopsPath);
    var f1 := f.(relative := Some(relative));
    var f2 := f1.(version := Some(version));
    var f3 := f2.(sentinel := Some(sentinel));
    StartMarkerOther();
    StepOther(fs, cwd, home, f, START_MARKER);
    StepAt(fs, cwd, home, f, ls, 0, f);
    StepRelative(fs, cwd, home, f, relative);
    StepAt(fs, cwd, home, f, ls, 1, f1);
    StepVersion(fs, cwd, home, f1, version);
    StepAt(fs, cwd, home, f1, ls, 2, f2);
    StepSentinel(fs, cwd, home, f2, sentinel);
    StepAt(fs, cwd, home, f2, ls, 3, f3);
  }

  /** The last five lines set the project directory. */
  lemma ParseBlockTail(fs: FileSystem, cwd: Path, home: Option<Path>, f: Fields,
                       relative: bool, version: nat, sentinel: string, timestamp: string,
                       sourceDir: string, sopsPath: string, p: Path)
    requires |sourceDir| > 0 && FromHomeBased(fs, cwd, home, sourceDir) == Ok(p)
    ensures var ls := SectionLines(relative, version, sentinel, timestamp, sourceDir, sopsPath);
            ParseLines(fs, cwd, home, f, ls[4..]) == Ok(f.(sourceDir := Some(p)))
  {
    var ls := SectionLines(relative, version, sentinel, timestamp, sourceDir, sopsPath);
    SourceStep(fs, cwd, home, f, relative, version, sentinel, timestamp, sourceDir, sopsPath, p);
    EndOthers(relative, version, sentinel, timestamp, sourceDir, sopsPath);
    TailSteps(fs, cwd, home, f, ls, f.(sourceDir := Some(p)));
  }

  /** The timestamp line matches no field, and the next line sets the project directory. */
  lemma SourceStep(fs: FileSystem, cwd: Path, home: Option<Path>, f: Fields,
                   relative: bool, version: nat, sentinel: string, timestamp: string,
                   sourceDir: string, sopsPath: string, p: Path)
    requires |sourceDir| > 0 && FromHomeBased(fs, cwd, home, sourceDir) == Ok(p)
    ensures var ls := SectionLines(relative, version, sentinel, timestamp, sourceDir, sopsPath);
            |ls| == 9 && Classify(ls[4]) == OtherLine && ParseStep(fs, cwd, home, f, ls[5]) == Ok(f.(sourceDir := Some(p)))
  {
    var ls := SectionLines(relative, version, sentinel, timestamp, sourceDir, sopsPath);
    assert ls[4] == TIMESTAMP_PREFIX + timestamp + "'" && ls[5] == SOURCE_PREFIX + sourceDir + "'";
    TimestampOther(timestamp);
    StepSource(fs, cwd, home, f, sourceDir, p);
  }

  /** A line of no field, one step to `g`, and then lines of no field: the scan ends at `g`. */
  lemma TailSteps(fs: FileSystem, cwd: Path, home: Option<Path>, f: Fields, ls: seq<string>, g: Fields)
    requires |ls| == 9 && Classify(ls[4]) == OtherLine && ParseStep(fs, cwd, home, f, ls[5]) == Ok(g)
    requires forall i | 6 <= i < |ls| :: Classify(ls[i]) == OtherLine
    ensures ParseLines(fs, cwd, home, f, ls[4..]) == Ok(g)
  {
    StepOther(fs, cwd, home, f, ls[4]);
    StepAt(fs, cwd, home, f, ls, 4, f);
    StepAt(fs, cwd, home, f, ls, 5, g);
    OthersFrom(fs, cwd, home, g, ls, 6);
  }

  lemma OthersFrom(fs: FileSystem, cwd: Path, home: Option<Path>, f: Fields, ls: seq<string>, k: nat)
    requires k <= |ls| && forall i | k <= i < |ls| :: Classify(ls[i]) == OtherLine
    ensures ParseLines(fs, cwd, home, f, ls[k..]) == Ok(f)
  {
    assert forall i | 0 <= i < |ls[k..]| :: ls[k..][i] == ls[k + i];
    ParseOthers(fs, cwd, home, f, ls[k..]);
  }

  /** The sops, dotenv and end-marker lines of a block match no field pattern. */
  lemma EndOthers(relative: bool, version: nat, sentinel: string, timestamp: string,
                  sourceDir: string, sopsPath: string)
    ensures var ls := SectionLines(relative, version, sentinel, timestamp, sourceDir, sopsPath);
            forall i | 6 <= i < |ls| :: Classify(ls[i]) == OtherLine
  {
    SopsOther(sopsPath);
    DotenvOther();
    EndMarkerOther();
  }

  /** The last three lines match no pattern. */
  lemma ParseBlockEnd(fs: FileSystem, cwd: Path, home: Option<Path>, f: Fields,
                      relative: bool, version: nat, sentinel: string, timestamp: string,
                      sourceDir: string, sopsPath: string)
    ensures var ls := SectionLines(relative, version, sentinel, timestamp, sourceDir, sopsPath);
            ParseLines(fs, cwd, home, f, ls[6..]) == Ok(f)
  {
    EndOthers(relative, version, sentinel, timestamp, sourceDir, sopsPath);
    OthersFrom(fs, cwd, home, f, SectionLines(relative, version, sentinel, timestamp, sourceDir, sopsPath), 6);
  }

  /**
   * A text whose lines match no field pattern, followed by a block, scans to the record
   * the block describes: the values come back, the base directory is the one given and
   * the target directory is `base/guarded/<sentinel>`.
   */
  lemma ScanWritten(fs: FileSystem, cwd: Path, home: Option<Path>, base: Path, c: string,
                    relative: bool, version: nat, sentinel: string, timestamp: string,
                    sourceDir: string, sopsPath: string, p: Path)
    requires c == "" || EndsWith(c, "\n")
    requires forall i | 0 <= i < |Lines(c)| :: Classify(Lines(c)[i]) == OtherLine
    requires '\n' !in sentinel && '\n' !in timestamp && '\n' !in sourceDir && PlainLine(sopsPath)
    requires |sentinel| > 0 && |sourceDir| > 0 && version <= I64_MAX
    requires FromHomeBased(fs, cwd, home, sourceDir) == Ok(p)
    ensures Scan(fs, cwd, home, base, c + SectionText(relative, version, sentinel, timestamp, sourceDir, sopsPath))
         == Ok(Some(ConfGuard(version, p, relative, base, Some(GuardedDir(base, sentinel)), sentinel)))
  {
    var ls := SectionLines(relative, version, sentinel, timestamp, sourceDir, sopsPath);
    var content := c + SectionText(relative, version, sentinel, timestamp, sourceDir, sopsPath);
    WrittenLines(c, relative, version, sentinel, timestamp, sourceDir, sopsPath);
    WrittenParse(fs, cwd, home, Lines(c), relative, version, sentinel, timestamp, sourceDir, sopsPath, p);
    MarkersFound(Lines(c), ls, relative, version, sentinel, timestamp, sourceDir, sopsPath);
    ScanFound(fs, cwd, home, base, content, Fields(Some(sentinel), Some(relative), Some(version), Some(p)));
  }

  /** A first line whose step fails ends the scan with that step's error. */
  lemma ParseLinesStops(fs: FileSystem, cwd: Path, home: Option<Path>, f: Fields, ls: seq<string>, e: ConfGuardError)
    requires ls != [] && ParseStep(fs, cwd, home, f, ls[0]) == Err(e)
    ensures ParseLines(fs, cwd, home, f, ls) == Err(e)
  {
  }

  /** After a prefix that scans cleanly, the scan goes on from the fields it left. */
  lemma ParseLinesAfter(fs: FileSystem, cwd: Path, home: Option<Path>, f: Fields, a: seq<string>, b: seq<string>)
    requires ParseLines(fs, cwd, home, f, a).Ok?
    ensures ParseLines(fs, cwd, home, f, a + b) == ParseLines(fs, cwd, home, ParseLines(fs, cwd, home, f, a).value, b)
  {
    ParseLinesAppend(fs, cwd, home, f, a, b);
  }

  /** A line whose step fails after a prefix that scans cleanly ends the scan with its error. */
  lemma ParseLinesFailsAfter(fs: FileSystem, cwd: Path, home: Option<Path>, f: Fields,
                             a: seq<string>, line: string, rest: seq<string>, e: ConfGuardError)
    requires ParseLines(fs, cwd, home, f, a).Ok?
    requires ParseStep(fs, cwd, home, ParseLines(fs, cwd, home, f, a).value, line) == Err(e)
    ensures ParseLines(fs, cwd, home, f, a + ([line] + rest)) == Err(e)
  {
    ParseLinesStops(fs, cwd, home, ParseLines(fs, cwd, home, f, a).value, [line] + rest, e);
    ParseLinesAfter(fs, cwd, home, f, a, [line] + rest);
  }

  /** The scan stops at the first line whose step fails, with that line's error. */
  lemma ParseLinesFailsAt(fs: FileSystem, cwd: Path, home: Option<Path>, f: Fields,
                          ls: seq<string>, k: nat, e: ConfGuardError)
    requires k < |ls| && ParseLines(fs, cwd, home, f, ls[..k]).Ok?
    requires ParseStep(fs, cwd, home, ParseLines(fs, cwd, home, f, ls[..k]).value, ls[k]) == Err(e)
    ensures ParseLines(fs, cwd, home, f, ls) == Err(e)
  {
    ParseLinesFailsAfter(fs, cwd, home, f, ls[..k], ls[k], ls[k + 1..], e);
    SplitAround(ls, k);
  }

  /**
   * In a marked text, a version line written with a decimal digit that is not ASCII, such
   * as `# config.version = ٣`, makes `from_envrc` fail with the invalid-digit error once
   * the scan reaches it.
   */
  lemma ScanInvalidDigit(fs: FileSystem, cwd: Path, home: Option<Path>, base: Path, content: string,
                         k: nat, d: string)
    requires Marked(Lines(content)) && k < |Lines(content)| && Lines(content)[k] == VERSION_PREFIX + d
    requires |d| > 0 && AllDecimalDigits(d) && !AllDigits(d) && DigitsValue(LeadingDigits(d)) <= I64_MAX
    requires ParseLines(fs, cwd, home, NoFields, Lines(content)[..k]).Ok?
    ensures Scan(fs, cwd, home, base, content) == Err(Internal(VERSION_INVALID_DIGIT, NoCause))
  {
    var ls := Lines(content);
    var g := ParseLines(fs, cwd, home, NoFields, ls[..k]).value;
    StepInvalidDigit(fs, cwd, home, g, d);
    ParseLinesFailsAt(fs, cwd, home, NoFields, ls, k, Internal(VERSION_INVALID_DIGIT, NoCause));
  }

  /** With both markers present and the fields parsed completely, the scan yields their record. */
  lemma ScanFound(fs: FileSystem, cwd: Path, home: Option<Path>, base: Path, content: string, f: Fields)
    requires FirstContaining(Lines(content), START_WORDS).Some?
    requires FirstContaining(Lines(content), END_WORDS).Some?
    requires ParseLines(fs, cwd, home, NoFields, Lines(content)) == Ok(f) && Complete(f)
    ensures Scan(fs, cwd, home, base, content) == Ok(Some(Record(base, f)))
  {
  }

  lemma WrittenLines(c: string, relative: bool, version: int, sentinel: string, timestamp: string,
                     sourceDir: string, sopsPath: string)
    requires c == "" || EndsWith(c, "\n")
    requires '\n' !in sentinel && '\n' !in timestamp && '\n' !in sourceDir && PlainLine(sopsPath)
    ensures Lines(c + SectionText(relative, version, sentinel, timestamp, sourceDir, sopsPath))
         == Lines(c) + SectionLines(relative, version, sentinel, timestamp, sourceDir, sopsPath)
  {
    var sec := SectionText(relative, version, sentinel, timestamp, sourceDir, sopsPath);
    if c == "" {
      assert c + sec == sec;
    } else {
      LinesAppend(c, sec);
    }
  }

  lemma WrittenParse(fs: FileSystem, cwd: Path, home: Option<Path>, pre: seq<string>,
                     relative: bool, version: nat, sentinel: string, timestamp: string,
                     sourceDir: string, sopsPath: string, p: Path)
    requires forall i | 0 <= i < |pre| :: Classify(pre[i]) == OtherLine
    requires |sentinel| > 0 && |sourceDir| > 0 && version <= I64_MAX
    requires FromHomeBased(fs, cwd, home, sourceDir) == Ok(p)
    ensures ParseLines(fs, cwd, home, NoFields, pre + SectionLines(relative, version, sentinel, timestamp, sourceDir, sopsPath))
         == Ok(Fields(Some(sentinel), Some(relative), Some(version), Some(p)))
  {
    var ls := SectionLines(relative, version, sentinel, timestamp, sourceDir, sopsPath);
    ParseLinesAppend(fs, cwd, home, NoFields, pre, ls);
    ParseOthers(fs, cwd, home, NoFields, pre);
    ParseBlock(fs, cwd, home, NoFields, relative, version, sentinel, timestamp, sourceDir, sopsPath, p);
  }

  /** Lines followed by a block's lines hold both marker words. */
  lemma MarkersFound(pre: seq<string>, ls: seq<string>, relative: bool, version: nat, sentinel: string,
                     timestamp: string, sourceDir: string, sopsPath: string)
    requires ls == SectionLines(relative, version, sentinel, timestamp, sourceDir, sopsPath)
    ensures FirstContaining(pre + ls, START_WORDS).Some?
    ensures FirstContaining(pre + ls, END_WORDS).Some?
  {
    StartMarkerWords();
    EndMarkerWords();
    assert (pre + ls)[|pre|] == START_MARKER;
    assert (pre + ls)[|pre| + 8] == END_MARKER;
  }

  /**
   * Reading an `.envrc` that holds such a text recovers the record. This is what
   * `relink`, `from_guarded_project` and `new_for_guarding` see after `guard`.
   */
  lemma FromEnvrcWritten(fs: FileSystem, cwd: Path, home: Option<Path>, base: Path, envrc: Path, c: string,
                         relative: bool, version: nat, sentinel: string, timestamp: string,
                         sourceDir: string, sopsPath: string, p: Path)
    requires ContentAt(fs, envrc) == Some(c + SectionText(relative, version, sentinel, timestamp, sourceDir, sopsPath))
    requires c == "" || EndsWith(c, "\n")
    requires forall i | 0 <= i < |Lines(c)| :: Classify(Lines(c)[i]) == OtherLine
    requires '\n' !in sentinel && '\n' !in timestamp && '\n' !in sourceDir && PlainLine(sopsPath)
    requires |sentinel| > 0 && |sourceDir| > 0 && version <= I64_MAX
    requires FromHomeBased(fs, cwd, home, sourceDir) == Ok(p)
    ensures FromEnvrc(fs, cwd, home, base, envrc)
         == Ok(Some(ConfGuard(version, p, relative, base, Some(GuardedDir(base, sentinel)), sentinel)))
  {
    ScanWritten(fs, cwd, home, base, c, relative, version, sentinel, timestamp, sourceDir, sopsPath, p);
  }

  /** For a sentinel that is one path component, the target directory is `base/guarded/<sentinel>`. */
  lemma GuardedDirOf(base: Path, sentinel: string)
    requires IsPath(base) && NormalPart(sentinel)
    ensures GuardedDir(base, sentinel) == base + [GUARDED, sentinel]
  {
    assert Join([sentinel], "/") == sentinel;
    SplitJoin([sentinel], '/');
    assert !StartsWith(sentinel, "/") by {
      assert sentinel[0] != '/';
    }
    assert KeepParts([sentinel]) == [sentinel];
    assert ParsePath(sentinel) == PathBuf(false, [sentinel]);
    assert base + [GUARDED] + [sentinel] == base + [GUARDED, sentinel];
    NormalizePath(base + [GUARDED, sentinel]);
  }
}

=== FILE: errors.dfy ===
/**
 * The tool's error taxonomy and the messages its errors display. The command layer
 * classifies some errors by searching their message text, so the texts matter.
 */
module Errors {
  import opened Text
  import opened Paths

  /** The operating-system error kinds the filesystem model produces. */
  datatype IoKind =
    | NotFound
    | AlreadyExists
    | NotADirectory
    | IsADirectory
    | DirectoryNotEmpty
    | InvalidInput
    | Busy
    | NotRegularFile

  /**
   * How a Linux `std::io::Error` displays: an operating-system error shows its `strerror`
   * text and number, and the standard library's own `fs::copy` error only its message.
   */
  function IoMessage(k: IoKind): string {
    match k
    case NotFound => "No such file or directory (os error 2)"
    case AlreadyExists => "File exists (os error 17)"
    case NotADirectory => "Not a directory (os error 20)"
    case IsADirectory => "Is a directory (os error 21)"
    case DirectoryNotEmpty => "Directory not empty (os error 39)"
    case InvalidInput => "Invalid argument (os error 22)"
    case Busy => "Device or resource busy (os error 16)"
    case NotRegularFile => "the source path is neither a regular file nor a symlink to a regular file"
  }

  /**
   * One constructor per error variant. Payloads of foreign error types (regex,
   * TOML, fs_extra, UTF-8, thread pool) are kept as their display text.
   */
  datatype ConfGuardError =
    | FileNotFound(path: PathBuf)
    | PathNotFound(path: PathBuf)
    | AlreadyGuarded(path: PathBuf)
    | NotGuarded(path: PathBuf)
    | NoEnvrcFile(path: PathBuf)
    | FileAlreadyExists(path: PathBuf)
    | TargetAlreadyExists(path: PathBuf)
    | ConfigFileNotFound(path: PathBuf)
    | ConfigFileAlreadyExists(path: PathBuf)
    | SourceNotFound(path: PathBuf)
    | SourceNotInProject(path: PathBuf)
    | TargetDirectoryNotSet
    | LinkNotFound(path: PathBuf)
    | NotSymbolicLink(path: PathBuf)
    | PathNotSymbolicLink(path: PathBuf)
    | ResourceNotFound(name: string)
    | NotDirectory
    | PathNotAbsolute(path: PathBuf)
    | SourcePathNotFound(path: PathBuf)
    | SourceIsSymlink(path: PathBuf)
    | SourceLinkNotFound(path: PathBuf)
    | SourceNotSymlink(path: PathBuf)
    | PathPrefixMismatch(path: PathBuf)
    | ConfigNotFoundWithHint(text: string)
    | ProjectAlreadyGuardedSymlink
    | NotGuardedEnvrc(path: PathBuf)
    | NoParentDirectory(path: PathBuf)
    | LinkAlreadyExists(link: string, target: string)
    | LinkPointsElsewhere(link: string, target: string)
    | SourceDirectoryNotFound(path: PathBuf)
    | ProjectNotGuardedNotSymlink
    | SentinelAlreadySet
    | InvalidSourceDirectory
    | SentinelExists(paths: seq<PathBuf>)
    | CannotDetermineHome
    | CannotCalculateRelativePath
    | OriginalPathNotFound(text: string)
    | FailedToCreateRelativePath
    | InvalidUtf8Path(path: PathBuf)
    | FileOperation(kind: IoKind)
    | PathCanonicalization(path: PathBuf, reason: string)
    | DirectoryChange(reason: string)
    | RegexError(text: string)
    | BuilderError(text: string)
    | FsExtra(text: string)
    | StripPrefixError
    | TomlError(text: string)
    | Utf8Error(text: string)
    | ThreadPoolBuildError(text: string)
    | Internal(text: string, cause: Cause)

  /**
   * What an `Internal` error's text was formatted from: `format!("{}: {}", msg, e)`
   * with `e` an error of this crate or an `io::Error`, or a plain message.
   */
  datatype Cause = NoCause | Wrapped(inner: ConfGuardError) | Io(kind: IoKind)

  /** Rust `char::escape_debug` for the characters the model distinguishes. */
  function EscapeDebug(s: string): string {
    if s == [] then ""
    else
      var c := s[0];
      (if c == '"' then "\\\""
       else if c == '\\' then "\\\\"
       else if c == '\n' then "\\n"
       else if c == '\r' then "\\r"
       else if c == '\t' then "\\t"
       else [c]) + EscapeDebug(s[1..])
  }

  /** `{:?}` of a string or a path: quoted, with escapes. */
  function DebugStr(s: string): string {
    "\"" + EscapeDebug(s) + "\""
  }

  function DebugPath(b: PathBuf): string {
    DebugStr(DisplayBuf(b))
  }

  /** `{:?}` of a vector of paths. */
  function DebugPaths(ps: seq<PathBuf>): string {
    "[" + Join(DebugList(ps), ", ") + "]"
  }

  function DebugList(ps: seq<PathBuf>): (r: seq<string>)
    ensures |r| == |ps|
  {
    if ps == [] then [] else [DebugPath(ps[0])] + DebugList(ps[1..])
  }

  /** Phrases that callers search error messages for. */
  const ALREADY_GUARDED := "already guarded"
  const IS_A_SYMLINK := "is a symlink"
  const NOT_A_SYMLINK := "not a symlink"
  const LINK_ALREADY_EXISTS := "Link already exists"
  const LINK_POINTS_ELSEWHERE := "Link exists but points elsewhere"

  /** The `Display` text of an error. */
  function Message(e: ConfGuardError): string
    decreases e
  {
    match e
    case Internal(t, cause) => InternalMessage(t, cause)
    case FileNotFound(p) => "File not found: " + DisplayBuf(p)
    case PathNotFound(p) => "Path does not exist: " + DisplayBuf(p)
    case AlreadyGuarded(p) => "Project " + ALREADY_GUARDED + ": " + DisplayBuf(p)
    case NotGuarded(p) => "Project not guarded: " + DisplayBuf(p)
    case NoEnvrcFile(p) => "No .envrc file found in: " + DisplayBuf(p)
    case FileAlreadyExists(p) => "File already exists: " + DisplayBuf(p)
    case TargetAlreadyExists(p) => "Target already exists: " + DisplayBuf(p)
    case ConfigFileNotFound(p) => "Configuration file not found: " + DisplayBuf(p)
    case ConfigFileAlreadyExists(p) => "Configuration file already exists: " + DisplayBuf(p)
    case SourceNotFound(p) => "Source does not exist: " + DisplayBuf(p)
    case SourceNotInProject(p) => "Source must be within project directory: " + DisplayBuf(p)
    case TargetDirectoryNotSet => "Target directory not set"
    case LinkNotFound(p) => "Link does not exist: " + DisplayBuf(p)
    case NotSymbolicLink(p) => "Not a symbolic link: " + DisplayBuf(p)
    case PathNotSymbolicLink(p) => "Path " + DisplayBuf(p) + " is not a symbolic link"
    case ResourceNotFound(n) => "Resource file not found: " + n
    case NotDirectory => "The provided path is not a directory"
    case PathNotAbsolute(p) => "Path must be absolute: " + DisplayBuf(p)
    case SourcePathNotFound(p) => "Source path does not exist: " + DisplayBuf(p)
    case SourceIsSymlink(p) => "Source is already a symbolic link: " + DisplayBuf(p)
    case SourceLinkNotFound(p) => "Source link does not exist: " + DisplayBuf(p)
    case SourceNotSymlink(p) => "Source is not a symbolic link: " + DisplayBuf(p)
    case PathPrefixMismatch(p) => "Path does not start with: " + DebugPath(p)
    case ConfigNotFoundWithHint(t) =>
      "Configuration file not found at: " + t + ". Run 'confguard sops-init' to create it."
    case ProjectAlreadyGuardedSymlink => "Project appears to be " + ALREADY_GUARDED + " - .envrc " + IS_A_SYMLINK
    case NotGuardedEnvrc(p) => "Not a guarded envrc file: " + DisplayBuf(p)
    case NoParentDirectory(p) => "Failed to get parent directory of: " + DisplayBuf(p)
    case LinkAlreadyExists(l, t) => LINK_ALREADY_EXISTS + (": " + l + " -> " + t)
    case LinkPointsElsewhere(l, t) => LINK_POINTS_ELSEWHERE + (": " + l + " -> " + t)
    case SourceDirectoryNotFound(p) => "Source directory does not exist: " + DisplayBuf(p)
    case ProjectNotGuardedNotSymlink => "Project is not guarded - .envrc is " + NOT_A_SYMLINK
    case SentinelAlreadySet => "Sentinel already set"
    case InvalidSourceDirectory => "Invalid source directory path"
    case SentinelExists(ps) =>
      "Project appears to be " + ALREADY_GUARDED + " - sentinel exists: " + DebugPaths(ps)
    case CannotDetermineHome => "Cannot determine home directory"
    case CannotCalculateRelativePath => "Cannot calculate relative path"
    case OriginalPathNotFound(t) => "Original path does not exist: " + t
    case FailedToCreateRelativePath => "Failed to create relative path"
    case InvalidUtf8Path(p) => "Path contains invalid UTF-8: " + DisplayBuf(p)
    case FileOperation(k) => "File operation failed: " + IoMessage(k)
    case PathCanonicalization(p, r) => "Path canonicalization failed: " + DisplayBuf(p) + ", reason: " + r
    case DirectoryChange(r) => "Directory change failed: " + r
    case RegexError(t) => "Regex error: " + t
    case BuilderError(t) => "Builder error: " + t
    case FsExtra(t) => "File system extra error: " + t
    case StripPrefixError => "Strip prefix error: prefix not found"
    case TomlError(t) => "TOML deserialization error: " + t
    case Utf8Error(t) => "UTF-8 conversion error: " + t
    case ThreadPoolBuildError(t) => "Thread pool build error: " + t
  }

  /** An error under context: the context text, then the cause's own text if there is one. */
  function InternalMessage(t: string, cause: Cause): string
    decreases cause
  {
    match cause
    case NoCause => "Internal error: " + t
    case Wrapped(inner) => "Internal error: " + t + ": " + Message(inner)
    case Io(k) => "Internal error: " + t + ": " + IoMessage(k)
  }

  /** `ConfGuardResult<T>`, usable with `:-` for the `?` operator. */
  datatype Result<+T> = Ok(value: T) | Err(error: ConfGuardError) {
    predicate IsFailure() {
      Err?
    }

    function PropagateFailure<U>(): Result<U>
      requires Err?
    {
      Err(error)
    }

    function Extract(): T
      requires Ok?
    {
      value
    }
  }

  /**
   * `.context(msg)` / `.with_context(|| msg)` on a `ConfGuardResult`: the error becomes
   * `Internal` carrying the message and the original error.
   */
  function Context<T>(r: Result<T>, msg: string): (c: Result<T>)
    ensures r.Ok? <==> c.Ok?
    ensures r.Ok? ==> c == r
    ensures r.Err? ==> c.error.Internal? && c.error.text == msg && c.error.cause == Wrapped(r.error)
  {
    match r
    case Ok(v) => Ok(v)
    case Err(e) => Err(Internal(msg, Wrapped(e)))
  }

  /**
   * `.context(msg)` on a raw `io::Result`. The filesystem model reports io errors as
   * `FileOperation`, which here stands for the bare `io::Error`.
   */
  function IoContext<T>(r: Result<T>, msg: string): (c: Result<T>)
    ensures r.Ok? <==> c.Ok?
    ensures r.Ok? ==> c == r
    ensures r.Err? && r.error.FileOperation? ==> c.error == Internal(msg, Io(r.error.kind))
  {
    match r
    case Ok(v) => Ok(v)
    case Err(FileOperation(k)) => Err(Internal(msg, Io(k)))
    case Err(e) => Err(Internal(msg, Wrapped(e)))
  }

  /** A wrapped error displays as the context message, a colon, and the wrapped error's text. */
  lemma ContextMessage<T>(r: Result<T>, msg: string)
    requires r.Err?
    ensures Message(Context(r, msg).error) == "Internal error: " + msg + ": " + Message(r.error)
    ensures Contains(Message(Context(r, msg).error), Message(r.error))
    ensures Contains(Message(Context(r, msg).error), msg)
  {
    InternalContains(msg, Message(r.error));
  }

  /** An io error under context displays as the message, a colon, and the io error's text. */
  lemma IoContextMessage<T>(r: Result<T>, msg: string)
    requires r.Err? && r.error.FileOperation?
    ensures Message(IoContext(r, msg).error) == "Internal error: " + msg + ": " + IoMessage(r.error.kind)
    ensures Contains(Message(IoContext(r, msg).error), IoMessage(r.error.kind))
  {
    InternalIoMessage(msg, r.error.kind);
    InternalContains(msg, IoMessage(r.error.kind));
  }

  lemma InternalIoMessage(msg: string, k: IoKind)
    ensures Message(Internal(msg, Io(k))) == "Internal error: " + msg + ": " + IoMessage(k)
  {
    MessageOfInternal(Internal(msg, Io(k)));
    InternalIoText(msg, k);
  }

  lemma MessageOfInternal(e: ConfGuardError)
    requires e.Internal?
    ensures Message(e) == InternalMessage(e.text, e.cause)
  {
  }

  lemma InternalIoText(msg: string, k: IoKind)
    ensures InternalMessage(msg, Io(k)) == "Internal error: " + msg + ": " + IoMessage(k)
  {
  }

  lemma InternalContains(msg: string, m: string)
    ensures Contains("Internal error: " + msg + ": " + m, m)
    ensures Contains("Internal error: " + msg + ": " + m, msg)
  {
    var s := "Internal error: " + msg + ": " + m;
    assert s[|s| - |m|..] == m;
    ContainsWitness(s, m, |s| - |m|);
    assert s[16..16 + |msg|] == msg;
    ContainsWitness(s, msg, 16);
  }

  lemma StartsContains(p: string, rest: string)
    ensures StartsWith(p + rest, p) && Contains(p + rest, p)
  {
    assert (p + rest)[..|p|] == p;
    ContainsWitness(p + rest, p, 0);
  }

  lemma SuffixOccurs(a: string, p: string)
    ensures Contains(a + p, p)
  {
    assert (a + p)[|a|..|a| + |p|] == p;
    ContainsWitness(a + p, p, |a|);
  }

  /** "Link already exists" leads its message; the relink command searches for it. */
  lemma LinkAlreadyExistsMessage(l: string, t: string)
    ensures StartsWith(Message(LinkAlreadyExists(l, t)), LINK_ALREADY_EXISTS)
    ensures Contains(Message(LinkAlreadyExists(l, t)), LINK_ALREADY_EXISTS)
  {
    StartsContains(LINK_ALREADY_EXISTS, ": " + l + " -> " + t);
  }

  /** "Link exists but points elsewhere" leads its message; the relink command searches for it. */
  lemma LinkPointsElsewhereMessage(l: string, t: string)
    ensures StartsWith(Message(LinkPointsElsewhere(l, t)), LINK_POINTS_ELSEWHERE)
    ensures Contains(Message(LinkPointsElsewhere(l, t)), LINK_POINTS_ELSEWHERE)
  {
    StartsContains(LINK_POINTS_ELSEWHERE, ": " + l + " -> " + t);
  }

  /** A symlinked `.envrc` is reported as already guarded. */
  lemma AlreadyGuardedSymlinkMessage()
    ensures Contains(Message(ProjectAlreadyGuardedSymlink), ALREADY_GUARDED)
    ensures Contains(Message(ProjectAlreadyGuardedSymlink), IS_A_SYMLINK)
  {
    InfixOccurs("Project appears to be ", ALREADY_GUARDED, " - .envrc ");
    ContainsAppendRight("Project appears to be " + ALREADY_GUARDED + " - .envrc ", IS_A_SYMLINK, ALREADY_GUARDED);
    SuffixOccurs("Project appears to be " + ALREADY_GUARDED + " - .envrc ", IS_A_SYMLINK);
  }

  lemma NotSymlinkMessage()
    ensures Contains(Message(ProjectNotGuardedNotSymlink), NOT_A_SYMLINK)
  {
    SuffixOccurs("Project is not guarded - .envrc is ", NOT_A_SYMLINK);
  }

  lemma AlreadyGuardedMessage(p: PathBuf)
    ensures Contains(Message(AlreadyGuarded(p)), ALREADY_GUARDED)
  {
    InfixOccurs("Project ", ALREADY_GUARDED, ": ");
    ContainsAppendRight("Project " + ALREADY_GUARDED + ": ", DisplayBuf(p), ALREADY_GUARDED);
  }

  lemma SentinelExistsMessage(ps: seq<PathBuf>)
    ensures Contains(Message(SentinelExists(ps)), ALREADY_GUARDED)
  {
    InfixOccurs("Project appears to be ", ALREADY_GUARDED, " - sentinel exists: ");
    ContainsAppendRight("Project appears to be " + ALREADY_GUARDED + " - sentinel exists: ", DebugPaths(ps),
                        ALREADY_GUARDED);
  }
}

=== FILE: extract_segments.dfy ===
/**
 * Naming helpers built from the last components of a path. `Path::components` yields
 * the root of an absolute path as a component of its own, written `/`.
 */
module ExtractSegments {
  import opened Text
  import opened Paths

  /** The non-empty strings of `xs`, in order. */
  function NonEmpty(xs: seq<string>): (r: seq<string>)
    ensures |r| <= |xs|
    ensures forall i | 0 <= i < |r| :: r[i] != ""
    ensures (forall i | 0 <= i < |xs| :: xs[i] != "") ==> r == xs
  {
    if xs == [] then []
    else if xs[0] == "" then NonEmpty(xs[1..])
    else [xs[0]] + NonEmpty(xs[1..])
  }

  /**
   * `extract_segments`: the last `n` components joined by `sep`, between `prefix` and
   * `suffix`; asking for more components than there are gives all of them after a `/`.
   */
  function ExtractSegments(b: PathBuf, n: nat, sep: string, prefix: string, suffix: string): (r: string)
    ensures StartsWith(r, prefix) && EndsWith(r, suffix)
    ensures n == 0 ==> r == prefix + suffix
  {
    var comps := NonEmpty(Components(b));
    var middle := if n > |comps| then "/" + Join(comps, sep) else Join(comps[|comps| - n..], sep);
    assert (prefix + middle + suffix)[..|prefix|] == prefix;
    assert (prefix + middle + suffix)[|prefix + middle|..] == suffix;
    prefix + middle + suffix
  }

  /** The four lines of the generated environment file. */
  function SegmentsContent(region: string, env: string, resource: string): string {
    ("# rsenv: " + env + ".env\n")
    + ("export AWS_REGION=" + region + "\n")
    + ("export ENVIRONMENT=" + env + "\n")
    + ("export FUNCTIONAL_RESOURCE=" + resource + "\n")
  }

  /** The file name `create_file_with_segments` builds: no filter, no `n > count` branch. */
  function SegmentsName(b: PathBuf, n: nat, sep: string, prefix: string, suffix: string): string {
    var comps := Components(b);
    var start := if n > |comps| then 0 else |comps| - n;
    prefix + Join(comps[start..], sep) + suffix
  }

  /**
   * The file name and content `create_file_with_segments` computes. `None` stands for the
   * panic when three components are asked for but the path has fewer.
   */
  function SegmentsFile(b: PathBuf, n: nat, sep: string, prefix: string, suffix: string)
    : (r: Option<(string, string)>)
    ensures r.None? <==> n >= 3 && |Components(b)| < 3
    ensures r.Some? ==> r.value.0 == SegmentsName(b, n, sep, prefix, suffix)
    ensures r.Some? && n < 3 ==> r.value.1 == ""
    ensures r.Some? && n >= 3 ==>
              var c := Components(b);
              r.value.1 == SegmentsContent(c[|c| - 3], c[|c| - 2], c[|c| - 1])
  {
    var comps := Components(b);
    var end := |comps|;
    var name := SegmentsName(b, n, sep, prefix, suffix);
    if n < 3 then Some((name, ""))
    else if end < 3 then None
    else Some((name, SegmentsContent(comps[end - 3], comps[end - 2], comps[end - 1])))
  }

  /** Components of a path without empty parts are never empty. */
  lemma ComponentsNonEmpty(b: PathBuf)
    requires forall i | 0 <= i < |b.parts| :: b.parts[i] != ""
    ensures NonEmpty(Components(b)) == Components(b)
  {
    var c := Components(b);
    forall i | 0 <= i < |c|
      ensures c[i] != ""
    {
      if b.absolute && i > 0 {
        assert c[i] == b.parts[i - 1];
      }
    }
  }

  /** The file name agrees with `extract_segments` whenever `n` does not exceed the components. */
  lemma SegmentsNameAgrees(b: PathBuf, n: nat, sep: string, prefix: string, suffix: string)
    requires forall i | 0 <= i < |b.parts| :: b.parts[i] != ""
    requires n <= |Components(b)|
    ensures SegmentsName(b, n, sep, prefix, suffix) == ExtractSegments(b, n, sep, prefix, suffix)
  {
    ComponentsNonEmpty(b);
  }

  /** When more components are asked for than exist, the two differ by the extra `/`. */
  lemma SegmentsNameDiffers(b: PathBuf, n: nat, sep: string, prefix: string, suffix: string)
    requires forall i | 0 <= i < |b.parts| :: b.parts[i] != ""
    requires n > |Components(b)|
    ensures ExtractSegments(b, n, sep, prefix, suffix)
            == prefix + "/" + Join(Components(b), sep) + suffix
    ensures SegmentsName(b, n, sep, prefix, suffix) == prefix + Join(Components(b), sep) + suffix
  {
    ComponentsNonEmpty(b);
    var c := Components(b);
    assert c[0..] == c;
    assert prefix + ("/" + Join(c, sep)) + suffix == prefix + "/" + Join(c, sep) + suffix;
  }

  /** `[a, b, c, d, e]` joined. */
  lemma JoinFive(a: string, b: string, c: string, d: string, e: string, sep: string)
    ensures Join([a, b, c, d, e], sep) == a + sep + b + sep + c + sep + d + sep + e
  {
    JoinStep(a, [b, c, d, e], sep);
    JoinStep(b, [c, d, e], sep);
    JoinStep(c, [d, e], sep);
    JoinStep(d, [e], sep);
  }

  /** Components `/`, `a`..`e` of a five-part absolute path, none of them empty. */
  lemma FiveParts(a: string, b: string, c: string, d: string, e: string)
    requires a != "" && b != "" && c != "" && d != "" && e != ""
    ensures var cs := Components(PathBuf(true, [a, b, c, d, e]));
            NonEmpty(cs) == cs && cs == ["/", a, b, c, d, e]
  {
    ComponentsNonEmpty(PathBuf(true, [a, b, c, d, e]));
  }

  lemma ExtractTwoOfFive(a: string, b: string, c: string, d: string, e: string, sep: string, pre: string, suf: string)
    requires a != "" && b != "" && c != "" && d != "" && e != ""
    ensures ExtractSegments(PathBuf(true, [a, b, c, d, e]), 2, sep, pre, suf) == pre + (d + sep + e) + suf
  {
    FiveParts(a, b, c, d, e);
    assert ["/", a, b, c, d, e][4..] == [d, e];
    JoinStep(d, [e], sep);
  }

  lemma ExtractAllOfFive(a: string, b: string, c: string, d: string, e: string, sep: string, pre: string, suf: string)
    requires a != "" && b != "" && c != "" && d != "" && e != ""
    ensures ExtractSegments(PathBuf(true, [a, b, c, d, e]), 5, sep, pre, suf)
            == pre + (a + sep + b + sep + c + sep + d + sep + e) + suf
    ensures ExtractSegments(PathBuf(true, [a, b, c, d, e]), 6, sep, pre, suf)
            == pre + ("/" + sep + (a + sep + b + sep + c + sep + d + sep + e)) + suf
  {
    FiveParts(a, b, c, d, e);
    var cs := ["/", a, b, c, d, e];
    assert cs[1..] == [a, b, c, d, e];
    assert cs[0..] == cs;
    JoinFive(a, b, c, d, e, sep);
    JoinStep("/", [a, b, c, d, e], sep);
  }

  /** `/a/b/c/d/e`, two segments joined by `-` in braces. */
  lemma ExtractExampleTwo()
    ensures ExtractSegments(PathBuf(true, ["a", "b", "c", "d", "e"]), 2, "-", "{", "}") == "{d-e}"
  {
    ExtractTwoOfFive("a", "b", "c", "d", "e", "-", "{", "}");
  }

  lemma JoinedLetters()
    ensures "a" + "/" + "b" + "/" + "c" + "/" + "d" + "/" + "e" == "a/b/c/d/e"
  {
  }

  /** Five segments of a five-component path leave out the root. */
  lemma ExtractExampleFive()
    ensures ExtractSegments(PathBuf(true, ["a", "b", "c", "d", "e"]), 5, "/", "[", "]") == "[a/b/c/d/e]"
  {
    ExtractAllOfFive("a", "b", "c", "d", "e", "/", "[", "]");
    JoinedLetters();
    Bracketed();
  }

  lemma Bracketed()
    ensures "[" + "a/b/c/d/e" + "]" == "[a/b/c/d/e]"
  {
  }

  /** Six segments take the root too, which shows as a doubled slash. */
  lemma ExtractExampleSix()
    ensures ExtractSegments(PathBuf(true, ["a", "b", "c", "d", "e"]), 6, "/", "[", "]") == "[//a/b/c/d/e]"
  {
    ExtractAllOfFive("a", "b", "c", "d", "e", "/", "[", "]");
    JoinedLetters();
    DoubledSlash();
  }

  lemma DoubledSlash()
    ensures "[" + ("/" + "/" + "a/b/c/d/e") + "]" == "[//a/b/c/d/e]"
  {
  }

  lemma ExtractExampleZero()
    ensures ExtractSegments(PathBuf(true, ["a", "b", "c", "d", "e"]), 0, "/", "[", "]") == "[]"
  {
  }

  lemma ExtractExampleSeparator()
    ensures ExtractSegments(PathBuf(true, ["1", "2", "3"]), 2, "::", "<", ">") == "<2::3>"
  {
    var c := ["/", "1", "2", "3"];
    assert NonEmpty(c) == c;
    assert c[2..] == ["2", "3"];
  }

  /** `/region/env/resource` with three segments names `region.env.resource.env`. */
  lemma SegmentsFileExample()
    ensures SegmentsFile(PathBuf(true, ["region", "env", "resource"]), 3, ".", "", ".env")
            == Some(("region.env.resource.env", SegmentsContent("region", "env", "resource")))
  {
    var c := ["/", "region", "env", "resource"];
    assert c[1..] == ["region", "env", "resource"];
    JoinStep("region", ["env", "resource"], ".");
    JoinStep("env", ["resource"], ".");
    assert "" + ("region" + "." + ("env" + "." + "resource")) + ".env" == "region.env.resource.env";
  }

  /** The content for that example, line by line. */
  lemma SegmentsContentExample()
    ensures SegmentsContent("region", "env", "resource")
            == "# rsenv: env.env\n" + "export AWS_REGION=region\n" + "export ENVIRONMENT=env\n"
               + "export FUNCTIONAL_RESOURCE=resource\n"
  {
    assert "# rsenv: " + "env" + ".env\n" == "# rsenv: env.env\n";
    assert "export AWS_REGION=" + "region" + "\n" == "export AWS_REGION=region\n";
    assert "export ENVIRONMENT=" + "env" + "\n" == "export ENVIRONMENT=env\n";
    assert "export FUNCTIONAL_RESOURCE=" + "resource" + "\n" == "export FUNCTIONAL_RESOURCE=resource\n";
  }

  /** Two segments give an empty file. */
  lemma SegmentsFileShortExample()
    ensures SegmentsFile(PathBuf(true, ["region", "env"]), 2, ".", "", ".env") == Some(("region.env.env", ""))
  {
    var c := ["/", "region", "env"];
    assert c[1..] == ["region", "env"];
    JoinStep("region", ["env"], ".");
    assert "" + ("region" + "." + "env") + ".env" == "region.env.env";
  }
}

=== FILE: fs.dfy ===
/**
 * The filesystem as the tool sees it through `std::fs`: a map from absolute paths to
 * nodes. The root directory is implicit. Directories are real entries; a symbolic link
 * is followed when it is the last component of a path, never in the middle.
 */
module Fs {
  import opened Text
  import opened Paths
  import opened Errors

  datatype Node = File(content: string) | Dir | Symlink(target: LinkTarget)

  type FileSystem = map<Path, Node>

  /** Every entry sits in a directory entry (or in the root). */
  predicate Wf(fs: FileSystem) {
    forall p | p in fs :: p != [] && (|p| > 1 ==> Parent(p) in fs && fs[Parent(p)].Dir?)
  }

  /** The kernel's limit on links followed while resolving one path. */
  const MaxFollow: nat := 40

  /** Follows the link at `p`, then the link it designates, and so on. */
  function Follow(fs: FileSystem, p: Path, fuel: nat): (r: Option<Path>)
    ensures r.Some? ==> r.value == [] || (r.value in fs && !fs[r.value].Symlink?)
    ensures p == [] || (p in fs && !fs[p].Symlink?) ==> r == Some(p)
    ensures p != [] && p !in fs ==> r.None?
    decreases fuel
  {
    if p == [] then Some([])
    else if p !in fs then None
    else match fs[p]
      case Symlink(t) => if fuel == 0 then None else Follow(fs, Resolve(Parent(p), t), fuel - 1)
      case _ => Some(p)
  }

  /** Where `p` leads once links are followed; `None` for a broken link or a loop. */
  function Canonical(fs: FileSystem, p: Path): Option<Path> {
    Follow(fs, p, MaxFollow)
  }

  /** `Path::exists`: follows links, so a broken link does not exist. */
  predicate Exists(fs: FileSystem, p: Path) {
    Canonical(fs, p).Some?
  }

  /** `Path::is_dir`, following links. */
  predicate IsDir(fs: FileSystem, p: Path) {
    var c := Canonical(fs, p);
    c.Some? && (c.value == [] || fs[c.value].Dir?)
  }

  /** `Path::is_file`, following links. */
  predicate IsFile(fs: FileSystem, p: Path) {
    var c := Canonical(fs, p);
    c.Some? && c.value != [] && fs[c.value].File?
  }

  /** `Path::is_symlink`: looks at the entry itself. */
  predicate IsSymlink(fs: FileSystem, p: Path) {
    p != [] && p in fs && fs[p].Symlink?
  }

  /** What the content of `p` is once links are followed, if it is a file. */
  function ContentAt(fs: FileSystem, p: Path): Option<string> {
    var c := Canonical(fs, p);
    if c.Some? && c.value != [] && fs[c.value].File? then Some(fs[c.value].content) else None
  }

  function IoErr<T>(k: IoKind): Result<T> {
    Err(FileOperation(k))
  }

  /** Why an entry cannot be created at `p`: its parent is missing or not a directory. */
  function ParentProblem(fs: FileSystem, p: Path): Option<IoKind>
    requires p != []
  {
    if |p| == 1 then None
    else if Parent(p) !in fs then Some(NotFound)
    else if fs[Parent(p)].Dir? then None
    else Some(NotADirectory)
  }

  /** `mkdir(2)`. */
  function Mkdir(fs: FileSystem, p: Path): (r: Result<FileSystem>)
    requires p != []
    ensures r.Ok? <==> p !in fs && ParentProblem(fs, p).None?
    ensures r.Ok? ==> r.value == fs[p := Dir]
  {
    if p in fs then IoErr(AlreadyExists)
    else if ParentProblem(fs, p).Some? then IoErr(ParentProblem(fs, p).value)
    else Ok(fs[p := Dir])
  }

  /**
   * `fs::create_dir_all`: try `mkdir`; when the parent is missing, create the parent
   * first and try again; an error is no error when the path is already a directory.
   */
  function CreateDirAll(fs: FileSystem, p: Path): (r: Result<FileSystem>)
    ensures r.Err? ==> r.error.FileOperation?
    decreases |p|
  {
    if p == [] then Ok(fs)
    else
      var first := Mkdir(fs, p);
      if first.Ok? then first
      else if first.error != FileOperation(NotFound) then
        if IsDir(fs, p) then Ok(fs) else first
      else
        match CreateDirAll(fs, Parent(p))
        case Err(e) => Err(e)
        case Ok(fs1) =>
          var second := Mkdir(fs1, p);
          if second.Ok? then second
          else if IsDir(fs1, p) then Ok(fs1)
          else second
  }

  /**
   * Where the link chain from `p` breaks off: the first path along it that has no entry.
   * `None` when the chain reaches an entry that is no link, or runs out of budget.
   */
  function BrokenEnd(fs: FileSystem, p: Path, fuel: nat): (r: Option<Path>)
    ensures r.Some? ==> r.value != [] && r.value !in fs
    ensures r.Some? ==> Follow(fs, p, fuel).None?
    decreases fuel
  {
    if p == [] then None
    else if p !in fs then Some(p)
    else match fs[p]
      case Symlink(t) => if fuel == 0 then None else BrokenEnd(fs, Resolve(Parent(p), t), fuel - 1)
      case _ => None
  }

  /** Whether opening `p` with `O_CREAT` makes a new file: `p` leads nowhere, and where it breaks off sits in a directory. */
  predicate Creatable(fs: FileSystem, p: Path) {
    var e := BrokenEnd(fs, p, MaxFollow);
    e.Some? && ParentProblem(fs, e.value).None?
  }

  /** The entry a write to `p` fills: the end of its links, whether or not a file is there yet. */
  function WriteTarget(fs: FileSystem, p: Path): Option<Path> {
    if Exists(fs, p) then Canonical(fs, p) else BrokenEnd(fs, p, MaxFollow)
  }

  /**
   * The frame of a write to `path`: one entry, where its links end, is added or
   * replaced, and every other entry is kept as it was.
   */
  predicate WriteFrame(fs: FileSystem, path: Path, fs2: FileSystem) {
    var t := WriteTarget(fs, path);
    && t.Some?
    && fs2.Keys == fs.Keys + {t.value}
    && forall q | q in fs && q != t.value :: fs2[q] == fs[q]
  }

  /**
   * `fs::write`: creates or truncates, following a link at `p`. Through a broken link the
   * file is created where the chain breaks off, as `open(2)` with `O_CREAT` does.
   */
  function WriteFile(fs: FileSystem, p: Path, content: string): (r: Result<FileSystem>)
    ensures r.Ok? ==> forall q | q in fs && !fs[q].File? :: q in r.value && r.value[q] == fs[q]
    ensures !Exists(fs, p) ==> (r.Ok? <==> Creatable(fs, p))
    ensures !Exists(fs, p) && r.Ok? ==> r.value == fs[BrokenEnd(fs, p, MaxFollow).value := File(content)]
    ensures Exists(fs, p) ==> (r.Ok? <==> IsFile(fs, p))
    ensures r.Ok? ==> WriteTarget(fs, p).Some? && r.value == fs[WriteTarget(fs, p).value := File(content)]
    ensures r.Ok? ==> WriteFrame(fs, p, r.value)
  {
    if p == [] then IoErr(IsADirectory)
    else
      var c := Canonical(fs, p);
      if c.Some? then
        if c.value == [] || fs[c.value].Dir? then IoErr(IsADirectory)
        else Ok(fs[c.value := File(content)])
      else
        match BrokenEnd(fs, p, MaxFollow)
        case None => IoErr(NotFound)
        case Some(e) =>
          if ParentProblem(fs, e).Some? then IoErr(ParentProblem(fs, e).value)
          else Ok(fs[e := File(content)])
  }

  /**
   * A link to a missing file in an existing directory: `fs::write` through the link
   * creates the file there and leaves the link as it is.
   */
  lemma WriteThroughDanglingLink(fs: FileSystem, p: Path, t: LinkTarget, content: string)
    requires p != [] && p in fs && fs[p] == Symlink(t)
    requires Resolve(Parent(p), t) != [] && Resolve(Parent(p), t) !in fs
    requires |Resolve(Parent(p), t)| == 1 || (Parent(Resolve(Parent(p), t)) in fs && fs[Parent(Resolve(Parent(p), t))].Dir?)
    ensures WriteFile(fs, p, content) == Ok(fs[Resolve(Parent(p), t) := File(content)])
  {
  }

  /** `fs::read_to_string`, following links. */
  function ReadToString(fs: FileSystem, p: Path): (r: Result<string>)
    ensures r.Ok? <==> ContentAt(fs, p).Some?
    ensures r.Ok? ==> r.value == ContentAt(fs, p).value
    ensures r.Err? ==> r.error == FileOperation(if Exists(fs, p) then IsADirectory else NotFound)
  {
    var c := Canonical(fs, p);
    if c.None? then IoErr(NotFound)
    else if c.value == [] || fs[c.value].Dir? then IoErr(IsADirectory)
    else Ok(fs[c.value].content)
  }

  /** `fs::remove_file`: unlinks the entry itself, never what a link designates. */
  function RemoveFile(fs: FileSystem, p: Path): (r: Result<FileSystem>)
    ensures r.Ok? <==> p != [] && p in fs && !fs[p].Dir?
    ensures r.Ok? ==> r.value == fs - {p}
    ensures r.Err? ==> r.error == FileOperation(if p == [] || p in fs then IsADirectory else NotFound)
  {
    if p == [] || (p in fs && fs[p].Dir?) then IoErr(IsADirectory)
    else if p !in fs then IoErr(NotFound)
    else Ok(fs - {p})
  }

  /** `std::os::unix::fs::symlink(target, link)`. */
  function MakeSymlink(fs: FileSystem, target: LinkTarget, link: Path): (r: Result<FileSystem>)
    ensures r.Ok? <==> TargetText(target) != "" && link != [] && link !in fs && ParentProblem(fs, link).None?
    ensures r.Ok? ==> r.value == fs[link := Symlink(target)]
  {
    if TargetText(target) == "" then IoErr(NotFound)
    else if link == [] || link in fs then IoErr(AlreadyExists)
    else if ParentProblem(fs, link).Some? then IoErr(ParentProblem(fs, link).value)
    else Ok(fs[link := Symlink(target)])
  }

  /** `fs::read_link`. */
  function ReadLink(fs: FileSystem, p: Path): (r: Result<LinkTarget>)
    ensures r.Ok? <==> IsSymlink(fs, p)
    ensures r.Ok? ==> r.value == fs[p].target
    ensures r.Err? ==> r.error == FileOperation(if p == [] || p in fs then InvalidInput else NotFound)
  {
    if p != [] && p !in fs then IoErr(NotFound)
    else if p == [] || !fs[p].Symlink? then IoErr(InvalidInput)
    else Ok(fs[p].target)
  }

  /** Whether the directory `d` holds any entry. */
  predicate HasChildren(fs: FileSystem, d: Path) {
    exists q | q in fs :: IsPrefix(d, q) && q != d
  }

  /**
   * The entries after `src` and everything below it moved to `dst`; whatever was at
   * `dst` is replaced.
   */
  function MoveTree(fs: FileSystem, src: Path, dst: Path): FileSystem {
    var kept := map p | p in fs && !IsPrefix(src, p) && !IsPrefix(dst, p) :: fs[p];
    var keys := set p | p in fs && IsPrefix(src, p) :: Rebase(p, src, dst);
    var moved := map q | q in keys :: fs[src + q[|dst|..]];
    kept + moved
  }

  /** `fs::rename` (`rename(2)`): neither path's final link is followed. */
  function Rename(fs: FileSystem, src: Path, dst: Path): (r: Result<FileSystem>)
    ensures r.Ok? ==> src != [] && dst != [] && src in fs
    ensures r.Ok? ==> r.value == (if src == dst then fs else MoveTree(fs, src, dst))
  {
    if src == [] || dst == [] then IoErr(Busy)
    else if src !in fs then IoErr(NotFound)
    else if ParentProblem(fs, dst).Some? then IoErr(ParentProblem(fs, dst).value)
    else if src == dst then Ok(fs)
    else if fs[src].Dir? && IsPrefix(src, dst) then IoErr(InvalidInput)
    else if dst in fs && fs[dst].Dir? && !fs[src].Dir? then IoErr(IsADirectory)
    else if dst in fs && fs[dst].Dir? && HasChildren(fs, dst) then IoErr(DirectoryNotEmpty)
    else if dst in fs && !fs[dst].Dir? && fs[src].Dir? then IoErr(NotADirectory)
    else Ok(MoveTree(fs, src, dst))
  }

  /**
   * `fs::canonicalize` of a path given relative to `cwd`: `..` is resolved lexically,
   * then the final link chain is followed.
   */
  function Canonicalize(fs: FileSystem, cwd: Path, b: PathBuf): (r: Result<Path>)
    ensures r.Ok? <==> Exists(fs, Absolute(cwd, b))
    ensures r.Ok? ==> r.value == Canonical(fs, Absolute(cwd, b)).value && !IsSymlink(fs, r.value)
  {
    var c := Canonical(fs, Absolute(cwd, b));
    if c.Some? then Ok(c.value) else IoErr(NotFound)
  }

  /** A composite step that may fail after changing the filesystem. */
  datatype Outcome<T> = Outcome(fs: FileSystem, result: Result<T>)

  // ---------------------------------------------------------------------------------
  // Properties of the primitives
  // ---------------------------------------------------------------------------------

  /** An entry that is not a link is its own canonical form. */
  lemma CanonicalPlain(fs: FileSystem, p: Path)
    requires p != [] && p in fs && !fs[p].Symlink?
    ensures Canonical(fs, p) == Some(p) && Exists(fs, p)
    ensures IsDir(fs, p) <==> fs[p].Dir?
    ensures IsFile(fs, p) <==> fs[p].File?
  {
  }

  /** A link designates an existing entry exactly when the entry it stores does. */
  lemma {:induction false} CanonicalLink(fs: FileSystem, p: Path, fuel: nat)
    requires IsSymlink(fs, p) && fuel > 0
    ensures Follow(fs, p, fuel) == Follow(fs, Resolve(Parent(p), fs[p].target), fuel - 1)
  {
  }

  /** A link whose stored target names an entry that is not a link resolves to that entry. */
  lemma LinkToPlain(fs: FileSystem, p: Path, q: Path)
    requires IsSymlink(fs, p) && Resolve(Parent(p), fs[p].target) == q
    requires q != [] && q in fs && !fs[q].Symlink?
    ensures Canonical(fs, p) == Some(q) && Exists(fs, p)
  {
    CanonicalLink(fs, p, MaxFollow);
  }

  /** `create_dir_all` succeeds only by leaving a directory at the path, adding only directories. */
  lemma {:induction false} CreateDirAllSpec(fs: FileSystem, p: Path)
    requires CreateDirAll(fs, p).Ok?
    ensures IsDir(CreateDirAll(fs, p).value, p)
    ensures forall q | q in fs :: q in CreateDirAll(fs, p).value && CreateDirAll(fs, p).value[q] == fs[q]
    ensures forall q | q in CreateDirAll(fs, p).value && q !in fs ::
              CreateDirAll(fs, p).value[q] == Dir && IsPrefix(q, p)
    decreases |p|
  {
    if p != [] {
      var first := Mkdir(fs, p);
      if first.Ok? {
        CanonicalPlain(first.value, p);
      } else if first.error == FileOperation(NotFound) {
        CreateDirAllSpec(fs, Parent(p));
        var fs1 := CreateDirAll(fs, Parent(p)).value;
        var second := Mkdir(fs1, p);
        if second.Ok? {
          CanonicalPlain(second.value, p);
          forall q | q in second.value && q !in fs
            ensures second.value[q] == Dir && IsPrefix(q, p)
          {
            if q != p {
              assert q in fs1;
              assert IsPrefix(q, Parent(p));
            }
          }
        }
      }
    }
  }

  /** `create_dir_all` on a directory that is already there changes nothing. */
  lemma CreateDirAllOnDir(fs: FileSystem, p: Path)
    requires IsDir(fs, p)
    ensures CreateDirAll(fs, p) == Ok(fs)
  {
  }

  /** `create_dir_all` keeps the filesystem well formed. */
  lemma {:induction false} CreateDirAllWf(fs: FileSystem, p: Path)
    requires Wf(fs) && CreateDirAll(fs, p).Ok?
    ensures Wf(CreateDirAll(fs, p).value)
    decreases |p|
  {
    if p != [] {
      var first := Mkdir(fs, p);
      if first.Ok? {
      } else if first.error == FileOperation(NotFound) {
        CreateDirAllWf(fs, Parent(p));
      }
    }
  }

  /** What `fs::write` wrote is what `fs::read_to_string` reads back, through the same path. */
  lemma WriteRead(fs: FileSystem, p: Path, content: string)
    requires WriteFile(fs, p, content).Ok?
    ensures ReadToString(WriteFile(fs, p, content).value, p) == Ok(content)
  {
    var c := Canonical(fs, p);
    if c.Some? {
      WriteFollow(fs, p, c.value, content, MaxFollow);
    } else {
      BrokenEndFilled(fs, p, BrokenEnd(fs, p, MaxFollow).value, content, MaxFollow);
    }
  }

  /** Once a file sits where a link chain broke off, the chain leads to it. */
  lemma {:induction false} BrokenEndFilled(fs: FileSystem, p: Path, e: Path, content: string, fuel: nat)
    requires BrokenEnd(fs, p, fuel) == Some(e)
    ensures Follow(fs[e := File(content)], p, fuel) == Some(e)
    decreases fuel
  {
    if p in fs {
      BrokenEndFilled(fs, Resolve(Parent(p), fs[p].target), e, content, fuel - 1);
    }
  }

  /** Replacing a file's content does not change where any link chain leads. */
  lemma {:induction false} WriteFollow(fs: FileSystem, p: Path, c: Path, content: string, fuel: nat)
    requires c in fs && fs[c].File?
    ensures Follow(fs[c := File(content)], p, fuel) == Follow(fs, p, fuel)
    decreases fuel
  {
    var fs2 := fs[c := File(content)];
    if p != [] && p in fs && fs[p].Symlink? && fuel > 0 {
      WriteFollow(fs, Resolve(Parent(p), fs[p].target), c, content, fuel - 1);
    }
  }

  /** `fs::write` changes one entry and nothing else. */
  lemma WriteOthers(fs: FileSystem, p: Path, content: string)
    requires WriteFile(fs, p, content).Ok?
    ensures var fs2 := WriteFile(fs, p, content).value;
            exists c :: fs2 == fs[c := File(content)] && (c in fs ==> fs[c].File?)
  {
    var c := Canonical(fs, p);
    if c.Some? {
      assert WriteFile(fs, p, content).value == fs[c.value := File(content)];
    } else {
      var e := BrokenEnd(fs, p, MaxFollow).value;
      assert WriteFile(fs, p, content).value == fs[e := File(content)];
    }
  }

  /** `fs::write` keeps the filesystem well formed. */
  lemma WriteWf(fs: FileSystem, p: Path, content: string)
    requires Wf(fs) && WriteFile(fs, p, content).Ok?
    ensures Wf(WriteFile(fs, p, content).value)
  {
  }

  /** `fs::remove_file` keeps the filesystem well formed: a non-directory has no entries under it. */
  lemma RemoveWf(fs: FileSystem, p: Path)
    requires Wf(fs) && RemoveFile(fs, p).Ok?
    ensures Wf(RemoveFile(fs, p).value)
  {
  }

  /** A link just made reads back as the target it was given. */
  lemma SymlinkReadLink(fs: FileSystem, target: LinkTarget, link: Path)
    requires MakeSymlink(fs, target, link).Ok?
    ensures ReadLink(MakeSymlink(fs, target, link).value, link) == Ok(target)
    ensures IsSymlink(MakeSymlink(fs, target, link).value, link)
  {
  }

  lemma SymlinkWf(fs: FileSystem, target: LinkTarget, link: Path)
    requires Wf(fs) && MakeSymlink(fs, target, link).Ok?
    ensures Wf(MakeSymlink(fs, target, link).value)
  {
  }

  /** An entry strictly inside `a` forces `a` to be a directory. */
  lemma {:induction false} AncestorIsDir(fs: FileSystem, a: Path, x: Path)
    requires Wf(fs) && x in fs && |a| > 0 && IsPrefix(a, x) && a != x
    ensures a in fs && fs[a].Dir?
    decreases |x|
  {
    assert |x| > 1;
    var px := Parent(x);
    if px != a {
      assert IsPrefix(a, px);
      AncestorIsDir(fs, a, px);
    }
  }

  /** An entry below `src` reappears below `dst`. */
  lemma MoveTreeMoved(fs: FileSystem, src: Path, dst: Path, p: Path)
    requires p in fs && IsPrefix(src, p)
    ensures Rebase(p, src, dst) in MoveTree(fs, src, dst)
    ensures MoveTree(fs, src, dst)[Rebase(p, src, dst)] == fs[p]
  {
  }

  /** An entry below neither path stays. */
  lemma MoveTreeKept(fs: FileSystem, src: Path, dst: Path, q: Path)
    requires q in fs && !IsPrefix(src, q) && !IsPrefix(dst, q)
    ensures q in MoveTree(fs, src, dst) && MoveTree(fs, src, dst)[q] == fs[q]
  {
  }

  /** Every entry after the move either stayed or came from below `src`. */
  lemma MoveTreeKeys(fs: FileSystem, src: Path, dst: Path, q: Path)
    requires q in MoveTree(fs, src, dst)
    ensures || (q in fs && !IsPrefix(src, q) && !IsPrefix(dst, q) && MoveTree(fs, src, dst)[q] == fs[q])
            || (IsPrefix(dst, q) && IsPrefix(src, src + q[|dst|..]) && src + q[|dst|..] in fs
                && q == Rebase(src + q[|dst|..], src, dst))
  {
    var kept := map p | p in fs && !IsPrefix(src, p) && !IsPrefix(dst, p) :: fs[p];
    var keys := set p | p in fs && IsPrefix(src, p) :: Rebase(p, src, dst);
    if q in keys {
      var p :| p in fs && IsPrefix(src, p) && Rebase(p, src, dst) == q;
      assert src + q[|dst|..] == p;
    } else {
      assert q in kept;
    }
  }

  /** What `rename` leaves: the moved entry at `dst`, nothing at `src`, the rest untouched. */
  lemma RenameMoves(fs: FileSystem, src: Path, dst: Path)
    requires Wf(fs) && Rename(fs, src, dst).Ok? && src != dst
    ensures var fs2 := Rename(fs, src, dst).value;
            dst in fs2 && fs2[dst] == fs[src] && src !in fs2
    ensures var fs2 := Rename(fs, src, dst).value;
            forall q | q in fs && !IsPrefix(src, q) && !IsPrefix(dst, q) :: q in fs2 && fs2[q] == fs[q]
    ensures var fs2 := Rename(fs, src, dst).value;
            forall q | q in fs && IsPrefix(src, q) :: Rebase(q, src, dst) in fs2 && fs2[Rebase(q, src, dst)] == fs[q]
  {
    var fs2 := Rename(fs, src, dst).value;
    RenameVacates(fs, src, dst);
    forall q | q in fs && !IsPrefix(src, q) && !IsPrefix(dst, q)
      ensures q in fs2 && fs2[q] == fs[q]
    {
      MoveTreeKept(fs, src, dst, q);
    }
    forall q | q in fs && IsPrefix(src, q)
      ensures Rebase(q, src, dst) in fs2 && fs2[Rebase(q, src, dst)] == fs[q]
    {
      MoveTreeMoved(fs, src, dst, q);
    }
  }

  /** After `rename` the entry is at `dst` and no longer at `src`. */
  lemma RenameVacates(fs: FileSystem, src: Path, dst: Path)
    requires Wf(fs) && Rename(fs, src, dst).Ok? && src != dst
    ensures var fs2 := Rename(fs, src, dst).value;
            dst in fs2 && fs2[dst] == fs[src] && src !in fs2
  {
    var fs2 := Rename(fs, src, dst).value;
    assert Rebase(src, src, dst) == dst;
    MoveTreeMoved(fs, src, dst, src);
    NotIntoDescendant(fs, src, dst);
    if src in fs2 {
      MoveTreeKeys(fs, src, dst, src);
    }
  }

  /** `rename` never succeeds in moving an entry onto one of its ancestors: that directory is not empty. */
  lemma NotIntoDescendant(fs: FileSystem, src: Path, dst: Path)
    requires Wf(fs) && Rename(fs, src, dst).Ok? && src != dst
    ensures !IsPrefix(dst, src)
  {
    AncestorBlocks(fs, src, dst);
  }

  /** An entry's ancestor is a directory that has children. */
  lemma AncestorBlocks(fs: FileSystem, src: Path, dst: Path)
    requires Wf(fs) && src in fs && src != dst && dst != []
    ensures IsPrefix(dst, src) ==> dst in fs && fs[dst].Dir? && HasChildren(fs, dst)
  {
    if IsPrefix(dst, src) {
      AncestorIsDir(fs, dst, src);
      assert src in fs && IsPrefix(dst, src) && src != dst;
    }
  }

  /** `rename` keeps the filesystem well formed. */
  lemma RenameWf(fs: FileSystem, src: Path, dst: Path)
    requires Wf(fs) && Rename(fs, src, dst).Ok?
    ensures Wf(Rename(fs, src, dst).value)
  {
    if src != dst {
      var fs2 := Rename(fs, src, dst).value;
      forall q | q in fs2
        ensures q != [] && (|q| > 1 ==> Parent(q) in fs2 && fs2[Parent(q)].Dir?)
      {
        MoveTreeKeys(fs, src, dst, q);
        if q in fs && !IsPrefix(src, q) && !IsPrefix(dst, q) {
          RenameWfKept(fs, src, dst, q);
        } else {
          RenameWfMoved(fs, src, dst, src + q[|dst|..]);
        }
      }
    }
  }

  /** A prefix of a path's parent is a prefix of the path. */
  lemma PrefixOfParent(a: Path, q: Path)
    requires |q| > 0 && IsPrefix(a, Parent(q))
    ensures IsPrefix(a, q)
  {
    assert q[..|a|] == Parent(q)[..|a|];
  }

  lemma RenameWfKept(fs: FileSystem, src: Path, dst: Path, q: Path)
    requires Wf(fs) && Rename(fs, src, dst).Ok? && src != dst
    requires q in fs && !IsPrefix(src, q) && !IsPrefix(dst, q)
    ensures |q| > 1 ==> Parent(q) in Rename(fs, src, dst).value && Rename(fs, src, dst).value[Parent(q)].Dir?
  {
    if |q| > 1 {
      if IsPrefix(src, Parent(q)) {
        PrefixOfParent(src, q);
      } else if IsPrefix(dst, Parent(q)) {
        PrefixOfParent(dst, q);
      } else {
        MoveTreeKept(fs, src, dst, Parent(q));
      }
    }
  }

  /** The new place of `src` lies in a directory that stays where it is. */
  lemma RenameWfTop(fs: FileSystem, src: Path, dst: Path)
    requires Wf(fs) && Rename(fs, src, dst).Ok? && src != dst && |dst| > 1
    ensures Parent(dst) in Rename(fs, src, dst).value && Rename(fs, src, dst).value[Parent(dst)].Dir?
  {
    var pd := Parent(dst);
    if IsPrefix(src, pd) {
      PrefixOfParent(src, dst);
      if pd != src {
        AncestorIsDir(fs, src, pd);
      }
    } else {
      assert !IsPrefix(dst, pd);
      MoveTreeKept(fs, src, dst, pd);
    }
  }

  lemma RenameWfMoved(fs: FileSystem, src: Path, dst: Path, p: Path)
    requires Wf(fs) && Rename(fs, src, dst).Ok? && src != dst
    requires p in fs && IsPrefix(src, p)
    ensures var q := Rebase(p, src, dst);
            q != [] && (|q| > 1 ==> Parent(q) in Rename(fs, src, dst).value &&
                                    Rename(fs, src, dst).value[Parent(q)].Dir?)
  {
    var q := Rebase(p, src, dst);
    if |q| > 1 {
      if p == src {
        RebaseSelf(src, dst);
        RenameWfTop(fs, src, dst);
      } else {
        RenameWfBelow(fs, src, dst, p);
      }
    }
  }

  lemma RenameWfBelow(fs: FileSystem, src: Path, dst: Path, p: Path)
    requires Wf(fs) && Rename(fs, src, dst).Ok? && src != dst
    requires p in fs && IsPrefix(src, p) && p != src
    ensures var q := Rebase(p, src, dst);
            |q| > 0 && Parent(q) in Rename(fs, src, dst).value && Rename(fs, src, dst).value[Parent(q)].Dir?
  {
    var pp := Parent(p);
    assert IsPrefix(src, pp);
    assert pp in fs && fs[pp].Dir?;
    RebaseParent(p, src, dst);
    MoveTreeMoved(fs, src, dst, pp);
  }

  lemma RebaseSelf(src: Path, dst: Path)
    ensures Rebase(src, src, dst) == dst
  {
    assert src[|src|..] == [];
    assert dst + [] == dst;
  }

  lemma RebaseParent(p: Path, src: Path, dst: Path)
    requires |p| > |src| && IsPrefix(src, p)
    ensures IsPrefix(src, Parent(p)) && |Rebase(p, src, dst)| > 0
    ensures Rebase(Parent(p), src, dst) == Parent(Rebase(p, src, dst))
  {
    assert Parent(p)[..|src|] == p[..|src|];
  }

  /** Nothing lies below a path that is not itself an entry. */
  lemma AbsentHasNoChildren(fs: FileSystem, d: Path, x: Path)
    requires Wf(fs) && d != [] && d !in fs && x in fs
    ensures !IsPrefix(d, x)
  {
    if IsPrefix(d, x) && d != x {
      AncestorIsDir(fs, d, x);
    }
  }

  /** Moving a tree to a fresh place and back restores every entry. */
  lemma MoveTreeBackKeeps(fs: FileSystem, s: Path, d: Path, k: Path)
    requires Wf(fs) && s != [] && d != [] && d !in fs && k in fs
    ensures k in MoveTree(MoveTree(fs, s, d), d, s)
    ensures MoveTree(MoveTree(fs, s, d), d, s)[k] == fs[k]
  {
    var fs2 := MoveTree(fs, s, d);
    AbsentHasNoChildren(fs, d, k);
    if IsPrefix(s, k) {
      var r := Rebase(k, s, d);
      MoveTreeMoved(fs, s, d, k);
      MoveTreeMoved(fs2, d, s, r);
      assert Rebase(r, d, s) == k;
    } else {
      MoveTreeKept(fs, s, d, k);
      MoveTreeKept(fs2, d, s, k);
    }
  }

  /** Moving a tree to a fresh place and back adds no entry. */
  lemma MoveTreeBackAdds(fs: FileSystem, s: Path, d: Path, k: Path)
    requires Wf(fs) && s != [] && d != [] && d !in fs
    requires k in MoveTree(MoveTree(fs, s, d), d, s)
    ensures k in fs
  {
    var fs2 := MoveTree(fs, s, d);
    MoveTreeKeys(fs2, d, s, k);
    if k in fs2 && !IsPrefix(d, k) && !IsPrefix(s, k) {
      MoveTreeKeys(fs, s, d, k);
    } else {
      var p := d + k[|s|..];
      MoveTreeKeys(fs, s, d, p);
      if p in fs {
        AbsentHasNoChildren(fs, d, p);
      }
      assert s + p[|d|..] == k;
    }
  }

  /** `MoveTree` to a fresh place is undone by the move back. */
  lemma MoveTreeInverse(fs: FileSystem, s: Path, d: Path)
    requires Wf(fs) && s != [] && d != [] && d !in fs
    ensures MoveTree(MoveTree(fs, s, d), d, s) == fs
  {
    var fs3 := MoveTree(MoveTree(fs, s, d), d, s);
    forall k | k in fs
      ensures k in fs3 && fs3[k] == fs[k]
    {
      MoveTreeBackKeeps(fs, s, d, k);
    }
    forall k | k in fs3
      ensures k in fs
    {
      MoveTreeBackAdds(fs, s, d, k);
    }
  }

  /** Renaming onto a free path whose parent is a directory succeeds, unless a directory would go inside itself. */
  lemma RenameFresh(fs: FileSystem, src: Path, dst: Path)
    requires src != [] && dst != [] && src in fs && dst !in fs && ParentProblem(fs, dst).None?
    requires !(fs[src].Dir? && IsPrefix(src, dst))
    ensures Rename(fs, src, dst) == Ok(MoveTree(fs, src, dst))
  {
  }
}

=== FILE: gitignore.dfy ===
/**
 * The block of `.gitignore` entries the SOPS commands manage: a line classifier that
 * splits the file around the delimited block, the rewrite that puts a fresh block in,
 * and the clean-up that takes it out.
 */
module Gitignore {
  import opened Text
  import opened Paths
  import opened Errors
  import opened Fs
  import opened Order

  const GITIGNORE := ".gitignore"
  /** The marker lines: "# ", 34 dashes, the marker word between spaces, 35 dashes. */
  const SECTION_START := "# " + Dashes(34) + " confguard-start " + Dashes(35)
  const SECTION_END := "# " + Dashes(34) + " confguard-end " + Dashes(35)
  /** What follows each managed entry, before the timestamp. */
  const SOPS_MANAGED := "  # sops-managed "

  function Dashes(n: nat): (r: string)
    ensures |r| == n && forall i | 0 <= i < n :: r[i] == '-'
  {
    if n == 0 then "" else "-" + Dashes(n - 1)
  }

  function GitignorePath(project: Path): Path {
    project + [GITIGNORE]
  }

  predicate IsMarker(l: string) {
    l == SECTION_START || l == SECTION_END
  }

  predicate NoMarkers(ls: seq<string>) {
    forall l | l in ls :: !IsMarker(l)
  }

  /** Lines that `Lines` reads back one for one. */
  predicate PlainLines(ls: seq<string>) {
    forall l | l in ls :: PlainLine(l)
  }

  /** The lines that are no marker, in order. */
  function Unmarked(ls: seq<string>): (r: seq<string>)
    ensures NoMarkers(r)
    ensures forall l | l in r :: l in ls
  {
    if ls == [] then []
    else if IsMarker(ls[0]) then Unmarked(ls[1..])
    else [ls[0]] + Unmarked(ls[1..])
  }

  // ---------------------------------------------------------------------------------
  // split_sections
  // ---------------------------------------------------------------------------------

  /** The three groups of lines collected so far, and whether the scan is inside the block. */
  datatype Sections = Sections(pre: seq<string>, section: seq<string>, post: seq<string>, inSection: bool)

  const Start := Sections([], [], [], false)

  /** All collected lines, group after group. */
  function Groups(s: Sections): seq<string> {
    s.pre + s.section + s.post
  }

  /** Lines only go after the block once the block has had lines. */
  predicate Ordered(s: Sections) {
    s.section == [] ==> s.post == []
  }

  /**
   * One line of the scan: a marker only switches the mode; inside the block a line
   * joins the section; outside it joins `pre` while the section is still empty, and
   * `post` after that.
   */
  function Step(s: Sections, line: string): Sections {
    if line == SECTION_START then s.(inSection := true)
    else if line == SECTION_END then s.(inSection := false)
    else if s.inSection then s.(section := s.section + [line])
    else if s.section == [] then s.(pre := s.pre + [line])
    else s.(post := s.post + [line])
  }

  /**
   * The loop of `split_sections` from state `s` over the lines `ls`. Lines are only
   * appended: what a group held stays at its front, and at most one group entry is
   * added per line.
   */
  function Scan(s: Sections, ls: seq<string>): (r: Sections)
    ensures s.pre <= r.pre && s.section <= r.section && s.post <= r.post
    ensures |Groups(r)| <= |Groups(s)| + |ls|
    decreases |ls|
  {
    if ls == [] then s else Scan(Step(s, ls[0]), ls[1..])
  }

  /**
   * `split_sections`: the lines before, inside and after the managed block. The lines
   * that are no markers are partitioned among the three groups, no marker lands in any,
   * and no line goes after the block unless the block has lines. Text without markers
   * is all in the first group.
   */
  function SplitSections(content: string): (r: Sections)
    ensures multiset(Groups(r)) == multiset(Unmarked(Lines(content)))
    ensures NoMarkers(r.pre) && NoMarkers(r.section) && NoMarkers(r.post)
    ensures Ordered(r)
    ensures NoMarkers(Lines(content)) ==> r == Sections(Lines(content), [], [], false)
  {
    ScanFromStart(Lines(content));
    if NoMarkers(Lines(content)) then
      ScanUnmarked(Lines(content));
      Scan(Start, Lines(content))
    else Scan(Start, Lines(content))
  }

  /** The scan from the empty state partitions the unmarked lines and keeps markers out. */
  lemma ScanFromStart(ls: seq<string>)
    ensures var r := Scan(Start, ls);
            && multiset(Groups(r)) == multiset(Unmarked(ls))
            && NoMarkers(r.pre) && NoMarkers(r.section) && NoMarkers(r.post)
            && Ordered(r)
  {
    var r := Scan(Start, ls);
    ScanPartition(Start, ls);
    assert Groups(Start) == [];
    forall l | l in r.pre || l in r.section || l in r.post
      ensures !IsMarker(l)
    {
      assert l in Groups(r);
    }
  }

  /** Without markers, the scan from the empty state puts every line in the first group. */
  lemma ScanUnmarked(ls: seq<string>)
    requires NoMarkers(ls)
    ensures Scan(Start, ls) == Sections(ls, [], [], false)
  {
    ScanPlain(Start, ls);
    assert [] + ls == ls;
  }

  lemma {:induction false} ScanAppend(s: Sections, a: seq<string>, b: seq<string>)
    ensures Scan(s, a + b) == Scan(Scan(s, a), b)
    decreases |a|
  {
    if a == [] {
      assert a + b == b;
    } else {
      assert (a + b)[0] == a[0];
      assert (a + b)[1..] == a[1..] + b;
      ScanAppend(Step(s, a[0]), a[1..], b);
    }
  }

  lemma ScanOne(s: Sections, l: string)
    ensures Scan(s, [l]) == Step(s, l)
  {
    assert [l][1..] == [];
  }

  /** Within a run of lines without markers, the scan adds them all to the current group. */
  lemma ScanPlain(s: Sections, ls: seq<string>)
    requires NoMarkers(ls)
    ensures !s.inSection && s.section == [] ==> Scan(s, ls) == s.(pre := s.pre + ls)
    ensures s.inSection ==> Scan(s, ls) == s.(section := s.section + ls)
    ensures !s.inSection && s.section != [] ==> Scan(s, ls) == s.(post := s.post + ls)
  {
    ScanExtends(s, ls);
  }

  /** The group a line without markers joins, extended by `ls`. */
  function Extend(s: Sections, ls: seq<string>): Sections {
    if s.inSection then s.(section := s.section + ls)
    else if s.section == [] then s.(pre := s.pre + ls)
    else s.(post := s.post + ls)
  }

  lemma {:induction false} ScanExtends(s: Sections, ls: seq<string>)
    requires NoMarkers(ls)
    ensures Scan(s, ls) == Extend(s, ls)
    decreases |ls|
  {
    if ls == [] {
      assert s.pre + [] == s.pre && s.section + [] == s.section && s.post + [] == s.post;
    } else {
      assert ls[0] in ls;
      ScanExtends(Step(s, ls[0]), ls[1..]);
      StepExtend(s, ls[0], ls[1..]);
      assert [ls[0]] + ls[1..] == ls;
    }
  }

  lemma StepExtend(s: Sections, l: string, rest: seq<string>)
    requires !IsMarker(l)
    ensures Extend(Step(s, l), rest) == Extend(s, [l] + rest)
  {
    assert s.pre + [l] + rest == s.pre + ([l] + rest);
    assert s.section + [l] + rest == s.section + ([l] + rest);
    assert s.post + [l] + rest == s.post + ([l] + rest);
  }

  lemma UnmarkedCons(ls: seq<string>)
    requires ls != []
    ensures multiset(Unmarked(ls)) == multiset(Unmarked([ls[0]])) + multiset(Unmarked(ls[1..]))
  {
    assert [ls[0]][1..] == [];
  }

  /** One line goes to exactly one group unless it is a marker. */
  lemma StepPartition(s: Sections, line: string)
    requires Ordered(s)
    ensures Ordered(Step(s, line))
    ensures multiset(Groups(Step(s, line))) == multiset(Groups(s)) + multiset(Unmarked([line]))
    ensures NoMarkers(Groups(s)) ==> NoMarkers(Groups(Step(s, line)))
  {
    UnmarkedOne(line);
    if IsMarker(line) {
      assert Groups(Step(s, line)) == Groups(s);
    } else {
      StepPlain(s, line);
    }
  }

  lemma UnmarkedOne(line: string)
    ensures Unmarked([line]) == if IsMarker(line) then [] else [line]
  {
    assert [line][1..] == [];
  }

  /** A line that is no marker joins one group, and the other two stay. */
  lemma StepPlain(s: Sections, line: string)
    requires Ordered(s) && !IsMarker(line)
    ensures Ordered(Step(s, line))
    ensures multiset(Groups(Step(s, line))) == multiset(Groups(s)) + multiset([line])
    ensures NoMarkers(Groups(s)) ==> NoMarkers(Groups(Step(s, line)))
  {
    var r := Step(s, line);
    if s.inSection {
      assert r == s.(section := s.section + [line]);
      JoinMiddle(s.pre, s.section, s.post, line);
    } else if s.section == [] {
      assert r == s.(pre := s.pre + [line]);
      assert Groups(r) == s.pre + [line] + s.post;
      JoinMiddle(s.pre, [], s.post, line);
    } else {
      assert r == s.(post := s.post + [line]);
      assert Groups(r) == Groups(s) + [line];
    }
  }

  lemma JoinMiddle(a: seq<string>, b: seq<string>, c: seq<string>, line: string)
    ensures multiset(a + (b + [line]) + c) == multiset(a + b + c) + multiset([line])
    ensures NoMarkers(a + b + c) && !IsMarker(line) ==> NoMarkers(a + (b + [line]) + c)
  {
    assert a + (b + [line]) + c == (a + b) + [line] + c;
  }

  /**
   * Every line that is no marker lands in exactly one group, and no marker lands in
   * any; while the section is empty nothing goes to `post`.
   */
  lemma {:induction false} ScanPartition(s: Sections, ls: seq<string>)
    requires Ordered(s)
    ensures Ordered(Scan(s, ls))
    ensures multiset(Groups(Scan(s, ls))) == multiset(Groups(s)) + multiset(Unmarked(ls))
    ensures NoMarkers(Groups(s)) ==> NoMarkers(Groups(Scan(s, ls)))
    decreases |ls|
  {
    if ls != [] {
      StepPartition(s, ls[0]);
      ScanPartition(Step(s, ls[0]), ls[1..]);
      UnmarkedCons(ls);
    }
  }

  /** The groups of a split are made of the text's own lines. */
  lemma SplitPlain(content: string)
    requires PlainLines(Lines(content))
    ensures var r := SplitSections(content);
            PlainLines(r.pre) && PlainLines(r.section) && PlainLines(r.post)
  {
    var r := SplitSections(content);
    forall l | l in Groups(r)
      ensures PlainLine(l)
    {
      assert l in multiset(Groups(r));
      assert l in Unmarked(Lines(content));
    }
  }


  /**
   * A text made of lines `pre`, the start marker, lines `section`, the end marker and
   * lines `post` splits into those three groups, except that with an empty section the
   * lines after the block join `pre`.
   */
  lemma ScanBlock(pre: seq<string>, section: seq<string>, post: seq<string>)
    requires NoMarkers(pre) && NoMarkers(section) && NoMarkers(post)
    ensures Scan(Start, pre + [SECTION_START] + section + [SECTION_END] + post)
         == if section == [] then Sections(pre + post, [], [], false) else Sections(pre, section, post, false)
  {
    var s1 := Scan(Start, pre);
    ScanPlain(Start, pre);
    assert s1 == Sections(pre, [], [], false);
    var s2 := Scan(s1, [SECTION_START]);
    ScanOne(s1, SECTION_START);
    assert s2 == Sections(pre, [], [], true);
    var s3 := Scan(s2, section);
    ScanPlain(s2, section);
    assert s3 == Sections(pre, section, [], true);
    var s4 := Scan(s3, [SECTION_END]);
    ScanOne(s3, SECTION_END);
    assert s4 == Sections(pre, section, [], false);
    ScanPlain(s4, post);
    ScanAppend(Start, pre, [SECTION_START]);
    ScanAppend(Start, pre + [SECTION_START], section);
    ScanAppend(Start, pre + [SECTION_START] + section, [SECTION_END]);
    ScanAppend(Start, pre + [SECTION_START] + section + [SECTION_END], post);
  }

  lemma TerminatedFour(w: string, x: string, y: string, z: string)
    ensures Terminated([w, x, y, z]) == w + "\n" + x + "\n" + y + "\n" + z + "\n"
  {
    assert Terminated([z]) == z + "\n" by { assert [z][1..] == []; }
    assert Terminated([y, z]) == y + "\n" + Terminated([z]) by { assert [y, z][1..] == [z]; }
    assert Terminated([x, y, z]) == x + "\n" + Terminated([y, z]) by { assert [x, y, z][1..] == [y, z]; }
    assert Terminated([w, x, y, z]) == w + "\n" + Terminated([x, y, z]) by { assert [w, x, y, z][1..] == [x, y, z]; }
  }

  /** Four terminated plain lines and a last unterminated one read back as those five lines. */
  lemma LinesFourThenLast(w: string, x: string, y: string, z: string, c: string)
    requires PlainLine(w) && PlainLine(x) && PlainLine(y) && PlainLine(z) && '\n' !in c && c != []
    ensures Lines(w + "\n" + x + "\n" + y + "\n" + z + "\n" + c) == [w, x, y, z, c]
  {
    var t := w + "\n" + x + "\n" + y + "\n" + z + "\n";
    assert Lines(t) == [w, x, y, z] by {
      TerminatedFour(w, x, y, z);
      ReadBackLines([w, x, y, z]);
    }
    assert EndsWith(t, "\n") by {
      assert t[|t| - 1] == '\n';
    }
    LinesThenLast(t, c);
  }

  /** A last line without a newline after text that ends in one adds just that line. */
  lemma LinesThenLast(t: string, c: string)
    requires EndsWith(t, "\n") && '\n' !in c && c != []
    ensures Lines(t + c) == Lines(t) + [c]
  {
    LinesAppend(t, c);
    assert Lines(c) == [c] by {
      assert IndexOfChar(c, '\n') == |c|;
    }
  }

  /** A line, the block with one line, and a last line without a final newline. */
  lemma SplitBlockText(a: string, b: string, c: string)
    requires PlainLine(a) && PlainLine(b) && '\n' !in c && c != []
    requires !IsMarker(a) && !IsMarker(b) && !IsMarker(c)
    ensures SplitSections(a + "\n" + SECTION_START + "\n" + b + "\n" + SECTION_END + "\n" + c)
         == Sections([a], [b], [c], false)
  {
    StartChars();
    EndChars();
    LinesFourThenLast(a, SECTION_START, b, SECTION_END, c);
    assert [a, SECTION_START, b, SECTION_END, c] == [a] + [SECTION_START] + [b] + [SECTION_END] + [c];
    ScanBlock([a], [b], [c]);
  }

  /** The example of the tests: one line before, one inside and one after the block. */
  lemma SplitExample()
    ensures SplitSections("before" + "\n" + SECTION_START + "\n" + "middle" + "\n" + SECTION_END + "\n" + "after")
         == Sections(["before"], ["middle"], ["after"], false)
  {
    StartChars();
    EndChars();
    SplitBlockText("before", "middle", "after");
  }

  // ---------------------------------------------------------------------------------
  // The block and the rewritten text
  // ---------------------------------------------------------------------------------

  /** `*.<ext>` for each extension, in order. */
  function Globs(extensions: seq<string>): (r: seq<string>)
    ensures |r| == |extensions| && forall i | 0 <= i < |r| :: r[i] == "*." + extensions[i]
  {
    if extensions == [] then [] else ["*." + extensions[0]] + Globs(extensions[1..])
  }

  /** Each entry followed by the managed-entry note and the timestamp. */
  function Annotate(entries: seq<string>, timestamp: string): (r: seq<string>)
    ensures |r| == |entries| && forall i | 0 <= i < |r| :: r[i] == entries[i] + SOPS_MANAGED + timestamp
  {
    if entries == [] then [] else [entries[0] + SOPS_MANAGED + timestamp] + Annotate(entries[1..], timestamp)
  }

  /** The entries of the block: the extension globs and the file names, sorted. */
  function Entries(extensions: seq<string>, filenames: seq<string>): (r: seq<string>)
    ensures SortedStrings(r)
    ensures multiset(r) == multiset(Globs(extensions)) + multiset(filenames)
  {
    SortStrings(Globs(extensions) + filenames)
  }

  /** The lines between the markers of the block `update_entries` writes. */
  function Inner(extensions: seq<string>, filenames: seq<string>, timestamp: string): seq<string> {
    Annotate(Entries(extensions, filenames), timestamp)
  }

  function BlockLines(extensions: seq<string>, filenames: seq<string>, timestamp: string): seq<string> {
    [SECTION_START] + Inner(extensions, filenames, timestamp) + [SECTION_END]
  }

  /** `writeln!(file, "{}", lines.join("\n"))`. */
  function WriteLn(lines: seq<string>): string {
    Join(lines, "\n") + "\n"
  }

  /** A group is written only when it has lines. */
  function Written(lines: seq<string>): string {
    if lines == [] then "" else WriteLn(lines)
  }

  /**
   * The text `update_entries` writes: `pre` if any, the new block, `post` if any. Each
   * line of the old text that is outside the block, and each line of the new block,
   * ends with a newline, in that order.
   */
  function UpdatedText(content: string, extensions: seq<string>, filenames: seq<string>, timestamp: string): (r: string)
    ensures var s := SplitSections(content);
            r == Terminated(s.pre + BlockLines(extensions, filenames, timestamp) + s.post)
  {
    var s := SplitSections(content);
    var block := BlockLines(extensions, filenames, timestamp);
    WrittenTerminated(s.pre);
    WriteLnTerminated(block);
    WrittenTerminated(s.post);
    TerminatedAppend(s.pre, block);
    TerminatedAppend(s.pre + block, s.post);
    Written(s.pre) + WriteLn(block) + Written(s.post)
  }

  /**
   * The text `clean_entries` writes: `pre` if any, then `post` if any, so every line
   * outside the block ends with a newline and the block is gone.
   */
  function CleanedText(content: string): (r: string)
    ensures var s := SplitSections(content); r == Terminated(s.pre + s.post)
  {
    var s := SplitSections(content);
    WrittenTerminated(s.pre);
    WrittenTerminated(s.post);
    TerminatedAppend(s.pre, s.post);
    Written(s.pre) + Written(s.post)
  }

  lemma {:induction false} WriteLnTerminated(ls: seq<string>)
    requires ls != []
    ensures WriteLn(ls) == Terminated(ls)
    decreases |ls|
  {
    if |ls| > 1 {
      WriteLnTerminated(ls[1..]);
      assert WriteLn(ls) == ls[0] + "\n" + WriteLn(ls[1..]);
    }
  }

  /** Writing a group, empty or not, is writing each of its lines followed by a newline. */
  lemma WrittenTerminated(ls: seq<string>)
    ensures Written(ls) == Terminated(ls)
  {
    if ls != [] {
      WriteLnTerminated(ls);
    }
  }

  lemma {:induction false} TerminatedAppend(a: seq<string>, b: seq<string>)
    ensures Terminated(a + b) == Terminated(a) + Terminated(b)
    decreases |a|
  {
    if a == [] {
      assert a + b == b;
    } else {
      assert (a + b)[0] == a[0];
      assert (a + b)[1..] == a[1..] + b;
      TerminatedAppend(a[1..], b);
    }
  }

  /** Terminated lines without newlines or trailing carriage returns read back as themselves. */
  lemma ReadBackLines(ls: seq<string>)
    requires PlainLines(ls)
    ensures Lines(Terminated(ls)) == ls
  {
    assert forall i | 0 <= i < |ls| :: ls[i] in ls;
    LinesTerminated(ls);
  }

  /** Entries and a timestamp that keep every block line one plain line. */
  predicate PlainInputs(extensions: seq<string>, filenames: seq<string>, timestamp: string) {
    && (forall e | e in extensions :: '\n' !in e)
    && (forall f | f in filenames :: '\n' !in f)
    && PlainLine(timestamp)
  }

  lemma EntriesNoNewline(extensions: seq<string>, filenames: seq<string>)
    requires forall e | e in extensions :: '\n' !in e
    requires forall f | f in filenames :: '\n' !in f
    ensures forall e | e in Entries(extensions, filenames) :: '\n' !in e
  {
    var es := Entries(extensions, filenames);
    var gs := Globs(extensions);
    forall g | g in gs
      ensures '\n' !in g
    {
      var j :| 0 <= j < |gs| && gs[j] == g;
      assert extensions[j] in extensions;
      assert g == "*." + extensions[j];
    }
    forall e | e in es
      ensures '\n' !in e
    {
      assert e in multiset(es);
      assert e in multiset(gs + filenames);
      assert e in gs + filenames;
    }
  }

  /** The markers are plain lines without the letter `p`. */
  lemma StartChars()
    ensures PlainLine(SECTION_START) && 'p' !in SECTION_START
  {
    var w := " confguard-start ";
    assert '\n' !in w && 'p' !in w;
    assert forall i | 0 <= i < |SECTION_START| :: SECTION_START[i] in "# " || SECTION_START[i] == '-' || SECTION_START[i] in w;
  }

  lemma EndChars()
    ensures PlainLine(SECTION_END) && 'p' !in SECTION_END
  {
    var w := " confguard-end ";
    assert '\n' !in w && 'p' !in w;
    assert forall i | 0 <= i < |SECTION_END| :: SECTION_END[i] in "# " || SECTION_END[i] == '-' || SECTION_END[i] in w;
  }

  /** An annotated entry is one plain line and no marker: it mentions "sops". */
  lemma AnnotatedPlain(e: string, timestamp: string)
    requires '\n' !in e && PlainLine(timestamp)
    ensures PlainLine(e + SOPS_MANAGED + timestamp) && !IsMarker(e + SOPS_MANAGED + timestamp)
  {
    var l := e + SOPS_MANAGED + timestamp;
    ManagedChars();
    assert l[|e| + 6] == 'p';
    WithP(l, |e| + 6);
    JoinPlain(e, SOPS_MANAGED, timestamp);
  }

  lemma ManagedChars()
    ensures |SOPS_MANAGED| > 6 && SOPS_MANAGED[6] == 'p'
    ensures '\n' !in SOPS_MANAGED && SOPS_MANAGED[|SOPS_MANAGED| - 1] == ' '
  {
  }

  /** A line with a `p` in it is no marker. */
  lemma WithP(l: string, i: nat)
    requires i < |l| && l[i] == 'p'
    ensures !IsMarker(l)
  {
    StartChars();
    EndChars();
  }

  /** Three pieces without newlines, the last two not ending in a carriage return, make a plain line. */
  lemma JoinPlain(a: string, b: string, c: string)
    requires '\n' !in a && '\n' !in b && '\n' !in c && b != [] && b[|b| - 1] != '\r'
    requires PlainLine(c)
    ensures PlainLine(a + b + c)
  {
    var l := a + b + c;
    if c == [] {
      assert l[|l| - 1] == b[|b| - 1];
    } else {
      assert l[|l| - 1] == c[|c| - 1];
    }
    assert forall k | 0 <= k < |l| :: l[k] in a || l[k] in b || l[k] in c;
  }

  /** Every line between the markers is plain and is no marker. */
  lemma InnerPlain(extensions: seq<string>, filenames: seq<string>, timestamp: string)
    requires PlainInputs(extensions, filenames, timestamp)
    ensures PlainLines(Inner(extensions, filenames, timestamp)) && NoMarkers(Inner(extensions, filenames, timestamp))
  {
    var es := Entries(extensions, filenames);
    var inner := Inner(extensions, filenames, timestamp);
    EntriesNoNewline(extensions, filenames);
    forall l | l in inner
      ensures PlainLine(l) && !IsMarker(l)
    {
      var i :| 0 <= i < |inner| && inner[i] == l;
      assert es[i] in es;
      AnnotatedPlain(es[i], timestamp);
    }
  }

  /** The block's lines are plain. */
  lemma BlockPlain(extensions: seq<string>, filenames: seq<string>, timestamp: string)
    requires PlainInputs(extensions, filenames, timestamp)
    ensures PlainLines(BlockLines(extensions, filenames, timestamp))
  {
    InnerPlain(extensions, filenames, timestamp);
    StartChars();
    EndChars();
  }

  /** `pre`, the block and `post` of a text with plain lines, and the plain lines they make together. */
  lemma UpdatedPieces(content: string, extensions: seq<string>, filenames: seq<string>, timestamp: string)
    requires PlainLines(Lines(content)) && PlainInputs(extensions, filenames, timestamp)
    ensures var s := SplitSections(content);
            var block := BlockLines(extensions, filenames, timestamp);
            && UpdatedText(content, extensions, filenames, timestamp) == Terminated(s.pre + block + s.post)
            && PlainLines(s.pre + block + s.post)
  {
    var s := SplitSections(content);
    var block := BlockLines(extensions, filenames, timestamp);
    SplitPlain(content);
    BlockPlain(extensions, filenames, timestamp);
    WrittenTerminated(s.pre);
    WrittenTerminated(s.post);
    WriteLnTerminated(block);
    TerminatedAppend(s.pre, block);
    TerminatedAppend(s.pre + block, s.post);
  }

  /** The lines of the updated text: the old `pre`, the block, the old `post`. */
  lemma UpdatedLines(content: string, extensions: seq<string>, filenames: seq<string>, timestamp: string)
    requires PlainLines(Lines(content)) && PlainInputs(extensions, filenames, timestamp)
    ensures var s := SplitSections(content);
            Lines(UpdatedText(content, extensions, filenames, timestamp))
            == s.pre + BlockLines(extensions, filenames, timestamp) + s.post
  {
    var s := SplitSections(content);
    UpdatedPieces(content, extensions, filenames, timestamp);
    ReadBackLines(s.pre + BlockLines(extensions, filenames, timestamp) + s.post);
  }

  /**
   * Splitting the updated text finds the old `pre` and `post` around the new entries;
   * with no entries at all the block is empty and everything after it joins `pre`.
   */
  lemma UpdatedSplit(content: string, extensions: seq<string>, filenames: seq<string>, timestamp: string)
    requires PlainLines(Lines(content)) && PlainInputs(extensions, filenames, timestamp)
    ensures var s := SplitSections(content);
            var inner := Inner(extensions, filenames, timestamp);
            SplitSections(UpdatedText(content, extensions, filenames, timestamp))
            == if inner == [] then Sections(s.pre + s.post, [], [], false) else Sections(s.pre, inner, s.post, false)
  {
    var s := SplitSections(content);
    var inner := Inner(extensions, filenames, timestamp);
    UpdatedLines(content, extensions, filenames, timestamp);
    InnerPlain(extensions, filenames, timestamp);
    Regroup(s.pre, SECTION_START, inner, SECTION_END, s.post);
    ScanBlock(s.pre, inner, s.post);
  }

  lemma Regroup(p: seq<string>, x: string, m: seq<string>, y: string, q: seq<string>)
    ensures p + ([x] + m + [y]) + q == p + [x] + m + [y] + q
  {
  }

  /** The cleaned text: the old `pre`, then the old `post`, as plain lines. */
  lemma CleanedLines(content: string)
    requires PlainLines(Lines(content))
    ensures var s := SplitSections(content);
            && CleanedText(content) == Terminated(s.pre + s.post)
            && PlainLines(s.pre + s.post) && NoMarkers(s.pre + s.post)
            && Lines(CleanedText(content)) == s.pre + s.post
  {
    var s := SplitSections(content);
    SplitPlain(content);
    WrittenTerminated(s.pre);
    WrittenTerminated(s.post);
    TerminatedAppend(s.pre, s.post);
    ReadBackLines(s.pre + s.post);
  }

  /** Cleaning after an update gives the same text as cleaning before it: the block is gone entirely. */
  lemma CleanAfterUpdate(content: string, extensions: seq<string>, filenames: seq<string>, timestamp: string)
    requires PlainLines(Lines(content)) && PlainInputs(extensions, filenames, timestamp)
    ensures CleanedText(UpdatedText(content, extensions, filenames, timestamp)) == CleanedText(content)
  {
    var u := UpdatedText(content, extensions, filenames, timestamp);
    var s := SplitSections(content);
    UpdatedSplit(content, extensions, filenames, timestamp);
    WrittenTerminated(s.pre);
    WrittenTerminated(s.post);
    WrittenTerminated(s.pre + s.post);
    TerminatedAppend(s.pre, s.post);
  }

  /** Updating twice with the same entries and time gives the text of one update. */
  lemma UpdateIdempotent(content: string, extensions: seq<string>, filenames: seq<string>, timestamp: string)
    requires PlainLines(Lines(content)) && PlainInputs(extensions, filenames, timestamp)
    ensures var u := UpdatedText(content, extensions, filenames, timestamp);
            Inner(extensions, filenames, timestamp) != [] || SplitSections(content).post == [] ==>
              UpdatedText(u, extensions, filenames, timestamp) == u
  {
    var s := SplitSections(content);
    UpdatedSplit(content, extensions, filenames, timestamp);
    WrittenTerminated(s.pre);
    WrittenTerminated(s.post);
    WrittenTerminated(s.pre + s.post);
    TerminatedAppend(s.pre, s.post);
  }

  /** A cleaned text holds no block, so cleaning it again changes nothing. */
  lemma CleanIdempotent(content: string)
    requires PlainLines(Lines(content))
    ensures CleanedText(CleanedText(content)) == CleanedText(content)
  {
    var s := SplitSections(content);
    var c := CleanedText(content);
    CleanedLines(content);
    WrittenTerminated(s.pre + s.post);
  }

  // ---------------------------------------------------------------------------------
  // The file operations
  // ---------------------------------------------------------------------------------

  /**
   * `update_entries`: read `.gitignore` (empty when it does not exist), then write it
   * back with the block replaced by one holding the given entries.
   */
  function UpdateEntries(fs: FileSystem, project: Path, extensions: seq<string>, filenames: seq<string>,
                         timestamp: string): (r: Result<FileSystem>)
    ensures Exists(fs, GitignorePath(project)) && ContentAt(fs, GitignorePath(project)).None? ==> r.Err?
    ensures r.Ok? <==> if Exists(fs, GitignorePath(project)) then IsFile(fs, GitignorePath(project))
                       else Creatable(fs, GitignorePath(project))
    ensures r.Ok? ==> WriteFrame(fs, GitignorePath(project), r.value)
    ensures r.Ok? ==>
              var old_ := if Exists(fs, GitignorePath(project)) then ContentAt(fs, GitignorePath(project)).value else "";
              ContentAt(r.value, GitignorePath(project)) == Some(UpdatedText(old_, extensions, filenames, timestamp))
  {
    var path := GitignorePath(project);
    var content :- if Exists(fs, path) then ReadToString(fs, path) else Ok("");
    var text := UpdatedText(content, extensions, filenames, timestamp);
    var w := WriteFile(fs, path, text);
    assert w.Ok? ==> ReadToString(w.value, path) == Ok(text) by {
      if w.Ok? { WriteRead(fs, path, text); }
    }
    w
  }

  /**
   * `clean_entries`: nothing to do without a `.gitignore`; otherwise the file is
   * rewritten with only the lines outside the block.
   */
  function CleanEntries(fs: FileSystem, project: Path): (r: Result<FileSystem>)
    ensures !Exists(fs, GitignorePath(project)) ==> r == Ok(fs)
    ensures Exists(fs, GitignorePath(project)) && ContentAt(fs, GitignorePath(project)).None? ==> r.Err?
    ensures Exists(fs, GitignorePath(project)) && r.Ok? ==>
              ContentAt(r.value, GitignorePath(project)) == Some(CleanedText(ContentAt(fs, GitignorePath(project)).value))
    ensures Exists(fs, GitignorePath(project)) ==> (r.Ok? <==> IsFile(fs, GitignorePath(project)))
    ensures Exists(fs, GitignorePath(project)) && r.Ok? ==> WriteFrame(fs, GitignorePath(project), r.value)
  {
    var path := GitignorePath(project);
    if !Exists(fs, path) then Ok(fs)
    else
      var content :- ReadToString(fs, path);
      var w := WriteFile(fs, path, CleanedText(content));
      assert w.Ok? ==> ReadToString(w.value, path) == Ok(CleanedText(content)) by {
        if w.Ok? { WriteRead(fs, path, CleanedText(content)); }
      }
      w
  }

  /**
   * `clean_entries` after `update_entries` leaves `.gitignore` reading as the cleaned
   * old file (an empty file if there was none): the entries are gone again.
   */
  lemma CleanAfterUpdateEntries(fs: FileSystem, project: Path, extensions: seq<string>, filenames: seq<string>,
                                timestamp: string)
    requires UpdateEntries(fs, project, extensions, filenames, timestamp).Ok?
    requires PlainInputs(extensions, filenames, timestamp)
    requires Exists(fs, GitignorePath(project)) ==> PlainLines(Lines(ContentAt(fs, GitignorePath(project)).value))
    requires CleanEntries(UpdateEntries(fs, project, extensions, filenames, timestamp).value, project).Ok?
    ensures var fs2 := CleanEntries(UpdateEntries(fs, project, extensions, filenames, timestamp).value, project).value;
            var old_ := if Exists(fs, GitignorePath(project)) then ContentAt(fs, GitignorePath(project)).value else "";
            ContentAt(fs2, GitignorePath(project)) == Some(CleanedText(old_))
  {
    var path := GitignorePath(project);
    var old_ := if Exists(fs, path) then ContentAt(fs, path).value else "";
    var fs1 := UpdateEntries(fs, project, extensions, filenames, timestamp).value;
    assert ContentAt(fs1, path).Some?;
    assert Exists(fs1, path);
    if !Exists(fs, path) {
      assert Lines("") == [];
    }
    CleanAfterUpdate(old_, extensions, filenames, timestamp);
  }
}

=== FILE: guard.dfy ===
/**
 * The guard life cycle of a project: the checks before guarding, making the sentinel
 * directory in the store, moving `.envrc` there behind a link and stamping it, and
 * the way back. Every step is a transition of the filesystem model; a step that can
 * fail after changing something returns the filesystem it leaves together with the
 * error.
 */
module Guard {
  import opened Text
  import opened Order
  import opened Paths
  import opened Errors
  import opened Fs
  import opened HomeBased
  import opened HelperPath
  import opened Section
  import opened Link
  import opened MoveLink
  import opened Envrc

  /**
   * What the tool takes from its surroundings: the working directory, the home
   * directory (if one can be found), the configured base directory and format version,
   * the clock's reading as RFC 3339 text, the random number behind the sentinel's
   * suffix, and the files embedded in the binary.
   */
  datatype Env = Env(
    cwd: Path,
    home: Option<Path>,
    base: Path,
    version: int,
    timestamp: string,
    random: nat,
    resources: map<string, string>)

  const ENVIRONMENTS := ["local", "test", "int", "prod"]
  const ENVIRONMENTS_DIR := "environments"
  const DOT_ENVRC := "dot.envrc"
  const RSENV := "rsenv.sh"
  const RUN_CONFIG := [".idea", "runConfigurations", RSENV]

  function EnvrcOf(sourceDir: Path): Path {
    sourceDir + [ENVRC]
  }

  /** `<dir name>-<8 lowercase hex digits>`: the directory of the project in the store. */
  function SentinelName(sourceDir: Path, random: nat): string
    requires sourceDir != []
  {
    FileName(sourceDir) + "-" + HexDigits(random, 8)
  }

  function Bufs(ps: seq<Path>): (r: seq<PathBuf>)
    ensures |r| == |ps| && forall i | 0 <= i < |ps| :: r[i] == Buf(ps[i])
  {
    if ps == [] then [] else [Buf(ps[0])] + Bufs(ps[1..])
  }

  /**
   * `new_for_guarding`: the project must have an `.envrc` (following links), it must
   * not be a link, and it must not already hold a section. The new record has no
   * sentinel and no target directory yet.
   */
  function NewForGuarding(fs: FileSystem, env: Env, sourceDir: Path, isRelative: bool): (r: Result<ConfGuard>)
    ensures !Exists(fs, EnvrcOf(sourceDir)) ==> r == Err(NoEnvrcFile(Buf(sourceDir)))
    ensures Exists(fs, EnvrcOf(sourceDir)) && IsSymlink(fs, EnvrcOf(sourceDir)) ==> r == Err(ProjectAlreadyGuardedSymlink)
    ensures Exists(fs, EnvrcOf(sourceDir)) && !IsSymlink(fs, EnvrcOf(sourceDir)) ==>
              var read := FromEnvrc(fs, env.cwd, env.home, env.base, EnvrcOf(sourceDir));
              && (read.Err? ==> r == Err(read.error))
              && (read.Ok? && read.value.Some? ==> r == Err(AlreadyGuarded(Buf(sourceDir))))
              && (read == Ok(None) <==> r.Ok?)
    ensures r.Ok? ==>
              && r.value.sourceDir == sourceDir && r.value.isRelative == isRelative
              && r.value.version == env.version && r.value.baseDir == env.base
              && r.value.sentinel == "" && r.value.targetDir.None?
  {
    var envrc := EnvrcOf(sourceDir);
    if !Exists(fs, envrc) then Err(NoEnvrcFile(Buf(sourceDir)))
    else if IsSymlink(fs, envrc) then Err(ProjectAlreadyGuardedSymlink)
    else
      var found :- FromEnvrc(fs, env.cwd, env.home, env.base, envrc);
      if found.Some? then Err(AlreadyGuarded(Buf(sourceDir)))
      else Ok(ConfGuard(env.version, sourceDir, isRelative, env.base, None, ""))
  }

  /**
   * `from_guarded_project`: the record read back from the project's `.envrc`, which
   * must exist and hold a complete section.
   */
  function FromGuardedProject(fs: FileSystem, env: Env, sourceDir: Path): (r: Result<ConfGuard>)
    ensures !Exists(fs, EnvrcOf(sourceDir)) ==> r == Err(NoEnvrcFile(Buf(sourceDir)))
    ensures Exists(fs, EnvrcOf(sourceDir)) ==>
              var read := FromEnvrc(fs, env.cwd, env.home, env.base, EnvrcOf(sourceDir));
              && (read.Err? ==> r == Err(read.error))
              && (read == Ok(None) ==> r == Err(NotGuarded(Buf(sourceDir))))
              && (r.Ok? <==> read.Ok? && read.value.Some?)
              && (r.Ok? ==> r.value == read.value.value)
  {
    var envrc := EnvrcOf(sourceDir);
    if !Exists(fs, envrc) then Err(NoEnvrcFile(Buf(sourceDir)))
    else
      var found :- FromEnvrc(fs, env.cwd, env.home, env.base, envrc);
      if found.None? then Err(NotGuarded(Buf(sourceDir))) else Ok(found.value)
  }

  /**
   * `create_sentinel`: refuses a record that already has a sentinel or a project at the
   * root, makes `base/guarded`, refuses when a directory there already looks like a
   * sentinel of a project with the same name, then makes `base/guarded/<sentinel>`.
   * An error returns no record. The source has already stored the new sentinel name in
   * its record when that last directory creation fails; this partial update is not kept.
   */
  function CreateSentinel(fs: FileSystem, env: Env, g: ConfGuard): (o: Outcome<ConfGuard>)
    ensures g.sentinel != "" ==> o == Outcome(fs, Err(SentinelAlreadySet))
    ensures g.sentinel == "" && g.sourceDir == [] ==> o == Outcome(fs, Err(InvalidSourceDirectory))
    ensures o.result.Ok? ==>
              && g.sentinel == "" && g.sourceDir != []
              && var s := SentinelName(g.sourceDir, env.random);
                 var target := g.baseDir + [GUARDED, s];
                 && o.result.value == g.(sentinel := s, targetDir := Some(target))
                 && IsDir(o.fs, target)
                 && CreateDirAll(fs, g.baseDir + [GUARDED]).Ok?
                 && FindSentinelDirs(CreateDirAll(fs, g.baseDir + [GUARDED]).value,
                                     g.baseDir + [GUARDED], FileName(g.sourceDir)) == Ok([])
    ensures o.result.Err? && o.result.error.SentinelExists? ==>
              && g.sentinel == "" && g.sourceDir != []
              && CreateDirAll(fs, g.baseDir + [GUARDED]).Ok?
              && o.fs == CreateDirAll(fs, g.baseDir + [GUARDED]).value
              && var found := FindSentinelDirs(o.fs, g.baseDir + [GUARDED], FileName(g.sourceDir));
                 found.Ok? && found.value != [] && o.result.error.paths == Bufs(found.value)
  {
    if g.sentinel != "" then Outcome(fs, Err(SentinelAlreadySet))
    else if g.sourceDir == [] then Outcome(fs, Err(InvalidSourceDirectory))
    else
      match CreateDirAll(fs, g.baseDir + [GUARDED])
      case Err(e) => Outcome(fs, Err(e))
      case Ok(fs1) => SentinelIn(fs1, env, g)
  }

  /** The part of `create_sentinel` after `base/guarded` is made: scan it, then make the new directory. */
  function SentinelIn(fs: FileSystem, env: Env, g: ConfGuard): (o: Outcome<ConfGuard>)
    requires g.sourceDir != []
    ensures o.result.Ok? ==>
              var s := SentinelName(g.sourceDir, env.random);
              var target := g.baseDir + [GUARDED, s];
              && o.result.value == g.(sentinel := s, targetDir := Some(target))
              && IsDir(o.fs, target)
              && FindSentinelDirs(fs, g.baseDir + [GUARDED], FileName(g.sourceDir)) == Ok([])
    ensures o.result.Err? && o.result.error.SentinelExists? ==>
              && o.fs == fs
              && var found := FindSentinelDirs(fs, g.baseDir + [GUARDED], FileName(g.sourceDir));
                 found.Ok? && found.value != [] && o.result.error.paths == Bufs(found.value)
  {
    var guarded := g.baseDir + [GUARDED];
    match FindSentinelDirs(fs, guarded, FileName(g.sourceDir))
    case Err(e) => Outcome(fs, Err(e))
    case Ok(found) =>
      if found != [] then Outcome(fs, Err(SentinelExists(Bufs(found))))
      else
        var sentinel := SentinelName(g.sourceDir, env.random);
        var target := guarded + [sentinel];
        assert target == g.baseDir + [GUARDED, sentinel];
        match CreateDirAll(fs, target)
        case Err(e) => Outcome(fs, Err(e))
        case Ok(fs2) =>
          CreateDirAllSpec(fs, target);
          Outcome(fs2, Ok(g.(sentinel := sentinel, targetDir := Some(target))))
  }

  /** What `generate_env_content` writes for one environment. */
  function EnvContent(e: string): string {
    "export RUN_ENV=\"" + e + "\"\n"
  }

  function EnvFile(envDir: Path, e: string): Path {
    envDir + [e + ".env"]
  }

  /** `create_environment_file` for each environment in turn, stopping at the first failure. */
  function WriteEnvFiles(fs: FileSystem, envDir: Path, envs: seq<string>): (o: Outcome<()>)
    ensures forall q | q in fs :: q in o.fs
    decreases |envs|
  {
    if envs == [] then Outcome(fs, Ok(()))
    else
      match WriteFile(fs, EnvFile(envDir, envs[0]), EnvContent(envs[0]))
      case Err(e) => Outcome(fs, Err(e))
      case Ok(fs1) =>
        WriteOthers(fs, EnvFile(envDir, envs[0]), EnvContent(envs[0]));
        WriteEnvFiles(fs1, envDir, envs[1..])
  }

  /**
   * `copy_file_from_resources`: the embedded file must exist; a missing parent of the
   * destination is created; then the file is created (following a link) and filled.
   * Permission bits are not part of the model.
   */
  function CopyResource(fs: FileSystem, resources: map<string, string>, name: string, dest: Path)
    : (o: Outcome<()>)
    ensures name !in resources ==> o == Outcome(fs, Err(ResourceNotFound(name)))
    ensures o.result.Ok? ==> name in resources && ContentAt(o.fs, dest) == Some(resources[name])
    ensures forall q | q in fs :: q in o.fs
    ensures name in resources && dest != [] && Exists(fs, Parent(dest)) ==>
              (o.result.Ok? <==> if Exists(fs, dest) then IsFile(fs, dest) else Creatable(fs, dest))
    ensures name in resources && dest != [] && Exists(fs, Parent(dest)) && o.result.Ok? ==> WriteFrame(fs, dest, o.fs)
  {
    if name !in resources then Outcome(fs, Err(ResourceNotFound(name)))
    else
      var made := if dest == [] || Exists(fs, Parent(dest)) then Ok(fs) else CreateDirAll(fs, Parent(dest));
      match made
      case Err(e) => Outcome(fs, Err(e))
      case Ok(fs1) =>
        assert forall q | q in fs :: q in fs1 by {
          if dest != [] && !Exists(fs, Parent(dest)) {
            CreateDirAllSpec(fs, Parent(dest));
          }
        }
        match WriteFile(fs1, dest, resources[name])
        case Err(e) => Outcome(fs1, Err(e))
        case Ok(fs2) =>
          WriteRead(fs1, dest, resources[name]);
          WriteOthers(fs1, dest, resources[name]);
          Outcome(fs2, Ok(()))
  }

  /**
   * `create_sops_envs`: needs the target directory; makes `<target>/environments`, writes
   * one file per environment there, then places the run-configuration script in the
   * project.
   */
  function CreateSopsEnvs(fs: FileSystem, env: Env, g: ConfGuard): (o: Outcome<()>)
    ensures g.targetDir.None? ==> o == Outcome(fs, Err(TargetDirectoryNotSet))
    ensures o.result.Ok? ==>
              && g.targetDir.Some? && RSENV in env.resources
              && ContentAt(o.fs, g.sourceDir + RUN_CONFIG) == Some(env.resources[RSENV])
  {
    if g.targetDir.None? then Outcome(fs, Err(TargetDirectoryNotSet))
    else
      var envDir := g.targetDir.value + [ENVIRONMENTS_DIR];
      match CreateDirAll(fs, envDir)
      case Err(e) => Outcome(fs, Err(e))
      case Ok(fs1) =>
        var w := WriteEnvFiles(fs1, envDir, ENVIRONMENTS);
        if w.result.Err? then w
        else CopyResource(w.fs, env.resources, RSENV, g.sourceDir + RUN_CONFIG)
  }

  /** The `SOPS_PATH` text: the directory of `target` relative to the home directory. */
  function SopsPath(home: Path, target: Path): string {
    TargetText(DiffPaths(if target == [] then [] else Parent(target), home))
  }

  /**
   * The section `update_dot_envrc` writes for the record, when the home directory is
   * known: the project path is stored home-based.
   */
  function SectionFor(env: Env, g: ConfGuard, target: Path): string
    requires env.home.Some?
  {
    var src := ToHomeBased(env.home, Buf(g.sourceDir)).value;
    SectionText(g.isRelative, g.version, g.sentinel, env.timestamp, src, SopsPath(env.home.value, target))
  }

  /**
   * `update_dot_envrc`: reads the file, then writes it back with the record's section
   * spliced in. Nothing is written when the home directory is unknown or the file
   * cannot be read. (For the root path, on which the source panics, the read fails.)
   */
  function UpdateDotEnvrc(fs: FileSystem, env: Env, g: ConfGuard, target: Path): (r: Result<FileSystem>)
    ensures env.home.None? ==> r == Err(CannotDetermineHome)
    ensures env.home.Some? && ContentAt(fs, target).None? ==>
              r == Err(FileOperation(if Exists(fs, target) then IsADirectory else NotFound))
    ensures r.Ok? <==> env.home.Some? && ContentAt(fs, target).Some?
    ensures r.Ok? ==>
              ReadToString(r.value, target) == Ok(Spliced(ContentAt(fs, target).value, SectionFor(env, g, target)))
    ensures r.Ok? ==> forall q | q in fs && !fs[q].File? :: q in r.value && r.value[q] == fs[q]
    ensures r.Ok? ==> WriteFrame(fs, target, r.value) && r.value.Keys == fs.Keys
  {
    if env.home.None? then Err(CannotDetermineHome)
    else
      var content :- ReadToString(fs, target);
      var src := ToHomeBased(env.home, Buf(g.sourceDir)).value;
      var section := SectionText(g.isRelative, g.version, g.sentinel, env.timestamp, src,
                                 SopsPath(env.home.value, target));
      var r := WriteFile(fs, target, Spliced(content, section));
      assert r.Ok?;
      WriteRead(fs, target, Spliced(content, section));
      r
  }

  /**
   * `delete_section`: reads the file and writes it back with the section removed; the
   * entry its links lead to is the only one that changes.
   */
  function DeleteSection(fs: FileSystem, p: Path): (r: Result<FileSystem>)
    ensures ContentAt(fs, p).None? ==>
              r == Err(FileOperation(if Exists(fs, p) then IsADirectory else NotFound))
    ensures r.Ok? <==> ContentAt(fs, p).Some?
    ensures r.Ok? ==> ReadToString(r.value, p) == Ok(DeletedSection(ContentAt(fs, p).value))
    ensures r.Ok? ==> WriteFrame(fs, p, r.value) && r.value.Keys == fs.Keys
  {
    var content :- ReadToString(fs, p);
    var r := WriteFile(fs, p, DeletedSection(content));
    assert r.Ok?;
    WriteRead(fs, p, DeletedSection(content));
    r
  }

  /**
   * `relink` for an absolute path to a stamped `.envrc`: the file must exist and hold
   * a record; when the project's `.envrc` is already a live link the outcome is an
   * error saying where it leads; otherwise the link is created as the record says.
   */
  function Relink(fs: FileSystem, env: Env, envrc: Path): (o: Outcome<()>)
    ensures !Exists(fs, envrc) ==> o == Outcome(fs, Err(FileNotFound(Buf(envrc))))
    ensures Exists(fs, envrc) ==>
              var target := Canonical(fs, envrc).value;
              var read := FromEnvrc(fs, env.cwd, env.home, env.base, target);
              && (read.Err? ==> o == Outcome(fs, Err(read.error)))
              && (read == Ok(None) ==> o == Outcome(fs, Err(NotGuardedEnvrc(Buf(envrc)))))
              && (read.Ok? && read.value.Some? ==>
                    var original := EnvrcOf(read.value.value.sourceDir);
                    && (Exists(fs, original) && IsSymlink(fs, original) ==>
                          o.fs == fs
                          && (Canonical(fs, original) == Some(target) <==>
                                o.result == Err(LinkAlreadyExists(Display(original), Display(target))))
                          && (Canonical(fs, original) != Some(target) ==>
                                o.result == Err(LinkPointsElsewhere(Display(original),
                                                                    Display(Canonical(fs, original).value)))))
                    && (!(Exists(fs, original) && IsSymlink(fs, original)) ==>
                          o == CreateLink(fs, target, original, read.value.value.isRelative)))
  {
    if !Exists(fs, envrc) then Outcome(fs, Err(FileNotFound(Buf(envrc))))
    else
        var target := Canonical(fs, envrc).value;
        match FromEnvrc(fs, env.cwd, env.home, env.base, target)
        case Err(e) => Outcome(fs, Err(e))
        case Ok(None) => Outcome(fs, Err(NotGuardedEnvrc(Buf(envrc))))
        case Ok(Some(g)) =>
          var original := EnvrcOf(g.sourceDir);
          if Exists(fs, original) && IsSymlink(fs, original) then
            match LinkedTarget(fs, original)
            case Err(e) => Outcome(fs, Err(e))
            case Ok(existing) =>
              if existing == target then
                Outcome(fs, Err(LinkAlreadyExists(Display(original), Display(target))))
              else
                Outcome(fs, Err(LinkPointsElsewhere(Display(original), Display(existing))))
          else CreateLink(fs, target, original, g.isRelative)
  }

  /**
   * The canonical path an existing link leads to, found as `relink` does: read the
   * link, then canonicalise its text from the link's directory.
   */
  function LinkedTarget(fs: FileSystem, link: Path): (r: Result<Path>)
    requires Exists(fs, link) && IsSymlink(fs, link)
    ensures r == Ok(Canonical(fs, link).value)
  {
    var t := fs[link].target;
    CanonicalLink(fs, link, MaxFollow);
    FollowMore(fs, Resolve(Parent(link), t), MaxFollow - 1);
    match Canonical(fs, Resolve(Parent(link), t))
    case None => Err(Internal("canonicalize link target for: " + DebugPath(Buf(link)), Io(NotFound)))
    case Some(c) => Ok(c)
  }

  /** More fuel never changes where a chain that ends leads. */
  lemma {:induction false} FollowMore(fs: FileSystem, p: Path, fuel: nat)
    requires Follow(fs, p, fuel).Some?
    ensures Follow(fs, p, fuel + 1) == Follow(fs, p, fuel)
    decreases fuel
  {
    if p != [] && p in fs && fs[p].Symlink? {
      FollowMore(fs, Resolve(Parent(p), fs[p].target), fuel - 1);
    }
  }

  /**
   * `guard`: the project directory and its `.envrc` must exist and the `.envrc` must not
   * be a link; these checks come before any change. Then the sentinel directory is made,
   * the environment files written, `.envrc` moved to `<target>/dot.envrc` behind a link
   * (relative unless `absolute`), and the moved file stamped. The updated record is
   * returned.
   */
  function Guard(fs: FileSystem, env: Env, g: ConfGuard, absolute: bool): (o: Outcome<ConfGuard>)
    ensures !Exists(fs, g.sourceDir) ==> o == Outcome(fs, Err(SourceDirectoryNotFound(Buf(g.sourceDir))))
    ensures Exists(fs, g.sourceDir) && !Exists(fs, EnvrcOf(g.sourceDir)) ==>
              o == Outcome(fs, Err(NoEnvrcFile(Buf(g.sourceDir))))
    ensures Exists(fs, g.sourceDir) && Exists(fs, EnvrcOf(g.sourceDir)) && IsSymlink(fs, EnvrcOf(g.sourceDir)) ==>
              o == Outcome(fs, Err(ProjectAlreadyGuardedSymlink))
    ensures o.result.Ok? ==>
              && Exists(fs, EnvrcOf(g.sourceDir)) && !IsSymlink(fs, EnvrcOf(g.sourceDir))
              && o.result.value.isRelative == !absolute
              && o.result.value.targetDir.Some?
              && (IsPath(g.sourceDir) ==> IsSymlink(o.fs, EnvrcOf(g.sourceDir)))
  {
    var envrc := EnvrcOf(g.sourceDir);
    if !Exists(fs, g.sourceDir) then Outcome(fs, Err(SourceDirectoryNotFound(Buf(g.sourceDir))))
    else if !Exists(fs, envrc) then Outcome(fs, Err(NoEnvrcFile(Buf(g.sourceDir))))
    else if IsSymlink(fs, envrc) then Outcome(fs, Err(ProjectAlreadyGuardedSymlink))
    else
      assert IsPath(g.sourceDir) ==> Absolute(env.cwd, Buf(envrc)) == envrc by {
        if IsPath(g.sourceDir) {
          assert IsPath(envrc);
          NormalizePath(envrc);
        }
      }
      GuardSteps(fs, env, g.(isRelative := !absolute), envrc)
  }

  /** The changing part of `guard`, once the checks have passed. */
  function GuardSteps(fs: FileSystem, env: Env, g: ConfGuard, envrc: Path): (o: Outcome<ConfGuard>)
    ensures o.result.Ok? ==>
              && CreateSentinel(fs, env, g).result.Ok?
              && o.result.value == CreateSentinel(fs, env, g).result.value
              && IsSymlink(o.fs, Absolute(env.cwd, Buf(envrc)))
  {
    var s := CreateSentinel(fs, env, g);
    if s.result.Err? then Outcome(s.fs, Err(s.result.error))
    else
      var g2 := s.result.value;
      var e := CreateSopsEnvs(s.fs, env, g2);
      if e.result.Err? then Outcome(e.fs, Err(e.result.error))
      else if g2.targetDir.None? then Outcome(e.fs, Err(TargetDirectoryNotSet))
      else
        var o := MoveAndStamp(e.fs, env, g2, envrc, g2.targetDir.value + [DOT_ENVRC]);
        Outcome(o.fs, if o.result.Ok? then Ok(g2) else Err(o.result.error))
  }

  /**
   * The second half of `guard`: plan the move of `.envrc` to `target`, move it and link
   * it, then stamp the file found at the canonical target.
   */
  function MoveAndStamp(fs: FileSystem, env: Env, g: ConfGuard, envrc: Path, target: Path): (o: Outcome<()>)
    ensures o.result.Ok? ==> IsSymlink(o.fs, Absolute(env.cwd, Buf(envrc)))
  {
    match New(fs, env.cwd, Buf(envrc), Buf(target))
    case Err(err) => Outcome(fs, Err(err))
    case Ok(m) =>
      var l := MoveThenLink(fs, m, g.isRelative);
      if l.result.Err? then
        Outcome(l.fs, Err(Context(l.result, "move and link: " + DebugPath(Buf(envrc)) + " -> " + DebugPath(Buf(target))).error))
      else StampLinked(l.fs, env, g, m.source, target)
  }

  /** The stamp after the link: the section goes into the file the target canonicalizes to. */
  function StampLinked(fs: FileSystem, env: Env, g: ConfGuard, link: Path, target: Path): (o: Outcome<()>)
    ensures o.result.Ok? && IsSymlink(fs, link) ==> IsSymlink(o.fs, link)
  {
    match IoContext(Canonicalize(fs, env.cwd, Buf(target)), "canonicalize path: " + DebugPath(Buf(target)))
    case Err(err) => Outcome(fs, Err(err))
    case Ok(canonical) =>
      match UpdateDotEnvrc(fs, env, g, canonical)
      case Err(err) => Outcome(fs, Err(err))
      case Ok(fs4) => Outcome(fs4, Ok(()))
  }
  /**
   * The links a walk of the project reports, in path order: every link entry strictly
   * below the project directory. The walk is taken as a snapshot of the filesystem it
   * starts on.
   */
  function ProjectLinks(fs: FileSystem, sourceDir: Path): (r: seq<Path>)
    ensures forall l :: l in r <==> l in fs && IsPrefix(sourceDir, l) && l != sourceDir && fs[l].Symlink?
    ensures SortedPaths(r)
  {
    SortedSeq(set l | l in fs && IsPrefix(sourceDir, l) && l != sourceDir && fs[l].Symlink?)
  }

  /**
   * Where `unguard` takes a link to lead: an absolute target as it is stored, a relative
   * one canonicalised from the link's directory.
   */
  function LinkedPath(fs: FileSystem, link: Path, t: LinkTarget): (r: Result<Path>)
    requires link != []
    ensures t.Abs? ==> r == Ok(t.path)
    ensures t.Rel? ==> (r.Ok? <==> Exists(fs, Resolve(Parent(link), t)))
    ensures t.Rel? && r.Ok? ==> r.value == Canonical(fs, Resolve(Parent(link), t)).value
  {
    match t
    case Abs(p) => Ok(p)
    case Rel(_, _) =>
      match Canonical(fs, Resolve(Parent(link), t))
      case None => Err(Internal("resolve relative path for: " + DebugPath(Buf(link)), Io(NotFound)))
      case Some(c) => Ok(c)
  }

  /** Whether `unguard` takes the link for one of its own: the target's text holds the sentinel. */
  predicate Managed(fs: FileSystem, sentinel: string, link: Path)
    requires IsSymlink(fs, link)
  {
    var r := LinkedPath(fs, link, fs[link].target);
    r.Ok? && Contains(Display(r.value), sentinel)
  }

  /**
   * The loop of `unguard` over the listed links: read each link, work out where it
   * leads, and replace it by its target when that path mentions the sentinel. The first
   * failure ends the loop.
   */
  function ReplaceManaged(fs: FileSystem, sentinel: string, links: seq<Path>): (o: Outcome<()>)
    ensures links == [] ==> o == Outcome(fs, Ok(()))
    ensures links != [] && !IsSymlink(fs, links[0]) ==>
              o == Outcome(fs, Err(Internal("read symlink: " + DebugPath(Buf(links[0])),
                                            Io(if links[0] == [] || links[0] in fs then InvalidInput else NotFound))))
    ensures links != [] && IsSymlink(fs, links[0]) && LinkedPath(fs, links[0], fs[links[0]].target).Ok? ==>
              o == if Managed(fs, sentinel, links[0]) then
                     var r := ReplaceLinkWithTarget(fs, links[0]);
                     if r.result.Err? then r else ReplaceManaged(r.fs, sentinel, links[1..])
                   else ReplaceManaged(fs, sentinel, links[1..])
    decreases |links|
  {
    if links == [] then Outcome(fs, Ok(()))
    else
      var l := links[0];
      match IoContext(ReadLink(fs, l), "read symlink: " + DebugPath(Buf(l)))
      case Err(e) => Outcome(fs, Err(e))
      case Ok(t) =>
        match LinkedPath(fs, l, t)
        case Err(e) => Outcome(fs, Err(e))
        case Ok(abs) =>
          if Contains(Display(abs), sentinel) then
            var r := ReplaceLinkWithTarget(fs, l);
            if r.result.Err? then r else ReplaceManaged(r.fs, sentinel, links[1..])
          else ReplaceManaged(fs, sentinel, links[1..])
  }

  /**
   * `unguard`: `.envrc` must exist (following links) and be a link. It is replaced by
   * the file it leads to, the section is deleted from that file, and then the managed
   * links of the project are replaced by their targets. The store is left as it is.
   */
  function Unguard(fs: FileSystem, g: ConfGuard): (o: Outcome<()>)
    ensures !Exists(fs, EnvrcOf(g.sourceDir)) ==> o == Outcome(fs, Err(NoEnvrcFile(Buf(g.sourceDir))))
    ensures Exists(fs, EnvrcOf(g.sourceDir)) && !IsSymlink(fs, EnvrcOf(g.sourceDir)) ==>
              o == Outcome(fs, Err(ProjectNotGuardedNotSymlink))
    ensures o.result.Ok? ==> IsSymlink(fs, EnvrcOf(g.sourceDir))
  {
    var envrc := EnvrcOf(g.sourceDir);
    if !Exists(fs, envrc) then Outcome(fs, Err(NoEnvrcFile(Buf(g.sourceDir))))
    else if !IsSymlink(fs, envrc) then Outcome(fs, Err(ProjectNotGuardedNotSymlink))
    else
      var r := ReplaceLinkWithTarget(fs, envrc);
      if r.result.Err? then r
      else
        match DeleteSection(r.fs, envrc)
        case Err(e) => Outcome(r.fs, Err(e))
        case Ok(fs2) => ReplaceManaged(fs2, g.sentinel, ProjectLinks(fs2, g.sourceDir))
  }
}

=== FILE: guard_effect.dfy ===
/**
 * What a successful `guard` leaves behind, step by step: the sentinel directory, the
 * environment files, and `.envrc` moved into the store behind a link and stamped.
 * The store and the project are taken to be apart and free of links where the tool
 * writes, so that each write lands on the path it names.
 */
module GuardEffect {
  import opened Text
  import opened Paths
  import opened Errors
  import opened Fs
  import opened HomeBased
  import opened HelperPath
  import opened Section
  import opened Link
  import opened MoveLink
  import opened Envrc
  import opened Guard

  /** No link entry at or below `d`. */
  predicate NoLinksUnder(fs: FileSystem, d: Path) {
    forall q | q in fs && IsPrefix(d, q) :: !fs[q].Symlink?
  }

  /** Neither path lies inside the other. */
  predicate Apart(a: Path, b: Path) {
    !IsPrefix(a, b) && !IsPrefix(b, a)
  }

  /** Every entry of `fs` is still there, unchanged. */
  predicate Grows(fs: FileSystem, fs2: FileSystem) {
    forall q | q in fs :: q in fs2 && fs2[q] == fs[q]
  }

  /** Two prefixes of one path are prefixes of each other, one way or the other. */
  lemma PrefixesComparable(a: Path, b: Path, y: Path)
    requires IsPrefix(a, y) && IsPrefix(b, y)
    ensures IsPrefix(a, b) || IsPrefix(b, a)
  {
    if |a| <= |b| {
      assert b[..|a|] == y[..|a|];
    } else {
      assert a[..|b|] == y[..|b|];
    }
  }

  /** Paths below two paths that are apart are apart as well. */
  lemma ApartBelow(a: Path, b: Path, x: Path, y: Path)
    requires Apart(a, b) && IsPrefix(a, x) && IsPrefix(b, y)
    ensures Apart(x, y)
  {
  }

  /** Extending a path keeps what it starts with. */
  lemma PrefixExtend(a: Path, p: Path, rest: seq<string>)
    requires IsPrefix(a, p)
    ensures IsPrefix(a, p + rest)
  {
    assert (p + rest)[..|a|] == p[..|a|];
  }

  /** Writing a path that holds no link replaces or adds exactly that entry. */
  lemma WritePlain(fs: FileSystem, p: Path, x: string)
    requires WriteFile(fs, p, x).Ok? && !IsSymlink(fs, p)
    ensures WriteFile(fs, p, x) == Ok(fs[p := File(x)])
  {
    if p in fs {
      CanonicalPlain(fs, p);
    }
  }

  lemma PrefixTrans(a: Path, b: Path, c: Path)
    requires IsPrefix(a, b) && IsPrefix(b, c)
    ensures IsPrefix(a, c)
  {
    assert c[..|a|] == c[..|b|][..|a|];
  }

  /** An existing directory or a link to one: `create_dir_all` has nothing to do. */
  lemma CreateDirAllDone(fs: FileSystem, p: Path)
    requires IsDir(fs, p)
    ensures CreateDirAll(fs, p) == Ok(fs)
  {
  }

  /** `create_link` keeps the filesystem well formed. */
  lemma CreateLinkWf(fs: FileSystem, original: Path, link: Path, relative: bool)
    requires Wf(fs)
    ensures Wf(CreateLink(fs, original, link, relative).fs)
  {
    if Exists(fs, original) && link != [] && CreateDirAll(fs, Parent(link)).Ok? {
      CreateDirAllWf(fs, Parent(link));
      var fs1 := CreateDirAll(fs, Parent(link)).value;
      if MakeSymlink(fs1, LinkTargetFor(original, link, relative), link).Ok? {
        SymlinkWf(fs1, LinkTargetFor(original, link, relative), link);
      }
    }
  }

  // ---------------------------------------------------------------------------------
  // The sentinel
  // ---------------------------------------------------------------------------------

  /**
   * A successful `create_sentinel` only adds directories, the last of them the new
   * target directory, and brings no link into the store.
   */
  lemma SentinelEffect(fs: FileSystem, env: Env, g: ConfGuard)
    requires Wf(fs) && NoLinksUnder(fs, g.baseDir)
    requires CreateSentinel(fs, env, g).result.Ok?
    ensures var o := CreateSentinel(fs, env, g);
            var t := o.result.value.targetDir.value;
            && Wf(o.fs) && Grows(fs, o.fs) && NoLinksUnder(o.fs, g.baseDir)
            && t in o.fs && o.fs[t].Dir?
            && (forall q | q in o.fs && q !in fs :: IsPrefix(q, t))
  {
    var o := CreateSentinel(fs, env, g);
    var guarded := g.baseDir + [GUARDED];
    var fs1 := CreateDirAll(fs, guarded).value;
    CreateDirAllSpec(fs, guarded);
    CreateDirAllWf(fs, guarded);
    var t := o.result.value.targetDir.value;
    assert t == guarded + [o.result.value.sentinel];
    CreateDirAllSpec(fs1, t);
    CreateDirAllWf(fs1, t);
    assert o.fs == CreateDirAll(fs1, t).value;
    assert IsPrefix(g.baseDir, t);
    assert t in o.fs;
    CanonicalPlain(o.fs, t);
    forall q | q in o.fs && q !in fs
      ensures IsPrefix(q, t)
    {
      if q !in fs1 {
      } else {
        PrefixTrans(q, guarded, t);
      }
    }
  }
  // ---------------------------------------------------------------------------------
  // The environment files and the run-configuration script
  // ---------------------------------------------------------------------------------

  lemma SuffixCancel(a: string, b: string, s: string)
    requires a + s == b + s
    ensures a == b
  {
    assert a == (a + s)[..|a|];
    assert b == (b + s)[..|b|];
  }

  /**
   * Writing the environment files into a link-free directory puts each file, with its
   * content, below it and changes nothing else.
   */
  lemma {:induction false} EnvFilesEffect(fs: FileSystem, dir: Path, envs: seq<string>)
    requires Wf(fs) && dir in fs && fs[dir].Dir? && NoLinksUnder(fs, dir)
    requires WriteEnvFiles(fs, dir, envs).result.Ok?
    ensures var fs2 := WriteEnvFiles(fs, dir, envs).fs;
            && Wf(fs2) && dir in fs2 && fs2[dir].Dir? && NoLinksUnder(fs2, dir)
            && (forall q | q in fs && (forall e | e in envs :: q != EnvFile(dir, e)) :: q in fs2 && fs2[q] == fs[q])
            && (forall q | q in fs2 && q !in fs :: IsPrefix(dir, q))
            && (forall e | e in envs :: EnvFile(dir, e) in fs2 && fs2[EnvFile(dir, e)] == File(EnvContent(e)))
    decreases |envs|
  {
    if envs != [] {
      var p := EnvFile(dir, envs[0]);
      var c := EnvContent(envs[0]);
      assert IsPrefix(dir, p);
      WritePlain(fs, p, c);
      WriteWf(fs, p, c);
      var fs1 := fs[p := File(c)];
      EnvFilesEffect(fs1, dir, envs[1..]);
      var fs2 := WriteEnvFiles(fs, dir, envs).fs;
      assert fs2 == WriteEnvFiles(fs1, dir, envs[1..]).fs;
      forall e | e in envs
        ensures EnvFile(dir, e) in fs2 && fs2[EnvFile(dir, e)] == File(EnvContent(e))
      {
        if e !in envs[1..] {
          assert e == envs[0];
          forall e2 | e2 in envs[1..]
            ensures p != EnvFile(dir, e2)
          {
            if p == EnvFile(dir, e2) {
              assert e + ".env" == e2 + ".env";
              SuffixCancel(e, e2, ".env");
            }
          }
        }
      }
    }
  }

  /**
   * Copying an embedded file to a path that is not a link leaves the file there and
   * changes no other entry; at most the destination's missing directories are added.
   */
  lemma CopyPlain(fs: FileSystem, resources: map<string, string>, name: string, dest: Path)
    requires Wf(fs) && !IsSymlink(fs, dest)
    requires CopyResource(fs, resources, name, dest).result.Ok?
    ensures name in resources && Copied(fs, CopyResource(fs, resources, name, dest).fs, dest, resources[name])
  {
    assert dest != [];
    var x := resources[name];
    var fs1 := if Exists(fs, Parent(dest)) then fs else CreateDirAll(fs, Parent(dest)).value;
    CopyPrepared(fs, dest);
    assert WriteFile(fs1, dest, x).Ok?;
    WritePlain(fs1, dest, x);
    WriteWf(fs1, dest, x);
    assert CopyResource(fs, resources, name, dest).fs == fs1[dest := File(x)];
    CopiedAt(fs, fs1, dest, x);
  }

  /** The directories `copy_file_from_resources` adds before the write lie on the way to `dest`. */
  lemma CopyPrepared(fs: FileSystem, dest: Path)
    requires Wf(fs) && !IsSymlink(fs, dest) && dest != []
    requires Exists(fs, Parent(dest)) || CreateDirAll(fs, Parent(dest)).Ok?
    ensures var fs1 := if Exists(fs, Parent(dest)) then fs else CreateDirAll(fs, Parent(dest)).value;
            && Wf(fs1) && Grows(fs, fs1) && !IsSymlink(fs1, dest)
            && (forall q | q in fs1 && q !in fs :: IsPrefix(q, dest) && fs1[q].Dir?)
  {
    if !Exists(fs, Parent(dest)) {
      CreateDirAllSpec(fs, Parent(dest));
      CreateDirAllWf(fs, Parent(dest));
      AlongParent(fs, CreateDirAll(fs, Parent(dest)).value, dest);
    }
  }

  /** Directories added on the way to the parent of `dest` are on the way to `dest`. */
  lemma AlongParent(fs: FileSystem, fs1: FileSystem, dest: Path)
    requires dest != []
    requires forall q | q in fs1 && q !in fs :: fs1[q] == Dir && IsPrefix(q, Parent(dest))
    ensures forall q | q in fs1 && q !in fs :: IsPrefix(q, dest) && fs1[q].Dir?
  {
    assert Parent(dest) + [FileName(dest)] == dest;
    forall q | q in fs1 && q !in fs
      ensures IsPrefix(q, dest)
    {
      PrefixExtend(q, Parent(dest), [FileName(dest)]);
    }
  }

  /** A write of `x` at `dest` after only directories on the way to `dest` were added. */
  lemma CopiedAt(fs: FileSystem, fs1: FileSystem, dest: Path, x: string)
    requires Grows(fs, fs1) && (forall q | q in fs1 && q !in fs :: IsPrefix(q, dest))
    requires Wf(fs1[dest := File(x)])
    ensures Copied(fs, fs1[dest := File(x)], dest, x)
  {
  }

  /**
   * After a copy of `x` to `dest`: `fs2` is well formed and holds `x` at `dest`; every
   * other entry of `fs` is kept, and whatever is new lies on the way to `dest`.
   */
  predicate Copied(fs: FileSystem, fs2: FileSystem, dest: Path, x: string) {
    && Wf(fs2) && dest in fs2 && fs2[dest] == File(x)
    && (forall q | q in fs && q != dest :: q in fs2 && fs2[q] == fs[q])
    && (forall q | q in fs2 && q !in fs :: IsPrefix(q, dest))
  }

  /** Creating the environments directory below a link-free target directory. */
  lemma EnvDirReady(fs: FileSystem, t: Path)
    requires Wf(fs) && t in fs && fs[t].Dir? && NoLinksUnder(fs, t)
    requires CreateDirAll(fs, t + [ENVIRONMENTS_DIR]).Ok?
    ensures var dir := t + [ENVIRONMENTS_DIR];
            var fs1 := CreateDirAll(fs, dir).value;
            && Wf(fs1) && Grows(fs, fs1) && dir in fs1 && fs1[dir].Dir? && NoLinksUnder(fs1, dir)
            && (forall q | q in fs1 && q !in fs :: IsPrefix(q, dir))
  {
    var dir := t + [ENVIRONMENTS_DIR];
    var fs1 := CreateDirAll(fs, dir).value;
    CreateDirAllSpec(fs, dir);
    CreateDirAllWf(fs, dir);
    if dir in fs {
      CanonicalPlain(fs, dir);
    }
    forall q | q in fs1 && IsPrefix(dir, q)
      ensures !fs1[q].Symlink?
    {
      if q in fs {
        assert IsPrefix(t, q) by {
          assert q[..|t|] == dir[..|t|];
        }
      }
    }
  }

  /**
   * Writing the environment files and then copying the script to a path outside the
   * environments directory.
   */
  lemma EnvFilesThenScript(fs: FileSystem, dir: Path, envs: seq<string>,
                           resources: map<string, string>, script: Path)
    requires Wf(fs) && dir in fs && fs[dir].Dir? && NoLinksUnder(fs, dir)
    requires !IsPrefix(dir, script) && !IsSymlink(fs, script)
    requires WriteEnvFiles(fs, dir, envs).result.Ok?
    requires CopyResource(WriteEnvFiles(fs, dir, envs).fs, resources, RSENV, script).result.Ok?
    ensures RSENV in resources
    ensures EnvsWritten(fs, CopyResource(WriteEnvFiles(fs, dir, envs).fs, resources, RSENV, script).fs,
                        dir, dir, envs, script, resources[RSENV])
  {
    EnvFilesEffect(fs, dir, envs);
    var fsw := WriteEnvFiles(fs, dir, envs).fs;
    assert forall e | e in envs :: IsPrefix(dir, EnvFile(dir, e));
    CopyPlain(fsw, resources, RSENV, script);
  }

  /** The three steps of `create_sops_envs` below a link-free target directory `t`. */
  lemma SopsSteps(fs: FileSystem, t: Path, resources: map<string, string>, script: Path,
                  envs: seq<string>)
    requires Wf(fs) && t in fs && fs[t].Dir? && NoLinksUnder(fs, t)
    requires !IsPrefix(t, script) && !IsSymlink(fs, script)
    requires CreateDirAll(fs, t + [ENVIRONMENTS_DIR]).Ok?
    requires var w := WriteEnvFiles(CreateDirAll(fs, t + [ENVIRONMENTS_DIR]).value, t + [ENVIRONMENTS_DIR], envs);
             w.result.Ok? && CopyResource(w.fs, resources, RSENV, script).result.Ok?
    ensures RSENV in resources
    ensures var w := WriteEnvFiles(CreateDirAll(fs, t + [ENVIRONMENTS_DIR]).value, t + [ENVIRONMENTS_DIR], envs);
            EnvsWritten(fs, CopyResource(w.fs, resources, RSENV, script).fs,
                        t, t + [ENVIRONMENTS_DIR], envs, script, resources[RSENV])
  {
    var dir := t + [ENVIRONMENTS_DIR];
    PrefixExtend(t, t, [ENVIRONMENTS_DIR]);
    var fs1 := CreateDirAll(fs, dir).value;
    EnvDirPrepared(fs, t, script);
    EnvFilesThenScript(fs1, dir, envs, resources, script);
    var fs2 := CopyResource(WriteEnvFiles(fs1, dir, envs).fs, resources, RSENV, script).fs;
    WrittenWider(fs, fs1, fs2, t, dir, envs, script, resources[RSENV]);
  }

  /** The environments directory made below `t` is ready for the files, and the script is still apart. */
  lemma EnvDirPrepared(fs: FileSystem, t: Path, script: Path)
    requires Wf(fs) && t in fs && fs[t].Dir? && NoLinksUnder(fs, t)
    requires !IsPrefix(t, script) && !IsSymlink(fs, script)
    requires CreateDirAll(fs, t + [ENVIRONMENTS_DIR]).Ok?
    ensures var dir := t + [ENVIRONMENTS_DIR];
            var fs1 := CreateDirAll(fs, dir).value;
            && Wf(fs1) && Grows(fs, fs1) && dir in fs1 && fs1[dir].Dir? && NoLinksUnder(fs1, dir)
            && !IsPrefix(dir, script) && !IsSymlink(fs1, script)
  {
    var dir := t + [ENVIRONMENTS_DIR];
    PrefixExtend(t, t, [ENVIRONMENTS_DIR]);
    var fs1 := CreateDirAll(fs, dir).value;
    EnvDirReady(fs, t);
    if script in fs1 && script !in fs {
      PrefixesComparable(script, t, dir);
      if script != t {
        AncestorIsDir(fs, script, t);
      }
    }
  }

  /** `EnvsWritten` for a directory created inside a wider area `t` carries over to `t`. */
  lemma WrittenWider(fs: FileSystem, fs1: FileSystem, fs2: FileSystem, t: Path, dir: Path,
                     envs: seq<string>, script: Path, x: string)
    requires Grows(fs, fs1) && IsPrefix(t, dir)
    requires EnvsWritten(fs1, fs2, dir, dir, envs, script, x)
    ensures EnvsWritten(fs, fs2, t, dir, envs, script, x)
  {
    forall q | q in fs && q != script && !IsPrefix(t, q)
      ensures q in fs2 && fs2[q] == fs[q]
    {
      if IsPrefix(dir, q) {
        PrefixTrans(t, dir, q);
      }
    }
  }

  /**
   * After the environment files and the script are written: the files of `envs` in
   * `envDir`, `x` at `script`, and nothing else of `fs` changed outside `area`.
   */
  predicate EnvsWritten(fs: FileSystem, fs2: FileSystem, area: Path, envDir: Path, envs: seq<string>,
                        script: Path, x: string) {
    && Wf(fs2)
    && (forall q | q in fs && q != script && !IsPrefix(area, q) :: q in fs2 && fs2[q] == fs[q])
    && (forall e | e in envs :: EnvFile(envDir, e) in fs2 && fs2[EnvFile(envDir, e)] == File(EnvContent(e)))
    && script in fs2 && fs2[script] == File(x)
  }

  lemma SopsUnfold(fs: FileSystem, env: Env, g: ConfGuard)
    requires g.targetDir.Some? && CreateSopsEnvs(fs, env, g).result.Ok?
    ensures var dir := g.targetDir.value + [ENVIRONMENTS_DIR];
            && CreateDirAll(fs, dir).Ok?
            && WriteEnvFiles(CreateDirAll(fs, dir).value, dir, ENVIRONMENTS).result.Ok?
            && CreateSopsEnvs(fs, env, g)
               == CopyResource(WriteEnvFiles(CreateDirAll(fs, dir).value, dir, ENVIRONMENTS).fs,
                               env.resources, RSENV, g.sourceDir + RUN_CONFIG)
  {
  }

  /**
   * A successful `create_sops_envs` on a link-free target directory apart from the
   * project writes the four environment files and the script, and changes nothing
   * outside the target directory except the script.
   */
  lemma SopsEnvsEffect(fs: FileSystem, env: Env, g: ConfGuard)
    requires Wf(fs) && CreateSopsEnvs(fs, env, g).result.Ok?
    requires g.targetDir.Some? && g.targetDir.value in fs && fs[g.targetDir.value].Dir?
    requires NoLinksUnder(fs, g.targetDir.value) && Apart(g.targetDir.value, g.sourceDir)
    requires !IsSymlink(fs, g.sourceDir + RUN_CONFIG)
    ensures var t := g.targetDir.value;
            var script := g.sourceDir + RUN_CONFIG;
            var fs2 := CreateSopsEnvs(fs, env, g).fs;
            && Wf(fs2)
            && (forall q | q in fs && q != script && !IsPrefix(t, q) :: q in fs2 && fs2[q] == fs[q])
            && (forall e | e in ENVIRONMENTS ::
                  EnvFile(t + [ENVIRONMENTS_DIR], e) in fs2
                  && fs2[EnvFile(t + [ENVIRONMENTS_DIR], e)] == File(EnvContent(e)))
            && script in fs2 && fs2[script] == File(env.resources[RSENV])
  {
    var t := g.targetDir.value;
    var script := g.sourceDir + RUN_CONFIG;
    PrefixExtend(g.sourceDir, g.sourceDir, RUN_CONFIG);
    assert !IsPrefix(t, script) by {
      if IsPrefix(t, script) {
        PrefixesComparable(t, g.sourceDir, script);
      }
    }
    SopsUnfold(fs, env, g);
    SopsSteps(fs, t, env.resources, script, ENVIRONMENTS);
  }
  // ---------------------------------------------------------------------------------
  // Moving the `.envrc` and stamping the section
  // ---------------------------------------------------------------------------------

  /** Besides the two trees it touches, `move_and_link` changes nothing. */
  lemma MoveLinkFrame(fs: FileSystem, m: MoveAndLink, relative: bool)
    requires Wf(fs) && m.source != m.destination && MoveThenLink(fs, m, relative).result.Ok?
    ensures var fs3 := MoveThenLink(fs, m, relative).fs;
            && Wf(fs3)
            && forall q | q in fs && !IsPrefix(m.source, q) && !IsPrefix(m.destination, q) :: q in fs3 && fs3[q] == fs[q]
  {
    MovedEffect(fs, m);
    CreateDirAllSpec(fs, Parent(m.destination));
    var fs1 := Prepared(fs, m);
    RenameMoves(fs1, m.source, m.destination);
    var fs2 := Moved(fs, m).value;
    assert MoveThenLink(fs, m, relative) == CreateLink(fs2, m.destination, m.source, relative);
    CreateLinkWf(fs2, m.destination, m.source, relative);
  }

  /** `update_dot_envrc` on a plain file rewrites exactly that file. */
  lemma UpdatePlain(fs: FileSystem, env: Env, g: ConfGuard, p: Path)
    requires p != [] && p in fs && fs[p].File? && env.home.Some?
    ensures UpdateDotEnvrc(fs, env, g, p) == Ok(fs[p := File(Spliced(fs[p].content, SectionFor(env, g, p)))])
  {
    CanonicalPlain(fs, p);
    WritePlain(fs, p, Spliced(fs[p].content, SectionFor(env, g, p)));
  }

  /**
   * `move_and_stamp` for normal absolute paths: the link step succeeds and the section
   * is written into the moved file.
   */
  lemma StampSteps(fs: FileSystem, env: Env, g: ConfGuard, envrc: Path, target: Path)
    requires IsPath(envrc) && IsPath(target) && Wf(fs) && envrc in fs && !fs[envrc].Symlink?
    requires envrc != target && MoveAndStamp(fs, env, g, envrc, target).result.Ok?
    ensures var l := MoveThenLink(fs, MoveAndLink(envrc, target), g.isRelative);
            && l.result.Ok? && fs[envrc].File? && env.home.Some?
            && MoveAndStamp(fs, env, g, envrc, target)
               == Outcome(l.fs[target := File(Spliced(fs[envrc].content, SectionFor(env, g, target)))], Ok(()))
  {
    StampUnfold(fs, env, g, envrc, target);
    var fs3 := MoveThenLink(fs, MoveAndLink(envrc, target), g.isRelative).fs;
    CanonicalPlain(fs3, target);
    assert env.home.Some? && fs3[target].File?;
    UpdatePlain(fs3, env, g, target);
  }

  /** `move_and_stamp` for normal absolute paths, down to its last step. */
  lemma StampUnfold(fs: FileSystem, env: Env, g: ConfGuard, envrc: Path, target: Path)
    requires IsPath(envrc) && IsPath(target) && Wf(fs) && envrc in fs && !fs[envrc].Symlink?
    requires envrc != target && MoveAndStamp(fs, env, g, envrc, target).result.Ok?
    ensures var l := MoveThenLink(fs, MoveAndLink(envrc, target), g.isRelative);
            && l.result.Ok? && target in l.fs && l.fs[target] == fs[envrc] && target != []
            && UpdateDotEnvrc(l.fs, env, g, target).Ok?
            && MoveAndStamp(fs, env, g, envrc, target) == Outcome(UpdateDotEnvrc(l.fs, env, g, target).value, Ok(()))
  {
    NormalizePath(envrc);
    NormalizePath(target);
    assert Absolute(env.cwd, Buf(envrc)) == envrc && Absolute(env.cwd, Buf(target)) == target;
    var m := MoveAndLink(envrc, target);
    assert New(fs, env.cwd, Buf(envrc), Buf(target)) == Ok(m);
    var l := MoveThenLink(fs, m, g.isRelative);
    assert l.result.Ok?;
    assert MoveAndStamp(fs, env, g, envrc, target) == StampLinked(l.fs, env, g, envrc, target);
    MoveThenLinkEffect(fs, m, g.isRelative);
    StampPlain(l.fs, env, g, envrc, target);
  }

  /** Stamping a plain entry at a normal absolute path is `update_dot_envrc` on it. */
  lemma StampPlain(fs: FileSystem, env: Env, g: ConfGuard, link: Path, target: Path)
    requires IsPath(target) && target != [] && target in fs && !fs[target].Symlink?
    ensures var u := UpdateDotEnvrc(fs, env, g, target);
            StampLinked(fs, env, g, link, target) == if u.Ok? then Outcome(u.value, Ok(())) else Outcome(fs, Err(u.error))
  {
    NormalizePath(target);
    CanonicalPlain(fs, target);
    assert IoContext(Canonicalize(fs, env.cwd, Buf(target)), "canonicalize path: " + DebugPath(Buf(target)))
        == Ok(target);
  }

  /** Rewriting the file a link leads to keeps the filesystem well formed and the link intact. */
  lemma RewriteKeeps(fs: FileSystem, link: Path, p: Path, x: string)
    requires Wf(fs) && p in fs && fs[p].File? && link != p && IsSymlink(fs, link)
    ensures var fs2 := fs[p := File(x)];
            && Wf(fs2) && IsSymlink(fs2, link) && fs2[link] == fs[link]
            && Canonical(fs2, link) == Canonical(fs, link)
  {
    WriteFollow(fs, link, p, x, MaxFollow);
  }

  /**
   * The last stage of `guard`: the `.envrc` file moves to `target`, gets the section,
   * and a link to it takes its place; nothing outside the two paths changes.
   */
  lemma StampEffect(fs: FileSystem, env: Env, g: ConfGuard, envrc: Path, target: Path)
    requires Wf(fs) && IsPath(envrc) && IsPath(target) && Apart(envrc, target)
    requires envrc in fs && !fs[envrc].Symlink?
    requires MoveAndStamp(fs, env, g, envrc, target).result.Ok?
    ensures env.home.Some? && fs[envrc].File?
    ensures Stamped(fs, MoveAndStamp(fs, env, g, envrc, target).fs, envrc, target,
                    Spliced(fs[envrc].content, SectionFor(env, g, target)), LinkTargetFor(target, envrc, g.isRelative))
  {
    ApartDistinct(envrc, target);
    StampSteps(fs, env, g, envrc, target);
    StampTail(fs, MoveAndLink(envrc, target), g.isRelative, Spliced(fs[envrc].content, SectionFor(env, g, target)));
  }

  lemma ApartDistinct(a: Path, b: Path)
    requires Apart(a, b)
    ensures a != b
  {
    assert a[..|a|] == a;
  }

  /** The link step followed by a rewrite of the moved file with `x`. */
  lemma StampTail(fs: FileSystem, m: MoveAndLink, relative: bool, x: string)
    requires Wf(fs) && m.source in fs && fs[m.source].File? && m.source != m.destination
    requires MoveThenLink(fs, m, relative).result.Ok?
    ensures Stamped(fs, MoveThenLink(fs, m, relative).fs[m.destination := File(x)], m.source, m.destination, x,
                    LinkTargetFor(m.destination, m.source, relative))
  {
    LinkedState(fs, m, relative);
    var fs3 := MoveThenLink(fs, m, relative).fs;
    StampedAt(fs, fs3, fs3[m.destination := File(x)], m.source, m.destination, x,
              LinkTargetFor(m.destination, m.source, relative));
  }

  /** The state `move_and_link` leaves, in the terms `StampedAt` takes. */
  lemma LinkedState(fs: FileSystem, m: MoveAndLink, relative: bool)
    requires Wf(fs) && m.source in fs && !fs[m.source].Symlink? && m.source != m.destination
    requires MoveThenLink(fs, m, relative).result.Ok?
    ensures var fs3 := MoveThenLink(fs, m, relative).fs;
            && Wf(fs3)
            && (forall q | q in fs && !IsPrefix(m.source, q) && !IsPrefix(m.destination, q) :: q in fs3 && fs3[q] == fs[q])
            && m.destination in fs3 && fs3[m.destination] == fs[m.source]
            && IsSymlink(fs3, m.source) && fs3[m.source].target == LinkTargetFor(m.destination, m.source, relative)
            && Canonical(fs3, m.source) == Some(m.destination)
  {
    MoveLinkFrame(fs, m, relative);
    MoveThenLinkEffect(fs, m, relative);
    LinkToPlain(MoveThenLink(fs, m, relative).fs, m.source, m.destination);
  }

  /** `move_and_stamp` changes nothing outside the `.envrc` path and the target tree. */
  lemma StampFrame(fs: FileSystem, env: Env, g: ConfGuard, envrc: Path, target: Path)
    requires Wf(fs) && IsPath(envrc) && IsPath(target) && Apart(envrc, target)
    requires envrc in fs && !fs[envrc].Symlink?
    requires MoveAndStamp(fs, env, g, envrc, target).result.Ok?
    ensures var fs2 := MoveAndStamp(fs, env, g, envrc, target).fs;
            forall q | q in fs && q != envrc && !IsPrefix(target, q) :: q in fs2 && fs2[q] == fs[q]
  {
    StampEffect(fs, env, g, envrc, target);
  }

  /**
   * The state after the stamp, from the state after the link: `fs3` has the link at
   * `envrc` leading to `target`, where the old file now is, and `fs2` rewrites that file
   * with `x`.
   */
  lemma StampedAt(fs: FileSystem, fs3: FileSystem, fs2: FileSystem, envrc: Path, target: Path, x: string,
                  linkTarget: LinkTarget)
    requires Wf(fs) && envrc in fs && fs[envrc].File? && envrc != target
    requires Wf(fs3) && target in fs3 && fs3[target] == fs[envrc]
    requires IsSymlink(fs3, envrc) && fs3[envrc].target == linkTarget && Canonical(fs3, envrc) == Some(target)
    requires forall q | q in fs && !IsPrefix(envrc, q) && !IsPrefix(target, q) :: q in fs3 && fs3[q] == fs[q]
    requires fs2 == fs3[target := File(x)]
    ensures Stamped(fs, fs2, envrc, target, x, linkTarget)
  {
    RewriteKeeps(fs3, envrc, target, x);
    FrameAfterLink(fs, fs3, envrc, target, x);
  }

  /**
   * After the stamp: `envrc` is a link with `linkTarget` leading to `target`, which holds
   * `x`; the rest of `fs` outside the target tree is kept.
   */
  predicate Stamped(fs: FileSystem, fs2: FileSystem, envrc: Path, target: Path, x: string, linkTarget: LinkTarget) {
    && IsSymlink(fs2, envrc) && fs2[envrc].target == linkTarget
    && Canonical(fs2, envrc) == Some(target)
    && target in fs2 && fs2[target] == File(x)
    && (forall q | q in fs && q != envrc && !IsPrefix(target, q) :: q in fs2 && fs2[q] == fs[q])
    && Wf(fs2)
  }

  lemma FrameAfterLink(fs: FileSystem, fs3: FileSystem, envrc: Path, target: Path, x: string)
    requires Wf(fs) && envrc in fs && fs[envrc].File?
    requires forall q | q in fs && !IsPrefix(envrc, q) && !IsPrefix(target, q) :: q in fs3 && fs3[q] == fs[q]
    ensures var fs2 := fs3[target := File(x)];
            forall q | q in fs && q != envrc && !IsPrefix(target, q) :: q in fs2 && fs2[q] == fs[q]
  {
    forall q | q in fs && q != envrc && !IsPrefix(target, q)
      ensures !IsPrefix(envrc, q)
    {
      if IsPrefix(envrc, q) {
        AncestorIsDir(fs, envrc, q);
      }
    }
  }
  // ---------------------------------------------------------------------------------
  // The whole of `guard`
  // ---------------------------------------------------------------------------------

  /**
   * The situation the effect of `guard` is stated for: normal absolute paths, a store
   * apart from the project and free of links, and no link where the run configuration
   * script goes.
   */
  predicate Setting(fs: FileSystem, g: ConfGuard) {
    && Wf(fs) && IsPath(g.sourceDir) && IsPath(g.baseDir)
    && Apart(g.baseDir, g.sourceDir) && NoLinksUnder(fs, g.baseDir)
    && !IsSymlink(fs, g.sourceDir + RUN_CONFIG)
  }

  lemma PathAppend(p: Path, rest: Path)
    requires IsPath(p) && IsPath(rest)
    ensures IsPath(p + rest)
  {
    forall i | 0 <= i < |p + rest|
      ensures NormalPart((p + rest)[i])
    {
      if i >= |p| {
        assert (p + rest)[i] == rest[i - |p|];
      }
    }
  }

  lemma TwoParts(a: string, b: string)
    requires NormalPart(b)
    requires a == GUARDED || a == ENVIRONMENTS_DIR || a == DOT_ENVRC
    ensures IsPath([a, b])
  {
    assert NormalPart(a);
  }

  /** The sentinel's name is one normal path component. */
  lemma SentinelNormal(sourceDir: Path, random: nat)
    requires IsPath(sourceDir) && sourceDir != []
    ensures NormalPart(SentinelName(sourceDir, random))
  {
    var h := HexDigits(random, 8);
    var name := FileName(sourceDir);
    var s := SentinelName(sourceDir, random);
    assert NormalPart(name);
    forall i | 0 <= i < |s|
      ensures s[i] != '/'
    {
      if i < |name| {
        assert s[i] == name[i];
      } else if i > |name| {
        assert s[i] == h[i - |name| - 1];
        assert IsLowerHex(h[i - |name| - 1]);
      }
    }
  }

  /** After the sentinel step the target directory is ready for the environment files. */
  lemma AfterSentinel(fs: FileSystem, env: Env, g: ConfGuard)
    requires Setting(fs, g) && CreateSentinel(fs, env, g).result.Ok?
    ensures var o := CreateSentinel(fs, env, g);
            var t := o.result.value.targetDir.value;
            && o.result.value.targetDir.Some?
            && IsPath(t) && IsPrefix(g.baseDir, t) && Apart(t, g.sourceDir)
            && Wf(o.fs) && Grows(fs, o.fs) && t in o.fs && o.fs[t].Dir? && NoLinksUnder(o.fs, t)
            && !IsSymlink(o.fs, g.sourceDir + RUN_CONFIG)
  {
    var o := CreateSentinel(fs, env, g);
    SentinelEffect(fs, env, g);
    var t := o.result.value.targetDir.value;
    TargetPath(g.baseDir, g.sourceDir, env.random);
    TargetReady(fs, o.fs, g.baseDir, g.sourceDir, t);
  }

  /** The target directory is a normal path inside the store. */
  lemma TargetPath(base: Path, sourceDir: Path, random: nat)
    requires IsPath(base) && IsPath(sourceDir) && sourceDir != []
    ensures var t := base + [GUARDED, SentinelName(sourceDir, random)];
            IsPath(t) && IsPrefix(base, t)
  {
    SentinelNormal(sourceDir, random);
    TwoParts(GUARDED, SentinelName(sourceDir, random));
    PathAppend(base, [GUARDED, SentinelName(sourceDir, random)]);
    PrefixExtend(base, base, [GUARDED, SentinelName(sourceDir, random)]);
  }

  /** A directory made inside the store is apart from the project and free of links. */
  lemma TargetReady(fs: FileSystem, fs1: FileSystem, base: Path, sourceDir: Path, t: Path)
    requires Grows(fs, fs1) && NoLinksUnder(fs1, base) && IsPrefix(base, t) && Apart(base, sourceDir)
    requires forall q | q in fs1 && q !in fs :: IsPrefix(q, t)
    requires !IsSymlink(fs, sourceDir + RUN_CONFIG)
    ensures Apart(t, sourceDir) && NoLinksUnder(fs1, t) && !IsSymlink(fs1, sourceDir + RUN_CONFIG)
  {
    ApartBelow(base, sourceDir, t, sourceDir);
    forall q | q in fs1 && IsPrefix(t, q)
      ensures !fs1[q].Symlink?
    {
      PrefixTrans(base, t, q);
    }
    var script := sourceDir + RUN_CONFIG;
    if script in fs1 && script !in fs {
      PrefixExtend(sourceDir, sourceDir, RUN_CONFIG);
      PrefixTrans(sourceDir, script, t);
    }
  }

  /** What the stamp step keeps of the environment files and the script. */
  lemma StampKeeps(fsB: FileSystem, fs2: FileSystem, sourceDir: Path, t: Path, envrc: Path, script: string)
    requires Apart(t, sourceDir) && envrc == EnvrcOf(sourceDir)
    requires forall q | q in fsB && q != envrc && !IsPrefix(t + [DOT_ENVRC], q) :: q in fs2 && fs2[q] == fsB[q]
    requires forall e | e in ENVIRONMENTS ::
               EnvFile(t + [ENVIRONMENTS_DIR], e) in fsB
               && fsB[EnvFile(t + [ENVIRONMENTS_DIR], e)] == File(EnvContent(e))
    requires sourceDir + RUN_CONFIG in fsB && fsB[sourceDir + RUN_CONFIG] == File(script)
    ensures forall e | e in ENVIRONMENTS ::
              EnvFile(t + [ENVIRONMENTS_DIR], e) in fs2
              && fs2[EnvFile(t + [ENVIRONMENTS_DIR], e)] == File(EnvContent(e))
    ensures sourceDir + RUN_CONFIG in fs2 && fs2[sourceDir + RUN_CONFIG] == File(script)
  {
    var d := t + [DOT_ENVRC];
    forall e | e in ENVIRONMENTS
      ensures EnvFile(t + [ENVIRONMENTS_DIR], e) != envrc && !IsPrefix(d, EnvFile(t + [ENVIRONMENTS_DIR], e))
    {
      var f := EnvFile(t + [ENVIRONMENTS_DIR], e);
      assert f[|t|] == ENVIRONMENTS_DIR;
      PrefixExtend(t, t, [ENVIRONMENTS_DIR, e + ".env"]);
      if f == envrc {
        PrefixExtend(sourceDir, sourceDir, [ENVRC]);
        PrefixesComparable(t, sourceDir, f);
      }
    }
    var runConfig := sourceDir + RUN_CONFIG;
    PrefixExtend(sourceDir, sourceDir, RUN_CONFIG);
    if IsPrefix(d, runConfig) {
      PrefixExtend(t, t, [DOT_ENVRC]);
      PrefixTrans(t, d, runConfig);
      PrefixesComparable(t, sourceDir, runConfig);
    }
  }

  /** The three frames of `guard` compose: outside the store only two paths change. */
  lemma ChainFrame(fs: FileSystem, fs1: FileSystem, fsB: FileSystem, fs2: FileSystem,
                   base: Path, t: Path, envrc: Path, script: Path)
    requires Grows(fs, fs1) && IsPrefix(base, t)
    requires forall q | q in fs1 && q != script && !IsPrefix(t, q) :: q in fsB && fsB[q] == fs1[q]
    requires forall q | q in fsB && q != envrc && !IsPrefix(t + [DOT_ENVRC], q) :: q in fs2 && fs2[q] == fsB[q]
    ensures forall q | q in fs && q != envrc && q != script && !IsPrefix(base, q) :: q in fs2 && fs2[q] == fs[q]
  {
    forall q | q in fs && q != envrc && q != script && !IsPrefix(base, q)
      ensures q in fs2 && fs2[q] == fs[q]
    {
      if IsPrefix(t, q) {
        PrefixTrans(base, t, q);
      }
      if IsPrefix(t + [DOT_ENVRC], q) {
        PrefixExtend(t, t, [DOT_ENVRC]);
        PrefixTrans(t, t + [DOT_ENVRC], q);
      }
    }
  }
  /** `guard` after its checks, step by step, unfolded. */
  lemma StepsUnfold(fs: FileSystem, env: Env, g: ConfGuard, envrc: Path)
    requires GuardSteps(fs, env, g, envrc).result.Ok?
    ensures var s := CreateSentinel(fs, env, g);
            && s.result.Ok? && s.result.value.targetDir.Some?
            && CreateSopsEnvs(s.fs, env, s.result.value).result.Ok?
            && var fsB := CreateSopsEnvs(s.fs, env, s.result.value).fs;
               var d := s.result.value.targetDir.value + [DOT_ENVRC];
               && MoveAndStamp(fsB, env, s.result.value, envrc, d).result.Ok?
               && GuardSteps(fs, env, g, envrc)
                  == Outcome(MoveAndStamp(fsB, env, s.result.value, envrc, d).fs, Ok(s.result.value))
  {
  }

  /**
   * The effect of `guard` once its checks have passed: the record gains its sentinel and
   * target directory; `.envrc` becomes a link to `dot.envrc` in the target directory,
   * which holds the old content with the section spliced in; the four environment files
   * and the run configuration script are written; outside the store nothing else changes.
   */
  lemma StepsEffect(fs: FileSystem, env: Env, g: ConfGuard, envrc: Path)
    requires Setting(fs, g) && envrc == EnvrcOf(g.sourceDir) && envrc in fs && !fs[envrc].Symlink?
    requires GuardSteps(fs, env, g, envrc).result.Ok?
    ensures Left(fs, env, g, g.isRelative, GuardSteps(fs, env, g, envrc))
  {
    StepsLink(fs, env, g, envrc);
    StepsFiles(fs, env, g, envrc);
  }

  /** The link half of `StepsEffect`: the record returned and what `.envrc` now reaches. */
  lemma StepsLink(fs: FileSystem, env: Env, g: ConfGuard, envrc: Path)
    requires Setting(fs, g) && envrc == EnvrcOf(g.sourceDir) && envrc in fs && !fs[envrc].Symlink?
    requires GuardSteps(fs, env, g, envrc).result.Ok?
    ensures LeftLink(fs, env, g, g.isRelative, GuardSteps(fs, env, g, envrc))
  {
    StepsUnfold(fs, env, g, envrc);
    var s := CreateSentinel(fs, env, g);
    var g2 := s.result.value;
    var t := g2.targetDir.value;
    var d := t + [DOT_ENVRC];
    AfterSentinel(fs, env, g);
    SopsEnvsEffect(s.fs, env, g2);
    var fsB := CreateSopsEnvs(s.fs, env, g2).fs;
    StampReady(fs, s.fs, fsB, g.sourceDir, t, envrc, g.sourceDir + RUN_CONFIG);
    StampEffect(fsB, env, g2, envrc, d);
    LinkFromStamp(fs, env, g, GuardSteps(fs, env, g, envrc), fsB, g2, envrc, d);
  }

  /** `LeftLink` from the facts the stamp step leaves, with every step's definition out of sight. */
  lemma LinkFromStamp(fs: FileSystem, env: Env, g: ConfGuard, o: Outcome<ConfGuard>,
                      fsB: FileSystem, g2: ConfGuard, envrc: Path, d: Path)
    requires envrc == EnvrcOf(g.sourceDir) && g.sourceDir != [] && g.sentinel == ""
    requires g2 == g.(sentinel := SentinelName(g.sourceDir, env.random),
                      targetDir := Some(g.baseDir + [GUARDED, SentinelName(g.sourceDir, env.random)]))
    requires d == g2.targetDir.value + [DOT_ENVRC]
    requires envrc in fs && envrc in fsB && fsB[envrc] == fs[envrc] && fs[envrc].File? && env.home.Some?
    requires o.result == Ok(g2)
    requires IsSymlink(o.fs, envrc) && o.fs[envrc].target == LinkTargetFor(d, envrc, g2.isRelative)
    requires Canonical(o.fs, envrc) == Some(d)
    requires d in o.fs && o.fs[d] == File(Spliced(fsB[envrc].content, SectionFor(env, g2, d)))
    ensures LeftLink(fs, env, g, g.isRelative, o)
  {
    assert g.(isRelative := g.isRelative, sentinel := g2.sentinel, targetDir := g2.targetDir) == g2;
  }

  /** The file half of `StepsEffect`: the files written and the frame outside the store. */
  lemma StepsFiles(fs: FileSystem, env: Env, g: ConfGuard, envrc: Path)
    requires Setting(fs, g) && envrc == EnvrcOf(g.sourceDir) && envrc in fs && !fs[envrc].Symlink?
    requires GuardSteps(fs, env, g, envrc).result.Ok?
    ensures LeftFiles(fs, env, g, GuardSteps(fs, env, g, envrc))
  {
    StepsUnfold(fs, env, g, envrc);
    var s := CreateSentinel(fs, env, g);
    var g2 := s.result.value;
    var t := g2.targetDir.value;
    var d := t + [DOT_ENVRC];
    var script := g.sourceDir + RUN_CONFIG;
    AfterSentinel(fs, env, g);
    SopsEnvsEffect(s.fs, env, g2);
    var fsB := CreateSopsEnvs(s.fs, env, g2).fs;
    StampReady(fs, s.fs, fsB, g.sourceDir, t, envrc, script);
    StampEffect(fsB, env, g2, envrc, d);
    var fs2 := MoveAndStamp(fsB, env, g2, envrc, d).fs;
    StampKeeps(fsB, fs2, g.sourceDir, t, envrc, env.resources[RSENV]);
    ChainFrame(fs, s.fs, fsB, fs2, g.baseDir, t, envrc, script);
  }

  /**
   * What a successful `guard` leaves, the record it returns being `g` stamped with the
   * link style `rel`, its sentinel and its target directory `t`: `.envrc` is a link to
   * `t/dot.envrc`, which holds the old content with the section spliced in; the four
   * environment files and the run configuration script are written; outside the store
   * nothing else changes.
   */
  predicate Left(fs: FileSystem, env: Env, g: ConfGuard, rel: bool, o: Outcome<ConfGuard>) {
    LeftLink(fs, env, g, rel, o) && LeftFiles(fs, env, g, o)
  }

  /** The record `guard` returns and the link it leaves at `.envrc`. */
  predicate LeftLink(fs: FileSystem, env: Env, g: ConfGuard, rel: bool, o: Outcome<ConfGuard>) {
    var envrc := EnvrcOf(g.sourceDir);
    && o.result.Ok?
    && g.sourceDir != [] && envrc in fs && fs[envrc].File? && env.home.Some?
    && var t := g.baseDir + [GUARDED, SentinelName(g.sourceDir, env.random)];
       var d := t + [DOT_ENVRC];
    && o.result.value == g.(isRelative := rel, sentinel := SentinelName(g.sourceDir, env.random), targetDir := Some(t))
    && IsSymlink(o.fs, envrc) && o.fs[envrc].target == LinkTargetFor(d, envrc, rel)
    && Canonical(o.fs, envrc) == Some(d)
    && d in o.fs && o.fs[d] == File(Spliced(fs[envrc].content, SectionFor(env, o.result.value, d)))
    && ContentAt(o.fs, envrc) == Some(Spliced(fs[envrc].content, SectionFor(env, o.result.value, d)))
  }

  /** The files `guard` writes and what it keeps outside the store. */
  predicate LeftFiles(fs: FileSystem, env: Env, g: ConfGuard, o: Outcome<ConfGuard>) {
    var envrc := EnvrcOf(g.sourceDir);
    && g.sourceDir != []
    && var t := g.baseDir + [GUARDED, SentinelName(g.sourceDir, env.random)];
    && (forall e | e in ENVIRONMENTS ::
          EnvFile(t + [ENVIRONMENTS_DIR], e) in o.fs
          && o.fs[EnvFile(t + [ENVIRONMENTS_DIR], e)] == File(EnvContent(e)))
    && g.sourceDir + RUN_CONFIG in o.fs && RSENV in env.resources
    && o.fs[g.sourceDir + RUN_CONFIG] == File(env.resources[RSENV])
    && (forall q | q in fs && q != envrc && q != g.sourceDir + RUN_CONFIG && !IsPrefix(g.baseDir, q) ::
          q in o.fs && o.fs[q] == fs[q])
    && Wf(o.fs)
  }

  /** Before the stamp step, `.envrc` is still the plain entry it was. */
  lemma StampReady(fs: FileSystem, fs1: FileSystem, fsB: FileSystem, sourceDir: Path, t: Path,
                   envrc: Path, script: Path)
    requires Grows(fs, fs1) && IsPath(sourceDir) && IsPath(t) && Apart(t, sourceDir)
    requires envrc == EnvrcOf(sourceDir) && script == sourceDir + RUN_CONFIG
    requires envrc in fs && !fs[envrc].Symlink?
    requires forall q | q in fs1 && q != script && !IsPrefix(t, q) :: q in fsB && fsB[q] == fs1[q]
    ensures IsPath(envrc) && IsPath(t + [DOT_ENVRC]) && Apart(envrc, t + [DOT_ENVRC])
    ensures envrc in fsB && fsB[envrc] == fs[envrc]
  {
    assert NormalPart(ENVRC) && NormalPart(DOT_ENVRC);
    PathAppend(sourceDir, [ENVRC]);
    PathAppend(t, [DOT_ENVRC]);
    PrefixExtend(sourceDir, sourceDir, [ENVRC]);
    PrefixExtend(t, t, [DOT_ENVRC]);
    ApartBelow(sourceDir, t, envrc, t + [DOT_ENVRC]);
    assert |envrc| != |script|;
  }
  /**
   * A successful `guard`, from the project directory: the record is stamped with
   * the link style asked for, and the filesystem changes as for its steps.
   */
  lemma GuardLeaves(fs: FileSystem, env: Env, g: ConfGuard, absolute: bool)
    requires Setting(fs, g) && Guard.Guard(fs, env, g, absolute).result.Ok?
    ensures Left(fs, env, g, !absolute, Guard.Guard(fs, env, g, absolute))
  {
    var envrc := EnvrcOf(g.sourceDir);
    var g1 := g.(isRelative := !absolute);
    assert Guard.Guard(fs, env, g, absolute) == GuardSteps(fs, env, g1, envrc);
    assert Setting(fs, g1);
    StepsEffect(fs, env, g1, envrc);
    assert g1.sourceDir == g.sourceDir && g1.baseDir == g.baseDir;
    var t := g.baseDir + [GUARDED, SentinelName(g.sourceDir, env.random)];
    assert g1.(isRelative := !absolute, sentinel := SentinelName(g.sourceDir, env.random), targetDir := Some(t))
        == g.(isRelative := !absolute, sentinel := SentinelName(g.sourceDir, env.random), targetDir := Some(t));
  }
}

=== FILE: guard_roundtrip.dfy ===
/**
 * What the other commands see after a successful `guard`: the project reads back as
 * guarded with the very record `guard` returned, and guarding it again is refused.
 */
module GuardRoundTrip {
  import opened Text
  import opened Paths
  import opened Errors
  import opened Fs
  import opened HomeBased
  import opened Section
  import opened Link
  import opened Envrc
  import opened ParseInt
  import opened Guard
  import opened GuardEffect

  /** Path components free of the characters that would break the section's lines or `$HOME`. */
  predicate Clean(p: Path) {
    forall i | 0 <= i < |p| :: '\n' !in p[i] && '\r' !in p[i] && '$' !in p[i]
  }

  // ---------------------------------------------------------------------------------
  // Characters that cannot appear
  // ---------------------------------------------------------------------------------

  lemma {:induction false} JoinFree(xs: seq<string>, sep: string, c: char)
    requires c !in sep && forall i | 0 <= i < |xs| :: c !in xs[i]
    ensures c !in Join(xs, sep)
    decreases |xs|
  {
    if |xs| > 1 {
      JoinFree(xs[1..], sep, c);
    }
  }

  lemma {:induction false} ReplaceFree(s: string, pat: string, rep: string, c: char)
    requires |pat| > 0 && c !in s && c !in rep
    ensures c !in ReplaceAll(s, pat, rep)
    decreases |s|
  {
    if |s| >= |pat| {
      if s[..|pat|] == pat {
        ReplaceFree(s[|pat|..], pat, rep, c);
      } else {
        ReplaceFree(s[1..], pat, rep, c);
      }
    }
  }

  lemma DisplayFree(p: Path, c: char)
    requires c != '/' && forall i | 0 <= i < |p| :: c !in p[i]
    ensures c !in Display(p)
  {
    JoinFree(p, "/", c);
  }

  lemma CleanAppend(p: Path, q: Path)
    requires Clean(p) && |q| > 0 && q[0] == GUARDED && Clean(q[1..])
    ensures Clean(p + q)
  {
    forall i | 0 <= i < |p + q|
      ensures '\n' !in (p + q)[i] && '\r' !in (p + q)[i] && '$' !in (p + q)[i]
    {
      if i > |p| {
        assert (p + q)[i] == q[1..][i - |p| - 1];
      }
    }
  }

  /** The sentinel name is clean when the project's name is. */
  lemma SentinelClean(sourceDir: Path, random: nat)
    requires sourceDir != [] && Clean(sourceDir)
    ensures Clean([SentinelName(sourceDir, random)])
  {
    var h := HexDigits(random, 8);
    var name := FileName(sourceDir);
    var s := SentinelName(sourceDir, random);
    assert '\n' !in name && '\r' !in name && '$' !in name;
    forall i | 0 <= i < |s|
      ensures s[i] != '\n' && s[i] != '\r' && s[i] != '$'
    {
      if i < |name| {
        assert s[i] == name[i];
      } else if i > |name| {
        assert s[i] == h[i - |name| - 1];
        assert IsLowerHex(h[i - |name| - 1]);
      }
    }
  }

  /** The stored project path is one non-empty line. */
  lemma SourceTextPlain(home: Path, sourceDir: Path)
    requires Clean(sourceDir)
    ensures ToHomeBased(Some(home), Buf(sourceDir)).Ok?
    ensures var v := ToHomeBased(Some(home), Buf(sourceDir)).value;
            '\n' !in v && |v| > 0
  {
    assert DisplayBuf(Buf(sourceDir)) == Display(sourceDir);
    DisplayFree(sourceDir, '\n');
    ReplaceFree(Display(sourceDir), Display(home), HomeMarker, '\n');
  }

  /** The stored `SOPS_PATH` is one line. */
  lemma SopsPathPlain(home: Path, t: Path)
    requires Clean(t)
    ensures PlainLine(SopsPath(home, t + [DOT_ENVRC]))
  {
    assert Parent(t + [DOT_ENVRC]) == t;
    var r := DiffPaths(t, home);
    var xs := Ups(r.ups) + r.down;
    forall i | 0 <= i < |xs|
      ensures '\n' !in xs[i] && '\r' !in xs[i]
    {
      if i >= r.ups {
        assert xs[i] == t[|t| - |r.down| + (i - r.ups)];
      }
    }
    JoinFree(xs, "/", '\n');
    JoinFree(xs, "/", '\r');
  }

  // ---------------------------------------------------------------------------------
  // Reading the project back
  // ---------------------------------------------------------------------------------

  /**
   * The conditions for reading back: a project path that is its own canonical form, a
   * record built from the environment (version and store), clean paths, a one-line
   * timestamp, and an `.envrc` that ends in a newline and holds no field or marker lines.
   */
  predicate Readable(fs: FileSystem, env: Env, g: ConfGuard) {
    && Canonical(fs, g.sourceDir) == Some(g.sourceDir)
    && g.baseDir == env.base && 0 <= g.version <= I64_MAX
    && env.home.Some? && Clean(g.sourceDir) && Clean(g.baseDir) && Clean(env.home.value)
    && '\n' !in env.timestamp
    && EnvrcOf(g.sourceDir) in fs && fs[EnvrcOf(g.sourceDir)].File?
    && var c := fs[EnvrcOf(g.sourceDir)].content;
       && EndsWith(c, "\n") && !Contains(c, START_WORDS)
       && forall i | 0 <= i < |Lines(c)| :: Classify(Lines(c)[i]) == OtherLine
  }

  /** The project directory itself is left where it was. */
  lemma ProjectKept(fs: FileSystem, env: Env, g: ConfGuard, absolute: bool)
    requires Setting(fs, g) && Guard.Guard(fs, env, g, absolute).result.Ok?
    requires Canonical(fs, g.sourceDir) == Some(g.sourceDir)
    ensures Canonical(Guard.Guard(fs, env, g, absolute).fs, g.sourceDir) == Some(g.sourceDir)
  {
    GuardLeaves(fs, env, g, absolute);
    var fs2 := Guard.Guard(fs, env, g, absolute).fs;
    var s := g.sourceDir;
    assert s in fs && !fs[s].Symlink?;
    assert |s| != |EnvrcOf(s)| && |s| != |s + RUN_CONFIG|;
    assert s in fs2 && fs2[s] == fs[s];
    CanonicalPlain(fs2, s);
  }

  /** The fields written for a record `guard` produces are single lines that read back. */
  lemma StampedText(fs: FileSystem, env: Env, g: ConfGuard)
    requires env.home.Some? && IsPath(g.sourceDir)
    requires Clean([g.sentinel]) && g.targetDir == Some(g.baseDir + [GUARDED, g.sentinel])
    requires Clean(g.sourceDir) && Clean(g.baseDir) && Clean(env.home.value)
    requires Canonical(fs, g.sourceDir) == Some(g.sourceDir)
    ensures ToHomeBased(env.home, Buf(g.sourceDir)).Ok?
    ensures var src := ToHomeBased(env.home, Buf(g.sourceDir)).value;
            && '\n' !in src && |src| > 0
            && PlainLine(SopsPath(env.home.value, g.targetDir.value + [DOT_ENVRC]))
            && FromHomeBased(fs, env.cwd, env.home, src) == Ok(g.sourceDir)
  {
    var home := env.home.value;
    CleanAppend(g.baseDir, [GUARDED, g.sentinel]);
    SourceTextPlain(home, g.sourceDir);
    SopsPathPlain(home, g.targetDir.value);
    DisplayFree(g.sourceDir, '$');
    DisplayFree(home, '$');
    HomeRoundTrip(fs, env.cwd, home, g.sourceDir);
  }

  /** The section text for `g`, spelled out with its stored project path and `SOPS_PATH`. */
  lemma SectionSpelled(env: Env, g: ConfGuard, d: Path)
    requires env.home.Some?
    ensures SectionFor(env, g, d)
         == SectionText(g.isRelative, g.version, g.sentinel, env.timestamp,
                        ToHomeBased(env.home, Buf(g.sourceDir)).value, SopsPath(env.home.value, d))
  {
  }

  /**
   * A project whose `.envrc` reads as `c` followed by the section for `g`, with fields
   * that are single lines, reads back as `g`.
   */
  lemma ReadBack(fs: FileSystem, env: Env, g: ConfGuard, c: string, src: string, sops: string)
    requires IsPath(g.baseDir) && g.baseDir == env.base && 0 <= g.version <= I64_MAX
    requires NormalPart(g.sentinel) && '\n' !in g.sentinel && g.targetDir == Some(g.baseDir + [GUARDED, g.sentinel])
    requires '\n' !in env.timestamp && '\n' !in src && |src| > 0 && PlainLine(sops)
    requires FromHomeBased(fs, env.cwd, env.home, src) == Ok(g.sourceDir)
    requires c == "" || EndsWith(c, "\n")
    requires forall i | 0 <= i < |Lines(c)| :: Classify(Lines(c)[i]) == OtherLine
    requires ContentAt(fs, EnvrcOf(g.sourceDir))
             == Some(c + SectionText(g.isRelative, g.version, g.sentinel, env.timestamp, src, sops))
    ensures FromGuardedProject(fs, env, g.sourceDir) == Ok(g)
  {
    FromEnvrcWritten(fs, env.cwd, env.home, env.base, EnvrcOf(g.sourceDir), c, g.isRelative, g.version,
                     g.sentinel, env.timestamp, src, sops, g.sourceDir);
    GuardedDirOf(env.base, g.sentinel);
  }

  /**
   * A project whose `.envrc` holds its old content with the section for `g` appended
   * reads back as `g`, provided the record is one `guard` produces: a sentinel that is
   * one clean component and the target directory below it.
   */
  lemma LoadStamped(fs: FileSystem, env: Env, g: ConfGuard, c: string)
    requires env.home.Some? && g.sourceDir != [] && IsPath(g.sourceDir) && IsPath(g.baseDir)
    requires g.baseDir == env.base && 0 <= g.version <= I64_MAX
    requires NormalPart(g.sentinel) && Clean([g.sentinel]) && g.targetDir == Some(g.baseDir + [GUARDED, g.sentinel])
    requires Clean(g.sourceDir) && Clean(g.baseDir) && Clean(env.home.value) && '\n' !in env.timestamp
    requires Canonical(fs, g.sourceDir) == Some(g.sourceDir)
    requires EndsWith(c, "\n") && !Contains(c, START_WORDS)
    requires forall i | 0 <= i < |Lines(c)| :: Classify(Lines(c)[i]) == OtherLine
    requires ContentAt(fs, EnvrcOf(g.sourceDir))
             == Some(Spliced(c, SectionFor(env, g, g.targetDir.value + [DOT_ENVRC])))
    ensures FromGuardedProject(fs, env, g.sourceDir) == Ok(g)
  {
    var d := g.targetDir.value + [DOT_ENVRC];
    var src := ToHomeBased(env.home, Buf(g.sourceDir)).value;
    var sops := SopsPath(env.home.value, d);
    StampedText(fs, env, g);
    SectionSpelled(env, g, d);
    SplicedAppendsTerminated(c, SectionFor(env, g, d));
    assert '\n' !in g.sentinel by {
      assert [g.sentinel][0] == g.sentinel;
    }
    ReadBack(fs, env, g, c, src, sops);
  }

  /**
   * `from_guarded_project` after `guard` reads back exactly the record `guard` returned:
   * the section written into the moved `.envrc` parses to the same version, link style,
   * sentinel, project path and target directory.
   */
  lemma GuardThenLoad(fs: FileSystem, env: Env, g: ConfGuard, absolute: bool)
    requires Setting(fs, g) && Readable(fs, env, g)
    requires Guard.Guard(fs, env, g, absolute).result.Ok?
    ensures var o := Guard.Guard(fs, env, g, absolute);
            FromGuardedProject(o.fs, env, g.sourceDir) == Ok(o.result.value)
  {
    var o := Guard.Guard(fs, env, g, absolute);
    GuardLeaves(fs, env, g, absolute);
    ProjectKept(fs, env, g, absolute);
    SentinelNormal(g.sourceDir, env.random);
    SentinelClean(g.sourceDir, env.random);
    LoadStamped(o.fs, env, o.result.value, fs[EnvrcOf(g.sourceDir)].content);
  }

  // ---------------------------------------------------------------------------------
  // Guarding twice
  // ---------------------------------------------------------------------------------

  /**
   * After `guard`, the project's `.envrc` is a link: preparing a second guard is refused
   * with "already guarded (symlink)", and so is a second `guard` of the returned record,
   * which then leaves the filesystem alone.
   */
  lemma GuardTwice(fs: FileSystem, env: Env, g: ConfGuard, absolute: bool, isRelative: bool, absolute2: bool)
    requires Setting(fs, g) && Canonical(fs, g.sourceDir) == Some(g.sourceDir)
    requires Guard.Guard(fs, env, g, absolute).result.Ok?
    ensures var o := Guard.Guard(fs, env, g, absolute);
            && NewForGuarding(o.fs, env, g.sourceDir, isRelative) == Err(ProjectAlreadyGuardedSymlink)
            && Guard.Guard(o.fs, env, o.result.value, absolute2) == Outcome(o.fs, Err(ProjectAlreadyGuardedSymlink))
  {
    GuardLeaves(fs, env, g, absolute);
    ProjectKept(fs, env, g, absolute);
  }
}

=== FILE: guard_success.dfy ===
/**
 * When `guard` succeeds: in a well-formed filesystem where the store's base directory
 * exists without a `guarded` directory yet, and the project holds a plain `.envrc` but
 * no `.idea` directory, every step of `guard` goes through and the record comes back
 * with its new sentinel and target directory.
 */
module GuardSuccess {
  import opened Text
  import opened Paths
  import opened Errors
  import opened Fs
  import opened HelperPath
  import opened Link
  import opened MoveLink
  import opened Envrc
  import opened Guard
  import opened Section
  import opened ParseInt
  import opened GuardEffect
  import opened GuardRoundTrip

  /** A path with no entry has nothing below it. */
  lemma NothingBelow(fs: FileSystem, d: Path, x: Path)
    requires Wf(fs) && d != [] && d !in fs
    ensures x in fs ==> !IsPrefix(d, x)
  {
    if x in fs {
      AbsentHasNoChildren(fs, d, x);
    }
  }

  /** Going one level down from one of two apart paths keeps them apart. */
  lemma ApartBelow(a: Path, b: Path, x: string)
    requires Apart(a, b)
    ensures Apart(a + [x], b) && Apart(b, a + [x])
  {
    assert (a + [x])[..|a|] == a;
  }

  /** One more normal component keeps a path normal. */
  lemma PathChild(p: Path, x: string)
    requires IsPath(p) && NormalPart(x)
    ensures IsPath(p + [x])
  {
    assert forall i | 0 <= i < |p| :: (p + [x])[i] == p[i];
  }

  lemma NamesNormal()
    ensures NormalPart(GUARDED) && NormalPart(ENVRC) && NormalPart(DOT_ENVRC)
  {
  }

  /** A directory whose parent is in place and which is not there yet is made by itself. */
  lemma MkdirFresh(fs: FileSystem, p: Path)
    requires Wf(fs) && p != [] && p !in fs && (|p| > 1 ==> Parent(p) in fs && fs[Parent(p)].Dir?)
    ensures CreateDirAll(fs, p) == Ok(fs[p := Dir]) && Wf(fs[p := Dir])
  {
    CreateDirAllWf(fs, p);
  }

  /** With the grandparent in place and neither the parent nor the path there, both are made. */
  lemma MkdirFreshTwo(fs: FileSystem, p: Path)
    requires Wf(fs) && |p| > 2 && p !in fs && Parent(p) !in fs
    requires Parent(Parent(p)) in fs && fs[Parent(Parent(p))].Dir?
    ensures CreateDirAll(fs, p) == Ok(fs[Parent(p) := Dir][p := Dir]) && Wf(fs[Parent(p) := Dir][p := Dir])
  {
    assert Mkdir(fs, p) == Err(FileOperation(NotFound));
    MkdirFresh(fs, Parent(p));
    MkdirFresh(fs[Parent(p) := Dir], p);
  }

  /** A file whose directory is in place and which is not there yet is created by writing it. */
  lemma WriteFresh(fs: FileSystem, p: Path, c: string)
    requires Wf(fs) && p != [] && p !in fs && (|p| > 1 ==> Parent(p) in fs && fs[Parent(p)].Dir?)
    ensures !Exists(fs, p) && WriteFile(fs, p, c) == Ok(fs[p := File(c)]) && Wf(fs[p := File(c)])
  {
    assert BrokenEnd(fs, p, MaxFollow) == Some(p);
    WriteWf(fs, p, c);
  }

  /** Every entry `fs2` has beyond `fs` lies at or below `d`. */
  predicate AddedBelow(fs: FileSystem, fs2: FileSystem, d: Path) {
    forall q | q in fs2 && q !in fs :: IsPrefix(d, q)
  }

  /** Adding one entry at or below `d` keeps everything and adds only below `d`. */
  lemma AddOne(fs: FileSystem, d: Path, p: Path, n: Node)
    requires p !in fs && IsPrefix(d, p)
    ensures Grows(fs, fs[p := n]) && AddedBelow(fs, fs[p := n], d)
  {
  }

  /** Adding an entry keeps everything and adds only at or below that entry. */
  lemma AddTop(fs: FileSystem, p: Path, n: Node)
    requires p !in fs
    ensures Grows(fs, fs[p := n]) && AddedBelow(fs, fs[p := n], p)
  {
    assert IsPrefix(p, p);
  }

  lemma AddedTrans(fs0: FileSystem, fs1: FileSystem, fs2: FileSystem, d: Path)
    requires Grows(fs0, fs1) && Grows(fs1, fs2) && AddedBelow(fs0, fs1, d) && AddedBelow(fs1, fs2, d)
    ensures Grows(fs0, fs2) && AddedBelow(fs0, fs2, d)
  {
  }

  /** Adding `d` and then two entries below it keeps everything and adds only at or below `d`. */
  lemma AddThree(fs: FileSystem, d: Path, p: Path, q: Path, n1: Node, n2: Node, n3: Node)
    requires d !in fs && p !in fs[d := n1] && q !in fs[d := n1][p := n2]
    requires IsPrefix(d, p) && IsPrefix(d, q)
    ensures var fs3 := fs[d := n1][p := n2][q := n3];
            Grows(fs, fs3) && AddedBelow(fs, fs3, d)
  {
    AddTop(fs, d, n1);
    AddOne(fs[d := n1], d, p, n2);
    AddedTrans(fs, fs[d := n1], fs[d := n1][p := n2], d);
    AddOne(fs[d := n1][p := n2], d, q, n3);
    AddedTrans(fs, fs[d := n1][p := n2], fs[d := n1][p := n2][q := n3], d);
  }

  lemma AddedTwo(fs0: FileSystem, fs1: FileSystem, fs2: FileSystem, d1: Path, d2: Path)
    requires Grows(fs0, fs1) && Grows(fs1, fs2) && AddedBelow(fs0, fs1, d1) && AddedBelow(fs1, fs2, d2)
    ensures Grows(fs0, fs2) && forall q | q in fs2 && q !in fs0 :: IsPrefix(d1, q) || IsPrefix(d2, q)
  {
  }

  /** A walk from a directory that was just made finds no sentinel: only the directory is visited. */
  lemma FreshDirWalk(fs: FileSystem, d: Path, base: string)
    requires Wf(fs) && d != [] && d !in fs
    requires PlainName(base) && |FileName(d)| < |base| + 9
    ensures FindSentinelDirs(fs[d := Dir], d, base) == Ok([])
  {
    var fs1 := fs[d := Dir];
    CanonicalPlain(fs1, d);
    forall q | q in fs1 && IsPrefix(d, q) && q != d
      ensures false
    {
      NothingBelow(fs, d, q);
    }
    assert WalkDirs(fs1, d) == {d};
    var found := set x | x in WalkDirs(fs1, d) && SentinelMatch(EntryName(x), base);
    assert found == {};
  }

  /**
   * `create_sentinel` on a record without a sentinel, with the base directory in place
   * and no `guarded` directory yet: both directories are made and nothing else changes.
   */
  lemma SentinelSucceeds(fs: FileSystem, env: Env, g: ConfGuard)
    requires Wf(fs) && g.sentinel == "" && g.sourceDir != [] && PlainName(FileName(g.sourceDir))
    requires g.baseDir != [] && g.baseDir in fs && fs[g.baseDir].Dir? && g.baseDir + [GUARDED] !in fs
    ensures var guarded := g.baseDir + [GUARDED];
            var s := SentinelName(g.sourceDir, env.random);
            var o := CreateSentinel(fs, env, g);
            && o == Outcome(fs[guarded := Dir][guarded + [s] := Dir],
                            Ok(g.(sentinel := s, targetDir := Some(guarded + [s]))))
            && Wf(o.fs)
            && forall q | q in o.fs && IsPrefix(guarded + [s], q) :: q == guarded + [s]
  {
    var guarded := g.baseDir + [GUARDED];
    var s := SentinelName(g.sourceDir, env.random);
    var target := guarded + [s];
    assert Parent(guarded) == g.baseDir;
    MkdirFresh(fs, guarded);
    FreshDirWalk(fs, guarded, FileName(g.sourceDir));
    var fs1 := fs[guarded := Dir];
    assert IsPrefix(guarded, target);
    NothingBelow(fs, guarded, target);
    assert Parent(target) == guarded;
    MkdirFresh(fs1, target);
    forall q | q in fs1[target := Dir] && IsPrefix(target, q)
      ensures q == target
    {
      assert IsPrefix(guarded, q);
      NothingBelow(fs, guarded, q);
    }
    assert target == g.baseDir + [GUARDED, s];
  }

  lemma EnvFileInjective(envDir: Path, a: string, b: string)
    requires EnvFile(envDir, a) == EnvFile(envDir, b)
    ensures a == b
  {
    assert a + ".env" == EnvFile(envDir, a)[|envDir|];
    assert (a + ".env")[..|a|] == a;
    assert (b + ".env")[..|b|] == b;
  }

  /**
   * Writing the environment files into an existing directory succeeds when no two names
   * coincide and none of the files is there yet; only entries directly below the
   * directory are added.
   */
  lemma {:induction false} EnvFilesFresh(fs: FileSystem, envDir: Path, envs: seq<string>)
    requires Wf(fs) && envDir != [] && envDir in fs && fs[envDir].Dir?
    requires forall i | 0 <= i < |envs| :: EnvFile(envDir, envs[i]) !in fs
    requires forall i, j | 0 <= i < j < |envs| :: envs[i] != envs[j]
    ensures var o := WriteEnvFiles(fs, envDir, envs);
            o.result.Ok? && Wf(o.fs) && Grows(fs, o.fs) && AddedBelow(fs, o.fs, envDir)
    decreases |envs|
  {
    if envs != [] {
      var p := EnvFile(envDir, envs[0]);
      var c := EnvContent(envs[0]);
      assert Parent(p) == envDir;
      WriteFresh(fs, p, c);
      var fs1 := fs[p := File(c)];
      forall i | 0 <= i < |envs[1..]|
        ensures EnvFile(envDir, envs[1..][i]) !in fs1
      {
        if EnvFile(envDir, envs[1..][i]) == p {
          EnvFileInjective(envDir, envs[1..][i], envs[0]);
        }
      }
      EnvFilesFresh(fs1, envDir, envs[1..]);
      AddOne(fs, envDir, p, File(c));
      AddedTrans(fs, fs1, WriteEnvFiles(fs1, envDir, envs[1..]).fs, envDir);
    }
  }

  /** `copy_file_from_resources` when the destination's directory is missing: make it, then write. */
  lemma CopyAfterMaking(fs: FileSystem, resources: map<string, string>, name: string, dest: Path, fs1: FileSystem)
    requires name in resources && dest != [] && !Exists(fs, Parent(dest))
    requires CreateDirAll(fs, Parent(dest)) == Ok(fs1) && WriteFile(fs1, dest, resources[name]).Ok?
    ensures CopyResource(fs, resources, name, dest) == Outcome(WriteFile(fs1, dest, resources[name]).value, Ok(()))
  {
  }

  /**
   * Copying the run-configuration script into a project without an `.idea` directory
   * makes `.idea` and `.idea/runConfigurations` and writes the script; nothing else changes.
   */
  lemma RunConfigPlaced(fs: FileSystem, resources: map<string, string>, sourceDir: Path)
    requires Wf(fs) && sourceDir != [] && sourceDir in fs && fs[sourceDir].Dir?
    requires sourceDir + [".idea"] !in fs && RSENV in resources
    ensures var idea := sourceDir + [".idea"];
            var fs2 := fs[idea := Dir][idea + ["runConfigurations"] := Dir][sourceDir + RUN_CONFIG := File(resources[RSENV])];
            && CopyResource(fs, resources, RSENV, sourceDir + RUN_CONFIG) == Outcome(fs2, Ok(())) && Wf(fs2)
            && Grows(fs, fs2) && AddedBelow(fs, fs2, idea)
  {
    var idea := sourceDir + [".idea"];
    var dest := sourceDir + RUN_CONFIG;
    var pd := idea + ["runConfigurations"];
    var fs1 := fs[idea := Dir][pd := Dir];
    RunConfigDirs(fs, sourceDir);
    WriteFresh(fs1, dest, resources[RSENV]);
    CopyAfterMaking(fs, resources, RSENV, dest, fs1);
    AddThree(fs, idea, pd, dest, Dir, Dir, File(resources[RSENV]));
  }

  /** Where the run-configuration script goes in a project without `.idea`: nothing is there yet. */
  lemma RunConfigPaths(fs: FileSystem, sourceDir: Path)
    requires Wf(fs) && sourceDir != [] && sourceDir + [".idea"] !in fs
    ensures var idea := sourceDir + [".idea"];
            var pd := idea + ["runConfigurations"];
            var dest := sourceDir + RUN_CONFIG;
            && Parent(dest) == pd && Parent(pd) == idea && Parent(idea) == sourceDir
            && IsPrefix(idea, pd) && IsPrefix(idea, dest)
            && pd !in fs && dest !in fs && dest != idea && dest != pd
  {
    var idea := sourceDir + [".idea"];
    var dest := sourceDir + RUN_CONFIG;
    var pd := idea + ["runConfigurations"];
    assert Parent(dest) == pd && Parent(pd) == idea && Parent(idea) == sourceDir;
    assert IsPrefix(idea, pd) && IsPrefix(idea, dest);
    NothingBelow(fs, idea, pd);
    NothingBelow(fs, idea, dest);
    assert |dest| != |idea| && |dest| != |pd|;
  }

  /** `.idea/runConfigurations` is made in one go in a project without `.idea`, and the script's path is free. */
  lemma RunConfigDirs(fs: FileSystem, sourceDir: Path)
    requires Wf(fs) && sourceDir != [] && sourceDir in fs && fs[sourceDir].Dir?
    requires sourceDir + [".idea"] !in fs
    ensures var idea := sourceDir + [".idea"];
            var pd := idea + ["runConfigurations"];
            var dest := sourceDir + RUN_CONFIG;
            var fs1 := fs[idea := Dir][pd := Dir];
            && Parent(dest) == pd && !Exists(fs, pd) && CreateDirAll(fs, pd) == Ok(fs1) && Wf(fs1)
            && dest !in fs1 && fs1[pd].Dir? && dest !in fs[idea := Dir] && pd !in fs[idea := Dir]
            && IsPrefix(idea, pd) && IsPrefix(idea, dest)
  {
    RunConfigPaths(fs, sourceDir);
    MkdirFreshTwo(fs, sourceDir + [".idea"] + ["runConfigurations"]);
  }



  /** `create_sops_envs` once the environments directory is made and its files written. */
  lemma SopsEnvsSteps(fs: FileSystem, env: Env, g: ConfGuard, fs1: FileSystem)
    requires g.targetDir.Some? && CreateDirAll(fs, g.targetDir.value + [ENVIRONMENTS_DIR]) == Ok(fs1)
    requires WriteEnvFiles(fs1, g.targetDir.value + [ENVIRONMENTS_DIR], ENVIRONMENTS).result.Ok?
    ensures CreateSopsEnvs(fs, env, g)
         == CopyResource(WriteEnvFiles(fs1, g.targetDir.value + [ENVIRONMENTS_DIR], ENVIRONMENTS).fs,
                         env.resources, RSENV, g.sourceDir + RUN_CONFIG)
  {
  }

  /**
   * In an empty target directory, `<target>/environments` is made and the four
   * environment files are written into it; everything else stays.
   */
  lemma EnvironmentsWritten(fs: FileSystem, t: Path)
    requires Wf(fs) && t != [] && t in fs && fs[t].Dir?
    requires forall q | q in fs && IsPrefix(t, q) :: q == t
    ensures var envDir := t + [ENVIRONMENTS_DIR];
            var fs1 := fs[envDir := Dir];
            var w := WriteEnvFiles(fs1, envDir, ENVIRONMENTS);
            && envDir !in fs && CreateDirAll(fs, envDir) == Ok(fs1)
            && w.result.Ok? && Wf(w.fs) && Grows(fs1, w.fs) && AddedBelow(fs1, w.fs, envDir)
            && Grows(fs, fs1) && AddedBelow(fs, fs1, envDir)
  {
    var envDir := t + [ENVIRONMENTS_DIR];
    var fs1 := fs[envDir := Dir];
    assert Parent(envDir) == t && IsPrefix(t, envDir);
    MkdirFresh(fs, envDir);
    EnvFilesAbsent(fs, t);
    EnvironmentsDistinct();
    EnvFilesFresh(fs1, envDir, ENVIRONMENTS);
    AddTop(fs, envDir, Dir);
  }

  lemma EnvironmentsDistinct()
    ensures forall i, j | 0 <= i < j < |ENVIRONMENTS| :: ENVIRONMENTS[i] != ENVIRONMENTS[j]
  {
  }

  /** Below an empty target directory, none of the environment files exists yet. */
  lemma EnvFilesAbsent(fs: FileSystem, t: Path)
    requires forall q | q in fs && IsPrefix(t, q) :: q == t
    ensures var envDir := t + [ENVIRONMENTS_DIR];
            forall i | 0 <= i < |ENVIRONMENTS| :: EnvFile(envDir, ENVIRONMENTS[i]) !in fs[envDir := Dir]
  {
    var envDir := t + [ENVIRONMENTS_DIR];
    forall i | 0 <= i < |ENVIRONMENTS|
      ensures EnvFile(envDir, ENVIRONMENTS[i]) !in fs[envDir := Dir]
    {
      assert IsPrefix(t, EnvFile(envDir, ENVIRONMENTS[i]));
    }
  }

  /**
   * `create_sops_envs` with an empty target directory and a project without `.idea`,
   * the two apart: it succeeds, keeps every entry, and adds entries only below
   * `<target>/environments` and the project's `.idea`.
   */
  lemma SopsEnvsSucceed(fs: FileSystem, env: Env, g: ConfGuard)
    requires Wf(fs) && g.targetDir.Some? && g.targetDir.value != []
    requires g.targetDir.value in fs && fs[g.targetDir.value].Dir?
    requires forall q | q in fs && IsPrefix(g.targetDir.value, q) :: q == g.targetDir.value
    requires g.sourceDir != [] && g.sourceDir in fs && fs[g.sourceDir].Dir? && g.sourceDir + [".idea"] !in fs
    requires Apart(g.targetDir.value, g.sourceDir) && RSENV in env.resources
    ensures var o := CreateSopsEnvs(fs, env, g);
            && o.result.Ok? && Wf(o.fs) && Grows(fs, o.fs)
            && forall q | q in o.fs && q !in fs ::
                 IsPrefix(g.targetDir.value + [ENVIRONMENTS_DIR], q) || IsPrefix(g.sourceDir + [".idea"], q)
  {
    var t := g.targetDir.value;
    var envDir := t + [ENVIRONMENTS_DIR];
    var idea := g.sourceDir + [".idea"];
    EnvironmentsWritten(fs, t);
    var fs1 := fs[envDir := Dir];
    var w := WriteEnvFiles(fs1, envDir, ENVIRONMENTS);
    ApartBelow(t, g.sourceDir, ENVIRONMENTS_DIR);
    ApartBelow(g.sourceDir, envDir, ".idea");
    assert idea !in w.fs;
    RunConfigPlaced(w.fs, env.resources, g.sourceDir);
    SopsEnvsSteps(fs, env, g, fs1);
    AddedTrans(fs, fs1, w.fs, envDir);
    AddedTwo(fs, w.fs, CreateSopsEnvs(fs, env, g).fs, envDir, idea);
  }

  /** Climbing no levels means the base lies on the path to the original. */
  lemma NoUpsPrefix(original: Path, base: Path)
    ensures DiffPaths(original, base).ups == 0 ==> IsPrefix(base, original)
  {
    var k := CommonPrefixLen(original, base);
    assert base[..k] == original[..k];
  }

  lemma JoinHead(xs: seq<string>, sep: string)
    requires |xs| > 0
    ensures |Join(xs, sep)| >= |xs[0]|
  {
  }

  /** The link text is never empty when the link's directory is not on the way to the original. */
  lemma LinkTextNonEmpty(original: Path, link: Path, relative: bool)
    requires original != [] && link != [] && !IsPrefix(Parent(link), original)
    ensures TargetText(LinkTargetFor(original, link, relative)) != ""
  {
    var t := LinkTargetFor(original, link, relative);
    if relative {
      NoUpsPrefix(original, Parent(link));
      JoinHead(Ups(t.ups) + t.down, "/");
    }
  }

  /**
   * Moving a file to a fresh path in an existing directory and linking it back succeeds;
   * the file's entry is found at its new place.
   */
  lemma MovedAndLinked(fs: FileSystem, file: Path, target: Path, relative: bool)
    requires Wf(fs) && |file| > 1 && |target| > 1 && file in fs && fs[file].File? && target !in fs
    requires Parent(target) in fs && fs[Parent(target)].Dir? && !IsPrefix(Parent(file), target)
    ensures var o := MoveThenLink(fs, MoveAndLink(file, target), relative);
            o.result.Ok? && target in o.fs && o.fs[target] == fs[file]
  {
    var m := MoveAndLink(file, target);
    CanonicalPlain(fs, Parent(target));
    CreateDirAllOnDir(fs, Parent(target));
    RenameFresh(fs, file, target);
    var fs2 := MoveTree(fs, file, target);
    RebaseSelf(file, target);
    MoveTreeMoved(fs, file, target, file);
    LinkedAfterMove(fs, m, relative, fs2);
    RenameWf(fs, file, target);
    RenameVacates(fs, file, target);
    NothingBelow(fs, target, Parent(file));
    MoveTreeKept(fs, file, target, Parent(file));
    CanonicalPlain(fs2, target);
    LinkTextNonEmpty(target, file, relative);
    CreateLinkSucceeds(fs2, target, file, relative);
  }

  /** Stamping a plain file through its canonical path succeeds once the home directory is known. */
  lemma StampSucceeds(fs: FileSystem, env: Env, g: ConfGuard, link: Path, target: Path)
    requires IsPath(target) && target != [] && target in fs && fs[target].File? && env.home.Some?
    ensures StampLinked(fs, env, g, link, target).result.Ok?
  {
    NormalizePath(target);
    CanonicalPlain(fs, target);
  }

  /**
   * `.envrc` moved to a fresh path in an existing directory, linked back and stamped:
   * with the home directory known this always succeeds.
   */
  lemma MoveStampSucceeds(fs: FileSystem, env: Env, g: ConfGuard, envrc: Path, target: Path)
    requires Wf(fs) && IsPath(envrc) && IsPath(target) && |envrc| > 1 && |target| > 1
    requires envrc in fs && fs[envrc].File? && target !in fs
    requires Parent(target) in fs && fs[Parent(target)].Dir?
    requires !IsPrefix(Parent(envrc), target) && env.home.Some?
    ensures MoveAndStamp(fs, env, g, envrc, target).result.Ok?
  {
    NormalizePath(envrc);
    NormalizePath(target);
    CanonicalPlain(fs, envrc);
    assert New(fs, env.cwd, Buf(envrc), Buf(target)) == Ok(MoveAndLink(envrc, target));
    MovedAndLinked(fs, envrc, target, g.isRelative);
    StampSucceeds(MoveThenLink(fs, MoveAndLink(envrc, target), g.isRelative).fs, env, g, envrc, target);
  }

  /**
   * The steps of `guard` after the sentinel directory is made: with the new target
   * directory empty and apart from a project that has a plain `.envrc` and no `.idea`,
   * the environment files are written and `.envrc` is moved, linked and stamped.
   */
  lemma StepsAfterSentinel(fs: FileSystem, env: Env, g: ConfGuard)
    requires Wf(fs) && g.targetDir.Some? && g.targetDir.value != [] && IsPath(g.targetDir.value)
    requires g.targetDir.value in fs && fs[g.targetDir.value].Dir?
    requires forall q | q in fs && IsPrefix(g.targetDir.value, q) :: q == g.targetDir.value
    requires g.sourceDir != [] && IsPath(g.sourceDir) && g.sourceDir + [".idea"] !in fs
    requires EnvrcOf(g.sourceDir) in fs && fs[EnvrcOf(g.sourceDir)].File?
    requires Apart(g.targetDir.value, g.sourceDir) && RSENV in env.resources && env.home.Some?
    ensures var e := CreateSopsEnvs(fs, env, g);
            && e.result.Ok?
            && MoveAndStamp(e.fs, env, g, EnvrcOf(g.sourceDir), g.targetDir.value + [DOT_ENVRC]).result.Ok?
  {
    var envrc := EnvrcOf(g.sourceDir);
    assert Parent(envrc) == g.sourceDir;
    SopsEnvsSucceed(fs, env, g);
    MoveAfterSops(fs, CreateSopsEnvs(fs, env, g).fs, env, g);
  }

  /**
   * After the environment files and the run configuration are written, `.envrc` is a
   * plain file in an existing directory and `dot.envrc` a fresh path in another one,
   * apart from it.
   */
  lemma DestReady(fs: FileSystem, fs6: FileSystem, g: ConfGuard)
    requires Wf(fs) && g.targetDir.Some? && g.targetDir.value != [] && IsPath(g.targetDir.value)
    requires g.targetDir.value in fs && fs[g.targetDir.value].Dir?
    requires forall q | q in fs && IsPrefix(g.targetDir.value, q) :: q == g.targetDir.value
    requires g.sourceDir != [] && IsPath(g.sourceDir)
    requires EnvrcOf(g.sourceDir) in fs && fs[EnvrcOf(g.sourceDir)].File?
    requires Apart(g.targetDir.value, g.sourceDir)
    requires Wf(fs6) && Grows(fs, fs6)
    requires forall q | q in fs6 && q !in fs ::
               IsPrefix(g.targetDir.value + [ENVIRONMENTS_DIR], q) || IsPrefix(g.sourceDir + [".idea"], q)
    ensures var envrc := EnvrcOf(g.sourceDir);
            var dest := g.targetDir.value + [DOT_ENVRC];
            && IsPath(envrc) && IsPath(dest) && |envrc| > 1 && |dest| > 1
            && envrc in fs6 && fs6[envrc].File? && dest !in fs6
            && Parent(dest) in fs6 && fs6[Parent(dest)].Dir?
            && !IsPrefix(Parent(envrc), dest)
  {
    var t := g.targetDir.value;
    var envrc := EnvrcOf(g.sourceDir);
    var idea := g.sourceDir + [".idea"];
    var dest := t + [DOT_ENVRC];
    assert Parent(envrc) == g.sourceDir && Parent(dest) == t;
    NamesNormal();
    PathChild(t, DOT_ENVRC);
    PathChild(g.sourceDir, ENVRC);
    assert IsPrefix(t, dest);
    ApartBelow(t, g.sourceDir, DOT_ENVRC);
    ApartBelow(g.sourceDir, t, ".idea");
    ApartBelow(t, idea, DOT_ENVRC);
    assert (t + [ENVIRONMENTS_DIR])[|t|] != dest[|t|];
  }

  /**
   * After the environment files and the run configuration are written, moving `.envrc`
   * into the target directory, linking it back and stamping it succeeds.
   */
  lemma MoveAfterSops(fs: FileSystem, fs6: FileSystem, env: Env, g: ConfGuard)
    requires Wf(fs) && g.targetDir.Some? && g.targetDir.value != [] && IsPath(g.targetDir.value)
    requires g.targetDir.value in fs && fs[g.targetDir.value].Dir?
    requires forall q | q in fs && IsPrefix(g.targetDir.value, q) :: q == g.targetDir.value
    requires g.sourceDir != [] && IsPath(g.sourceDir)
    requires EnvrcOf(g.sourceDir) in fs && fs[EnvrcOf(g.sourceDir)].File?
    requires Apart(g.targetDir.value, g.sourceDir) && env.home.Some?
    requires Wf(fs6) && Grows(fs, fs6)
    requires forall q | q in fs6 && q !in fs ::
               IsPrefix(g.targetDir.value + [ENVIRONMENTS_DIR], q) || IsPrefix(g.sourceDir + [".idea"], q)
    ensures MoveAndStamp(fs6, env, g, EnvrcOf(g.sourceDir), g.targetDir.value + [DOT_ENVRC]).result.Ok?
  {
    DestReady(fs, fs6, g);
    MoveStampSucceeds(fs6, env, g, EnvrcOf(g.sourceDir), g.targetDir.value + [DOT_ENVRC]);
  }

  /** Making two directories at or below `d` leaves every path outside `d` as it was. */
  lemma OutsideKept(fs: FileSystem, d: Path, p: Path, q: Path)
    requires IsPrefix(d, p) && !IsPrefix(d, q)
    ensures var fs2 := fs[d := Dir][p := Dir];
            (q in fs2 <==> q in fs) && (q in fs ==> fs2[q] == fs[q])
  {
  }

  /** `guard` past its checks on an existing project with a plain `.envrc` is its changing part. */
  lemma GuardChecksPass(fs: FileSystem, env: Env, g: ConfGuard, absolute: bool)
    requires Wf(fs) && g.sourceDir != [] && EnvrcOf(g.sourceDir) in fs && fs[EnvrcOf(g.sourceDir)].File?
    ensures Guard.Guard(fs, env, g, absolute) == GuardSteps(fs, env, g.(isRelative := !absolute), EnvrcOf(g.sourceDir))
  {
    var envrc := EnvrcOf(g.sourceDir);
    assert Parent(envrc) == g.sourceDir;
    CanonicalPlain(fs, g.sourceDir);
    CanonicalPlain(fs, envrc);
  }

  /** The changing part of `guard` returns the sentinel's record when each of its steps succeeds. */
  lemma StepsSucceed(fs: FileSystem, env: Env, g: ConfGuard, envrc: Path, fs2: FileSystem, g2: ConfGuard)
    requires CreateSentinel(fs, env, g) == Outcome(fs2, Ok(g2)) && g2.targetDir.Some?
    requires var e := CreateSopsEnvs(fs2, env, g2);
             e.result.Ok? && MoveAndStamp(e.fs, env, g2, envrc, g2.targetDir.value + [DOT_ENVRC]).result.Ok?
    ensures GuardSteps(fs, env, g, envrc).result == Ok(g2)
  {
  }

  /** Appending two names one at a time is appending both at once. */
  lemma AppendTwo(p: Path, a: string, b: string)
    ensures p + [a] + [b] == p + [a, b]
  {
  }

  /** Once the sentinel directory is made, the changing part of `guard` returns its record. */
  lemma SentinelThenSteps(fs: FileSystem, env: Env, g: ConfGuard, fs2: FileSystem, g2: ConfGuard)
    requires CreateSentinel(fs, env, g) == Outcome(fs2, Ok(g2)) && g2.sourceDir == g.sourceDir
    requires Wf(fs2) && g2.targetDir.Some? && g2.targetDir.value != [] && IsPath(g2.targetDir.value)
    requires g2.targetDir.value in fs2 && fs2[g2.targetDir.value].Dir?
    requires forall q | q in fs2 && IsPrefix(g2.targetDir.value, q) :: q == g2.targetDir.value
    requires g.sourceDir != [] && IsPath(g.sourceDir) && g.sourceDir + [".idea"] !in fs2
    requires EnvrcOf(g.sourceDir) in fs2 && fs2[EnvrcOf(g.sourceDir)].File?
    requires Apart(g2.targetDir.value, g.sourceDir) && RSENV in env.resources && env.home.Some?
    ensures GuardSteps(fs, env, g, EnvrcOf(g.sourceDir)).result == Ok(g2)
  {
    StepsAfterSentinel(fs2, env, g2);
    StepsSucceed(fs, env, g, EnvrcOf(g.sourceDir), fs2, g2);
  }

  /**
   * Making `guarded` and a directory named `s` in it leaves the project as it was, and
   * the new directory is a normal path apart from the project.
   */
  lemma ProjectAfterSentinel(fs: FileSystem, g: ConfGuard, s: string)
    requires IsPath(g.sourceDir) && IsPath(g.baseDir) && Apart(g.baseDir, g.sourceDir) && NormalPart(s)
    requires EnvrcOf(g.sourceDir) in fs && fs[EnvrcOf(g.sourceDir)].File? && g.sourceDir + [".idea"] !in fs
    ensures var t := g.baseDir + [GUARDED, s];
            var fs2 := fs[g.baseDir + [GUARDED] := Dir][t := Dir];
            && IsPath(t) && Apart(t, g.sourceDir)
            && EnvrcOf(g.sourceDir) in fs2 && fs2[EnvrcOf(g.sourceDir)].File? && g.sourceDir + [".idea"] !in fs2
  {
    var guarded := g.baseDir + [GUARDED];
    var t := guarded + [s];
    ApartBelow(g.baseDir, g.sourceDir, GUARDED);
    ApartBelow(guarded, g.sourceDir, s);
    ApartBelow(g.sourceDir, guarded, ".idea");
    ApartBelow(g.sourceDir, guarded, ENVRC);
    assert IsPrefix(guarded, guarded) && IsPrefix(guarded, t);
    OutsideKept(fs, guarded, t, g.sourceDir + [".idea"]);
    OutsideKept(fs, guarded, t, EnvrcOf(g.sourceDir));
    NamesNormal();
    PathChild(g.baseDir, GUARDED);
    PathChild(guarded, s);
    assert t == g.baseDir + [GUARDED, s];
  }

  /**
   * The changing part of `guard` on a record without a sentinel: with the base directory
   * in place and no `guarded` in it, a project apart from the store holding a plain
   * `.envrc` and no `.idea`, the embedded script and a home directory, it returns the
   * record with the new sentinel and target directory.
   */
  lemma GuardStepsSucceed(fs: FileSystem, env: Env, g: ConfGuard)
    requires Wf(fs) && IsPath(g.sourceDir) && IsPath(g.baseDir) && Apart(g.baseDir, g.sourceDir)
    requires g.sentinel == "" && g.sourceDir != [] && PlainName(FileName(g.sourceDir))
    requires g.baseDir in fs && fs[g.baseDir].Dir? && g.baseDir + [GUARDED] !in fs
    requires EnvrcOf(g.sourceDir) in fs && fs[EnvrcOf(g.sourceDir)].File?
    requires g.sourceDir + [".idea"] !in fs
    requires RSENV in env.resources && env.home.Some?
    ensures var s := SentinelName(g.sourceDir, env.random);
            GuardSteps(fs, env, g, EnvrcOf(g.sourceDir)).result
              == Ok(g.(sentinel := s, targetDir := Some(g.baseDir + [GUARDED, s])))
  {
    var envrc := EnvrcOf(g.sourceDir);
    var guarded := g.baseDir + [GUARDED];
    var s := SentinelName(g.sourceDir, env.random);
    var t := guarded + [s];
    SentinelSucceeds(fs, env, g);
    SentinelNormal(g.sourceDir, env.random);
    ProjectAfterSentinel(fs, g, s);
    var fs2 := fs[guarded := Dir][t := Dir];
    var g2 := g.(sentinel := s, targetDir := Some(t));
    SentinelThenSteps(fs, env, g, fs2, g2);
    AppendTwo(g.baseDir, GUARDED, s);
  }

  /**
   * `guard` succeeds on a well-formed filesystem where the project holds a plain `.envrc`
   * and no `.idea` directory, the store's base directory exists without `guarded` in it,
   * the two directories are apart, the embedded script is present and the home
   * directory is known. The record comes back with the new sentinel and target directory.
   */
  lemma GuardSucceeds(fs: FileSystem, env: Env, g: ConfGuard, absolute: bool)
    requires Wf(fs) && IsPath(g.sourceDir) && IsPath(g.baseDir) && Apart(g.baseDir, g.sourceDir)
    requires g.sentinel == "" && g.sourceDir != [] && PlainName(FileName(g.sourceDir))
    requires g.baseDir in fs && fs[g.baseDir].Dir? && g.baseDir + [GUARDED] !in fs
    requires EnvrcOf(g.sourceDir) in fs && fs[EnvrcOf(g.sourceDir)].File?
    requires g.sourceDir + [".idea"] !in fs
    requires RSENV in env.resources && env.home.Some?
    ensures var s := SentinelName(g.sourceDir, env.random);
            Guard.Guard(fs, env, g, absolute).result
              == Ok(g.(isRelative := !absolute, sentinel := s, targetDir := Some(g.baseDir + [GUARDED, s])))
  {
    GuardChecksPass(fs, env, g, absolute);
    GuardStepsSucceed(fs, env, g.(isRelative := !absolute));
  }

  /** The filesystem of the concrete case below is well formed and has the entries `guard` needs. */
  lemma GuardExampleFs(fs: FileSystem)
    requires fs == map[["b"] := Dir, ["p"] := Dir, ["p", ENVRC] := File("ok\n")]
    ensures Wf(fs) && ["b"] in fs && fs[["b"]].Dir? && ["b", GUARDED] !in fs
    ensures ["p", ENVRC] in fs && fs[["p", ENVRC]].File? && ["p", ".idea"] !in fs
  {
    assert Parent(["p", ENVRC]) == ["p"];
  }

  /** The concrete case below meets every condition of `GuardSucceeds`. */
  lemma GuardExampleSetting(fs: FileSystem, env: Env, g: ConfGuard)
    requires fs == map[["b"] := Dir, ["p"] := Dir, ["p", ENVRC] := File("ok\n")]
    requires env == Env(["p"], Some(["h"]), ["b"], 1, "t", 0, map[RSENV := ""])
    requires g == ConfGuard(1, ["p"], false, ["b"], None, "")
    ensures Wf(fs) && IsPath(g.sourceDir) && IsPath(g.baseDir) && Apart(g.baseDir, g.sourceDir)
    ensures g.sentinel == "" && g.sourceDir != [] && PlainName(FileName(g.sourceDir))
    ensures g.baseDir in fs && fs[g.baseDir].Dir? && g.baseDir + [GUARDED] !in fs
    ensures EnvrcOf(g.sourceDir) in fs && fs[EnvrcOf(g.sourceDir)].File?
    ensures g.sourceDir + [".idea"] !in fs
    ensures RSENV in env.resources && env.home.Some?
  {
    GuardExampleFs(fs);
    assert IsPath(["p"]) && IsPath(["b"]);
    assert Apart(["b"], ["p"]) by {
      assert ["b"][0] != ["p"][0];
    }
    assert PlainName(FileName(["p"]));
    assert ["b"] + [GUARDED] == ["b", GUARDED];
    assert ["p"] + [".idea"] == ["p", ".idea"];
    assert EnvrcOf(["p"]) == ["p", ENVRC];
  }

  /** The concrete case below is in the situation the effect of `guard` is stated for. */
  lemma GuardExampleInSetting(fs: FileSystem, g: ConfGuard)
    requires fs == map[["b"] := Dir, ["p"] := Dir, ["p", ENVRC] := File("ok\n")]
    requires g == ConfGuard(1, ["p"], false, ["b"], None, "")
    ensures Setting(fs, g)
  {
    GuardExampleFs(fs);
    assert IsPath(["p"]) && IsPath(["b"]);
    assert Apart(["b"], ["p"]) by {
      assert ["b"][0] != ["p"][0];
    }
    assert ["p"] + RUN_CONFIG !in fs;
  }

  /** The record and environment of the concrete case below are clean and agree on the store. */
  lemma ExampleRecord(env: Env, g: ConfGuard)
    requires env == Env(["p"], Some(["h"]), ["b"], 1, "t", 0, map[RSENV := ""])
    requires g == ConfGuard(1, ["p"], false, ["b"], None, "")
    ensures g.baseDir == env.base && 0 <= g.version <= I64_MAX && env.home.Some?
    ensures Clean(g.sourceDir) && Clean(g.baseDir) && Clean(env.home.value) && '\n' !in env.timestamp
  {
    assert ["p"][0] == "p" && ["b"][0] == "b" && ["h"][0] == "h";
  }

  /** The project of the concrete case below is its own canonical path and holds `.envrc` as a file. */
  lemma ExampleEnvrc(fs: FileSystem, g: ConfGuard)
    requires fs == map[["b"] := Dir, ["p"] := Dir, ["p", ENVRC] := File("ok\n")]
    requires g == ConfGuard(1, ["p"], false, ["b"], None, "")
    ensures Canonical(fs, g.sourceDir) == Some(g.sourceDir)
    ensures EnvrcOf(g.sourceDir) in fs && fs[EnvrcOf(g.sourceDir)] == File("ok\n")
  {
    CanonicalPlain(fs, ["p"]);
    assert EnvrcOf(["p"]) == ["p", ENVRC];
  }

  /** The `.envrc` of the concrete case below: one line, ending in a newline, that sets no field. */
  lemma ExampleContent(c: string)
    requires c == "ok\n"
    ensures EndsWith(c, "\n") && !Contains(c, START_WORDS)
    ensures forall i | 0 <= i < |Lines(c)| :: Classify(Lines(c)[i]) == OtherLine
  {
    assert "ok" + "\n" == c;
    LinesOne("ok");
    OtherByHead("ok");
  }

  /** The concrete case below reads back: its `.envrc` is one line that sets no field. */
  lemma GuardExampleReadable(fs: FileSystem, env: Env, g: ConfGuard)
    requires fs == map[["b"] := Dir, ["p"] := Dir, ["p", ENVRC] := File("ok\n")]
    requires env == Env(["p"], Some(["h"]), ["b"], 1, "t", 0, map[RSENV := ""])
    requires g == ConfGuard(1, ["p"], false, ["b"], None, "")
    ensures Readable(fs, env, g)
  {
    ExampleRecord(env, g);
    ExampleEnvrc(fs, g);
    ExampleContent(fs[EnvrcOf(g.sourceDir)].content);
  }

  /**
   * A concrete case: a store `/b` and a project `/p` holding a one-line `.envrc`, with
   * the embedded script and a home directory at hand. It is in the situation the effect
   * of `guard` is stated for and reads back, and `guard` with relative links succeeds.
   */
  lemma GuardExample(fs: FileSystem, env: Env, g: ConfGuard)
    requires fs == map[["b"] := Dir, ["p"] := Dir, ["p", ENVRC] := File("ok\n")]
    requires env == Env(["p"], Some(["h"]), ["b"], 1, "t", 0, map[RSENV := ""])
    requires g == ConfGuard(1, ["p"], false, ["b"], None, "")
    ensures Setting(fs, g) && Readable(fs, env, g)
    ensures var s := SentinelName(g.sourceDir, env.random);
            Guard.Guard(fs, env, g, false).result
              == Ok(g.(isRelative := true, sentinel := s, targetDir := Some(g.baseDir + [GUARDED, s])))
  {
    GuardExampleInSetting(fs, g);
    GuardExampleReadable(fs, env, g);
    GuardExampleSetting(fs, env, g);
    GuardSucceeds(fs, env, g, false);
  }
}

=== FILE: helper_path.dfy ===
/**
 * Path helpers of the command layer: the scan for directories whose name looks like a
 * sentinel, and turning command-line paths into absolute ones.
 */
module HelperPath {
  import opened Text
  import opened Order
  import opened Paths
  import opened Errors
  import opened Fs

  predicate IsLowerAlnum(c: char) {
    'a' <= c <= 'z' || '0' <= c <= '9'
  }

  /**
   * Characters with a meaning of their own in the `regex` crate's syntax, apart from `.`.
   * A project name holding one of these does not read as itself inside the pattern.
   */
  predicate RegexSyntax(c: char) {
    c in "\\+*?()|[]{}^$"
  }

  /** A project name that reads as itself in the pattern, `.` being the wildcard. */
  predicate PlainName(base: string) {
    forall i | 0 <= i < |base| :: !RegexSyntax(base[i])
  }

  /** The pattern `create_sentinel` scans for. */
  function SentinelPattern(base: string): string {
    base + "-[a-z0-9]{8}$"
  }

  /** One pattern character against one name character: `.` is the regex wildcard. */
  predicate CharMatches(pc: char, c: char) {
    if pc == '.' then c != '\n' else c == pc
  }

  /**
   * Whether `entry` matches the regex `<base>-[a-z0-9]{8}$`. The regex is anchored at
   * the end only, so any name ending in such a run matches.
   */
  predicate SentinelMatch(entry: string, base: string) {
    var k := |base| + 9;
    && |entry| >= k
    && (forall i | 0 <= i < |base| :: CharMatches(base[i], entry[|entry| - k + i]))
    && entry[|entry| - 9] == '-'
    && (forall i | |entry| - 8 <= i < |entry| :: IsLowerAlnum(entry[i]))
  }

  /** The name a directory walk reports for an entry: the root reports itself as `/`. */
  function EntryName(x: Path): string {
    if x == [] then "/" else FileName(x)
  }

  /**
   * The directories a walk from `dir` visits, as the paths it reports: `dir` itself,
   * then every directory below where `dir` leads, reached without following links.
   */
  function WalkDirs(fs: FileSystem, dir: Path): set<Path>
    requires Exists(fs, dir)
  {
    var c := Canonical(fs, dir).value;
    {dir} + set q | q in fs && IsPrefix(c, q) && q != c && fs[q].Dir? :: dir + q[|c|..]
  }

  /**
   * `find_file_pattern` with the sentinel pattern for `base`: every visited directory
   * whose name matches, in path order. A start that is no directory is refused first;
   * then a name with regex syntax in it is refused as a pattern the model does not read.
   */
  function FindSentinelDirs(fs: FileSystem, dir: Path, base: string): (r: Result<seq<Path>>)
    ensures r.Ok? <==> IsDir(fs, dir) && PlainName(base)
    ensures !IsDir(fs, dir) ==> r == Err(NotDirectory)
    ensures IsDir(fs, dir) && !PlainName(base) ==> r == Err(RegexError(SentinelPattern(base)))
    ensures r.Ok? ==> SortedPaths(r.value)
    ensures r.Ok? ==> forall x | x in r.value :: SentinelMatch(EntryName(x), base)
    ensures r.Ok? ==> (dir in r.value <==> SentinelMatch(EntryName(dir), base))
    ensures r.Ok? ==>
              var c := Canonical(fs, dir).value;
              forall q | q in fs && IsPrefix(c, q) && q != c && fs[q].Dir? ::
                (dir + q[|c|..] in r.value <==> SentinelMatch(EntryName(dir + q[|c|..]), base))
  {
    if !IsDir(fs, dir) then Err(NotDirectory)
    else if !PlainName(base) then Err(RegexError(SentinelPattern(base)))
    else
      var found := set x | x in WalkDirs(fs, dir) && SentinelMatch(EntryName(x), base);
      FoundSet(fs, dir, base);
      Ok(SortedSeq(found))
  }

  /** Which paths the walk from `dir` keeps: `dir` and the directories below, by name. */
  lemma FoundSet(fs: FileSystem, dir: Path, base: string)
    requires IsDir(fs, dir)
    ensures var found := set x | x in WalkDirs(fs, dir) && SentinelMatch(EntryName(x), base);
            var c := Canonical(fs, dir).value;
            && (forall x | x in found :: SentinelMatch(EntryName(x), base))
            && (dir in found <==> SentinelMatch(EntryName(dir), base))
            && (forall q | q in fs && IsPrefix(c, q) && q != c && fs[q].Dir? ::
                  (dir + q[|c|..] in found <==> SentinelMatch(EntryName(dir + q[|c|..]), base)))
  {
    var c := Canonical(fs, dir).value;
    assert dir in WalkDirs(fs, dir);
    forall q | q in fs && IsPrefix(c, q) && q != c && fs[q].Dir?
      ensures dir + q[|c|..] in WalkDirs(fs, dir)
    {
    }
  }

  /** From a directory that is its own canonical form, every reported path is a directory. */
  lemma FoundAreDirs(fs: FileSystem, dir: Path, base: string)
    requires Canonical(fs, dir) == Some(dir) && FindSentinelDirs(fs, dir, base).Ok?
    ensures forall x | x in FindSentinelDirs(fs, dir, base).value :: IsDir(fs, x)
  {
    forall x | x in FindSentinelDirs(fs, dir, base).value
      ensures IsDir(fs, x)
    {
      if x != dir {
        var q :| q in fs && IsPrefix(dir, q) && q != dir && fs[q].Dir? && x == dir + q[|dir|..];
        assert x == q;
        CanonicalPlain(fs, q);
      }
    }
  }

  /** For a name without regex syntax, a sentinel `<base>-<8 lowercase hex digits>` matches the scan for `base`. */
  lemma SentinelNameMatches(base: string, r: nat)
    requires PlainName(base)
    ensures SentinelMatch(base + "-" + HexDigits(r, 8), base)
  {
    var e := base + "-" + HexDigits(r, 8);
    var h := HexDigits(r, 8);
    assert |e| == |base| + 9;
    forall i | 0 <= i < |base|
      ensures CharMatches(base[i], e[i])
    {
      assert e[i] == base[i];
    }
    forall i | |e| - 8 <= i < |e|
      ensures IsLowerAlnum(e[i])
    {
      assert e[i] == h[i - |base| - 1];
    }
  }

  /** For a name without regex syntax, the scan of a directory finds a sentinel directory placed in it. */
  lemma SentinelFound(fs: FileSystem, dir: Path, base: string, r: nat)
    requires Canonical(fs, dir) == Some(dir) && IsDir(fs, dir) && PlainName(base)
    requires var s := dir + [base + "-" + HexDigits(r, 8)]; s in fs && fs[s].Dir?
    ensures var found := FindSentinelDirs(fs, dir, base);
            found.Ok? && dir + [base + "-" + HexDigits(r, 8)] in found.value
  {
    var s := dir + [base + "-" + HexDigits(r, 8)];
    assert IsPrefix(dir, s) && s != dir;
    assert dir + s[|dir|..] == s;
    assert EntryName(s) == base + "-" + HexDigits(r, 8);
    SentinelNameMatches(base, r);
  }

  /**
   * The pattern is not anchored at the start: a longer name that ends in a sentinel
   * for `base` matches as well.
   */
  lemma SentinelMatchUnanchored(other: string, entry: string, base: string)
    requires SentinelMatch(entry, base)
    ensures SentinelMatch(other + entry, base)
  {
    var e := other + entry;
    var k := |base| + 9;
    forall i | 0 <= i < |base|
      ensures CharMatches(base[i], e[|e| - k + i])
    {
      assert e[|e| - k + i] == entry[|entry| - k + i];
    }
    forall i | |e| - 8 <= i < |e|
      ensures IsLowerAlnum(e[i])
    {
      assert e[i] == entry[i - |other|];
    }
    assert e[|e| - 9] == entry[|entry| - 9];
  }

  /**
   * `to_absolute_path`: an absolute path comes back with its components resolved
   * lexically (`.` and empty ones dropped, `..` taking one off), since a `Path` has no
   * such components; a relative one is joined to the working directory and canonicalised.
   */
  function ToAbsolutePath(fs: FileSystem, cwd: Path, b: PathBuf): (r: Result<Path>)
    ensures b.absolute ==> r == Ok(Normalize(b.parts))
    ensures !b.absolute ==> (r.Ok? <==> Exists(fs, Absolute(cwd, b)))
    ensures !b.absolute && r.Ok? ==> r.value == Canonical(fs, Absolute(cwd, b)).value
    ensures !b.absolute && r.Err? ==> r.error == Internal("canonicalize path: " + DisplayBuf(b), Io(NotFound))
  {
    if b.absolute then Ok(Normalize(b.parts))
    else IoContext(Canonicalize(fs, cwd, b), "canonicalize path: " + DisplayBuf(b))
  }

  /** An absolute normal path comes back unchanged. */
  lemma ToAbsoluteKeeps(fs: FileSystem, cwd: Path, p: Path)
    requires IsPath(p)
    ensures ToAbsolutePath(fs, cwd, Buf(p)) == Ok(p)
  {
    NormalizePath(p);
  }

  /** A relative path comes back as a path that is its own canonical form. */
  lemma ToAbsoluteCanonical(fs: FileSystem, cwd: Path, b: PathBuf)
    requires !b.absolute && ToAbsolutePath(fs, cwd, b).Ok?
    ensures var p := ToAbsolutePath(fs, cwd, b).value;
            Canonical(fs, p) == Some(p) && !IsSymlink(fs, p)
  {
  }
}

=== FILE: home_based.dfy ===
/**
 * Paths stored in an `.envrc` are written relative to the home directory: every
 * occurrence of the home directory's text becomes `$HOME`, and reading a path back
 * expands `$HOME` again and canonicalises the result.
 */
module HomeBased {
  import opened Text
  import opened Paths
  import opened Errors
  import opened Fs

  const HomeMarker := "$HOME"

  /** `to_home_based`: the display text of an absolute path with the home directory replaced. */
  function ToHomeBased(home: Option<Path>, b: PathBuf): (r: Result<string>)
    ensures !b.absolute ==> r == Err(PathNotAbsolute(b))
    ensures b.absolute && home.None? ==> r == Err(CannotDetermineHome)
    ensures r.Ok? <==> b.absolute && home.Some?
    ensures r.Ok? && !Contains(DisplayBuf(b), Display(home.value)) ==> r.value == DisplayBuf(b)
  {
    if !b.absolute then Err(PathNotAbsolute(b))
    else if home.None? then Err(CannotDetermineHome)
    else
      var h := Display(home.value);
      if !Contains(DisplayBuf(b), h) then
        ReplaceNotContained(DisplayBuf(b), h, HomeMarker);
        Ok(ReplaceAll(DisplayBuf(b), h, HomeMarker))
      else Ok(ReplaceAll(DisplayBuf(b), h, HomeMarker))
  }

  /**
   * `from_home_based`: expand `$HOME`, read the text as a path, canonicalise it from
   * `cwd`. A missing path fails with the canonicalisation's io error under context.
   */
  function FromHomeBased(fs: FileSystem, cwd: Path, home: Option<Path>, s: string): (r: Result<Path>)
    ensures home.None? ==> r == Err(CannotDetermineHome)
    ensures home.Some? ==>
              var raw := ReplaceAll(s, HomeMarker, Display(home.value));
              && (r.Ok? <==> Exists(fs, Absolute(cwd, ParsePath(raw))))
              && (r.Ok? ==> r.value == Canonical(fs, Absolute(cwd, ParsePath(raw))).value)
              && (r.Err? ==> r.error == Internal("canonicalize path: " + DebugStr(raw), Io(NotFound)))
  {
    if home.None? then Err(CannotDetermineHome)
    else
      var raw := ReplaceAll(s, HomeMarker, Display(home.value));
      IoContext(Canonicalize(fs, cwd, ParsePath(raw)), "canonicalize path: " + DebugStr(raw))
  }

  /**
   * Reading back what was written gives the same path, for an existing path that is its
   * own canonical form and whose text, like the home directory's, holds no `$`.
   */
  lemma HomeRoundTrip(fs: FileSystem, cwd: Path, home: Path, p: Path)
    requires IsPath(p) && Canonical(fs, p) == Some(p)
    requires '$' !in Display(p) && '$' !in Display(home)
    ensures ToHomeBased(Some(home), Buf(p)).Ok?
    ensures FromHomeBased(fs, cwd, Some(home), ToHomeBased(Some(home), Buf(p)).value) == Ok(p)
  {
    var h := Display(home);
    assert DisplayBuf(Buf(p)) == Display(p);
    ReplaceRoundTrip(Display(p), h, HomeMarker);
    ParseDisplay(p);
    NormalizePath(p);
  }

  /** The home directory itself encodes to the bare marker. */
  lemma HomeItself(home: Path)
    ensures ToHomeBased(Some(home), Buf(home)) == Ok(HomeMarker)
  {
    var h := Display(home);
    assert DisplayBuf(Buf(home)) == h;
    assert h[..|h|] == h && h[|h|..] == "";
    ContainsWitness(h, h, 0);
    assert ReplaceAll("", h, HomeMarker) == "";
    assert HomeMarker + "" == HomeMarker;
    assert ReplaceAll(h, h, HomeMarker) == HomeMarker + ReplaceAll("", h, HomeMarker);
    assert ToHomeBased(Some(home), Buf(home)) == Ok(ReplaceAll(h, h, HomeMarker));
  }
}

=== FILE: link.dfy ===
/** Creating symbolic links and turning a link back into the entry it designates. */
module Link {
  import opened Text
  import opened Paths
  import opened Errors
  import opened Fs

  /** The target `create_link` stores for `original` at `link`. */
  function LinkTargetFor(original: Path, link: Path, relative: bool): (t: LinkTarget)
    ensures link != [] ==> Resolve(Parent(link), t) == original
    ensures !relative ==> t == Abs(original)
    ensures relative && link != [] ==> t.Rel? && t == DiffPaths(original, Parent(link))
  {
    if relative && link != [] then
      ResolveDiff(original, Parent(link));
      DiffPaths(original, Parent(link))
    else Abs(original)
  }

  /**
   * `create_link(original, link, relative)`: the original must exist; missing parents of
   * the link are created; then the link is made, relative to its directory or absolute.
   * Directories created before a failing `symlink` stay.
   */
  function CreateLink(fs: FileSystem, original: Path, link: Path, relative: bool): (o: Outcome<()>)
    ensures !Exists(fs, original) ==> o == Outcome(fs, Err(OriginalPathNotFound(Display(original))))
    ensures o.result.Ok? ==> Exists(fs, original) && link != []
    ensures o.result.Ok? ==> IsDir(o.fs, Parent(link))
    ensures o.result.Ok? ==> IsSymlink(o.fs, link) && o.fs[link].target == LinkTargetFor(original, link, relative)
    ensures forall q | q in fs :: q in o.fs && (q != link ==> o.fs[q] == fs[q])
    ensures o.result.Err? ==> forall q | q in o.fs && q !in fs :: link != [] && IsPrefix(q, Parent(link))
  {
    if !Exists(fs, original) then Outcome(fs, Err(OriginalPathNotFound(Display(original))))
    else if link == [] then Outcome(fs, Err(MakeSymlink(fs, Abs(original), link).error))
    else
      match CreateDirAll(fs, Parent(link))
      case Err(e) => Outcome(fs, Err(e))
      case Ok(fs1) =>
        CreateDirAllSpec(fs, Parent(link));
        match MakeSymlink(fs1, LinkTargetFor(original, link, relative), link)
        case Err(e) => Outcome(fs1, Err(e))
        case Ok(fs2) =>
          assert IsDir(fs2, Parent(link)) by {
            if Parent(link) != [] {
              CanonicalPlain(fs2, Parent(link));
            }
          }
          Outcome(fs2, Ok(()))
  }

  /** An existing directory is left as it is by `create_dir_all`. */
  lemma CreateDirAllPresent(fs: FileSystem, d: Path)
    requires d != [] && d in fs && fs[d].Dir?
    ensures CreateDirAll(fs, d) == Ok(fs)
  {
    CanonicalPlain(fs, d);
  }

  /**
   * Something already at the link path makes `create_link` fail, with nothing changed
   * (an empty link text is refused before the link path is looked at).
   */
  lemma CreateLinkOccupied(fs: FileSystem, original: Path, link: Path, relative: bool)
    requires Wf(fs) && Exists(fs, original) && link in fs
    ensures CreateLink(fs, original, link, relative)
         == Outcome(fs, Err(FileOperation(
              if TargetText(LinkTargetFor(original, link, relative)) == "" then NotFound else AlreadyExists)))
  {
    assert link != [];
    if |link| > 1 {
      CreateDirAllPresent(fs, Parent(link));
    }
  }

  /** A successful `create_link` whose link directory already exists adds only the link. */
  lemma CreateLinkPlaced(fs: FileSystem, original: Path, link: Path, relative: bool)
    requires CreateLink(fs, original, link, relative).result.Ok?
    requires |link| > 1 ==> Parent(link) in fs && fs[Parent(link)].Dir?
    ensures CreateLink(fs, original, link, relative).fs
         == fs[link := Symlink(LinkTargetFor(original, link, relative))]
  {
    if |link| > 1 {
      CreateDirAllPresent(fs, Parent(link));
    }
  }

  /** With a fresh link path, parents in place and a non-empty link text, `create_link` succeeds. */
  lemma CreateLinkSucceeds(fs: FileSystem, original: Path, link: Path, relative: bool)
    requires Wf(fs) && Exists(fs, original) && link != [] && link !in fs
    requires |link| > 1 ==> Parent(link) in fs && fs[Parent(link)].Dir?
    requires TargetText(LinkTargetFor(original, link, relative)) != ""
    ensures CreateLink(fs, original, link, relative)
         == Outcome(fs[link := Symlink(LinkTargetFor(original, link, relative))], Ok(()))
  {
    if |link| > 1 {
      CreateDirAllPresent(fs, Parent(link));
    }
  }

  /**
   * Reading through a new link gives the original's content: the stored target leads
   * back to the original from the link's directory.
   */
  lemma ReadThroughLink(fs: FileSystem, original: Path, link: Path, relative: bool)
    requires original != [] && original in fs && !fs[original].Symlink?
    requires CreateLink(fs, original, link, relative).result.Ok?
    ensures ContentAt(CreateLink(fs, original, link, relative).fs, link) == ContentAt(fs, original)
    ensures Canonical(CreateLink(fs, original, link, relative).fs, link) == Some(original)
  {
    var fs2 := CreateLink(fs, original, link, relative).fs;
    assert original != link by {
      CreateDirAllSpec(fs, Parent(link));
    }
    assert fs2[original] == fs[original];
    CanonicalLink(fs2, link, MaxFollow);
    CanonicalPlain(fs2, original);
    CanonicalPlain(fs, original);
  }

  /**
   * `replace_link_with_target`: the link must exist (following links) and be a link.
   * It is removed, then the entry it names directly is renamed into its place. A failing
   * rename leaves the link removed.
   */
  function ReplaceLinkWithTarget(fs: FileSystem, link: Path): (o: Outcome<()>)
    ensures !Exists(fs, link) ==> o == Outcome(fs, Err(LinkNotFound(Buf(link))))
    ensures Exists(fs, link) && !IsSymlink(fs, link) ==> o == Outcome(fs, Err(PathNotSymbolicLink(Buf(link))))
    ensures o.result.Ok? ==> IsSymlink(fs, link)
  {
    if !Exists(fs, link) then Outcome(fs, Err(LinkNotFound(Buf(link))))
    else if !IsSymlink(fs, link) then Outcome(fs, Err(PathNotSymbolicLink(Buf(link))))
    else
      var src := Resolve(Parent(link), fs[link].target);
      var fs1 := fs - {link};
      match Rename(fs1, src, link)
      case Err(e) => Outcome(fs1, Err(e))
      case Ok(fs2) => Outcome(fs2, Ok(()))
  }

  /** The entry a link names directly, read from the link's directory. */
  function LinkSource(fs: FileSystem, link: Path): Path
    requires IsSymlink(fs, link)
  {
    Resolve(Parent(link), fs[link].target)
  }

  /** The entry an existing link names directly is itself present, and is not the link. */
  lemma LinkSourcePresent(fs: FileSystem, link: Path)
    requires IsSymlink(fs, link) && Exists(fs, link)
    ensures LinkSource(fs, link) == [] || LinkSource(fs, link) in fs
    ensures LinkSource(fs, link) != link
  {
    CanonicalLink(fs, link, MaxFollow);
    if LinkSource(fs, link) == link {
      LinkLoop(fs, link, MaxFollow - 1);
    }
  }

  /** Under the same conditions, the rename inside `replace_link_with_target` succeeds. */
  lemma ReplaceLinkRenames(fs: FileSystem, link: Path)
    requires Wf(fs) && IsSymlink(fs, link) && Exists(fs, link)
    requires LinkSource(fs, link) != [] && !IsPrefix(LinkSource(fs, link), link)
    ensures Wf(fs - {link})
    ensures Rename(fs - {link}, LinkSource(fs, link), link).Ok?
    ensures ReplaceLinkWithTarget(fs, link)
         == Outcome(Rename(fs - {link}, LinkSource(fs, link), link).value, Ok(()))
  {
    var src := LinkSource(fs, link);
    var fs1 := fs - {link};
    LinkSourcePresent(fs, link);
    RemoveWf(fs, link);
    assert src in fs1;
    assert ParentProblem(fs1, link).None? by {
      if |link| > 1 {
        assert Parent(link) in fs1;
      }
    }
    assert link !in fs1;
  }

  /**
   * When the link does not lie inside what it names, replacing it succeeds: the entry
   * (with everything below it) moves to the link's place and is gone from where it was.
   */
  lemma ReplaceLinkMoves(fs: FileSystem, link: Path)
    requires Wf(fs) && IsSymlink(fs, link) && Exists(fs, link)
    requires LinkSource(fs, link) != [] && !IsPrefix(LinkSource(fs, link), link)
    ensures var o := ReplaceLinkWithTarget(fs, link);
            var src := LinkSource(fs, link);
            && o.result.Ok?
            && link in o.fs && o.fs[link] == fs[src] && src !in o.fs
            && (forall q | q in fs && q != link && !IsPrefix(src, q) && !IsPrefix(link, q) ::
                  q in o.fs && o.fs[q] == fs[q])
  {
    var src := LinkSource(fs, link);
    LinkSourcePresent(fs, link);
    ReplaceLinkRenames(fs, link);
    RenameMoves(fs - {link}, src, link);
  }

  /** When the link leads straight to a non-link entry, the replaced path is no link. */
  lemma ReplaceLinkResolved(fs: FileSystem, link: Path)
    requires Wf(fs) && IsSymlink(fs, link) && Canonical(fs, link) == Some(LinkSource(fs, link))
    requires LinkSource(fs, link) != [] && !IsPrefix(LinkSource(fs, link), link)
    ensures !IsSymlink(ReplaceLinkWithTarget(fs, link).fs, link)
  {
    ReplaceLinkMoves(fs, link);
  }

  /** A link that names itself leads nowhere. */
  lemma {:induction false} LinkLoop(fs: FileSystem, link: Path, fuel: nat)
    requires IsSymlink(fs, link) && Resolve(Parent(link), fs[link].target) == link
    ensures Follow(fs, link, fuel).None?
    decreases fuel
  {
    if fuel > 0 {
      LinkLoop(fs, link, fuel - 1);
    }
  }

  /** Replacing a link keeps the filesystem well formed, whether or not the rename succeeds. */
  lemma ReplaceLinkWf(fs: FileSystem, link: Path)
    requires Wf(fs)
    ensures Wf(ReplaceLinkWithTarget(fs, link).fs)
  {
    if Exists(fs, link) && IsSymlink(fs, link) {
      var fs1 := fs - {link};
      RemoveWf(fs, link);
      var src := LinkSource(fs, link);
      if Rename(fs1, src, link).Ok? {
        RenameWf(fs1, src, link);
      }
    }
  }
}

=== FILE: move_and_link.dfy ===
/** Moving an entry elsewhere and leaving a link behind, and undoing it. */
module MoveLink {
  import opened Text
  import opened Paths
  import opened Errors
  import opened Fs
  import opened Link

  /** A planned move: the canonical source and the absolute destination. */
  datatype MoveAndLink = MoveAndLink(source: Path, destination: Path)

  /** `MoveAndLink::new`: relative paths are taken from `cwd`. */
  function New(fs: FileSystem, cwd: Path, source: PathBuf, destination: PathBuf): (r: Result<MoveAndLink>)
    ensures var given := JoinBuf(Buf(cwd), source);
            !Exists(fs, Absolute(cwd, source)) ==> r == Err(SourcePathNotFound(given))
    ensures var given := JoinBuf(Buf(cwd), source);
            Exists(fs, Absolute(cwd, source)) && IsSymlink(fs, Absolute(cwd, source)) ==> r == Err(SourceIsSymlink(given))
    ensures r.Ok? <==> Exists(fs, Absolute(cwd, source)) && !IsSymlink(fs, Absolute(cwd, source))
    ensures r.Ok? ==> r.value.source == Canonical(fs, Absolute(cwd, source)).value
    ensures r.Ok? ==> r.value.source == Absolute(cwd, source) && r.value.destination == Absolute(cwd, destination)
  {
    var given := JoinBuf(Buf(cwd), source);
    var abs := Absolute(cwd, source);
    if !Exists(fs, abs) then Err(SourcePathNotFound(given))
    else if IsSymlink(fs, abs) then Err(SourceIsSymlink(given))
    else
      match IoContext(Canonicalize(fs, cwd, source), "canonicalize source path: " + DebugPath(given))
      case Err(e) => Err(e)
      case Ok(c) =>
        assert abs != [] ==> abs in fs && !fs[abs].Symlink?;
        Ok(MoveAndLink(c, Absolute(cwd, destination)))
  }

  /** The first half of `move_and_link`: make the destination's parents, then rename. */
  function Moved(fs: FileSystem, m: MoveAndLink): (r: Result<FileSystem>)
    ensures r.Ok? ==> m.source != [] && m.destination != []
  {
    var made := if m.destination == [] then Ok(fs) else CreateDirAll(fs, Parent(m.destination));
    match made
    case Err(e) => Err(e)
    case Ok(fs1) =>
      IoContext(Rename(fs1, m.source, m.destination),
                "move " + DebugPath(Buf(m.source)) + " to " + DebugPath(Buf(m.destination)))
  }

  /**
   * `move_and_link`: moves the source to the destination, then links the source path to
   * the destination. The steps are not undone when a later one fails.
   */
  function MoveThenLink(fs: FileSystem, m: MoveAndLink, relative: bool): (o: Outcome<()>)
    ensures Moved(fs, m).Err? ==> o.result == Err(Moved(fs, m).error)
    ensures o.result.Ok? ==>
              IsSymlink(o.fs, m.source) && o.fs[m.source].target == LinkTargetFor(m.destination, m.source, relative)
  {
    var made := if m.destination == [] then Ok(fs) else CreateDirAll(fs, Parent(m.destination));
    match made
    case Err(e) => Outcome(fs, Err(e))
    case Ok(fs1) =>
      match Moved(fs, m)
      case Err(e) => Outcome(fs1, Err(e))
      case Ok(fs2) => CreateLink(fs2, m.destination, m.source, relative)
  }

  /**
   * `revert`: the source must exist (following links) and be a link; the link is removed
   * and the destination renamed back. A failing rename leaves the link removed.
   */
  function Revert(fs: FileSystem, m: MoveAndLink): (o: Outcome<()>)
    ensures !Exists(fs, m.source) ==> o == Outcome(fs, Err(SourceLinkNotFound(Buf(m.source))))
    ensures Exists(fs, m.source) && !IsSymlink(fs, m.source) ==> o == Outcome(fs, Err(SourceNotSymlink(Buf(m.source))))
    ensures o.result.Ok? ==> IsSymlink(fs, m.source)
  {
    if !Exists(fs, m.source) then Outcome(fs, Err(SourceLinkNotFound(Buf(m.source))))
    else if !IsSymlink(fs, m.source) then Outcome(fs, Err(SourceNotSymlink(Buf(m.source))))
    else
      var fs1 := fs - {m.source};
      match IoContext(Rename(fs1, m.destination, m.source),
                      "move " + DebugPath(Buf(m.destination)) + " back to " + DebugPath(Buf(m.source)))
      case Err(e) => Outcome(fs1, Err(e))
      case Ok(fs2) => Outcome(fs2, Ok(()))
  }

  // ---------------------------------------------------------------------------------
  // Properties
  // ---------------------------------------------------------------------------------

  /** The filesystem after the destination's parents are made. */
  function Prepared(fs: FileSystem, m: MoveAndLink): FileSystem
    requires Moved(fs, m).Ok?
  {
    CreateDirAll(fs, Parent(m.destination)).value
  }

  /** What the first half leaves: the source's tree under the destination, nothing at the source. */
  lemma MovedEffect(fs: FileSystem, m: MoveAndLink)
    requires Wf(fs) && Moved(fs, m).Ok? && m.source != m.destination
    ensures Wf(Prepared(fs, m)) && Moved(fs, m) == Ok(MoveTree(Prepared(fs, m), m.source, m.destination))
    ensures var fs2 := Moved(fs, m).value;
            m.destination in fs2 && fs2[m.destination] == Prepared(fs, m)[m.source] && m.source !in fs2
    ensures Wf(Moved(fs, m).value)
  {
    var fs1 := Prepared(fs, m);
    CreateDirAllWf(fs, Parent(m.destination));
    RenameMoves(fs1, m.source, m.destination);
    RenameWf(fs1, m.source, m.destination);
  }

  /**
   * On success the source was an entry of its own, distinct from the destination; the
   * destination now holds exactly what the source held, and the source path is a link
   * whose stored target names the destination.
   */
  lemma MoveThenLinkEffect(fs: FileSystem, m: MoveAndLink, relative: bool)
    requires Wf(fs)
    requires MoveThenLink(fs, m, relative).result.Ok?
    ensures m.source != m.destination && m.source in fs
    ensures var fs3 := MoveThenLink(fs, m, relative).fs;
            && m.destination in fs3 && fs3[m.destination] == fs[m.source]
            && IsSymlink(fs3, m.source) && Resolve(Parent(m.source), fs3[m.source].target) == m.destination
  {
    MovedFromPresent(fs, m);
    SameEndsFail(fs, m, relative);
    MovedEffect(fs, m);
    var fs2 := Moved(fs, m).value;
    PreparedKeeps(fs, m);
    LinkedAfterMove(fs, m, relative, fs2);
  }

  /** Making the destination's parents leaves every existing entry as it was. */
  lemma PreparedKeeps(fs: FileSystem, m: MoveAndLink)
    requires Moved(fs, m).Ok?
    ensures forall q | q in fs :: q in Prepared(fs, m) && Prepared(fs, m)[q] == fs[q]
  {
    CreateDirAllSpec(fs, Parent(m.destination));
  }

  /** The second half of `move_and_link` places the link and keeps the moved entry. */
  lemma LinkedAfterMove(fs: FileSystem, m: MoveAndLink, relative: bool, fs2: FileSystem)
    requires Moved(fs, m) == Ok(fs2) && m.source != m.destination && m.destination in fs2
    ensures MoveThenLink(fs, m, relative) == CreateLink(fs2, m.destination, m.source, relative)
    ensures var fs3 := MoveThenLink(fs, m, relative).fs;
            m.destination in fs3 && fs3[m.destination] == fs2[m.destination]
    ensures MoveThenLink(fs, m, relative).result.Ok? ==>
              var fs3 := MoveThenLink(fs, m, relative).fs;
              IsSymlink(fs3, m.source) && Resolve(Parent(m.source), fs3[m.source].target) == m.destination
  {
    assert CreateDirAll(fs, Parent(m.destination)).Ok?;
  }

  /** Only an entry that was already there can be moved: making parents never makes the source. */
  lemma MovedFromPresent(fs: FileSystem, m: MoveAndLink)
    requires Moved(fs, m).Ok?
    ensures m.source in fs
  {
    var fs1 := Prepared(fs, m);
    CreateDirAllSpec(fs, Parent(m.destination));
    assert Rename(fs1, m.source, m.destination).Ok?;
    PrefixOfParent(m.source, m.destination);
  }

  lemma PrefixOfParent(a: Path, b: Path)
    requires b != []
    ensures IsPrefix(a, Parent(b)) ==> IsPrefix(a, b) && a != b
  {
  }

  /** Moving an entry onto itself leaves it in place, so the link cannot be made there. */
  lemma SameEndsFail(fs: FileSystem, m: MoveAndLink, relative: bool)
    requires Wf(fs) && Moved(fs, m).Ok?
    ensures m.source == m.destination ==> MoveThenLink(fs, m, relative).result.Err?
  {
    if m.source == m.destination {
      var fs1 := Prepared(fs, m);
      CreateDirAllSpec(fs, Parent(m.destination));
      CreateDirAllWf(fs, Parent(m.destination));
      MovedFromPresent(fs, m);
      assert Moved(fs, m) == Ok(fs1);
      if Exists(fs1, m.destination) {
        CreateLinkOccupied(fs1, m.destination, m.source, relative);
      }
    }
  }

  /** When linking fails after the move, the entry stays at the destination and the source is gone. */
  lemma MoveThenLinkPartial(fs: FileSystem, m: MoveAndLink, relative: bool)
    requires Wf(fs) && Moved(fs, m).Ok? && m.source != m.destination
    requires MoveThenLink(fs, m, relative).result.Err?
    ensures var fs3 := MoveThenLink(fs, m, relative).fs;
            && m.destination in fs3 && fs3[m.destination] == Prepared(fs, m)[m.source]
            && m.source !in fs3
  {
    MovedEffect(fs, m);
  }

  /**
   * `revert` after a successful `move_and_link` to a fresh destination succeeds and gives
   * back the filesystem as it was, apart from the destination's parents made on the way.
   */
  lemma RevertRoundTrip(fs: FileSystem, m: MoveAndLink, relative: bool)
    requires Wf(fs) && m.destination !in fs && m.source in fs && !fs[m.source].Symlink?
    requires MoveThenLink(fs, m, relative).result.Ok?
    ensures Revert(MoveThenLink(fs, m, relative).fs, m) == Outcome(Prepared(fs, m), Ok(()))
  {
    var fs1 := Prepared(fs, m);
    FreshDestination(fs, m);
    MovedEffect(fs, m);
    var fs2 := Moved(fs, m).value;
    MoveThenLinkEffect(fs, m, relative);
    LinkToPlain(MoveThenLink(fs, m, relative).fs, m.source, m.destination);
    LinkedState(fs, m, relative);
    RevertRename(fs1, m);
    RevertOnLinked(MoveThenLink(fs, m, relative).fs, fs2, m);
  }

  /** Making the destination's parents does not make the destination. */
  lemma FreshDestination(fs: FileSystem, m: MoveAndLink)
    requires Moved(fs, m).Ok? && m.destination !in fs
    ensures m.destination !in Prepared(fs, m)
  {
    CreateDirAllSpec(fs, Parent(m.destination));
    assert !IsPrefix(m.destination, Parent(m.destination));
  }

  /** After the move to a fresh destination, the source's directory is still there. */
  lemma SourceParentKept(fs: FileSystem, m: MoveAndLink)
    requires Wf(fs) && Moved(fs, m).Ok? && m.destination !in Prepared(fs, m) && |m.source| > 1
    ensures Parent(m.source) in Moved(fs, m).value && Moved(fs, m).value[Parent(m.source)].Dir?
  {
    var fs1 := Prepared(fs, m);
    CreateDirAllWf(fs, Parent(m.destination));
    var p := Parent(m.source);
    assert !IsPrefix(m.source, p);
    AbsentHasNoChildren(fs1, m.destination, p);
    MoveTreeKept(fs1, m.source, m.destination, p);
  }

  /** After a successful `move_and_link` to a fresh destination, the filesystem is the moved one plus the link. */
  lemma LinkedState(fs: FileSystem, m: MoveAndLink, relative: bool)
    requires Wf(fs) && Moved(fs, m).Ok? && m.destination !in Prepared(fs, m)
    requires MoveThenLink(fs, m, relative).result.Ok?
    ensures MoveThenLink(fs, m, relative).fs
         == Moved(fs, m).value[m.source := Symlink(LinkTargetFor(m.destination, m.source, relative))]
  {
    if |m.source| > 1 {
      SourceParentKept(fs, m);
    }
    CreateLinkPlaced(Moved(fs, m).value, m.destination, m.source, relative);
  }

  /** `revert` on the moved state plus the link removes the link and renames back. */
  lemma RevertOnLinked(fsL: FileSystem, fs2: FileSystem, m: MoveAndLink)
    requires m.source != [] && m.source !in fs2
    requires m.source in fsL && fsL == fs2[m.source := fsL[m.source]] && fsL[m.source].Symlink?
    requires Exists(fsL, m.source) && Rename(fs2, m.destination, m.source).Ok?
    ensures Revert(fsL, m) == Outcome(Rename(fs2, m.destination, m.source).value, Ok(()))
  {
    assert fsL - {m.source} == fs2;
  }

  /** The rename back, on the state the move left. */
  lemma RevertRename(fs1: FileSystem, m: MoveAndLink)
    requires Wf(fs1) && m.source != [] && m.destination != [] && m.destination !in fs1
    requires Rename(fs1, m.source, m.destination).Ok?
    ensures var fs2 := MoveTree(fs1, m.source, m.destination);
            Rename(fs2, m.destination, m.source) == Ok(fs1)
  {
    var s, d := m.source, m.destination;
    var fs2 := MoveTree(fs1, s, d);
    assert s != d;
    RenameMoves(fs1, s, d);
    AbsentHasNoChildren(fs1, d, s);
    assert ParentProblem(fs2, s).None? by {
      if |s| > 1 {
        AbsentHasNoChildren(fs1, d, Parent(s));
        assert !IsPrefix(s, Parent(s));
        MoveTreeKept(fs1, s, d, Parent(s));
      }
    }
    RenameFresh(fs2, d, s);
    MoveTreeInverse(fs1, s, d);
  }
}

=== FILE: parse_int.dfy ===
/**
 * `str::parse::<i64>` as the standard library's `from_str_radix` does it for a
 * non-empty string without a sign, which is every string `\d+` captures: the
 * characters are read left to right into a running value.
 */
module ParseInt {
  import opened Text

  /** The largest `i64`. */
  const I64_MAX: nat := 0x7fff_ffff_ffff_ffff

  /** The kinds of `ParseIntError` an unsigned digit loop can end with. */
  datatype IntErrorKind = InvalidDigit | PosOverflow

  datatype ParsedInt = Parsed(value: nat) | Failed(kind: IntErrorKind)

  /**
   * A character that is no ASCII digit is an invalid digit, and a running value past
   * `i64::MAX` is an overflow, whichever comes first. So an ASCII run too large for an
   * `i64` is an overflow even when a character that is no digit follows it.
   */
  function ParseDigits(s: string): (r: ParsedInt)
    ensures DigitsValue(LeadingDigits(s)) > I64_MAX ==> r == Failed(PosOverflow)
    ensures DigitsValue(LeadingDigits(s)) <= I64_MAX && !AllDigits(s) ==> r == Failed(InvalidDigit)
    ensures AllDigits(s) ==> (r.Parsed? <==> DigitsValue(s) <= I64_MAX)
    ensures r.Parsed? ==> AllDigits(s) && r.value <= I64_MAX && r.value == DigitsValue(s)
  {
    ParsedPrefix("", s);
    assert "" + LeadingDigits(s) == LeadingDigits(s);
    assert AllDigits(s) ==> LeadingDigits(s) == s by {
      if AllDigits(s) { LeadingDigitsOfDigits(s); }
    }
    Accumulate(0, s)
  }

  /** The loop, `acc` holding the value of the digits read so far. */
  function Accumulate(acc: nat, s: string): ParsedInt
    requires acc <= I64_MAX
    decreases |s|
  {
    if s == [] then Parsed(acc)
    else if !IsDigit(s[0]) then Failed(InvalidDigit)
    else
      var n := acc * 10 + (s[0] as int - '0' as int);
      if n > I64_MAX then Failed(PosOverflow) else Accumulate(n, s[1..])
  }

  /**
   * Continuing after the digits `p` overflows when `p` and the ASCII digits that
   * follow are too large together, and otherwise fails only on a character that is
   * no ASCII digit.
   */
  lemma {:induction false} ParsedPrefix(p: string, s: string)
    requires AllDigits(p) && DigitsValue(p) <= I64_MAX
    ensures AllDigits(p + LeadingDigits(s))
    ensures Accumulate(DigitsValue(p), s)
            == if DigitsValue(p + LeadingDigits(s)) > I64_MAX then Failed(PosOverflow)
               else if |LeadingDigits(s)| < |s| then Failed(InvalidDigit)
               else Parsed(DigitsValue(p + LeadingDigits(s)))
    decreases |s|
  {
    var l := LeadingDigits(s);
    if s != [] && IsDigit(s[0]) {
      var p1 := p + [s[0]];
      DigitsValueSnoc(p, s[0]);
      assert l == [s[0]] + LeadingDigits(s[1..]);
      SnocAssoc(p, s[0], LeadingDigits(s[1..]));
      if DigitsValue(p1) > I64_MAX {
        DigitsValueGrows(p1, LeadingDigits(s[1..]));
      } else {
        ParsedPrefix(p1, s[1..]);
      }
    } else {
      assert p + l == p;
    }
  }

  lemma SnocAssoc(p: string, c: char, x: string)
    ensures p + ([c] + x) == (p + [c]) + x
  {
  }

  /** How `ParseIntError` displays each kind. */
  function ErrorText(k: IntErrorKind): string {
    match k
    case InvalidDigit => "invalid digit found in string"
    case PosOverflow => "number too large to fit in target type"
  }
}

=== FILE: paths.dfy ===
/**
 * Paths as the tool sees them.
 *
 * A `Path` is an absolute, normalised path: the sequence of its components below `/`,
 * none of them empty, `.`, `..` or containing `/`. The root is the empty sequence.
 * A `PathBuf` is a path as a user typed it: absolute or relative, and possibly with `..`.
 */
module Paths {
  import opened Text

  type Path = seq<string>

  predicate NormalPart(c: string) {
    |c| > 0 && '/' !in c && c != "." && c != ".."
  }

  predicate IsPath(p: Path) {
    forall i | 0 <= i < |p| :: NormalPart(p[i])
  }

  /** `Path::parent` of a non-root path. */
  function Parent(p: Path): Path
    requires |p| > 0
  {
    p[..|p| - 1]
  }

  /** `Path::file_name` of a non-root path. */
  function FileName(p: Path): string
    requires |p| > 0
  {
    p[|p| - 1]
  }

  /** Component-wise `Path::starts_with`. */
  predicate IsPrefix(a: Path, b: Path) {
    |a| <= |b| && b[..|a|] == a
  }

  /** The path `p`, which lies under `from`, moved to lie under `to` instead. */
  function Rebase(p: Path, from: Path, to: Path): (r: Path)
    requires IsPrefix(from, p)
    ensures IsPrefix(to, r) && |r| - |to| == |p| - |from|
    ensures r[|to|..] == p[|from|..]
    ensures from + r[|to|..] == p
  {
    assert p == p[..|from|] + p[|from|..];
    to + p[|from|..]
  }

  /** `Path::display` of an absolute path. */
  function Display(p: Path): string {
    "/" + Join(p, "/")
  }

  /** A path as given: absolute or relative, components kept as written except `.` and empty ones. */
  datatype PathBuf = PathBuf(absolute: bool, parts: seq<string>)

  function Buf(p: Path): PathBuf {
    PathBuf(true, p)
  }

  function DisplayBuf(b: PathBuf): string {
    (if b.absolute then "/" else "") + Join(b.parts, "/")
  }

  /** `Path::components` rendered as strings: the root counts as a component named `/`. */
  function Components(b: PathBuf): seq<string> {
    (if b.absolute then ["/"] else []) + b.parts
  }

  /** The components a path string keeps: empty ones and `.` disappear. */
  function KeepParts(xs: seq<string>): (r: seq<string>)
    ensures forall i | 0 <= i < |r| :: r[i] != "" && r[i] != "."
  {
    if xs == [] then []
    else if xs[0] == "" || xs[0] == "." then KeepParts(xs[1..])
    else [xs[0]] + KeepParts(xs[1..])
  }

  /** `PathBuf::from` a string. */
  function ParsePath(s: string): (b: PathBuf)
    ensures b.absolute <==> StartsWith(s, "/")
    ensures forall i | 0 <= i < |b.parts| :: b.parts[i] != "" && b.parts[i] != "."
  {
    PathBuf(StartsWith(s, "/"), KeepParts(Split(s, '/')))
  }

  lemma {:induction false} KeepNormal(p: Path)
    requires IsPath(p)
    ensures KeepParts(p) == p
  {
    if p != [] {
      KeepNormal(p[1..]);
      assert [p[0]] + p[1..] == p;
    }
  }

  /** Reading back the display of a path gives the same path. */
  lemma ParseDisplay(p: Path)
    requires IsPath(p)
    ensures ParsePath(Display(p)) == Buf(p)
  {
    var s := Display(p);
    assert StartsWith(s, "/");
    if p == [] {
      assert s == "/";
      assert Split(s, '/') == ["", ""];
    } else {
      var xs := [""] + p;
      assert forall i | 0 <= i < |xs| :: '/' !in xs[i];
      JoinCons(p, "/");
      assert Join(xs, "/") == s;
      SplitJoin(xs, '/');
      assert Split(s, '/') == xs;
      KeepNormal(p);
      assert KeepParts(xs) == KeepParts(p);
    }
  }

  lemma JoinCons(p: seq<string>, sep: string)
    requires |p| > 0
    ensures Join([""] + p, sep) == sep + Join(p, sep)
  {
    var xs := [""] + p;
    assert xs[1..] == p;
  }

  /** `Path::join`: an absolute argument replaces the base. */
  function JoinBuf(a: PathBuf, b: PathBuf): PathBuf {
    if b.absolute then b else PathBuf(a.absolute, a.parts + b.parts)
  }

  /**
   * Resolves `..` against the components walked so far; `..` at the root stays at
   * the root, and `.` or empty components are skipped.
   */
  function NormalizeFrom(acc: Path, parts: seq<string>): Path
    decreases |parts|
  {
    if parts == [] then acc
    else
      var x := parts[0];
      var next := if x == ".." then (if acc == [] then [] else Parent(acc))
                  else if x == "." || x == "" then acc
                  else acc + [x];
      NormalizeFrom(next, parts[1..])
  }

  function Normalize(parts: seq<string>): Path {
    NormalizeFrom([], parts)
  }

  lemma {:induction false} NormalizeFromPath(acc: Path, p: Path)
    requires IsPath(p)
    ensures NormalizeFrom(acc, p) == acc + p
    decreases |p|
  {
    if p != [] {
      NormalizeFromPath(acc + [p[0]], p[1..]);
      assert acc + [p[0]] + p[1..] == acc + p;
    }
  }

  /** A normal path is its own normalisation. */
  lemma NormalizePath(p: Path)
    requires IsPath(p)
    ensures Normalize(p) == p
  {
    NormalizeFromPath([], p);
  }

  lemma {:induction false} NormalizeFromIsPath(acc: Path, parts: seq<string>)
    requires IsPath(acc)
    requires forall i | 0 <= i < |parts| :: '/' !in parts[i]
    ensures IsPath(NormalizeFrom(acc, parts))
    decreases |parts|
  {
    if parts != [] {
      var x := parts[0];
      var next := if x == ".." then (if acc == [] then [] else Parent(acc))
                  else if x == "." || x == "" then acc
                  else acc + [x];
      NormalizeFromIsPath(next, parts[1..]);
    }
  }

  /** The absolute form of a path given relative to `cwd`, with `..` resolved lexically. */
  function Absolute(cwd: Path, b: PathBuf): Path {
    Normalize(if b.absolute then b.parts else cwd + b.parts)
  }

  /**
   * What a symbolic link stores: an absolute path, or `ups` times `..` followed by the
   * components `down`, read from the directory holding the link.
   */
  datatype LinkTarget = Abs(path: Path) | Rel(ups: nat, down: Path)

  /** The path a link stored in directory `dir` designates. */
  function Resolve(dir: Path, t: LinkTarget): Path {
    match t
    case Abs(q) => q
    case Rel(ups, down) => (if ups <= |dir| then dir[..|dir| - ups] else []) + down
  }

  /** The text of a link target, as `to_string_lossy` shows it. */
  function TargetText(t: LinkTarget): string {
    match t
    case Abs(q) => Display(q)
    case Rel(ups, down) => Join(Ups(ups) + down, "/")
  }

  /** `n` parent-directory components. */
  function Ups(n: nat): (r: seq<string>)
    ensures |r| == n && forall i | 0 <= i < n :: r[i] == ".."
  {
    if n == 0 then [] else [".."] + Ups(n - 1)
  }

  /** Length of the longest common prefix. */
  function CommonPrefixLen(a: Path, b: Path): (k: nat)
    ensures k <= |a| && k <= |b|
    ensures a[..k] == b[..k]
    ensures k < |a| && k < |b| ==> a[k] != b[k]
  {
    if a == [] || b == [] || a[0] != b[0] then 0
    else
      var k := 1 + CommonPrefixLen(a[1..], b[1..]);
      assert a[..k] == [a[0]] + a[1..][..k - 1];
      assert b[..k] == [b[0]] + b[1..][..k - 1];
      k
  }

  /**
   * `pathdiff::diff_paths` for two absolute paths: climb from `base` to the common
   * ancestor, then descend to `orig`.
   */
  function DiffPaths(orig: Path, base: Path): (t: LinkTarget)
    ensures t.Rel? && t.ups <= |base| && |t.down| <= |orig| && t.down == orig[|orig| - |t.down|..]
  {
    var k := CommonPrefixLen(orig, base);
    Rel(|base| - k, orig[k..])
  }

  /** Following the computed relative path from `base` arrives at `orig`. */
  lemma ResolveDiff(orig: Path, base: Path)
    ensures Resolve(base, DiffPaths(orig, base)) == orig
  {
    var k := CommonPrefixLen(orig, base);
    assert base[..|base| - (|base| - k)] == orig[..k];
    assert orig[..k] + orig[k..] == orig;
  }

  /** No shorter climb reaches `orig`: the climb stops at the deepest common ancestor. */
  lemma DiffMinimal(orig: Path, base: Path, ups: nat, down: Path)
    requires ups <= |base| && Resolve(base, Rel(ups, down)) == orig
    ensures DiffPaths(orig, base).ups <= ups
  {
    var m := |base| - ups;
    assert orig[..m] == base[..m];
    CommonPrefixMaximal(orig, base, m);
  }

  /** Any common prefix is at most as long as the one `CommonPrefixLen` finds. */
  lemma {:induction false} CommonPrefixMaximal(a: Path, b: Path, m: nat)
    requires m <= |a| && m <= |b| && a[..m] == b[..m]
    ensures m <= CommonPrefixLen(a, b)
  {
    if m > 0 {
      assert a[0] == a[..m][0] && b[0] == b[..m][0];
      assert a[1..][..m - 1] == a[..m][1..] && b[1..][..m - 1] == b[..m][1..];
      CommonPrefixMaximal(a[1..], b[1..], m - 1);
    }
  }

  /** The relative link targets that the tool's own test table expects. */
  lemma DiffExampleSibling()
    ensures TargetText(DiffPaths(["c", "y", "xxx-123", ".envrc"], ["c", "b", "a", "xxx"]))
            == "../../../y/xxx-123/.envrc"
  {
    DiffExampleSiblingRel();
    DiffExampleSiblingText();
  }

  lemma DiffExampleSiblingRel()
    ensures DiffPaths(["c", "y", "xxx-123", ".envrc"], ["c", "b", "a", "xxx"]) == Rel(3, ["y", "xxx-123", ".envrc"])
  {
    assert CommonPrefixLen(["c", "y", "xxx-123", ".envrc"], ["c", "b", "a", "xxx"]) == 1;
  }

  lemma DiffExampleSiblingText()
    ensures TargetText(Rel(3, ["y", "xxx-123", ".envrc"])) == "../../../y/xxx-123/.envrc"
  {
    JoinUps(3, ["y", "xxx-123", ".envrc"]);
    SiblingDescent();
    ThreeUps();
  }

  lemma SiblingDescent()
    ensures Join(["y", "xxx-123", ".envrc"], "/") == "y/xxx-123/.envrc"
  {
    JoinStep("y", ["xxx-123", ".envrc"], "/");
  }

  lemma ThreeUps()
    ensures Repeat("../", 3) == "../../../"
  {
  }

  lemma DiffExampleDisjoint()
    ensures TargetText(DiffPaths(["tmp", "y", "xxx-123", ".envrc"], ["c", "b", "a", "xxx"]))
            == "../../../../tmp/y/xxx-123/.envrc"
  {
    DiffExampleDisjointRel();
    DiffExampleDisjointText();
  }

  lemma DiffExampleDisjointRel()
    ensures DiffPaths(["tmp", "y", "xxx-123", ".envrc"], ["c", "b", "a", "xxx"]) == Rel(4, ["tmp", "y", "xxx-123", ".envrc"])
  {
    assert CommonPrefixLen(["tmp", "y", "xxx-123", ".envrc"], ["c", "b", "a", "xxx"]) == 0;
  }

  lemma DiffExampleDisjointText()
    ensures TargetText(Rel(4, ["tmp", "y", "xxx-123", ".envrc"])) == "../../../../tmp/y/xxx-123/.envrc"
  {
    JoinUps(4, ["tmp", "y", "xxx-123", ".envrc"]);
    DisjointDescent();
    FourUps();
  }

  lemma DisjointDescent()
    ensures Join(["tmp", "y", "xxx-123", ".envrc"], "/") == "tmp/y/xxx-123/.envrc"
  {
    JoinStep("tmp", ["y", "xxx-123", ".envrc"], "/");
  }

  lemma FourUps()
    ensures Repeat("../", 4) == "../../../../"
  {
  }

  /** `n` copies of `s`, concatenated. */
  function Repeat(s: string, n: nat): string {
    if n == 0 then "" else s + Repeat(s, n - 1)
  }

  lemma JoinStep(a: string, rest: seq<string>, sep: string)
    requires |rest| > 0
    ensures Join([a] + rest, sep) == a + sep + Join(rest, sep)
  {
    assert ([a] + rest)[1..] == rest;
  }

  /** A relative target's text is one `../` per level climbed, then the descent. */
  lemma {:induction false} JoinUps(n: nat, down: Path)
    requires |down| > 0
    ensures TargetText(Rel(n, down)) == Repeat("../", n) + Join(down, "/")
  {
    if n > 0 {
      var rest := Join(Ups(n - 1) + down, "/");
      JoinUps(n - 1, down);
      UpsCons(n, down);
      JoinStep("..", Ups(n - 1) + down, "/");
      ClimbOne(rest);
      ClimbOne(Repeat("../", n - 1));
      ConcatAssoc("../", Repeat("../", n - 1), Join(down, "/"));
    } else {
      assert Ups(0) + down == down;
    }
  }

  lemma UpsCons(n: nat, down: Path)
    requires n > 0
    ensures Ups(n) + down == [".."] + (Ups(n - 1) + down)
  {
  }

  lemma ClimbOne(rest: string)
    ensures ".." + "/" + rest == "../" + rest
  {
  }

  lemma ConcatAssoc(a: string, b: string, c: string)
    ensures a + b + c == a + (b + c)
  {
  }

  lemma DiffExampleShallow()
    ensures TargetText(DiffPaths(["c", "y", "xxx-123", ".envrc"], ["c", "xxx"]))
            == "../y/xxx-123/.envrc"
  {
    DiffExampleShallowRel();
    DiffExampleShallowText();
  }

  lemma DiffExampleShallowRel()
    ensures DiffPaths(["c", "y", "xxx-123", ".envrc"], ["c", "xxx"]) == Rel(1, ["y", "xxx-123", ".envrc"])
  {
    assert CommonPrefixLen(["c", "y", "xxx-123", ".envrc"], ["c", "xxx"]) == 1;
  }

  lemma DiffExampleShallowText()
    ensures TargetText(Rel(1, ["y", "xxx-123", ".envrc"])) == "../y/xxx-123/.envrc"
  {
    JoinUps(1, ["y", "xxx-123", ".envrc"]);
    SiblingDescent();
    assert Repeat("../", 1) == "../";
  }

  /** `Path::strip_prefix`: the components after `base`, as a relative path. */
  function StripPrefix(p: PathBuf, base: PathBuf): (r: Option<PathBuf>)
    ensures r.Some? <==> p.absolute == base.absolute && |base.parts| <= |p.parts|
                          && p.parts[..|base.parts|] == base.parts
    ensures r.Some? ==> !r.value.absolute && base.parts + r.value.parts == p.parts
  {
    if p.absolute == base.absolute && |base.parts| <= |p.parts| && p.parts[..|base.parts|] == base.parts
    then
      assert p.parts[..|base.parts|] + p.parts[|base.parts|..] == p.parts;
      Some(PathBuf(false, p.parts[|base.parts|..]))
    else None
  }
}

=== FILE: replace_base.dfy ===
/** Moving a path from one base directory to another. */
module ReplaceBase {
  import opened Text
  import opened Paths
  import opened Errors

  /**
   * `replace_prefix`: the part of `path` below `base`, placed under `newBase`. The prefix
   * test is component-wise and fails with `PathPrefixMismatch(base)`.
   */
  function ReplacePrefix(path: PathBuf, base: PathBuf, newBase: PathBuf): (r: Result<PathBuf>)
    ensures r.Ok? <==> StripPrefix(path, base).Some?
    ensures r.Err? ==> r.error == PathPrefixMismatch(base)
    ensures r.Ok? ==> r.value.absolute == newBase.absolute
    ensures r.Ok? ==> r.value.parts == newBase.parts + path.parts[|base.parts|..]
  {
    match StripPrefix(path, base)
    case None => Err(PathPrefixMismatch(base))
    case Some(rest) => Ok(JoinBuf(newBase, rest))
  }

  /** Replacing the new base by the old one again gives back the original path. */
  lemma ReplacePrefixInverse(path: PathBuf, base: PathBuf, newBase: PathBuf)
    requires ReplacePrefix(path, base, newBase).Ok?
    ensures ReplacePrefix(ReplacePrefix(path, base, newBase).value, newBase, base) == Ok(path)
  {
    var moved := ReplacePrefix(path, base, newBase).value;
    assert moved.parts[..|newBase.parts|] == newBase.parts;
    assert moved.parts[|newBase.parts|..] == path.parts[|base.parts|..];
    assert base.parts + path.parts[|base.parts|..] == path.parts;
  }

  /** The file example: `/old_base/mydir/myfile.txt` becomes `/new_base/mydir/myfile.txt`. */
  lemma ReplacePrefixFileExample()
    ensures ReplacePrefix(PathBuf(true, ["old_base", "mydir", "myfile.txt"]), PathBuf(true, ["old_base"]),
                          PathBuf(true, ["new_base"]))
            == Ok(PathBuf(true, ["new_base", "mydir", "myfile.txt"]))
  {
    assert ["old_base", "mydir", "myfile.txt"][..1] == ["old_base"];
    assert ["new_base"] + ["old_base", "mydir", "myfile.txt"][1..] == ["new_base", "mydir", "myfile.txt"];
  }

  /** The directory example: `/old_base/mydir` becomes `/new_base/mydir`. */
  lemma ReplacePrefixDirExample()
    ensures ReplacePrefix(PathBuf(true, ["old_base", "mydir"]), PathBuf(true, ["old_base"]),
                          PathBuf(true, ["new_base"]))
            == Ok(PathBuf(true, ["new_base", "mydir"]))
  {
    assert ["old_base", "mydir"][..1] == ["old_base"];
    assert ["new_base"] + ["old_base", "mydir"][1..] == ["new_base", "mydir"];
  }

  /** A base that is not a prefix is reported with its debug form. */
  lemma ReplacePrefixMismatchExample()
    ensures var r := ReplacePrefix(PathBuf(true, ["old_base", "mydir", "myfile.txt"]),
                                   PathBuf(true, ["not_a_prefix"]), PathBuf(true, ["new_base"]));
            r == Err(PathPrefixMismatch(PathBuf(true, ["not_a_prefix"])))
    ensures Message(PathPrefixMismatch(PathBuf(true, ["not_a_prefix"])))
            == "Path does not start with: " + DebugPath(PathBuf(true, ["not_a_prefix"]))
  {
    assert ["old_base", "mydir", "myfile.txt"][..1] != ["not_a_prefix"] by {
      assert ["old_base", "mydir", "myfile.txt"][..1][0] == "old_base";
    }
    MismatchMessage(PathBuf(true, ["not_a_prefix"]));
  }

  /** A prefix mismatch displays as the fixed phrase followed by the base in debug form. */
  lemma MismatchMessage(base: PathBuf)
    ensures Message(PathPrefixMismatch(base)) == "Path does not start with: " + DebugPath(base)
  {
  }
}

=== FILE: section.dfy ===
/**
 * The block the tool writes into a guarded `.envrc`: nine lines between a start and an
 * end marker, recording the link mode, the format version, the sentinel, a timestamp,
 * the project directory and the location of the encrypted environments. Pure text:
 * building the block, splicing it into a file, deleting it, and recognising its lines.
 */
module Section {
  import opened Text

  const START_WORDS := "confguard start"
  const END_WORDS := "confguard end"
  const START_LEFT := "#------------------------------- "
  const START_RIGHT := " --------------------------------"
  const END_LEFT := "#-------------------------------- "
  const END_RIGHT := " ---------------------------------"
  const START_MARKER := START_LEFT + START_WORDS + START_RIGHT
  const END_MARKER := END_LEFT + END_WORDS + END_RIGHT

  const RELATIVE_PREFIX := "# config.relative = "
  const VERSION_PREFIX := "# config.version = "
  const SENTINEL_PREFIX := "# state.sentinel = '"
  const TIMESTAMP_PREFIX := "# state.timestamp = '"
  const SOURCE_PREFIX := "# state.sourceDir = '"
  const SOPS_PREFIX := "export SOPS_PATH=$HOME/"
  const DOTENV_LINE := "dotenv $SOPS_PATH/environments/local.env"

  function BoolText(b: bool): string {
    if b then "true" else "false"
  }

  /** The lines of the block, in order. */
  function SectionLines(relative: bool, version: int, sentinel: string, timestamp: string,
                        sourceDir: string, sopsPath: string): seq<string> {
    [ START_MARKER,
      RELATIVE_PREFIX + BoolText(relative),
      VERSION_PREFIX + IntToString(version),
      SENTINEL_PREFIX + sentinel + "'",
      TIMESTAMP_PREFIX + timestamp + "'",
      SOURCE_PREFIX + sourceDir + "'",
      SOPS_PREFIX + sopsPath,
      DOTENV_LINE,
      END_MARKER ]
  }

  /**
   * The block as written: every line, the last included, ends with a newline. It starts
   * with the start marker and ends with the end marker and a newline, and when the
   * values hold no line break it reads back line by line as its nine lines.
   */
  function SectionText(relative: bool, version: int, sentinel: string, timestamp: string,
                       sourceDir: string, sopsPath: string): (r: string)
    ensures StartsWith(r, START_MARKER) && EndsWith(r, END_MARKER + "\n")
    ensures |r| >= |START_MARKER| + |END_MARKER + "\n"|
    ensures '\n' !in sentinel && '\n' !in timestamp && '\n' !in sourceDir && PlainLine(sopsPath) ==>
              Lines(r) == SectionLines(relative, version, sentinel, timestamp, sourceDir, sopsPath)
  {
    var ls := SectionLines(relative, version, sentinel, timestamp, sourceDir, sopsPath);
    TerminatedEnds(ls);
    if '\n' !in sentinel && '\n' !in timestamp && '\n' !in sourceDir && PlainLine(sopsPath) then
      SectionLinesPlain(relative, version, sentinel, timestamp, sourceDir, sopsPath);
      LinesTerminated(ls);
      Terminated(ls)
    else Terminated(ls)
  }

  // ---------------------------------------------------------------------------------
  // Searching
  // ---------------------------------------------------------------------------------

  /** Index of the first line containing `w`. */
  function FirstContaining(lines: seq<string>, w: string): (r: Option<nat>)
    ensures r.Some? ==> r.value < |lines| && Contains(lines[r.value], w)
    ensures r.Some? ==> forall k | 0 <= k < r.value :: !Contains(lines[k], w)
    ensures r.None? ==> forall k | 0 <= k < |lines| :: !Contains(lines[k], w)
  {
    if lines == [] then None
    else if Contains(lines[0], w) then Some(0)
    else match FirstContaining(lines[1..], w)
      case None => None
      case Some(k) => Some(k + 1)
  }

  /** The first occurrence of `p` in `s` at or after `from`. */
  function IndexFrom(s: string, p: string, from: nat): (r: Option<nat>)
    ensures r.Some? ==> from <= r.value && OccursAt(s, p, r.value)
    ensures r.Some? ==> forall k | from <= k < r.value :: !OccursAt(s, p, k)
    ensures r.None? ==> forall k | from <= k :: !OccursAt(s, p, k)
    decreases |s| - from
  {
    if from + |p| > |s| then None
    else if OccursAt(s, p, from) then Some(from)
    else IndexFrom(s, p, from + 1)
  }

  /** The last occurrence of `p` in `s` at an index in `[from, below)`. */
  function LastIndexBelow(s: string, p: string, from: nat, below: nat): (r: Option<nat>)
    ensures r.Some? ==> from <= r.value < below && OccursAt(s, p, r.value)
    ensures r.Some? ==> forall k | r.value < k < below :: !OccursAt(s, p, k)
    ensures r.None? ==> forall k | from <= k < below :: !OccursAt(s, p, k)
    decreases below
  {
    if below <= from then None
    else if OccursAt(s, p, below - 1) then Some(below - 1)
    else LastIndexBelow(s, p, from, below - 1)
  }

  // ---------------------------------------------------------------------------------
  // update_dot_envrc and delete_section, on text
  // ---------------------------------------------------------------------------------

  /**
   * The text `update_dot_envrc` writes. When a line with the start words comes before
   * the first line with the end words, the lines before it (joined, without a final
   * newline), the new block and the lines after the end line (joined, without a final
   * newline) are concatenated. Otherwise the old text is kept, a newline added if it
   * lacks one, and the block appended.
   */
  function Spliced(content: string, section: string): (r: string)
    ensures Contains(r, section)
    ensures !Contains(content, START_WORDS) ==> StartsWith(r, content) && EndsWith(r, section)
  {
    var lines := Lines(content);
    var s := FirstContaining(lines, START_WORDS);
    var e := FirstContaining(lines, END_WORDS);
    if s.Some? && e.Some? && s.value < e.value then
      var front := Join(lines[..s.value], "\n");
      var back := if e.value + 1 < |lines| then Join(lines[e.value + 1..], "\n") else "";
      SpanOccurs(front, section, back);
      LinesContain(content, START_WORDS, s.value);
      front + section + back
    else
      var glue := if EndsWith(content, "\n") then "" else "\n";
      SpanOccurs(content + glue, section, "");
      assert content + glue + section + "" == content + glue + section;
      assert (content + glue + section)[..|content|] == content;
      content + glue + section
  }

  /** The middle piece of a three-piece text occurs in it, after the first piece. */
  lemma SpanOccurs(a: string, b: string, c: string)
    ensures OccursAt(a + b + c, b, |a|) && Contains(a + b + c, b)
    ensures c == "" ==> EndsWith(a + b + c, b)
  {
    assert (a + b + c)[|a|..|a| + |b|] == b;
    ContainsWitness(a + b + c, b, |a|);
  }

  /**
   * The text `delete_section` writes: one match of start marker, anything, end marker and
   * newline is removed. The match starts at the first start marker and, the repetition
   * being greedy, runs to the last end marker followed by a newline.
   */
  function DeletedSection(content: string): (r: string)
    ensures !Contains(content, START_MARKER) ==> r == content
    ensures |r| <= |content|
  {
    DeleteSpan(content, START_MARKER, END_MARKER + "\n")
  }

  /**
   * Removes the span from the first `open` to the last `close` that begins after it, when
   * there is such a span.
   */
  function DeleteSpan(content: string, open: string, close: string): (r: string)
    ensures !Contains(content, open) ==> r == content
    ensures |r| <= |content|
  {
    match IndexFrom(content, open, 0)
    case None => content
    case Some(i) =>
      match LastIndexBelow(content, close, i + |open|, |content| + 1)
      case None => content
      case Some(j) => content[..i] + content[j + |close|..]
  }

  // ---------------------------------------------------------------------------------
  // Recognising the lines of a block, as `from_envrc`'s patterns do
  // ---------------------------------------------------------------------------------

  /** The last quote at an index in `[1, n)`: the end of a greedy non-empty `.+'`. */
  function LastQuote(r: string, n: nat): (q: Option<nat>)
    requires n <= |r|
    ensures q.Some? ==> 1 <= q.value < n && r[q.value] == '\''
    ensures q.Some? ==> forall k | q.value < k < n :: r[k] != '\''
    ensures q.None? ==> forall k | 1 <= k < n :: r[k] != '\''
  {
    if n <= 1 then None
    else if r[n - 1] == '\'' then Some(n - 1)
    else LastQuote(r, n - 1)
  }

  /** `^<prefix>(.+)'` where `prefix` ends with the opening quote: the captured text. */
  function QuotedField(line: string, prefix: string): (v: Option<string>)
    ensures v.Some? ==> |v.value| > 0 && StartsWith(line, prefix + v.value + "'")
  {
    if !StartsWith(line, prefix) then None
    else
      var r := line[|prefix|..];
      match LastQuote(r, |r|)
      case None => None
      case Some(j) =>
        assert line[..|prefix| + j + 1] == prefix + r[..j] + "'";
        Some(r[..j])
  }

  /** `^# config\.relative = (true|false)`. */
  function RelativeField(line: string): Option<bool> {
    if !StartsWith(line, RELATIVE_PREFIX) then None
    else
      var r := line[|RELATIVE_PREFIX|..];
      if StartsWith(r, "true") then Some(true)
      else if StartsWith(r, "false") then Some(false)
      else None
  }

  /**
   * `^# config\.version = (\d+)`: the run of digits after the prefix, where `\d` takes
   * in every Unicode decimal digit, not only the ASCII ones.
   */
  function VersionField(line: string): (d: Option<string>)
    ensures d.Some? <==> StartsWith(line, VERSION_PREFIX) && |line| > |VERSION_PREFIX|
                         && IsDecimalDigit(line[|VERSION_PREFIX|])
    ensures d.Some? ==> |d.value| > 0 && AllDecimalDigits(d.value) && StartsWith(line, VERSION_PREFIX + d.value)
    ensures d.Some? ==> |line| == |VERSION_PREFIX + d.value| || !IsDecimalDigit(line[|VERSION_PREFIX + d.value|])
  {
    if !StartsWith(line, VERSION_PREFIX) then None
    else
      var rest := line[|VERSION_PREFIX|..];
      var d := LeadingDecimalDigits(rest);
      assert line == VERSION_PREFIX + rest;
      assert |d| > 0 ==> StartsWith(line, VERSION_PREFIX + d) by {
        if |d| > 0 { assert VERSION_PREFIX + d == line[..|VERSION_PREFIX + d|]; }
      }
      if |d| > 0 then Some(d) else None
  }

  /** What `from_envrc` makes of one line: the patterns are tried in this order. */
  datatype FieldLine =
    | SentinelLine(sentinel: string)
    | RelativeLine(relative: bool)
    | VersionLine(digits: string)
    | SourceLine(sourceDir: string)
    | OtherLine

  function Classify(line: string): (k: FieldLine)
    ensures k.SentinelLine? ==> |k.sentinel| > 0
    ensures k.VersionLine? ==> |k.digits| > 0 && AllDecimalDigits(k.digits)
    ensures k.SourceLine? ==> |k.sourceDir| > 0
  {
    match QuotedField(line, SENTINEL_PREFIX)
    case Some(v) => SentinelLine(v)
    case None =>
      match RelativeField(line)
      case Some(b) => RelativeLine(b)
      case None =>
        match VersionField(line)
        case Some(d) => VersionLine(d)
        case None =>
          match QuotedField(line, SOURCE_PREFIX)
          case Some(v) => SourceLine(v)
          case None => OtherLine
  }

  /** A line that starts with none of the four field prefixes. */
  predicate PrefixFree(line: string) {
    && !StartsWith(line, SENTINEL_PREFIX)
    && !StartsWith(line, RELATIVE_PREFIX)
    && !StartsWith(line, VERSION_PREFIX)
    && !StartsWith(line, SOURCE_PREFIX)
  }

  // ---------------------------------------------------------------------------------
  // Properties
  // ---------------------------------------------------------------------------------

  lemma StartMarkerPlain()
    ensures PlainLine(START_MARKER)
  {
  }

  lemma EndMarkerPlain()
    ensures PlainLine(END_MARKER)
  {
  }

  lemma DotenvPlain()
    ensures PlainLine(DOTENV_LINE)
  {
  }

  /** The start marker carries the words lines are searched for. */
  lemma StartMarkerWords()
    ensures Contains(START_MARKER, START_WORDS)
  {
    InfixOccurs(START_LEFT, START_WORDS, START_RIGHT);
  }

  lemma EndMarkerWords()
    ensures Contains(END_MARKER, END_WORDS)
  {
    InfixOccurs(END_LEFT, END_WORDS, END_RIGHT);
  }

  /** Each string of the block is a plain line when the values hold no line break. */
  lemma SectionLinesPlain(relative: bool, version: int, sentinel: string, timestamp: string,
                          sourceDir: string, sopsPath: string)
    requires '\n' !in sentinel && '\n' !in timestamp && '\n' !in sourceDir
    requires PlainLine(sopsPath)
    ensures var ls := SectionLines(relative, version, sentinel, timestamp, sourceDir, sopsPath);
            forall i | 0 <= i < |ls| :: PlainLine(ls[i])
  {
    StartMarkerPlain();
    EndMarkerPlain();
    DotenvPlain();
    IntToStringPlain(version);
    var ls := SectionLines(relative, version, sentinel, timestamp, sourceDir, sopsPath);
    assert PlainLine(ls[6]) by {
      assert ls[6] == SOPS_PREFIX + sopsPath;
      if |sopsPath| > 0 {
        assert ls[6][|ls[6]| - 1] == sopsPath[|sopsPath| - 1];
      }
    }
  }

  /** A rendered integer holds neither a line break nor a carriage return. */
  lemma IntToStringPlain(i: int)
    ensures '\n' !in IntToString(i) && '\r' !in IntToString(i)
  {
    var n: nat := if i < 0 then -i else i;
    NatToStringDigits(n);
    var d := NatToString(n);
    assert forall k | 0 <= k < |d| :: IsDigit(d[k]);
  }

  /** Terminated lines end with the last line and its newline. */
  lemma {:induction false} TerminatedLast(ls: seq<string>)
    requires |ls| > 0
    ensures Terminated(ls) == Terminated(ls[..|ls| - 1]) + ls[|ls| - 1] + "\n"
  {
    if |ls| > 1 {
      TerminatedLast(ls[1..]);
      assert ls[1..][..|ls[1..]| - 1] == ls[..|ls| - 1][1..];
    }
  }

  /** Terminated lines start with the first line and end with the last and its newline. */
  lemma TerminatedEnds(ls: seq<string>)
    requires |ls| >= 2
    ensures var t := Terminated(ls);
            && StartsWith(t, ls[0]) && EndsWith(t, ls[|ls| - 1] + "\n")
            && |t| >= |ls[0]| + |ls[|ls| - 1] + "\n"|
  {
    var t := Terminated(ls);
    TerminatedLast(ls);
    var front := Terminated(ls[..|ls| - 1]);
    assert t == front + (ls[|ls| - 1] + "\n");
    assert ls[..|ls| - 1][0] == ls[0];
    assert front == ls[0] + "\n" + Terminated(ls[..|ls| - 1][1..]);
    assert t == ls[0] + ("\n" + Terminated(ls[1..]));
  }

  /** Whatever a line contains, the text it was read from contains. */
  lemma {:induction false} LinesContain(s: string, w: string, i: nat)
    requires i < |Lines(s)| && Contains(Lines(s)[i], w)
    ensures Contains(s, w)
    decreases |s|
  {
    var k := IndexOfChar(s, '\n');
    if k == |s| {
      assert Lines(s) == [s];
    } else {
      if i == 0 {
        assert Lines(s)[0] == StripCr(s[..k]);
        HeadContains(s, k, w);
      } else {
        assert Lines(s)[i] == Lines(s[k + 1..])[i - 1];
        LinesContain(s[k + 1..], w, i - 1);
        assert s == s[..k + 1] + s[k + 1..];
        ContainsAppendLeft(s[..k + 1], s[k + 1..], w);
      }
    }
  }

  /** What the first `k` characters contain, less a final `\r`, the whole text contains. */
  lemma HeadContains(s: string, k: nat, w: string)
    requires k <= |s| && Contains(StripCr(s[..k]), w)
    ensures Contains(s, w)
  {
    var head := StripCr(s[..k]);
    assert head == s[..|head|];
    assert s == head + s[|head|..];
    ContainsAppendRight(head, s[|head|..], w);
  }

  /** Text without the start words gets the block appended. */
  lemma SplicedAppends(content: string, section: string)
    requires !Contains(content, START_WORDS)
    ensures Spliced(content, section)
         == content + (if EndsWith(content, "\n") then "" else "\n") + section
  {
    var lines := Lines(content);
    if FirstContaining(lines, START_WORDS).Some? {
      LinesContain(content, START_WORDS, FirstContaining(lines, START_WORDS).value);
    }
  }

  /** A text containing a text containing `w` contains `w`. */
  lemma ContainsTrans(s: string, m: string, w: string)
    requires Contains(s, m) && Contains(m, w)
    ensures Contains(s, w)
  {
    var i :| 0 <= i <= |s| - |m| && OccursAt(s, m, i);
    var j :| 0 <= j <= |m| - |w| && OccursAt(m, w, j);
    assert forall t | 0 <= t < |m| :: s[i + t] == m[t];
    assert forall t | 0 <= t < |w| :: m[j + t] == w[t];
    assert s[i + j..i + j + |w|] == w;
    ContainsWitness(s, w, i + j);
  }

  /** No line-free pattern begins inside a newline-terminated text followed by more text. */
  lemma NoOpenBefore(c: string, sec: string, open: string, k: nat)
    requires c == [] || c[|c| - 1] == '\n'
    requires '\n' !in open && !Contains(c, open) && k < |c|
    ensures !OccursAt(c + sec, open, k)
  {
    var s := c + sec;
    if k + |open| <= |c| {
      assert !OccursAt(c, open, k);
      assert c[k..k + |open|] == s[k..k + |open|];
    } else if k + |open| <= |s| {
      assert s[|c| - 1] == '\n';
      assert open[|c| - 1 - k] != s[|c| - 1];
    }
  }

  /** The first occurrence is the one with none before it. */
  lemma IndexFromIs(s: string, p: string, i: nat)
    requires OccursAt(s, p, i) && forall k | 0 <= k < i :: !OccursAt(s, p, k)
    ensures IndexFrom(s, p, 0) == Some(i)
  {
  }

  /** An occurrence at the very end is the last one. */
  lemma LastIndexIs(s: string, p: string, from: nat, j: nat)
    requires from <= j && j + |p| == |s| && OccursAt(s, p, j)
    ensures LastIndexBelow(s, p, from, |s| + 1) == Some(j)
  {
    assert forall k | j < k <= |s| :: !OccursAt(s, p, k);
  }

  /** Deleting from a text followed by a span removes exactly the span. */
  lemma DeleteSpanAppended(c: string, sec: string, open: string, close: string)
    requires c == [] || c[|c| - 1] == '\n'
    requires '\n' !in open && !Contains(c, open)
    requires StartsWith(sec, open) && EndsWith(sec, close) && |sec| >= |open| + |close|
    ensures DeleteSpan(c + sec, open, close) == c
  {
    var s := c + sec;
    forall k | 0 <= k < |c|
      ensures !OccursAt(s, open, k)
    {
      NoOpenBefore(c, sec, open, k);
    }
    assert s[|c|..|c| + |open|] == sec[..|open|];
    IndexFromIs(s, open, |c|);
    var j := |s| - |close|;
    assert s[j..j + |close|] == sec[|sec| - |close|..];
    LastIndexIs(s, close, |c| + |open|, j);
    assert s[..|c|] == c;
  }

  /** Deleting from a text followed by a well-shaped block gives the text back. */
  lemma DeleteAppended(c: string, sec: string)
    requires EndsWith(c, "\n") && !Contains(c, START_WORDS)
    requires StartsWith(sec, START_MARKER) && EndsWith(sec, END_MARKER + "\n")
    requires |sec| >= |START_MARKER| + |END_MARKER + "\n"|
    ensures DeletedSection(c + sec) == c
  {
    StartMarkerWords();
    StartMarkerPlain();
    if Contains(c, START_MARKER) {
      ContainsTrans(c, START_MARKER, START_WORDS);
    }
    DeleteSpanAppended(c, sec, START_MARKER, END_MARKER + "\n");
  }

  /**
   * For a text without the start words that ends with a newline, deleting the block
   * `update_dot_envrc` appended gives the text back.
   */
  lemma DeleteAfterUpdate(c: string, relative: bool, version: int, sentinel: string,
                          timestamp: string, sourceDir: string, sopsPath: string)
    requires EndsWith(c, "\n") && !Contains(c, START_WORDS)
    ensures DeletedSection(Spliced(c, SectionText(relative, version, sentinel, timestamp, sourceDir, sopsPath))) == c
  {
    DeleteAfterSplice(c, SectionText(relative, version, sentinel, timestamp, sourceDir, sopsPath));
  }

  lemma SplicedAppendsTerminated(content: string, section: string)
    requires EndsWith(content, "\n") && !Contains(content, START_WORDS)
    ensures Spliced(content, section) == content + section
  {
    SplicedAppends(content, section);
    assert EndsWith(content, "\n");
    assert content + "" == content;
  }

  lemma DeleteAfterSplice(c: string, sec: string)
    requires EndsWith(c, "\n") && !Contains(c, START_WORDS)
    requires StartsWith(sec, START_MARKER) && EndsWith(sec, END_MARKER + "\n")
    requires |sec| >= |START_MARKER| + |END_MARKER + "\n"|
    ensures DeletedSection(Spliced(c, sec)) == c
  {
    SplicedAppendsTerminated(c, sec);
    DeleteAppended(c, sec);
  }

  /**
   * A text whose lines mention neither marker word, followed by a block whose first line
   * holds the start words and whose last line is the only one with the end words: the
   * old block is replaced, and the lines before it are joined without a final newline,
   * so the last of them runs straight into the new block.
   */
  lemma SplicedReplaces(c: string, block: seq<string>, sec: string)
    requires c == "" || EndsWith(c, "\n")
    requires forall i | 0 <= i < |Lines(c)| :: !Contains(Lines(c)[i], START_WORDS) && !Contains(Lines(c)[i], END_WORDS)
    requires forall i | 0 <= i < |block| :: PlainLine(block[i])
    requires |block| >= 2 && Contains(block[0], START_WORDS) && Contains(block[|block| - 1], END_WORDS)
    requires forall i | 0 <= i < |block| - 1 :: !Contains(block[i], END_WORDS)
    ensures Spliced(c + Terminated(block), sec) == Join(Lines(c), "\n") + sec
  {
    LinesOfBlock(c, block);
    SplicedAt(c + Terminated(block), sec, Lines(c), block);
  }

  /** Text of whole lines followed by terminated plain lines reads as both lists of lines. */
  lemma LinesOfBlock(c: string, block: seq<string>)
    requires c == "" || EndsWith(c, "\n")
    requires forall i | 0 <= i < |block| :: PlainLine(block[i])
    ensures Lines(c + Terminated(block)) == Lines(c) + block
  {
    LinesTerminated(block);
    if c == "" {
      assert c + Terminated(block) == Terminated(block);
    } else {
      LinesAppend(c, Terminated(block));
    }
  }

  /** In unmarked lines followed by a block, the first marker lines are the block's ends. */
  lemma MarkersAt(pre: seq<string>, block: seq<string>)
    requires forall i | 0 <= i < |pre| :: !Contains(pre[i], START_WORDS) && !Contains(pre[i], END_WORDS)
    requires |block| >= 2 && Contains(block[0], START_WORDS) && Contains(block[|block| - 1], END_WORDS)
    requires forall i | 0 <= i < |block| - 1 :: !Contains(block[i], END_WORDS)
    ensures FirstContaining(pre + block, START_WORDS) == Some(|pre|)
    ensures FirstContaining(pre + block, END_WORDS) == Some(|pre| + |block| - 1)
  {
    var lines := pre + block;
    forall k | 0 <= k < |pre|
      ensures !Contains(lines[k], START_WORDS)
    {
      assert lines[k] == pre[k];
    }
    forall k | 0 <= k < |pre| + |block| - 1
      ensures !Contains(lines[k], END_WORDS)
    {
      if k < |pre| {
        assert lines[k] == pre[k];
      } else {
        assert lines[k] == block[k - |pre|];
      }
    }
    FirstContainingIs(lines, START_WORDS, |pre|);
    FirstContainingIs(lines, END_WORDS, |pre| + |block| - 1);
  }

  /** A block whose end marker is the last line is replaced, and the lines before it are joined. */
  lemma SplicedAt(content: string, sec: string, pre: seq<string>, block: seq<string>)
    requires Lines(content) == pre + block
    requires forall i | 0 <= i < |pre| :: !Contains(pre[i], START_WORDS) && !Contains(pre[i], END_WORDS)
    requires |block| >= 2 && Contains(block[0], START_WORDS) && Contains(block[|block| - 1], END_WORDS)
    requires forall i | 0 <= i < |block| - 1 :: !Contains(block[i], END_WORDS)
    ensures Spliced(content, sec) == Join(pre, "\n") + sec
  {
    MarkersAt(pre, block);
    assert (pre + block)[..|pre|] == pre;
  }

  /** The first line containing `w` is the one at `i` when none before it does. */
  lemma FirstContainingIs(lines: seq<string>, w: string, i: nat)
    requires i < |lines| && Contains(lines[i], w)
    requires forall k | 0 <= k < i :: !Contains(lines[k], w)
    ensures FirstContaining(lines, w) == Some(i)
  {
  }

  /**
   * Lines that merely mention the marker words count as a block: re-stamping `x` and
   * such a block replaces it and glues `x` to the new block's first line.
   */
  lemma SplicedGlues(sec: string)
    ensures Spliced("x\n" + Terminated([START_WORDS, END_WORDS]), sec) == "x" + sec
  {
    GlueInputs();
    SplicedReplaces("x\n", [START_WORDS, END_WORDS], sec);
  }

  lemma GlueInputs()
    ensures Lines("x\n") == ["x"] && Join(["x"], "\n") == "x"
    ensures !Contains("x", START_WORDS) && !Contains("x", END_WORDS)
    ensures PlainLine(START_WORDS) && PlainLine(END_WORDS)
    ensures Contains(START_WORDS, START_WORDS) && Contains(END_WORDS, END_WORDS)
    ensures !Contains(START_WORDS, END_WORDS)
  {
    assert OccursAt(START_WORDS, START_WORDS, 0);
    assert OccursAt(END_WORDS, END_WORDS, 0);
    assert !OccursAt(START_WORDS, END_WORDS, 0) by { assert START_WORDS[10] != END_WORDS[10]; }
    LinesOne("x");
    assert "x" + "\n" == "x\n";
  }

  /** The quoted-field pattern captures exactly the value written between the quotes. */
  lemma QuotedFieldOf(prefix: string, v: string)
    requires |v| > 0
    ensures QuotedField(prefix + v + "'", prefix) == Some(v)
  {
    var line := prefix + v + "'";
    assert line[..|prefix|] == prefix;
    var r := line[|prefix|..];
    assert r == v + "'";
    assert LastQuote(r, |r|) == Some(|v|);
  }

  lemma RelativeFieldOf(b: bool)
    ensures RelativeField(RELATIVE_PREFIX + BoolText(b)) == Some(b)
  {
    var line := RELATIVE_PREFIX + BoolText(b);
    assert line[..|RELATIVE_PREFIX|] == RELATIVE_PREFIX;
    var r := line[|RELATIVE_PREFIX|..];
    assert r == BoolText(b);
    if !b {
      assert r[0] == 'f';
      assert !StartsWith(r, "true");
      assert r[..5] == "false";
    } else {
      assert r[..4] == "true";
    }
  }

  lemma VersionFieldOf(n: nat)
    ensures VersionField(VERSION_PREFIX + NatToString(n)) == Some(NatToString(n))
  {
    NatToStringDigits(n);
    AsciiDigitsDecimal(NatToString(n));
    VersionFieldOfDigits(NatToString(n));
  }

  /** A version line captures all of its digits, whichever script they are written in. */
  lemma VersionFieldOfDigits(d: string)
    requires |d| > 0 && AllDecimalDigits(d)
    ensures VersionField(VERSION_PREFIX + d) == Some(d)
  {
    var line := VERSION_PREFIX + d;
    assert line[..|VERSION_PREFIX|] == VERSION_PREFIX;
    assert line[|VERSION_PREFIX|..] == d;
    LeadingDecimalDigitsOfDigits(d);
  }

  /** A line starting with `p` does not start with a `q` that differs from `p` at `i`. */
  lemma NotStartsAt(line: string, p: string, q: string, i: nat)
    requires StartsWith(line, p) && i < |p| && i < |q| && p[i] != q[i]
    ensures !StartsWith(line, q)
  {
    assert line[..|p|][i] == line[i];
    if |line| >= |q| {
      assert line[..|q|][i] == line[i];
    }
  }

  /** Lines that do not begin with "# " match no field pattern. */
  lemma OtherByHead(line: string)
    requires |line| >= 2 && (line[0] != '#' || line[1] != ' ')
    ensures Classify(line) == OtherLine
  {
    var h := line[..2];
    assert SENTINEL_PREFIX[..2] == "# " && SOURCE_PREFIX[..2] == "# ";
    assert RELATIVE_PREFIX[..2] == "# " && VERSION_PREFIX[..2] == "# ";
    assert h != "# " by {
      assert h[0] == line[0] && h[1] == line[1];
    }
  }

  lemma StartMarkerOther()
    ensures Classify(START_MARKER) == OtherLine
  {
    assert START_MARKER[1] == START_LEFT[1];
    OtherByHead(START_MARKER);
  }

  lemma EndMarkerOther()
    ensures Classify(END_MARKER) == OtherLine
  {
    assert END_MARKER[1] == END_LEFT[1];
    OtherByHead(END_MARKER);
  }

  lemma SopsOther(sopsPath: string)
    ensures Classify(SOPS_PREFIX + sopsPath) == OtherLine
  {
    var line := SOPS_PREFIX + sopsPath;
    assert line[0] == 'e' && |line| >= 2;
    OtherByHead(line);
  }

  lemma DotenvOther()
    ensures Classify(DOTENV_LINE) == OtherLine
  {
    OtherByHead(DOTENV_LINE);
  }

  lemma TimestampOther(timestamp: string)
    ensures Classify(TIMESTAMP_PREFIX + timestamp + "'") == OtherLine
  {
    var line := TIMESTAMP_PREFIX + timestamp + "'";
    assert line[..|TIMESTAMP_PREFIX|] == TIMESTAMP_PREFIX;
    NotStartsAt(line, TIMESTAMP_PREFIX, SENTINEL_PREFIX, 8);
    NotStartsAt(line, TIMESTAMP_PREFIX, SOURCE_PREFIX, 8);
    NotStartsAt(line, TIMESTAMP_PREFIX, RELATIVE_PREFIX, 2);
    NotStartsAt(line, TIMESTAMP_PREFIX, VERSION_PREFIX, 2);
  }

  lemma RelativeLineOf(b: bool)
    ensures Classify(RELATIVE_PREFIX + BoolText(b)) == RelativeLine(b)
  {
    var line := RELATIVE_PREFIX + BoolText(b);
    assert line[..|RELATIVE_PREFIX|] == RELATIVE_PREFIX;
    NotStartsAt(line, RELATIVE_PREFIX, SENTINEL_PREFIX, 2);
    RelativeFieldOf(b);
  }

  lemma VersionLineOf(n: nat)
    ensures Classify(VERSION_PREFIX + NatToString(n)) == VersionLine(NatToString(n))
  {
    NatToStringDigits(n);
    AsciiDigitsDecimal(NatToString(n));
    VersionLineOfDigits(NatToString(n));
  }

  /** A version line, with ASCII or other decimal digits, is classified as one. */
  lemma VersionLineOfDigits(d: string)
    requires |d| > 0 && AllDecimalDigits(d)
    ensures Classify(VERSION_PREFIX + d) == VersionLine(d)
  {
    var line := VERSION_PREFIX + d;
    assert line[..|VERSION_PREFIX|] == VERSION_PREFIX;
    NotStartsAt(line, VERSION_PREFIX, SENTINEL_PREFIX, 2);
    NotStartsAt(line, VERSION_PREFIX, RELATIVE_PREFIX, 9);
    VersionFieldOfDigits(d);
  }

  lemma SentinelLineOf(v: string)
    requires |v| > 0
    ensures Classify(SENTINEL_PREFIX + v + "'") == SentinelLine(v)
  {
    QuotedFieldOf(SENTINEL_PREFIX, v);
  }

  lemma SourceLineOf(v: string)
    requires |v| > 0
    ensures Classify(SOURCE_PREFIX + v + "'") == SourceLine(v)
  {
    var line := SOURCE_PREFIX + v + "'";
    assert line[..|SOURCE_PREFIX|] == SOURCE_PREFIX;
    NotStartsAt(line, SOURCE_PREFIX, SENTINEL_PREFIX, 9);
    NotStartsAt(line, SOURCE_PREFIX, RELATIVE_PREFIX, 2);
    NotStartsAt(line, SOURCE_PREFIX, VERSION_PREFIX, 2);
    QuotedFieldOf(SOURCE_PREFIX, v);
  }
}

=== FILE: sops.dfy ===
/**
 * Which files the SOPS commands work on: a recursive walk of a directory filtered by
 * file extension or file name, the removal of the matched plaintext files, and the
 * names the encrypted and decrypted copies get. The encryption itself is done by an
 * external program and is not part of this model.
 */
module Sops {
  import opened Text
  import opened Order
  import opened Paths
  import opened Errors
  import opened Fs
  import Gitignore

  /** What `encrypt_files` appends to a file's name. */
  const ENC_SUFFIX := ".enc"
  /** The key used when the configuration names none. */
  const DEFAULT_GPG_KEY := "60A4127E82E218297532FAB6D750B66AE08F3B90"

  /** `[sops]` settings: what to encrypt and what to decrypt. */
  datatype SopsConfig = SopsConfig(
    extensionsEnc: seq<string>,
    namesEnc: seq<string>,
    extensionsDec: seq<string>,
    namesDec: seq<string>,
    gpgKey: string)

  /** The configuration and the directory of the configuration file. */
  datatype SopsManager = SopsManager(config: SopsConfig, basePath: Path)

  // ---------------------------------------------------------------------------------
  // Path::extension and Path::file_stem on one file name
  // ---------------------------------------------------------------------------------

  /** The position of the last `.` in `name`, if any. */
  function LastDot(name: string): (k: Option<nat>)
    ensures k.None? ==> '.' !in name
    ensures k.Some? ==> k.value < |name| && name[k.value] == '.'
                        && forall j | k.value < j < |name| :: name[j] != '.'
  {
    if name == [] then None
    else if name[|name| - 1] == '.' then Some(|name| - 1)
    else
      var k := LastDot(name[..|name| - 1]);
      assert forall j | 0 <= j < |name| - 1 :: name[..|name| - 1][j] == name[j];
      k
  }

  /**
   * `Path::extension` of a file name: what follows the last `.`, unless that dot is
   * the first character (a hidden file such as `.envrc` has none) or the name is `..`.
   */
  function Extension(name: string): Option<string> {
    if name == ".." then None
    else match LastDot(name)
      case None => None
      case Some(k) => if k == 0 then None else Some(name[k + 1..])
  }

  /** `Path::file_stem`: the name without its extension. */
  function Stem(name: string): string {
    if name == ".." then name
    else match LastDot(name)
      case None => name
      case Some(k) => if k == 0 then name else name[..k]
  }

  /** A name is its stem, then, when it has an extension, a dot and the extension. */
  lemma StemExtension(name: string)
    ensures Extension(name).None? ==> Stem(name) == name
    ensures Extension(name).Some? ==> name == Stem(name) + "." + Extension(name).value
                                      && '.' !in Extension(name).value && Stem(name) != ""
  {
    var k := LastDot(name);
    if name != ".." && k.Some? && k.value != 0 {
      var i := k.value;
      var ext := name[i + 1..];
      assert name == name[..i] + "." + ext;
      assert forall j | 0 <= j < |ext| :: ext[j] == name[i + 1 + j];
    }
  }

  /** The last dot of `stem + "." + ext` is the one between them when `ext` has none. */
  lemma {:induction false} LastDotAppended(stem: string, ext: string)
    requires '.' !in ext
    ensures LastDot(stem + "." + ext) == Some(|stem|)
    decreases |ext|
  {
    var name := stem + "." + ext;
    if ext != [] {
      var shorter := ext[..|ext| - 1];
      assert name[|name| - 1] == ext[|ext| - 1];
      assert name[..|name| - 1] == stem + "." + shorter;
      assert forall c | c in shorter :: c in ext;
      LastDotAppended(stem, shorter);
    }
  }

  // ---------------------------------------------------------------------------------
  // collect_files
  // ---------------------------------------------------------------------------------

  /** The filter of `collect_files`: the extension is listed, or the whole name is. */
  predicate Selected(name: string, extensions: seq<string>, filenames: seq<string>) {
    (Extension(name).Some? && Extension(name).value in extensions) || name in filenames
  }

  /**
   * A recursive walk from `base`: `base` itself and every entry below it, links
   * reported as entries and not followed, in lexicographic order.
   */
  function Walk(fs: FileSystem, base: Path): (r: seq<Path>)
    ensures SortedPaths(r)
    ensures forall p :: p in r <==> p in fs && IsPrefix(base, p)
  {
    SortedSeq(set p | p in fs && IsPrefix(base, p))
  }

  /** The entries of `ps` whose file name is selected, in their order. */
  function Filter(ps: seq<Path>, extensions: seq<string>, filenames: seq<string>): (r: seq<Path>)
    ensures forall p :: p in r <==> p in ps && p != [] && Selected(FileName(p), extensions, filenames)
    ensures SortedPaths(ps) ==> SortedPaths(r)
  {
    if ps == [] then []
    else
      var rest := Filter(ps[1..], extensions, filenames);
      if ps[0] != [] && Selected(FileName(ps[0]), extensions, filenames) then
        assert SortedPaths(ps) ==> SortedPaths([ps[0]] + rest) by {
          if SortedPaths(ps) {
            forall q | q in rest
              ensures SeqLeq(ps[0], q) && ps[0] != q
            {
              var k :| 0 <= k < |ps[1..]| && ps[1..][k] == q;
              assert ps[k + 1] == q;
            }
          }
        }
        [ps[0]] + rest
      else rest
  }

  /**
   * `collect_files`: the entries under `base`, `base` included, whose name is selected.
   * Walk errors are dropped, so the result is never an error.
   */
  function Collect(fs: FileSystem, base: Path, extensions: seq<string>, filenames: seq<string>): (r: seq<Path>)
    ensures SortedPaths(r)
    ensures forall p :: p in r <==> p in fs && IsPrefix(base, p) && p != [] && Selected(FileName(p), extensions, filenames)
    ensures forall i | 0 <= i < |r| :: r[i] != []
  {
    var r := Filter(Walk(fs, base), extensions, filenames);
    assert forall i | 0 <= i < |r| :: r[i] in r;
    r
  }

  lemma {:induction false} FilterNothing(ps: seq<Path>)
    ensures Filter(ps, [], []) == []
    decreases |ps|
  {
    if ps != [] {
      FilterNothing(ps[1..]);
    }
  }

  /** With no extensions and no names nothing is collected. */
  lemma CollectNothing(fs: FileSystem, base: Path)
    ensures Collect(fs, base, [], []) == []
  {
    FilterNothing(Walk(fs, base));
  }

  /** `Path::extension` of names from the tests: a hidden file or a name without a dot has none. */
  lemma HiddenExtensionExamples()
    ensures Extension(".envrc") == None && Extension(".ENVRC") == None && Extension("envrc") == None
  {
    LastDotAppended("", "envrc");
    assert ".envrc" == "" + "." + "envrc";
    LastDotAppended("", "ENVRC");
    assert ".ENVRC" == "" + "." + "ENVRC";
    assert LastDot("envrc").None? by {
      assert forall j | 0 <= j < 5 :: "envrc"[j] != '.';
    }
  }

  /** Only the last extension counts, and it is compared as written. */
  lemma LastExtensionExamples()
    ensures Extension("test4.env.bak") == Some("bak") && Extension(".envrc.bak") == Some("bak")
    ensures Extension("test1.env") == Some("env") && Extension("test.ENV") == Some("ENV")
  {
    BakExtensions();
    EnvExtensions();
  }

  lemma BakExtensions()
    ensures Extension("test4.env.bak") == Some("bak") && Extension(".envrc.bak") == Some("bak")
  {
    LastDotAppended("test4.env", "bak");
    assert "test4.env.bak" == "test4.env" + "." + "bak";
    LastDotAppended(".envrc", "bak");
    assert ".envrc.bak" == ".envrc" + "." + "bak";
  }

  lemma EnvExtensions()
    ensures Extension("test1.env") == Some("env") && Extension("test.ENV") == Some("ENV")
  {
    LastDotAppended("test1", "env");
    assert "test1.env" == "test1" + "." + "env";
    LastDotAppended("test", "ENV");
    assert "test.ENV" == "test" + "." + "ENV";
  }

  /** Matching is exact and case-sensitive, on the extension or on the whole name. */
  lemma SelectionExamples()
    ensures Selected("test1.env", ["env", "yaml"], []) && !Selected("test4.env.bak", ["env", "yaml"], [])
    ensures Selected(".envrc", [], [".envrc", "config"]) && !Selected(".envrc.bak", [], [".envrc", "config"])
    ensures !Selected("envrc", [], [".envrc", "config"])
    ensures !Selected("test.ENV", ["env"], [".envrc"]) && !Selected(".ENVRC", ["env"], [".envrc"])
  {
    SelectedByExtension();
    SelectedByName();
    SelectedCase();
  }

  lemma SelectedByExtension()
    ensures Selected("test1.env", ["env", "yaml"], []) && !Selected("test4.env.bak", ["env", "yaml"], [])
  {
    EnvExtensions();
    BakExtensions();
  }

  lemma SelectedByName()
    ensures Selected(".envrc", [], [".envrc", "config"]) && !Selected(".envrc.bak", [], [".envrc", "config"])
    ensures !Selected("envrc", [], [".envrc", "config"])
  {
    HiddenExtensionExamples();
    BakExtensions();
  }

  lemma SelectedCase()
    ensures !Selected("test.ENV", ["env"], [".envrc"]) && !Selected(".ENVRC", ["env"], [".envrc"])
  {
    HiddenExtensionExamples();
    EnvExtensions();
  }

  // ---------------------------------------------------------------------------------
  // clean_files
  // ---------------------------------------------------------------------------------

  /**
   * The loop of `clean_files`: each entry that exists, following links, is removed;
   * the first failure ends the loop.
   */
  function RemoveAll(fs: FileSystem, ps: seq<Path>): (r: Result<FileSystem>)
    ensures r.Ok? ==> r.value.Keys <= fs.Keys && forall q | q in r.value :: r.value[q] == fs[q]
    decreases |ps|
  {
    if ps == [] then Ok(fs)
    else if Exists(fs, ps[0]) then
      var fs1 :- IoContext(RemoveFile(fs, ps[0]), "remove file: " + DebugPath(Buf(ps[0])));
      RemoveAll(fs1, ps[1..])
    else RemoveAll(fs, ps[1..])
  }

  /** The directory the commands work in: the one given, or the configuration's. */
  function BaseDir(m: SopsManager, baseDir: Option<Path>): Path {
    if baseDir.Some? then baseDir.value else m.basePath
  }

  /**
   * `clean_files`: removes the plaintext files the encryption lists select. It fails
   * exactly when a selected entry under the base is a directory; otherwise every
   * selected regular file is removed, a selected entry that remains is a link leading
   * nowhere, and every other entry is kept as it was.
   */
  function CleanFiles(fs: FileSystem, m: SopsManager, baseDir: Option<Path>): (r: Result<FileSystem>)
    ensures var base := BaseDir(m, baseDir);
            var sel := (p: Path) => p in fs && IsPrefix(base, p) && p != [] && Selected(FileName(p), m.config.extensionsEnc, m.config.namesEnc);
            && (r.Err? <==> exists q | q in fs && sel(q) :: fs[q].Dir?)
            && (r.Ok? ==> forall q | q in fs && sel(q) && fs[q].File? :: q !in r.value)
            && (r.Ok? ==> forall q | q in r.value && sel(q) :: fs[q].Symlink? && !Exists(r.value, q))
            && (r.Ok? ==> forall q | q in fs && !sel(q) :: q in r.value && r.value[q] == fs[q])
            && (r.Ok? ==> r.value.Keys <= fs.Keys)
  {
    var ps := Collect(fs, BaseDir(m, baseDir), m.config.extensionsEnc, m.config.namesEnc);
    RemoveAllFails(fs, ps);
    if RemoveAll(fs, ps).Ok? then
      RemoveAllFrame(fs, ps);
      RemoveAllRemoves(fs, ps);
      RemoveAll(fs, ps)
    else RemoveAll(fs, ps)
  }

  /** A removal never lets a path resolve that did not resolve before, nor changes where it leads. */
  lemma {:induction false} FollowRemoved(fs: FileSystem, x: Path, p: Path, fuel: nat)
    ensures Follow(fs - {x}, p, fuel).Some? ==> Follow(fs, p, fuel) == Follow(fs - {x}, p, fuel)
    decreases fuel
  {
    if p != [] && p in fs - {x} && fs[p].Symlink? && fuel > 0 {
      FollowRemoved(fs, x, Resolve(Parent(p), fs[p].target), fuel - 1);
    }
  }

  /** Entries outside the list are kept as they were. */
  lemma {:induction false} RemoveAllFrame(fs: FileSystem, ps: seq<Path>)
    requires RemoveAll(fs, ps).Ok?
    ensures forall q | q in fs && q !in ps :: q in RemoveAll(fs, ps).value && RemoveAll(fs, ps).value[q] == fs[q]
    decreases |ps|
  {
    if ps != [] {
      if Exists(fs, ps[0]) {
        RemoveAllFrame(fs - {ps[0]}, ps[1..]);
      } else {
        RemoveAllFrame(fs, ps[1..]);
      }
    }
  }

  /**
   * The listed regular files are all gone, and a listed entry that is still there is a
   * link that leads nowhere.
   */
  lemma {:induction false} RemoveAllRemoves(fs: FileSystem, ps: seq<Path>)
    requires RemoveAll(fs, ps).Ok?
    ensures forall q | q in ps && q in fs && fs[q].File? :: q !in RemoveAll(fs, ps).value
    ensures forall q | q in ps && q in RemoveAll(fs, ps).value ::
              fs[q].Symlink? && !Exists(RemoveAll(fs, ps).value, q)
    decreases |ps|
  {
    if ps != [] {
      var p := ps[0];
      var r := RemoveAll(fs, ps).value;
      if Exists(fs, p) {
        var fs1 := fs - {p};
        RemoveAllRemoves(fs1, ps[1..]);
        assert r == RemoveAll(fs1, ps[1..]).value;
        forall q | q in ps && q in r
          ensures fs[q].Symlink? && !Exists(r, q)
        {
          assert q != p;
          assert q in ps[1..];
        }
      } else {
        RemoveAllRemoves(fs, ps[1..]);
        assert r == RemoveAll(fs, ps[1..]).value;
        assert p in fs ==> fs[p].Symlink?;
        if p in r {
          KeptDangling(fs, r, p);
        }
      }
    }
  }

  /** A path that does not resolve still does not once entries are removed. */
  lemma KeptDangling(fs: FileSystem, r: FileSystem, p: Path)
    requires r.Keys <= fs.Keys && forall q | q in r :: r[q] == fs[q]
    requires !Exists(fs, p)
    ensures !Exists(r, p)
  {
    assert r == fs - (fs.Keys - r.Keys);
    SubmapFollow(fs, r, p, MaxFollow);
  }

  lemma {:induction false} SubmapFollow(fs: FileSystem, r: FileSystem, p: Path, fuel: nat)
    requires r.Keys <= fs.Keys && forall q | q in r :: r[q] == fs[q]
    ensures Follow(r, p, fuel).Some? ==> Follow(fs, p, fuel) == Follow(r, p, fuel)
    decreases fuel
  {
    if p != [] && p in r && r[p].Symlink? && fuel > 0 {
      SubmapFollow(fs, r, Resolve(Parent(p), r[p].target), fuel - 1);
    }
  }

  /** A directory in the list, or the root, stops the loop with "Is a directory"; nothing else fails. */
  lemma RemoveAllFails(fs: FileSystem, ps: seq<Path>)
    ensures RemoveAll(fs, ps).Err? <==> exists q | q in ps :: q == [] || (q in fs && fs[q].Dir?)
    ensures RemoveAll(fs, ps).Err? ==>
              exists q | q in ps :: RemoveAll(fs, ps).error == Internal("remove file: " + DebugPath(Buf(q)), Io(IsADirectory))
  {
    RemoveAllFailsWhen(fs, ps);
    RemoveAllFailure(fs, ps);
  }

  lemma {:induction false} RemoveAllFailsWhen(fs: FileSystem, ps: seq<Path>)
    ensures RemoveAll(fs, ps).Err? <==> exists q | q in ps :: q == [] || (q in fs && fs[q].Dir?)
    decreases |ps|
  {
    if ps != [] {
      var p := ps[0];
      var bad := p == [] || (p in fs && fs[p].Dir?);
      if bad {
        assert Exists(fs, p);
        assert p in ps;
      } else if Exists(fs, p) {
        var fs1 := fs - {p};
        RemoveAllFailsWhen(fs1, ps[1..]);
        TailMembers(ps);
        assert forall q | q != p :: (q in fs1 && fs1[q].Dir?) <==> (q in fs && fs[q].Dir?);
      } else {
        RemoveAllFailsWhen(fs, ps[1..]);
        TailMembers(ps);
      }
    }
  }

  lemma {:induction false} RemoveAllFailure(fs: FileSystem, ps: seq<Path>)
    ensures RemoveAll(fs, ps).Err? ==>
              exists q | q in ps :: RemoveAll(fs, ps).error == Internal("remove file: " + DebugPath(Buf(q)), Io(IsADirectory))
    decreases |ps|
  {
    if ps != [] {
      var p := ps[0];
      if p == [] || (p in fs && fs[p].Dir?) {
        assert Exists(fs, p);
        assert p in ps;
      } else if Exists(fs, p) {
        RemoveAllFailure(fs - {p}, ps[1..]);
        TailMembers(ps);
      } else {
        RemoveAllFailure(fs, ps[1..]);
        TailMembers(ps);
      }
    }
  }

  /** The members of a non-empty list are its head and the members of its tail. */
  lemma TailMembers(ps: seq<Path>)
    requires ps != []
    ensures forall q | q in ps[1..] :: q in ps
    ensures forall q | q in ps :: q == ps[0] || q in ps[1..]
  {
  }

  /** With nothing selected, `clean_files` succeeds and changes nothing. */
  lemma CleanNothing(fs: FileSystem, m: SopsManager, baseDir: Option<Path>)
    requires m.config.extensionsEnc == [] && m.config.namesEnc == []
    ensures CleanFiles(fs, m, baseDir) == Ok(fs)
  {
    CollectNothing(fs, BaseDir(m, baseDir));
  }

  // ---------------------------------------------------------------------------------
  // Output names
  // ---------------------------------------------------------------------------------

  /**
   * `format!("{}.enc", path.display())`: the output stays in the same directory, and
   * for a normal name its extension is `enc` and its stem is the original name.
   */
  function EncryptedName(p: Path): (r: Path)
    requires p != []
    ensures r != [] && Parent(r) == Parent(p)
    ensures NormalPart(FileName(p)) ==> Extension(FileName(r)) == Some("enc") && Stem(FileName(r)) == FileName(p)
  {
    if NormalPart(FileName(p)) then
      SuffixedName(FileName(p));
      Parent(p) + [FileName(p) + ENC_SUFFIX]
    else Parent(p) + [FileName(p) + ENC_SUFFIX]
  }

  /** A normal name with `.enc` appended has the extension `enc` and the name as stem. */
  lemma SuffixedName(name: string)
    requires NormalPart(name)
    ensures Extension(name + ENC_SUFFIX) == Some("enc") && Stem(name + ENC_SUFFIX) == name
  {
    var e := name + ENC_SUFFIX;
    assert e == name + "." + "enc";
    assert '.' !in "enc";
    LastDotAppended(name, "enc");
    assert e != ".." by {
      assert |e| >= 5;
    }
    assert e[|name| + 1..] == "enc";
    assert e[..|name|] == name;
  }

  /**
   * `path.with_extension("")`: the output stays in the same directory; a name without
   * an extension, such as `.envrc`, is kept, and otherwise the name is the output's
   * name, a dot and the extension.
   */
  function DecryptedName(p: Path): (r: Path)
    requires p != []
    ensures r != [] && Parent(r) == Parent(p)
    ensures Extension(FileName(p)).None? ==> r == p
    ensures Extension(FileName(p)).Some? ==>
              FileName(p) == FileName(r) + "." + Extension(FileName(p)).value
  {
    StemExtension(FileName(p));
    assert p == Parent(p) + [FileName(p)];
    Parent(p) + [Stem(FileName(p))]
  }

  /**
   * Decrypting the name of an encrypted file gives back the original name, and an
   * encrypted name is selected by the extension `enc`.
   */
  lemma NamesRoundTrip(p: Path)
    requires p != [] && NormalPart(FileName(p))
    ensures DecryptedName(EncryptedName(p)) == p
    ensures Extension(FileName(EncryptedName(p))) == Some("enc")
  {
    var e := EncryptedName(p);
    var d := DecryptedName(e);
    assert FileName(e) == FileName(p) + "." + "enc";
    assert FileName(d) == FileName(p);
    assert p == Parent(p) + [FileName(p)];
  }

  // ---------------------------------------------------------------------------------
  // encrypt_files / decrypt_files: what they hand to the external program
  // ---------------------------------------------------------------------------------

  /** A file to give to `sops`, and where its output goes. */
  datatype Job = Job(source: Path, output: Path)

  function EncryptJobs(ps: seq<Path>): (r: seq<Job>)
    requires forall i | 0 <= i < |ps| :: ps[i] != []
    ensures |r| == |ps| && forall i | 0 <= i < |r| :: r[i] == Job(ps[i], EncryptedName(ps[i]))
  {
    if ps == [] then [] else [Job(ps[0], EncryptedName(ps[0]))] + EncryptJobs(ps[1..])
  }

  function DecryptJobs(ps: seq<Path>): (r: seq<Job>)
    requires forall i | 0 <= i < |ps| :: ps[i] != []
    ensures |r| == |ps| && forall i | 0 <= i < |r| :: r[i] == Job(ps[i], DecryptedName(ps[i]))
  {
    if ps == [] then [] else [Job(ps[0], DecryptedName(ps[0]))] + DecryptJobs(ps[1..])
  }

  /**
   * `encrypt_files` up to the external program: on the configuration's own directory
   * the `.gitignore` block is rewritten first; then every selected file is paired with
   * its `.enc` name.
   */
  function EncryptFiles(fs: FileSystem, m: SopsManager, baseDir: Option<Path>, timestamp: string)
    : (r: Result<(FileSystem, seq<Job>)>)
    ensures baseDir.Some? ==> r.Ok? && r.value.0 == fs
    ensures baseDir.None? ==>
              var g := Gitignore.UpdateEntries(fs, m.basePath, m.config.extensionsEnc, m.config.namesEnc, timestamp);
              (r.Ok? <==> g.Ok?) && (r.Ok? ==> r.value.0 == g.value)
    ensures r.Ok? ==> forall j | j in r.value.1 ::
              j.source in Collect(r.value.0, BaseDir(m, baseDir), m.config.extensionsEnc, m.config.namesEnc)
              && j.output == EncryptedName(j.source)
    ensures r.Ok? ==>
              var files := Collect(r.value.0, BaseDir(m, baseDir), m.config.extensionsEnc, m.config.namesEnc);
              |r.value.1| == |files| && forall i | 0 <= i < |files| :: r.value.1[i].source == files[i]
  {
    var fs1 :- if baseDir.None? then
                 Gitignore.UpdateEntries(fs, m.basePath, m.config.extensionsEnc, m.config.namesEnc, timestamp)
               else Ok(fs);
    var files := Collect(fs1, BaseDir(m, baseDir), m.config.extensionsEnc, m.config.namesEnc);
    Ok((fs1, EncryptJobs(files)))
  }

  /** `decrypt_files` up to the external program: every selected file paired with its name less the extension. */
  function DecryptFiles(fs: FileSystem, m: SopsManager, baseDir: Option<Path>): (r: seq<Job>)
    ensures forall j | j in r ::
              j.source in Collect(fs, BaseDir(m, baseDir), m.config.extensionsDec, m.config.namesDec)
              && j.output == DecryptedName(j.source)
    ensures var files := Collect(fs, BaseDir(m, baseDir), m.config.extensionsDec, m.config.namesDec);
            |r| == |files| && forall i | 0 <= i < |files| :: r[i].source == files[i]
  {
    DecryptJobs(Collect(fs, BaseDir(m, baseDir), m.config.extensionsDec, m.config.namesDec))
  }

  /**
   * Decrypting with the extension `enc` selected finds each encrypted output and sends
   * it back to the name it was encrypted from.
   */
  lemma EncryptThenDecryptNames(fs: FileSystem, m: SopsManager, baseDir: Option<Path>, p: Path)
    requires "enc" in m.config.extensionsDec
    requires p != [] && NormalPart(FileName(p)) && IsPrefix(BaseDir(m, baseDir), Parent(p))
    requires EncryptedName(p) in fs
    ensures Job(EncryptedName(p), p) in DecryptFiles(fs, m, baseDir)
  {
    var e := EncryptedName(p);
    NamesRoundTrip(p);
    var base := BaseDir(m, baseDir);
    assert IsPrefix(base, e) by {
      assert e[..|base|] == Parent(p)[..|base|];
    }
    var ps := Collect(fs, base, m.config.extensionsDec, m.config.namesDec);
    assert e in ps;
    var i :| 0 <= i < |ps| && ps[i] == e;
    assert DecryptFiles(fs, m, baseDir)[i] == Job(e, p);
  }
}

=== FILE: text.dfy ===
/**
 * String helpers with the semantics of the Rust standard-library calls the tool relies on:
 * `str::contains`, `str::replace`, `str::lines`, `str::split`, `[T]::join`, integer
 * formatting and parsing. Strings are sequences of Unicode scalar values.
 */
module Text {

  datatype Option<+T> = None | Some(value: T)

  predicate StartsWith(s: string, p: string) {
    |p| <= |s| && s[..|p|] == p
  }

  predicate EndsWith(s: string, p: string) {
    |p| <= |s| && s[|s| - |p|..] == p
  }

  /** `p` occurs in `s` starting at index `i`. */
  predicate OccursAt(s: string, p: string, i: int) {
    0 <= i && i + |p| <= |s| && s[i..i + |p|] == p
  }

  /** Rust `str::contains` with a string pattern. */
  predicate Contains(s: string, p: string) {
    exists i | 0 <= i <= |s| - |p| :: OccursAt(s, p, i)
  }

  lemma ContainsWitness(s: string, p: string, i: int)
    requires OccursAt(s, p, i)
    ensures Contains(s, p)
  {
  }

  /** The middle of a concatenation occurs in it. */
  lemma InfixOccurs(a: string, p: string, b: string)
    ensures Contains(a + p + b, p)
  {
    assert (a + p + b)[|a|..|a| + |p|] == p;
    ContainsWitness(a + p + b, p, |a|);
  }

  lemma ContainsAppendRight(x: string, y: string, p: string)
    requires Contains(x, p)
    ensures Contains(x + y, p)
  {
    var i :| 0 <= i <= |x| - |p| && OccursAt(x, p, i);
    assert (x + y)[i..i + |p|] == x[i..i + |p|];
    ContainsWitness(x + y, p, i);
  }

  lemma ContainsAppendLeft(x: string, y: string, p: string)
    requires Contains(y, p)
    ensures Contains(x + y, p)
  {
    var i :| 0 <= i <= |y| - |p| && OccursAt(y, p, i);
    assert (x + y)[|x| + i..|x| + i + |p|] == y[i..i + |p|];
    ContainsWitness(x + y, p, |x| + i);
  }

  /** An occurrence inside a part is an occurrence inside the whole. */
  lemma ContainsInfix(a: string, p: string, b: string, s: string)
    requires Contains(p, s)
    ensures Contains(a + p + b, s)
  {
    var i :| 0 <= i <= |p| - |s| && OccursAt(p, s, i);
    assert (a + p + b)[|a| + i..|a| + i + |s|] == p[i..i + |s|];
    ContainsWitness(a + p + b, s, |a| + i);
  }

  /** Index of the first `c` in `s`, or `|s|` when there is none. */
  function IndexOfChar(s: string, c: char): (k: nat)
    ensures k <= |s|
    ensures k < |s| ==> s[k] == c
    ensures forall j | 0 <= j < k :: s[j] != c
  {
    if s == [] then 0
    else if s[0] == c then 0
    else 1 + IndexOfChar(s[1..], c)
  }

  /**
   * Rust `str::replace`: every non-overlapping occurrence of `pat`, found left to
   * right, is replaced by `rep`.
   */
  function ReplaceAll(s: string, pat: string, rep: string): string
    requires |pat| > 0
    decreases |s|
  {
    if |s| < |pat| then s
    else if s[..|pat|] == pat then rep + ReplaceAll(s[|pat|..], pat, rep)
    else [s[0]] + ReplaceAll(s[1..], pat, rep)
  }

  /** A pattern starting with a character absent from `s` is never replaced. */
  lemma {:induction false} ReplaceAbsent(s: string, pat: string, rep: string)
    requires |pat| > 0 && pat[0] !in s
    ensures ReplaceAll(s, pat, rep) == s
    decreases |s|
  {
    if |s| >= |pat| {
      assert s[..|pat|][0] == s[0];
      ReplaceAbsent(s[1..], pat, rep);
      assert [s[0]] + s[1..] == s;
    }
  }

  /**
   * Replacing `h` by a marker that starts with a character found nowhere in `s` or `h`,
   * and then the marker by `h`, gives back `s`.
   */
  lemma {:induction false} ReplaceRoundTrip(s: string, h: string, mark: string)
    requires |h| > 0 && |mark| > 0
    requires mark[0] !in s && mark[0] !in h
    ensures ReplaceAll(ReplaceAll(s, h, mark), mark, h) == s
    decreases |s|
  {
    if |s| < |h| {
      ReplaceAbsent(s, mark, h);
    } else if s[..|h|] == h {
      var rest := ReplaceAll(s[|h|..], h, mark);
      ReplaceRoundTrip(s[|h|..], h, mark);
      assert (mark + rest)[..|mark|] == mark;
      assert (mark + rest)[|mark|..] == rest;
      assert h + s[|h|..] == s;
    } else {
      var rest := ReplaceAll(s[1..], h, mark);
      ReplaceRoundTrip(s[1..], h, mark);
      var t := [s[0]] + rest;
      assert t[0] == s[0];
      if |t| >= |mark| {
        assert t[..|mark|][0] == s[0];
        assert t[1..] == rest;
      } else {
        // too short to hold the marker: the outer replacement is the identity
        ReplaceAbsentShort(rest, mark, h);
      }
      assert [s[0]] + s[1..] == s;
    }
  }

  /** Text without the pattern comes through a replacement unchanged. */
  lemma {:induction false} ReplaceNotContained(s: string, pat: string, rep: string)
    requires |pat| > 0 && !Contains(s, pat)
    ensures ReplaceAll(s, pat, rep) == s
    decreases |s|
  {
    if |s| >= |pat| {
      if s[..|pat|] == pat {
        ContainsWitness(s, pat, 0);
      }
      if Contains(s[1..], pat) {
        var i :| 0 <= i <= |s[1..]| - |pat| && OccursAt(s[1..], pat, i);
        assert s[i + 1..i + 1 + |pat|] == s[1..][i..i + |pat|];
        ContainsWitness(s, pat, i + 1);
      }
      ReplaceNotContained(s[1..], pat, rep);
      assert [s[0]] + s[1..] == s;
    }
  }

  lemma ReplaceAbsentShort(s: string, pat: string, rep: string)
    requires |pat| > 0 && |s| < |pat|
    ensures ReplaceAll(s, pat, rep) == s
  {
  }

  /** Drops one `\r` at the end of a line. */
  function StripCr(l: string): string {
    if 0 < |l| && l[|l| - 1] == '\r' then l[..|l| - 1] else l
  }

  /**
   * Rust `str::lines`: split at `\n`; a `\r` right before a `\n` is dropped with it;
   * a final `\n` does not start an empty line, and the empty string has no lines.
   */
  function Lines(s: string): seq<string>
    decreases |s|
  {
    if s == [] then []
    else
      var k := IndexOfChar(s, '\n');
      if k == |s| then [s]
      else [StripCr(s[..k])] + Lines(s[k + 1..])
  }

  /** Lines of a text ending in a newline are kept apart from whatever follows. */
  lemma {:induction false} LinesAppend(a: string, b: string)
    requires EndsWith(a, "\n")
    ensures Lines(a + b) == Lines(a) + Lines(b)
    decreases |a|
  {
    var k := IndexOfChar(a, '\n');
    NewlineFound(a);
    NewlineSplit(a, b);
    if k + 1 < |a| {
      var rest := a[k + 1..];
      LinesAppend(rest, b);
      ConsAssoc([StripCr(a[..k])], Lines(rest), Lines(b));
    } else {
      LastLineAppend(a, b);
    }
  }

  /** A sequence is its part before `k`, the element at `k` and its part after. */
  lemma SplitAround(ls: seq<string>, k: nat)
    requires k < |ls|
    ensures ls[..k] + ([ls[k]] + ls[k + 1..]) == ls
  {
  }

  lemma ConsAssoc(h: seq<string>, x: seq<string>, y: seq<string>)
    ensures h + (x + y) == (h + x) + y
  {
  }

  /** A text whose only newline is its last character, followed by more text. */
  lemma LastLineAppend(a: string, b: string)
    requires EndsWith(a, "\n") && IndexOfChar(a, '\n') + 1 == |a|
    ensures Lines(a + b) == Lines(a) + Lines(b)
  {
    var k := IndexOfChar(a, '\n');
    NewlineFound(a);
    NewlineSplit(a, b);
    assert a[k + 1..] + b == b;
    assert Lines(a[k + 1..]) == [];
  }

  /** The first line of a newline-terminated text, alone and with more text after it. */
  lemma NewlineSplit(a: string, b: string)
    requires EndsWith(a, "\n")
    ensures var k := IndexOfChar(a, '\n');
            && k < |a|
            && Lines(a) == [StripCr(a[..k])] + Lines(a[k + 1..])
            && Lines(a + b) == [StripCr(a[..k])] + Lines(a[k + 1..] + b)
  {
    var k := IndexOfChar(a, '\n');
    NewlineFound(a);
    IndexOfCharPrefix(a, b, '\n');
    ConcatSlices(a, b, k);
    LinesConsAt(a, k, a[..k], a[k + 1..]);
    LinesConsAt(a + b, k, a[..k], a[k + 1..] + b);
  }

  lemma LinesConsAt(s: string, k: nat, head: string, tail: string)
    requires k == IndexOfChar(s, '\n') && k < |s| && head == s[..k] && tail == s[k + 1..]
    ensures Lines(s) == [StripCr(head)] + Lines(tail)
  {
    LinesCons(s, k);
  }

  /** A text ending in a newline has a first newline, and what follows it ends in one too. */
  lemma NewlineFound(a: string)
    requires EndsWith(a, "\n")
    ensures var k := IndexOfChar(a, '\n');
            && k < |a|
            && (k + 1 < |a| ==> EndsWith(a[k + 1..], "\n"))
            && (k + 1 == |a| ==> a[k + 1..] == [])
  {
    var k := IndexOfChar(a, '\n');
    assert a[|a| - 1] == '\n';
    if k + 1 < |a| {
      assert a[k + 1..][|a[k + 1..]| - 1] == '\n';
    }
  }

  lemma ConcatSlices(a: string, b: string, k: nat)
    requires k < |a|
    ensures (a + b)[..k] == a[..k] && (a + b)[k + 1..] == a[k + 1..] + b
  {
  }

  /** A text with a newline reads as the line before it followed by the lines after it. */
  lemma LinesCons(s: string, k: nat)
    requires k == IndexOfChar(s, '\n') && k < |s|
    ensures Lines(s) == [StripCr(s[..k])] + Lines(s[k + 1..])
  {
  }

  lemma IndexOfCharPrefix(a: string, b: string, c: char)
    requires IndexOfChar(a, c) < |a|
    ensures IndexOfChar(a + b, c) == IndexOfChar(a, c)
  {
    var k := IndexOfChar(a, c);
    var k' := IndexOfChar(a + b, c);
    assert (a + b)[k] == c;
    if k' < k {
      assert (a + b)[k'] == a[k'];
    }
  }

  /** A line without `\n` that does not end in `\r`, followed by `\n`, is one line. */
  lemma LinesOne(l: string)
    requires '\n' !in l
    requires |l| == 0 || l[|l| - 1] != '\r'
    ensures Lines(l + "\n") == [l]
  {
    var s := l + "\n";
    IndexOfCharAt(s, |l|, '\n');
    assert s[..|l|] == l;
    assert s[|l| + 1..] == [];
    LinesCons(s, |l|);
  }

  /** The first `c` in `s` is at `k` when `s[k]` is one and none comes before. */
  lemma {:induction false} IndexOfCharAt(s: string, k: nat, c: char)
    requires k < |s| && s[k] == c && forall j | 0 <= j < k :: s[j] != c
    ensures IndexOfChar(s, c) == k
    decreases k
  {
    if k > 0 {
      IndexOfCharAt(s[1..], k - 1, c);
    }
  }

  /** Each string followed by a newline, concatenated. */
  function Terminated(ls: seq<string>): string {
    if ls == [] then "" else ls[0] + "\n" + Terminated(ls[1..])
  }

  predicate PlainLine(l: string) {
    '\n' !in l && (|l| == 0 || l[|l| - 1] != '\r')
  }

  /** `Lines` undoes `Terminated` for lines without newlines or trailing carriage returns. */
  lemma {:induction false} LinesTerminated(ls: seq<string>)
    requires forall i | 0 <= i < |ls| :: PlainLine(ls[i])
    ensures Lines(Terminated(ls)) == ls
  {
    if ls != [] {
      var head := ls[0] + "\n";
      assert Terminated(ls) == head + Terminated(ls[1..]);
      LinesOne(ls[0]);
      LinesAppend(head, Terminated(ls[1..]));
      LinesTerminated(ls[1..]);
      assert [ls[0]] + ls[1..] == ls;
    }
  }

  /** `[String]::join`. */
  function Join(xs: seq<string>, sep: string): string {
    if |xs| == 0 then ""
    else if |xs| == 1 then xs[0]
    else xs[0] + sep + Join(xs[1..], sep)
  }

  /** Rust `str::split` on one character: always at least one piece. */
  function Split(s: string, c: char): (r: seq<string>)
    ensures |r| > 0
    decreases |s|
  {
    var k := IndexOfChar(s, c);
    if k == |s| then [s] else [s[..k]] + Split(s[k + 1..], c)
  }

  /** Splitting a join on its separator gives back the pieces when no piece holds it. */
  lemma {:induction false} SplitJoin(xs: seq<string>, c: char)
    requires |xs| > 0
    requires forall i | 0 <= i < |xs| :: c !in xs[i]
    ensures Split(Join(xs, [c]), c) == xs
    decreases |xs|
  {
    if |xs| == 1 {
      SplitNone(xs[0], c);
    } else {
      var rest := Join(xs[1..], [c]);
      assert Join(xs, [c]) == xs[0] + [c] + rest;
      SplitCons(xs[0], rest, c);
      SplitJoin(xs[1..], c);
      assert [xs[0]] + xs[1..] == xs;
    }
  }

  lemma SplitNone(x: string, c: char)
    requires c !in x
    ensures Split(x, c) == [x]
  {
    assert forall j | 0 <= j < |x| :: x[j] in x;
  }

  lemma SplitCons(x: string, rest: string, c: char)
    requires c !in x
    ensures Split(x + [c] + rest, c) == [x] + Split(rest, c)
  {
    var s := x + [c] + rest;
    var k := |x|;
    assert forall j | 0 <= j < k :: s[j] == x[j] && x[j] in x;
    IndexOfCharAt(s, k, c);
    assert s[..k] == x;
    assert s[k + 1..] == rest;
  }

  predicate IsDigit(c: char) {
    '0' <= c <= '9'
  }

  predicate AllDigits(s: string) {
    forall i | 0 <= i < |s| :: IsDigit(s[i])
  }

  function DigitChar(d: nat): char
    requires d < 10
  {
    ('0' as int + d) as char
  }

  /** Decimal value of a digit string. */
  function DigitsValue(s: string): nat
    requires AllDigits(s)
  {
    if |s| == 0 then 0
    else DigitsValue(s[..|s| - 1]) * 10 + (s[|s| - 1] as int - '0' as int)
  }

  /** Appending one more digit shifts the value by one place. */
  lemma DigitsValueSnoc(p: string, c: char)
    requires AllDigits(p) && IsDigit(c)
    ensures AllDigits(p + [c])
    ensures DigitsValue(p + [c]) == DigitsValue(p) * 10 + (c as int - '0' as int)
  {
    assert (p + [c])[..|p|] == p;
  }

  /** Digits appended never lower the value. */
  lemma {:induction false} DigitsValueGrows(x: string, y: string)
    requires AllDigits(x + y)
    ensures AllDigits(x) && DigitsValue(x) <= DigitsValue(x + y)
    decreases |y|
  {
    assert forall i | 0 <= i < |x| :: x[i] == (x + y)[i];
    if y != [] {
      var z := y[..|y| - 1];
      assert (x + y)[..|x + y| - 1] == x + z;
      assert forall i | 0 <= i < |x + z| :: (x + z)[i] == (x + y)[i];
      DigitsValueGrows(x, z);
      assert DigitsValue(x + y) == DigitsValue(x + z) * 10 + ((x + y)[|x + y| - 1] as int - '0' as int);
    } else {
      assert x + y == x;
    }
  }

  /** Decimal rendering of a natural number, as `format!("{}")` writes it. */
  function NatToString(n: nat): string
    decreases n
  {
    if n < 10 then [DigitChar(n)] else NatToString(n / 10) + [DigitChar(n % 10)]
  }

  /** Decimal rendering of an integer, with a leading `-` for negatives. */
  function IntToString(i: int): string {
    if i < 0 then "-" + NatToString(-i) else NatToString(i)
  }

  /** The decimal rendering is a non-empty digit string whose value is the number. */
  lemma {:induction false} NatToStringDigits(n: nat)
    ensures |NatToString(n)| > 0 && AllDigits(NatToString(n))
    ensures DigitsValue(NatToString(n)) == n
    decreases n
  {
    if n >= 10 {
      NatToStringDigits(n / 10);
      var s := NatToString(n);
      assert s[..|s| - 1] == NatToString(n / 10);
    }
  }

  /** The longest prefix of `s` made of ASCII digits. */
  function LeadingDigits(s: string): (d: string)
    ensures AllDigits(d) && StartsWith(s, d)
    ensures |d| == |s| || !IsDigit(s[|d|])
  {
    if s != [] && IsDigit(s[0]) then [s[0]] + LeadingDigits(s[1..]) else ""
  }

  lemma LeadingDigitsOfDigits(s: string)
    requires AllDigits(s)
    ensures LeadingDigits(s) == s
  {
  }

  /**
   * The first code points of the runs of ten decimal digits, zero to nine, that make up
   * general category Nd in Unicode 15.0: 37 runs in the Basic Multilingual Plane, the
   * first being the ASCII digits, and 31 above it.
   */
  const BMP_DIGIT_RUNS: seq<int> := [
    0x30, 0x660, 0x6F0, 0x7C0, 0x966, 0x9E6, 0xA66, 0xAE6,
    0xB66, 0xBE6, 0xC66, 0xCE6, 0xD66, 0xDE6, 0xE50, 0xED0,
    0xF20, 0x1040, 0x1090, 0x17E0, 0x1810, 0x1946, 0x19D0, 0x1A80,
    0x1A90, 0x1B50, 0x1BB0, 0x1C40, 0x1C50, 0xA620, 0xA8D0, 0xA900,
    0xA9D0, 0xA9F0, 0xAA50, 0xABF0, 0xFF10
  ]

  const SUPPLEMENTARY_DIGIT_RUNS: seq<int> := [
    0x104A0, 0x10D30, 0x11066, 0x110F0, 0x11136, 0x111D0, 0x112F0, 0x11450,
    0x114D0, 0x11650, 0x116C0, 0x11730, 0x118E0, 0x11950, 0x11C50, 0x11D50,
    0x11DA0, 0x11F50, 0x16A60, 0x16AC0, 0x16B50, 0x1D7CE, 0x1D7D8, 0x1D7E2,
    0x1D7EC, 0x1D7F6, 0x1E140, 0x1E2F0, 0x1E4F0, 0x1E950, 0x1FBF0
  ]

  /** The code point `x` lies in one of the runs of ten that start at `runs[k..]`. */
  predicate InDigitRuns(x: int, runs: seq<int>, k: nat)
    decreases |runs| - k
  {
    k < |runs| && (runs[k] <= x < runs[k] + 10 || InDigitRuns(x, runs, k + 1))
  }

  /** `\d` of the `regex` crate, whose classes are Unicode-aware by default: a character of category Nd. */
  predicate IsDecimalDigit(c: char) {
    InDigitRuns(c as int, BMP_DIGIT_RUNS, 0) || InDigitRuns(c as int, SUPPLEMENTARY_DIGIT_RUNS, 0)
  }

  predicate AllDecimalDigits(s: string) {
    forall i | 0 <= i < |s| :: IsDecimalDigit(s[i])
  }

  /** The longest prefix of `s` made of `\d` characters. */
  function LeadingDecimalDigits(s: string): (d: string)
    ensures AllDecimalDigits(d) && StartsWith(s, d)
    ensures |d| == |s| || !IsDecimalDigit(s[|d|])
  {
    if s != [] && IsDecimalDigit(s[0]) then [s[0]] + LeadingDecimalDigits(s[1..]) else ""
  }

  lemma LeadingDecimalDigitsOfDigits(s: string)
    requires AllDecimalDigits(s)
    ensures LeadingDecimalDigits(s) == s
  {
  }

  /** Every ASCII digit is a `\d` character; the converse fails, for `٣` say. */
  lemma AsciiDigitsDecimal(s: string)
    requires AllDigits(s)
    ensures AllDecimalDigits(s)
    ensures !IsDigit('\U{663}') && IsDecimalDigit('\U{663}')
  {
  }

  predicate IsLowerHex(c: char) {
    '0' <= c <= '9' || 'a' <= c <= 'f'
  }

  function HexChar(d: nat): char
    requires d < 16
  {
    if d < 10 then DigitChar(d) else ('a' as int + (d - 10)) as char
  }

  /** The lowest `k` hexadecimal digits of `r`, most significant first, in lower case. */
  function HexDigits(r: nat, k: nat): (h: string)
    ensures |h| == k
    ensures forall i | 0 <= i < |h| :: IsLowerHex(h[i])
  {
    if k == 0 then "" else HexDigits(r / 16, k - 1) + [HexChar(r % 16)]
  }
}

/** Lexicographic orders on strings and paths, and sorting. */
module Order {

  /** Rust `Ord` on `str`: lexicographic by character code. */
  predicate StrLeq(a: string, b: string) {
    if a == [] then true
    else if b == [] then false
    else if a[0] != b[0] then a[0] < b[0]
    else StrLeq(a[1..], b[1..])
  }

  lemma {:induction false} StrLeqTotal(a: string, b: string)
    ensures StrLeq(a, b) || StrLeq(b, a)
  {
    if a != [] && b != [] && a[0] == b[0] {
      StrLeqTotal(a[1..], b[1..]);
    }
  }

  lemma {:induction false} StrLeqAntisym(a: string, b: string)
    requires StrLeq(a, b) && StrLeq(b, a)
    ensures a == b
  {
    if a != [] && b != [] {
      StrLeqAntisym(a[1..], b[1..]);
      assert a == [a[0]] + a[1..] && b == [b[0]] + b[1..];
    }
  }

  lemma {:induction false} StrLeqTrans(a: string, b: string, c: string)
    requires StrLeq(a, b) && StrLeq(b, c)
    ensures StrLeq(a, c)
  {
    if a != [] && b != [] && c != [] && a[0] == b[0] && b[0] == c[0] {
      StrLeqTrans(a[1..], b[1..], c[1..]);
    }
  }

  /** Lexicographic order on component sequences. */
  predicate SeqLeq(a: seq<string>, b: seq<string>) {
    if a == [] then true
    else if b == [] then false
    else if a[0] != b[0] then StrLeq(a[0], b[0])
    else SeqLeq(a[1..], b[1..])
  }

  lemma {:induction false} SeqLeqTotal(a: seq<string>, b: seq<string>)
    ensures SeqLeq(a, b) || SeqLeq(b, a)
  {
    if a != [] && b != [] {
      if a[0] == b[0] {
        SeqLeqTotal(a[1..], b[1..]);
      } else {
        StrLeqTotal(a[0], b[0]);
      }
    }
  }

  lemma {:induction false} SeqLeqAntisym(a: seq<string>, b: seq<string>)
    requires SeqLeq(a, b) && SeqLeq(b, a)
    ensures a == b
  {
    if a != [] && b != [] {
      if a[0] == b[0] {
        SeqLeqAntisym(a[1..], b[1..]);
        assert a == [a[0]] + a[1..] && b == [b[0]] + b[1..];
      } else {
        StrLeqAntisym(a[0], b[0]);
      }
    }
  }

  lemma {:induction false} SeqLeqTrans(a: seq<string>, b: seq<string>, c: seq<string>)
    requires SeqLeq(a, b) && SeqLeq(b, c)
    ensures SeqLeq(a, c)
  {
    if a != [] && b != [] && c != [] {
      if a[0] == b[0] && b[0] == c[0] {
        SeqLeqTrans(a[1..], b[1..], c[1..]);
      } else if a[0] != b[0] && b[0] != c[0] {
        StrLeqTrans(a[0], b[0], c[0]);
        if a[0] == c[0] {
          StrLeqAntisym(a[0], b[0]);
          assert false;
        }
      }
    }
  }

  /** Every finite non-empty set of paths has a least element. */
  lemma {:induction false} HasLeast(s: set<seq<string>>)
    requires s != {}
    ensures exists m :: m in s && forall q | q in s :: SeqLeq(m, q)
    decreases |s|
  {
    var x :| x in s;
    if s == {x} {
      assert forall q | q in s :: q == x;
      SeqLeqRefl(x);
    } else {
      HasLeast(s - {x});
      var m :| m in s - {x} && forall q | q in s - {x} :: SeqLeq(m, q);
      SeqLeqTotal(m, x);
      if SeqLeq(m, x) {
        assert forall q | q in s :: SeqLeq(m, q);
      } else {
        forall q | q in s
          ensures SeqLeq(x, q)
        {
          if q != x {
            SeqLeqTrans(x, m, q);
          } else {
            SeqLeqRefl(x);
          }
        }
      }
    }
  }

  lemma {:induction false} SeqLeqRefl(a: seq<string>)
    ensures SeqLeq(a, a)
  {
    if a != [] {
      SeqLeqRefl(a[1..]);
    }
  }

  predicate SortedPaths(r: seq<seq<string>>) {
    forall i, j | 0 <= i < j < |r| :: SeqLeq(r[i], r[j]) && r[i] != r[j]
  }

  /** The elements of a finite set of paths in increasing lexicographic order. */
  function SortedSeq(s: set<seq<string>>): (r: seq<seq<string>>)
    ensures |r| == |s|
    ensures forall q :: q in s <==> q in r
    ensures SortedPaths(r)
    decreases |s|
  {
    if s == {} then []
    else
      HasLeast(s);
      AntisymAll();
      var m :| m in s && forall q | q in s :: SeqLeq(m, q);
      var rest := SortedSeq(s - {m});
      LeastFirst(s, m, rest);
      [m] + rest
  }

  /** The least element put before the sorted rest gives the sorted whole. */
  lemma LeastFirst(s: set<seq<string>>, m: seq<string>, rest: seq<seq<string>>)
    requires m in s && forall q | q in s :: SeqLeq(m, q)
    requires |rest| == |s - {m}| && (forall q :: q in s - {m} <==> q in rest) && SortedPaths(rest)
    ensures |[m] + rest| == |s| && (forall q :: q in s <==> q in [m] + rest) && SortedPaths([m] + rest)
  {
    assert |[m] + rest| == |s| && forall q :: q in s <==> q in [m] + rest;
    LeastBefore(s, m, rest);
  }

  lemma LeastBefore(s: set<seq<string>>, m: seq<string>, rest: seq<seq<string>>)
    requires forall q | q in s :: SeqLeq(m, q)
    requires (forall q | q in rest :: q in s && q != m) && SortedPaths(rest)
    ensures SortedPaths([m] + rest)
  {
    var r := [m] + rest;
    forall i, j | 0 <= i < j < |r| ensures SeqLeq(r[i], r[j]) && r[i] != r[j] {
      if i == 0 {
        assert r[j] == rest[j - 1] && rest[j - 1] in rest;
      } else {
        assert r[i] == rest[i - 1] && r[j] == rest[j - 1];
      }
    }
  }

  lemma AntisymAll()
    ensures forall a, b | SeqLeq(a, b) && SeqLeq(b, a) :: a == b
  {
    forall a, b | SeqLeq(a, b) && SeqLeq(b, a)
      ensures a == b
    {
      SeqLeqAntisym(a, b);
    }
  }

  predicate SortedStrings(r: seq<string>) {
    forall i, j | 0 <= i < j < |r| :: StrLeq(r[i], r[j])
  }

  /** Inserts `x` into a sorted sequence. */
  function Insert(x: string, r: seq<string>): (t: seq<string>)
    requires SortedStrings(r)
    ensures SortedStrings(t)
    ensures multiset(t) == multiset(r) + multiset{x}
  {
    if r == [] then [x]
    else if StrLeq(x, r[0]) then
      InsertFront(x, r);
      [x] + r
    else
      var rest := Insert(x, r[1..]);
      InsertLater(x, r, rest);
      [r[0]] + rest
  }

  lemma InsertFront(x: string, r: seq<string>)
    requires SortedStrings(r) && r != [] && StrLeq(x, r[0])
    ensures SortedStrings([x] + r)
  {
    forall i, j | 0 <= i < j < |[x] + r| ensures StrLeq(([x] + r)[i], ([x] + r)[j]) {
      if i == 0 && j > 1 {
        StrLeqTrans(x, r[0], r[j - 1]);
      }
    }
  }

  lemma InsertLater(x: string, r: seq<string>, rest: seq<string>)
    requires SortedStrings(r) && r != [] && !StrLeq(x, r[0])
    requires SortedStrings(rest) && multiset(rest) == multiset(r[1..]) + multiset{x}
    ensures SortedStrings([r[0]] + rest)
    ensures multiset([r[0]] + rest) == multiset(r) + multiset{x}
  {
    StrLeqTotal(x, r[0]);
    assert r == [r[0]] + r[1..];
    forall k | 0 <= k < |rest| ensures StrLeq(r[0], rest[k]) {
      assert rest[k] in multiset(rest);
      assert rest[k] in multiset(r[1..]) || rest[k] == x;
      if rest[k] != x {
        var j :| 0 <= j < |r[1..]| && r[1..][j] == rest[k];
        assert StrLeq(r[0], r[j + 1]);
      }
    }
  }

  /** `[String]::sort`: a sorted permutation. */
  function SortStrings(xs: seq<string>): (r: seq<string>)
    ensures SortedStrings(r)
    ensures multiset(r) == multiset(xs)
  {
    if xs == [] then []
    else
      assert xs == [xs[0]] + xs[1..];
      Insert(xs[0], SortStrings(xs[1..]))
  }
}

=== FILE: unguard_effect.dfy ===
/**
 * What a successful `unguard` leaves behind: `.envrc` is back in the project as a plain
 * file without its section, and every project link whose target path mentions the
 * sentinel is replaced by what it points to. Other links stay as they were. The links are
 * taken to point at distinct plain entries that lie apart from each other and from the
 * links, so that one move cannot disturb another.
 */
module UnguardEffect {
  import opened Text
  import opened Order
  import opened Paths
  import opened Errors
  import opened Fs
  import opened Link
  import opened Section
  import opened Envrc
  import opened Guard
  import opened GuardEffect

  /** The entry a link names directly is present, not the root, and not a link itself. */
  predicate PlainSource(fs: FileSystem, l: Path)
    requires IsSymlink(fs, l)
  {
    var s := LinkSource(fs, l);
    s != [] && s in fs && !fs[s].Symlink?
  }

  /** No path occurs twice. */
  predicate Distinct(links: seq<Path>) {
    forall i, j | 0 <= i < j < |links| :: links[i] != links[j]
  }

  /**
   * Links that can be replaced one after another without interfering: each points at a
   * plain entry, and links and targets lie pairwise apart.
   */
  predicate Separate(fs: FileSystem, links: seq<Path>) {
    && (forall l | l in links :: IsSymlink(fs, l) && PlainSource(fs, l))
    && (forall l, m | l in links && m in links ::
          Apart(LinkSource(fs, l), m)
          && (l != m ==> Apart(l, m) && Apart(LinkSource(fs, l), LinkSource(fs, m))))
  }

  /** Whether the link's target path mentions the sentinel, so that `unguard` replaces it. */
  predicate Hit(fs: FileSystem, sentinel: string, l: Path)
    requires IsSymlink(fs, l)
  {
    Contains(Display(LinkSource(fs, l)), sentinel)
  }

  /** `q` lies at or below one of the links. */
  predicate Below(links: seq<Path>, q: Path) {
    exists l | l in links :: IsPrefix(l, q)
  }

  /** `q` lies at or below the target of a link that gets replaced. */
  predicate Emptied(fs: FileSystem, sentinel: string, links: seq<Path>, q: Path) {
    exists l | l in links && IsSymlink(fs, l) :: Hit(fs, sentinel, l) && IsPrefix(LinkSource(fs, l), q)
  }

  /** A link whose target is a plain entry leads there, and `unguard` reads that path. */
  lemma LinkedPlain(fs: FileSystem, l: Path)
    requires IsSymlink(fs, l) && PlainSource(fs, l)
    ensures Exists(fs, l)
    ensures LinkedPath(fs, l, fs[l].target) == Ok(LinkSource(fs, l))
  {
    CanonicalLink(fs, l, MaxFollow);
    CanonicalPlain(fs, LinkSource(fs, l));
  }

  /** After a link is replaced, whatever lies outside it was there before, unchanged. */
  lemma ReplaceLinkKeys(fs: FileSystem, link: Path, q: Path)
    requires Wf(fs) && IsSymlink(fs, link) && Exists(fs, link)
    requires LinkSource(fs, link) != [] && !IsPrefix(LinkSource(fs, link), link)
    requires q in ReplaceLinkWithTarget(fs, link).fs && !IsPrefix(link, q)
    ensures q in fs && !IsPrefix(LinkSource(fs, link), q)
    ensures ReplaceLinkWithTarget(fs, link).fs[q] == fs[q]
  {
    ReplaceLinkRenames(fs, link);
    MoveTreeKeys(fs - {link}, LinkSource(fs, link), link, q);
  }

  /**
   * What one replacement does to `fs2`: the link holds what its target held (or stays as
   * it was when `moved` is false), a moved target is gone, entries outside the link and
   * the moved target stay, and nothing appears outside the link.
   */
  predicate StepFrame(fs: FileSystem, fs2: FileSystem, l: Path, moved: bool)
    requires IsSymlink(fs, l) && PlainSource(fs, l)
  {
    var src := LinkSource(fs, l);
    && l in fs2 && fs2[l] == (if moved then fs[src] else fs[l])
    && (moved ==> src !in fs2)
    && (forall q | q in fs && q != l && !(moved && IsPrefix(src, q)) && !IsPrefix(l, q) ::
          q in fs2 && fs2[q] == fs[q])
    && (forall q | q in fs2 && !IsPrefix(l, q) :: q in fs)
  }

  /**
   * What the loop over separate `links` leaves in `ofs`: each link whose target path
   * mentions the sentinel holds what its target held and the target is gone; every other
   * link is unchanged; entries outside the links and the emptied targets stay; nothing
   * appears outside the links.
   */
  predicate Effect(fs: FileSystem, sentinel: string, links: seq<Path>, ofs: FileSystem)
    requires Separate(fs, links)
  {
    && (forall l | l in links ::
          l in ofs && ofs[l] == if Hit(fs, sentinel, l) then fs[LinkSource(fs, l)] else fs[l])
    && (forall l | l in links && Hit(fs, sentinel, l) :: LinkSource(fs, l) !in ofs)
    && (forall q | q in fs && !Below(links, q) && !Emptied(fs, sentinel, links, q) ::
          q in ofs && ofs[q] == fs[q])
    && (forall q | q in ofs && !Below(links, q) :: q in fs)
  }

  /** Dropping the first of distinct paths leaves distinct paths without it. */
  lemma DistinctTail(links: seq<Path>)
    requires Distinct(links) && links != []
    ensures Distinct(links[1..]) && !(links[0] in links[1..])
  {
    var rest := links[1..];
    forall i, j | 0 <= i < j < |rest| ensures rest[i] != rest[j] {
      assert rest[i] == links[i + 1] && rest[j] == links[j + 1];
    }
    forall k | 0 <= k < |rest| ensures rest[k] != links[0] {
      assert rest[k] == links[k + 1];
    }
  }

  /** The links after the first one as `fs2` shows them: present, unchanged, separate. */
  predicate RestKept(fs: FileSystem, fs2: FileSystem, rest: seq<Path>) {
    && Separate(fs2, rest)
    && (forall m | m in rest :: m in fs && m in fs2 && fs2[m] == fs[m])
  }

  /** After one step, the remaining links are still separate and as they were. */
  lemma StepKeepsRest(fs: FileSystem, fs2: FileSystem, l: Path, rest: seq<Path>)
    requires Separate(fs, [l] + rest) && !(l in rest)
    requires forall q | q in fs && q != l && !IsPrefix(LinkSource(fs, l), q) && !IsPrefix(l, q) ::
               q in fs2 && fs2[q] == fs[q]
    ensures RestKept(fs, fs2, rest)
  {
    assert forall m | m in rest :: m in [l] + rest;
    forall m | m in rest
      ensures m in fs2 && fs2[m] == fs[m] && LinkSource(fs, m) in fs2 && fs2[LinkSource(fs, m)] == fs[LinkSource(fs, m)]
    {
      assert l in [l] + rest;
    }
  }

  /** Two members of separate links, with the facts `Separate` states about them. */
  lemma SeparatePair(fs: FileSystem, links: seq<Path>, a: Path, b: Path)
    requires Separate(fs, links) && a in links && b in links
    ensures IsSymlink(fs, a) && PlainSource(fs, a) && IsSymlink(fs, b) && PlainSource(fs, b)
    ensures Apart(LinkSource(fs, a), b) && Apart(LinkSource(fs, b), a)
    ensures a != b ==> Apart(a, b) && Apart(LinkSource(fs, a), LinkSource(fs, b))
  {
  }

  /** A link entry carried over unchanged names the same target. */
  lemma SameLink(fs: FileSystem, fs2: FileSystem, sentinel: string, m: Path)
    requires IsSymlink(fs, m) && m in fs2 && fs2[m] == fs[m]
    ensures IsSymlink(fs2, m) && LinkSource(fs2, m) == LinkSource(fs, m)
    ensures Hit(fs2, sentinel, m) == Hit(fs, sentinel, m)
  {
  }

  /** The loop over `[l] + rest` does what the step on `l` and the loop over `rest` do. */
  lemma Combine(fs: FileSystem, fs2: FileSystem, ofs: FileSystem, sentinel: string, l: Path, rest: seq<Path>)
    requires Separate(fs, [l] + rest) && !(l in rest)
    requires StepFrame(fs, fs2, l, Hit(fs, sentinel, l))
    requires RestKept(fs, fs2, rest) && Effect(fs2, sentinel, rest, ofs)
    ensures Effect(fs, sentinel, [l] + rest, ofs)
  {
    var links := [l] + rest;
    assert l in links;
    CombineFirst(fs, fs2, ofs, sentinel, l, rest);
    forall m | m in links
      ensures m in ofs && ofs[m] == if Hit(fs, sentinel, m) then fs[LinkSource(fs, m)] else fs[m]
      ensures Hit(fs, sentinel, m) ==> LinkSource(fs, m) !in ofs
    {
      if m != l {
        CombineRest(fs, fs2, ofs, sentinel, l, rest, m);
      }
    }
    forall q | q in fs && !Below(links, q) && !Emptied(fs, sentinel, links, q)
      ensures q in ofs && ofs[q] == fs[q]
    {
      CombineKept(fs, fs2, ofs, sentinel, l, rest, q);
    }
    forall q | q in ofs && !Below(links, q)
      ensures q in fs
    {
      CombineNew(fs, fs2, ofs, sentinel, l, rest, q);
    }
  }

  /** The first link ends up as its step left it: no later step touches it or its target. */
  lemma CombineFirst(fs: FileSystem, fs2: FileSystem, ofs: FileSystem, sentinel: string, l: Path, rest: seq<Path>)
    requires Separate(fs, [l] + rest) && !(l in rest)
    requires StepFrame(fs, fs2, l, Hit(fs, sentinel, l))
    requires RestKept(fs, fs2, rest) && Effect(fs2, sentinel, rest, ofs)
    ensures l in ofs && ofs[l] == if Hit(fs, sentinel, l) then fs[LinkSource(fs, l)] else fs[l]
    ensures Hit(fs, sentinel, l) ==> LinkSource(fs, l) !in ofs
  {
    var links := [l] + rest;
    var src := LinkSource(fs, l);
    assert l in links;
    forall m | m in rest
      ensures IsSymlink(fs2, m) && !IsPrefix(m, l) && !IsPrefix(LinkSource(fs2, m), l) && !IsPrefix(m, src)
    {
      assert m in links;
      SeparatePair(fs, links, l, m);
      SameLink(fs, fs2, sentinel, m);
    }
    assert !Below(rest, l) && !Emptied(fs2, sentinel, rest, l);
    assert !Below(rest, src);
  }

  /** A later link ends up as the rest of the loop leaves it. */
  lemma CombineRest(fs: FileSystem, fs2: FileSystem, ofs: FileSystem, sentinel: string, l: Path, rest: seq<Path>,
                    m: Path)
    requires Separate(fs, [l] + rest) && !(l in rest)
    requires StepFrame(fs, fs2, l, Hit(fs, sentinel, l))
    requires RestKept(fs, fs2, rest) && Effect(fs2, sentinel, rest, ofs)
    requires m in rest
    ensures IsSymlink(fs, m)
    ensures m in ofs && ofs[m] == if Hit(fs, sentinel, m) then fs[LinkSource(fs, m)] else fs[m]
    ensures Hit(fs, sentinel, m) ==> LinkSource(fs, m) !in ofs
  {
    var links := [l] + rest;
    assert l in links && m in links;
    SeparatePair(fs, links, m, l);
    SameLink(fs, fs2, sentinel, m);
    var sm := LinkSource(fs, m);
    assert sm in fs2 && fs2[sm] == fs[sm];
  }

  /** An entry outside every link and emptied target survives the whole loop. */
  lemma CombineKept(fs: FileSystem, fs2: FileSystem, ofs: FileSystem, sentinel: string, l: Path, rest: seq<Path>,
                    q: Path)
    requires Separate(fs, [l] + rest) && !(l in rest)
    requires StepFrame(fs, fs2, l, Hit(fs, sentinel, l))
    requires RestKept(fs, fs2, rest) && Effect(fs2, sentinel, rest, ofs)
    requires q in fs && !Below([l] + rest, q) && !Emptied(fs, sentinel, [l] + rest, q)
    ensures q in ofs && ofs[q] == fs[q]
  {
    var links := [l] + rest;
    assert l in links && IsSymlink(fs, l);
    assert !IsPrefix(l, q) && !(Hit(fs, sentinel, l) && IsPrefix(LinkSource(fs, l), q));
    assert q in fs2 && fs2[q] == fs[q];
    forall m | m in rest
      ensures IsSymlink(fs2, m) && !IsPrefix(m, q)
      ensures Hit(fs2, sentinel, m) ==> !IsPrefix(LinkSource(fs2, m), q)
    {
      assert m in links;
      SeparatePair(fs, links, m, m);
      SameLink(fs, fs2, sentinel, m);
    }
    assert !Below(rest, q) && !Emptied(fs2, sentinel, rest, q);
  }

  /** Nothing appears outside the links. */
  lemma CombineNew(fs: FileSystem, fs2: FileSystem, ofs: FileSystem, sentinel: string, l: Path, rest: seq<Path>,
                   q: Path)
    requires Separate(fs, [l] + rest) && !(l in rest)
    requires StepFrame(fs, fs2, l, Hit(fs, sentinel, l))
    requires RestKept(fs, fs2, rest) && Effect(fs2, sentinel, rest, ofs)
    requires q in ofs && !Below([l] + rest, q)
    ensures q in fs
  {
    var links := [l] + rest;
    assert l in links && !IsPrefix(l, q);
    forall m | m in rest ensures !IsPrefix(m, q) {
      assert m in links;
    }
    assert !Below(rest, q);
  }

  /**
   * The loop of `unguard` over separate, distinct links succeeds and has the effect
   * `Effect` describes.
   */
  lemma {:induction false} ReplaceManagedEffect(fs: FileSystem, sentinel: string, links: seq<Path>)
    requires Wf(fs) && Separate(fs, links) && Distinct(links)
    ensures ReplaceManaged(fs, sentinel, links).result.Ok?
    ensures Effect(fs, sentinel, links, ReplaceManaged(fs, sentinel, links).fs)
    decreases |links|
  {
    if links != [] {
      var l := links[0];
      var rest := links[1..];
      assert links == [l] + rest;
      assert l in links;
      DistinctTail(links);
      LinkedPlain(fs, l);
      var fs2 := Step(fs, sentinel, l, rest);
      ReplaceManagedEffect(fs2, sentinel, rest);
      Combine(fs, fs2, ReplaceManaged(fs2, sentinel, rest).fs, sentinel, l, rest);
    }
  }

  /**
   * The first step of the loop: the filesystem it hands on to the rest of the loop, and
   * what it did.
   */
  lemma Step(fs: FileSystem, sentinel: string, l: Path, rest: seq<Path>) returns (fs2: FileSystem)
    requires Wf(fs) && Separate(fs, [l] + rest) && !(l in rest)
    ensures Wf(fs2) && StepFrame(fs, fs2, l, Hit(fs, sentinel, l)) && RestKept(fs, fs2, rest)
    ensures ReplaceManaged(fs, sentinel, [l] + rest) == ReplaceManaged(fs2, sentinel, rest)
  {
    assert l in [l] + rest;
    LinkedPlain(fs, l);
    if Hit(fs, sentinel, l) {
      ReplaceLinkMoves(fs, l);
      ReplaceLinkWf(fs, l);
      fs2 := ReplaceLinkWithTarget(fs, l).fs;
      forall q | q in fs2 && !IsPrefix(l, q) ensures q in fs {
        ReplaceLinkKeys(fs, l, q);
      }
    } else {
      fs2 := fs;
    }
    StepKeepsRest(fs, fs2, l, rest);
    assert ([l] + rest)[1..] == rest;
  }

  /** The project's links: every link entry strictly below the project directory. */
  function LinkSet(fs: FileSystem, sourceDir: Path): set<Path> {
    set l | l in fs && IsPrefix(sourceDir, l) && l != sourceDir && fs[l].Symlink?
  }

  /** Sorted paths are distinct. */
  lemma SortedDistinct(r: seq<Path>)
    requires SortedPaths(r)
    ensures Distinct(r)
  {
  }

  /** `.envrc` put back: it holds what its target held, and the target is gone. */
  lemma EnvrcBack(fs: FileSystem, envrc: Path)
    requires Wf(fs) && IsSymlink(fs, envrc) && PlainSource(fs, envrc)
    requires !IsPrefix(LinkSource(fs, envrc), envrc)
    ensures var r := ReplaceLinkWithTarget(fs, envrc);
            && r.result.Ok? && Wf(r.fs)
            && envrc in r.fs && r.fs[envrc] == fs[LinkSource(fs, envrc)] && LinkSource(fs, envrc) !in r.fs
            && (forall q | q in fs && q != envrc && !IsPrefix(LinkSource(fs, envrc), q) && !IsPrefix(envrc, q) ::
                  q in r.fs && r.fs[q] == fs[q])
  {
    LinkedPlain(fs, envrc);
    ReplaceLinkMoves(fs, envrc);
    ReplaceLinkWf(fs, envrc);
  }

  /** Deleting the section of a plain file rewrites that entry and nothing else. */
  lemma SectionDeleted(fs1: FileSystem, envrc: Path)
    requires Wf(fs1) && envrc != [] && envrc in fs1 && fs1[envrc].File?
    ensures DeleteSection(fs1, envrc) == Ok(fs1[envrc := File(DeletedSection(fs1[envrc].content))])
    ensures Wf(fs1[envrc := File(DeletedSection(fs1[envrc].content))])
  {
    var text := DeletedSection(fs1[envrc].content);
    ReadWritePlain(fs1, envrc, text);
    WriteWf(fs1, envrc, text);
  }

  /** A plain file reads as its content and is overwritten in place. */
  lemma ReadWritePlain(fs: FileSystem, p: Path, x: string)
    requires p != [] && p in fs && fs[p].File?
    ensures ReadToString(fs, p) == Ok(fs[p].content)
    ensures WriteFile(fs, p, x) == Ok(fs[p := File(x)])
  {
    CanonicalPlain(fs, p);
  }

  /**
   * `.envrc` holds `e` where the link stood, the link's target is gone, and every entry
   * outside the two paths is as it was.
   */
  predicate Restored(fs: FileSystem, envrc: Path, fs2: FileSystem, e: Node)
    requires IsSymlink(fs, envrc)
  {
    var src := LinkSource(fs, envrc);
    && Wf(fs2) && src !in fs2 && envrc in fs2 && fs2[envrc] == e
    && (forall q | q in fs && q != envrc && !IsPrefix(src, q) && !IsPrefix(envrc, q) :: q in fs2 && fs2[q] == fs[q])
    && (forall q | q in fs2 && q != envrc :: !IsPrefix(envrc, q) && q in fs && fs2[q] == fs[q])
  }

  /** Replacing the `.envrc` link succeeds and moves the linked file back. */
  lemma LinkStep(fs: FileSystem, envrc: Path) returns (fs1: FileSystem)
    requires Wf(fs) && IsSymlink(fs, envrc) && PlainSource(fs, envrc)
    requires fs[LinkSource(fs, envrc)].File? && !IsPrefix(LinkSource(fs, envrc), envrc)
    ensures ReplaceLinkWithTarget(fs, envrc) == Outcome(fs1, Ok(()))
    ensures Restored(fs, envrc, fs1, fs[LinkSource(fs, envrc)])
  {
    EnvrcBack(fs, envrc);
    fs1 := ReplaceLinkWithTarget(fs, envrc).fs;
    forall q | q in fs1 && q != envrc
      ensures !IsPrefix(envrc, q) && q in fs && fs1[q] == fs[q]
    {
      BackKeys(fs, envrc, q);
    }
  }

  /** Deleting the section of the restored file keeps everything else restored. */
  lemma SectionStep(fs: FileSystem, envrc: Path, fs1: FileSystem) returns (fs2: FileSystem)
    requires IsSymlink(fs, envrc) && PlainSource(fs, envrc) && fs[LinkSource(fs, envrc)].File?
    requires envrc != [] && Restored(fs, envrc, fs1, fs[LinkSource(fs, envrc)])
    ensures DeleteSection(fs1, envrc) == Ok(fs2)
    ensures Restored(fs, envrc, fs2, File(DeletedSection(fs[LinkSource(fs, envrc)].content)))
  {
    SectionDeleted(fs1, envrc);
    fs2 := fs1[envrc := File(DeletedSection(fs1[envrc].content))];
    RestoredUpdate(fs, envrc, fs1, fs[LinkSource(fs, envrc)], File(DeletedSection(fs[LinkSource(fs, envrc)].content)));
  }

  /** Rewriting `.envrc` in a restored filesystem keeps it restored. */
  lemma RestoredUpdate(fs: FileSystem, envrc: Path, fs1: FileSystem, e: Node, e2: Node)
    requires IsSymlink(fs, envrc) && Restored(fs, envrc, fs1, e) && Wf(fs1[envrc := e2])
    ensures Restored(fs, envrc, fs1[envrc := e2], e2)
  {
  }

  /**
   * `.envrc` put back and its section deleted: the file holds the target's text without
   * the section, the target is gone, and entries outside both paths are as they were.
   */
  lemma EnvrcRestored(fs: FileSystem, envrc: Path) returns (fs2: FileSystem)
    requires Wf(fs) && IsSymlink(fs, envrc) && PlainSource(fs, envrc)
    requires fs[LinkSource(fs, envrc)].File? && !IsPrefix(LinkSource(fs, envrc), envrc)
    ensures var r := ReplaceLinkWithTarget(fs, envrc);
            r.result.Ok? && DeleteSection(r.fs, envrc) == Ok(fs2)
    ensures Restored(fs, envrc, fs2, File(DeletedSection(fs[LinkSource(fs, envrc)].content)))
  {
    LinkedPlain(fs, envrc);
    var fs1 := LinkStep(fs, envrc);
    fs2 := SectionStep(fs, envrc, fs1);
  }

  /** After `.envrc` is put back as a file, nothing lies below it and everything else was there before. */
  lemma BackKeys(fs: FileSystem, envrc: Path, q: Path)
    requires Wf(fs) && IsSymlink(fs, envrc) && PlainSource(fs, envrc)
    requires fs[LinkSource(fs, envrc)].File? && !IsPrefix(LinkSource(fs, envrc), envrc)
    requires q in ReplaceLinkWithTarget(fs, envrc).fs && q != envrc
    ensures !IsPrefix(envrc, q) && q in fs && ReplaceLinkWithTarget(fs, envrc).fs[q] == fs[q]
  {
    EnvrcBack(fs, envrc);
    LinkedPlain(fs, envrc);
    if IsPrefix(envrc, q) {
      AncestorIsDir(ReplaceLinkWithTarget(fs, envrc).fs, envrc, q);
    }
    ReplaceLinkKeys(fs, envrc, q);
  }

  /** After `.envrc` is restored, the project's links are the other links it had before. */
  lemma LinkSetAfter(fs: FileSystem, fs2: FileSystem, sourceDir: Path, envrc: Path)
    requires envrc in LinkSet(fs, sourceDir) && Separate(fs, ProjectLinks(fs, sourceDir))
    requires envrc in fs2 && !fs2[envrc].Symlink?
    requires forall q | q in fs && q != envrc && !IsPrefix(LinkSource(fs, envrc), q) && !IsPrefix(envrc, q) ::
               q in fs2 && fs2[q] == fs[q]
    requires forall q | q in fs2 && q != envrc :: q in fs && fs2[q] == fs[q]
    ensures LinkSet(fs2, sourceDir) == LinkSet(fs, sourceDir) - {envrc}
  {
    var links := ProjectLinks(fs, sourceDir);
    var before := LinkSet(fs, sourceDir);
    var after := LinkSet(fs2, sourceDir);
    forall l | l in before && l != envrc
      ensures l in after
    {
      assert l in links && envrc in links;
      SeparatePair(fs, links, l, envrc);
      assert l in fs2 && fs2[l] == fs[l];
    }
    forall l | l in after
      ensures l in before && l != envrc
    {
    }
    assert after == before - {envrc};
  }

  /**
   * After `.envrc` is restored, the project's links are unchanged, and still separate
   * and distinct.
   */
  lemma LinksAfterRestore(fs: FileSystem, fs2: FileSystem, sourceDir: Path, envrc: Path)
    requires envrc in LinkSet(fs, sourceDir) && Separate(fs, ProjectLinks(fs, sourceDir))
    requires envrc in fs2 && !fs2[envrc].Symlink?
    requires LinkSource(fs, envrc) !in fs2
    requires forall q | q in fs && q != envrc && !IsPrefix(LinkSource(fs, envrc), q) && !IsPrefix(envrc, q) ::
               q in fs2 && fs2[q] == fs[q]
    requires forall q | q in fs2 && q != envrc :: q in fs && fs2[q] == fs[q]
    ensures LinkSet(fs2, sourceDir) == LinkSet(fs, sourceDir) - {envrc}
    ensures Separate(fs2, ProjectLinks(fs2, sourceDir)) && Distinct(ProjectLinks(fs2, sourceDir))
  {
    LinkSetAfter(fs, fs2, sourceDir, envrc);
    var links := ProjectLinks(fs, sourceDir);
    var links2 := ProjectLinks(fs2, sourceDir);
    SortedDistinct(links2);
    forall a | a in links2
      ensures a in links && a != envrc && IsSymlink(fs2, a) && LinkSource(fs2, a) == LinkSource(fs, a)
      ensures var sa := LinkSource(fs, a); sa in fs2 && fs2[sa] == fs[sa]
    {
      assert a in links && envrc in links;
      SeparatePair(fs, links, a, envrc);
      SameLink(fs, fs2, "", a);
    }
    forall a, b | a in links2 && b in links2
      ensures IsSymlink(fs2, a) && PlainSource(fs2, a)
      ensures Apart(LinkSource(fs2, a), b)
      ensures a != b ==> Apart(a, b) && Apart(LinkSource(fs2, a), LinkSource(fs2, b))
    {
      SeparatePair(fs, links, a, b);
    }
  }

  /**
   * `unguard` on a project whose `.envrc` links to a file and whose links are separate:
   * it succeeds, `.envrc` is a plain file again holding the old target's text without the
   * section, that target is gone, every other link whose target path mentions the
   * sentinel now holds what its target held while that target is gone, and every other
   * link is left as it was.
   */
  lemma UnguardEffect(fs: FileSystem, g: ConfGuard)
    requires Wf(fs) && Separate(fs, ProjectLinks(fs, g.sourceDir))
    requires IsSymlink(fs, EnvrcOf(g.sourceDir)) && PlainSource(fs, EnvrcOf(g.sourceDir))
    requires fs[LinkSource(fs, EnvrcOf(g.sourceDir))].File?
    ensures var o := Unguard(fs, g);
            var envrc := EnvrcOf(g.sourceDir);
            var src := LinkSource(fs, envrc);
            && o.result.Ok?
            && envrc in o.fs && o.fs[envrc] == File(DeletedSection(fs[src].content))
            && src !in o.fs
    ensures var o := Unguard(fs, g);
            forall l | l in ProjectLinks(fs, g.sourceDir) && l != EnvrcOf(g.sourceDir) ::
              && l in o.fs
              && o.fs[l] == (if Hit(fs, g.sentinel, l) then fs[LinkSource(fs, l)] else fs[l])
              && (Hit(fs, g.sentinel, l) ==> LinkSource(fs, l) !in o.fs)
  {
    var S := g.sourceDir;
    var envrc := EnvrcOf(S);
    var src := LinkSource(fs, envrc);
    var links := ProjectLinks(fs, S);
    assert IsPrefix(S, envrc) && envrc != S;
    assert envrc in links;
    SeparatePair(fs, links, envrc, envrc);
    var fs2 := UnguardReduces(fs, g);
    LinksAfterRestore(fs, fs2, S, envrc);
    var links2 := ProjectLinks(fs2, S);
    ReplaceManagedEffect(fs2, g.sentinel, links2);
    var ofs := ReplaceManaged(fs2, g.sentinel, links2).fs;
    UnguardEnvrc(fs, fs2, ofs, g.sentinel, S, envrc);
    UnguardOthers(fs, fs2, ofs, g.sentinel, S, envrc);
  }

  /** Once `.envrc` is restored and its section deleted, `unguard` runs the loop over the project's links. */
  lemma UnguardReduces(fs: FileSystem, g: ConfGuard) returns (fs2: FileSystem)
    requires Wf(fs) && IsSymlink(fs, EnvrcOf(g.sourceDir)) && PlainSource(fs, EnvrcOf(g.sourceDir))
    requires fs[LinkSource(fs, EnvrcOf(g.sourceDir))].File?
    requires !IsPrefix(LinkSource(fs, EnvrcOf(g.sourceDir)), EnvrcOf(g.sourceDir))
    ensures Unguard(fs, g) == ReplaceManaged(fs2, g.sentinel, ProjectLinks(fs2, g.sourceDir))
    ensures Restored(fs, EnvrcOf(g.sourceDir), fs2,
                     File(DeletedSection(fs[LinkSource(fs, EnvrcOf(g.sourceDir))].content)))
  {
    LinkedPlain(fs, EnvrcOf(g.sourceDir));
    fs2 := EnvrcRestored(fs, EnvrcOf(g.sourceDir));
  }

  /** The loop's effect on the other links, stated against the filesystem `unguard` started from. */
  lemma UnguardOthers(fs: FileSystem, fs2: FileSystem, ofs: FileSystem, sentinel: string, sourceDir: Path,
                      envrc: Path)
    requires Separate(fs, ProjectLinks(fs, sourceDir)) && envrc in ProjectLinks(fs, sourceDir)
    requires LinkSet(fs2, sourceDir) == LinkSet(fs, sourceDir) - {envrc}
    requires Separate(fs2, ProjectLinks(fs2, sourceDir))
    requires Effect(fs2, sentinel, ProjectLinks(fs2, sourceDir), ofs)
    requires forall q | q in fs && q != envrc && !IsPrefix(LinkSource(fs, envrc), q) && !IsPrefix(envrc, q) ::
               q in fs2 && fs2[q] == fs[q]
    ensures forall l | l in ProjectLinks(fs, sourceDir) && l != envrc ::
              && l in ofs
              && ofs[l] == (if Hit(fs, sentinel, l) then fs[LinkSource(fs, l)] else fs[l])
              && (Hit(fs, sentinel, l) ==> LinkSource(fs, l) !in ofs)
  {
    var links := ProjectLinks(fs, sourceDir);
    var links2 := ProjectLinks(fs2, sourceDir);
    forall l | l in links && l != envrc
      ensures l in ofs && ofs[l] == (if Hit(fs, sentinel, l) then fs[LinkSource(fs, l)] else fs[l])
      ensures Hit(fs, sentinel, l) ==> LinkSource(fs, l) !in ofs
    {
      assert l in links2;
      SeparatePair(fs, links, l, envrc);
      SameLink(fs, fs2, sentinel, l);
    }
  }

  /** The loop over the other links leaves `.envrc` and its old target alone. */
  lemma UnguardEnvrc(fs: FileSystem, fs2: FileSystem, ofs: FileSystem, sentinel: string, sourceDir: Path,
                     envrc: Path)
    requires Separate(fs, ProjectLinks(fs, sourceDir)) && envrc in ProjectLinks(fs, sourceDir)
    requires LinkSet(fs2, sourceDir) == LinkSet(fs, sourceDir) - {envrc}
    requires Separate(fs2, ProjectLinks(fs2, sourceDir))
    requires Effect(fs2, sentinel, ProjectLinks(fs2, sourceDir), ofs)
    requires envrc in fs2 && LinkSource(fs, envrc) !in fs2
    requires forall q | q in fs2 && q != envrc :: q in fs && fs2[q] == fs[q]
    ensures envrc in ofs && ofs[envrc] == fs2[envrc]
    ensures LinkSource(fs, envrc) !in ofs
  {
    var links := ProjectLinks(fs, sourceDir);
    var links2 := ProjectLinks(fs2, sourceDir);
    var src := LinkSource(fs, envrc);
    forall l | l in links2
      ensures IsSymlink(fs2, l) && !IsPrefix(l, envrc) && !IsPrefix(LinkSource(fs2, l), envrc)
      ensures !IsPrefix(l, src)
    {
      assert l in links;
      SeparatePair(fs, links, l, envrc);
      SameLink(fs, fs2, sentinel, l);
    }
    assert !Below(links2, envrc) && !Emptied(fs2, sentinel, links2, envrc);
    assert !Below(links2, src);
  }
}
